=== FILE: README.md ===
# A verified model of the mentoring platform's backend core

This project is a Dafny model of the backend of a peer-mentoring platform. Users teach and learn skills, book sessions with mentors, earn levels from reviews and get mentor and skill recommendations. It covers the controllers, the services, the in-memory data structures and the recommenders with their feature builders. Each source file is one module. Values are datatypes and pure functions. Code that changes state step by step is written as classes and methods with loops, and each method is proved against a specification function.

- `Common`: what the JavaScript code leans on from the language.
  - `Option`/`Result`;
  - ASCII `toLowerCase`, `trim`, `split`/`join` and `includes`;
  - `parseInt` with radix 10;
  - `Math.round`, clamping and a stable descending sort;
  - distinct keys of a `Map` kept as a sequence.
- `Auth`, `TokenService`, `SocketAuth`, `RvVerification`, `EmailService`: the request handlers and helpers behind signup, login, password reset, refresh tokens, cookie parsing for sockets, campus-e-mail verification with one-time codes, and templated mail.
  - Each handler returns the HTTP status and body that the code sends.
  - The database, the clock, random codes and the mail transport are parameters.
- `SessionController`, `UserSkill`, `SkillController`, `Gamification`, `Jitsi`: session booking and completion (with credit transfer), teach/learn lists, skill creation with slugs, review-based levels and meeting links.
- `TaskQueue`, `SimpleCache`, `LeaderboardHeap`, `SkillTrie`, `SessionIntervalTree`: classes whose methods change their fields as the source's do.
  - The heap's growable array is a `seq` field that the sift-up and sift-down loops update slot by slot.
  - The trie and the interval tree keep their nodes as datatype values in a class field.
- `MentorFeatures`, `SkillFeatures`, `Recommending`, `MentorRecommender`, `SkillRecommender`, `SessionSuccess`, `Matchmaking`: the eight mentor features and the seven skill features, all in [0, 1]. Also covered:
  - the linear scorers, the deduplication and ranking of recommendations, the cache and fallback paths;
  - the logistic session-success predictor with its risk levels;
  - the goal-similarity matchmaking ranking.

Behaviour of the code that the model makes explicit:

- The session-success fallback reports risk "medium" for probability 0.7. The thresholds put 0.7 at "low" (`SessionSuccess.FallbackRiskDiffersFromThresholds`).
- The skill recommender's expert filter looks only at the first taught skill with the candidate's name (`SkillRecommender.DroppedIffFirstTaughtIsExpert`).
- Completing a session only refuses a session already completed. A cancelled session can still be completed and rewarded (`SessionController.CancelledSessionStillCompletes`).
- The interval tree's `build` can put a session with an equal start in a left subtree. `insert` always sends ties right (`SessionIntervalTree.BuildMayPutTiesLeft`).
- Registration pastes the name unescaped into a regular expression. A name that is not a valid pattern gets 500, and a name with pattern syntax can match other stored names (`Auth.Register`).
- A skill name with no ASCII letter or digit gets an empty slug and fails to save with 500 (`SkillController.NoAlnumNeverCreated`).
- A user who teaches a skill named "constructor" makes every candidate's feature builder throw, so their computed skill recommendations are empty (`SkillRecommender.InheritedTeacherGetsEmptyOutcome`).
- `parseInt` is only ever called with radix 10 or on decimal text, so only radix 10 is modelled.

The request handlers and the data-structure classes model the code as written, including the five defects listed under "## Findings" and the server errors that schema validation, unique indexes and caught exceptions produce. Each corrected definition stands beside the as-written one, with the intended property proved about it.

## Model

| member | source | states |
|---|---|---|
| Gamification.LastReached | backend/services/gamificationService.js:27 | the reverse `find` returns the last level whose threshold the count reaches, every later level's threshold is above the count, and none when no threshold is reached |
| Gamification.LevelFor | backend/services/gamificationService.js:5-28 | the result is the name of one of the four levels, and the threshold of that level is reached unless it is Novice, the fallback |
| Gamification.LevelIsHighestReached | backend/services/gamificationService.js:5-28 | for a non-negative count the chosen level's threshold is at most the count and every higher level's threshold is above it |
| Gamification.LevelBands | backend/services/gamificationService.js:5-10 | counts 0-4 give Novice, 5-19 Apprentice, 20-49 Master and 50 or more Grandmaster |
| Gamification.LevelMonotone | backend/services/gamificationService.js:27 | more reviews never yield a lower level |
| Gamification.GamifiedUser.constructor | backend/models/User.js:32-38 | a user document holding exactly the given review count and level |
| Gamification.UpdateUserLevel | backend/services/gamificationService.js:17-34 | a missing user is a no-op; otherwise the level becomes the one for `reviewsCount \|\| 0`, the user is saved iff the level changed, and the count is untouched |
| Jitsi.BaseUrl | backend/utils/jitsiHelper.js:4 | a set, non-empty `JITSI_BASE_URL` is the base; otherwise the public server `https://meet.jit.si` |
| Jitsi.CleanBase | backend/utils/jitsiHelper.js:8 | exactly one trailing `/` is removed (appending it back gives the base); a base without one is kept |
| Jitsi.GenerateMeetingLink | backend/utils/jitsiHelper.js:3-14 | the link is the cleaned base, `/session-`, the session id, `-` and the room uuid; the password is the first eight characters of the second uuid (all of it when shorter) |
| Jitsi.DefaultServer | backend/utils/jitsiHelper.js:4-11 | without configuration every link starts with `https://meet.jit.si/session-` |
| Jitsi.CustomBasePrefix | backend/scripts/testJitsi.js:32-42 | a custom base without a trailing slash followed by `/` is a prefix of the link |
| Jitsi.TrailingSlashHandled | backend/scripts/testJitsi.js:45-54 | with the base `https://meet.jit.si/` and slash-free ids the link contains no `//session-` |
| SocketAuth.ParseCookies | backend/utils/socketAuth.js:40-52 | the parsed cookies are the jar folded over the `;`-separated segments; an empty or missing header gives `{}` |
| SocketAuth.FoldJar | backend/utils/socketAuth.js:44-49 | the `forEach` loop leaves the jar that setting each two-part segment in turn produces |
| SocketAuth.JarDomain | backend/utils/socketAuth.js:45-48 | a name is in the jar iff some segment trimmed and split on `=` has exactly two parts and that name |
| SocketAuth.JarLastWins | backend/utils/socketAuth.js:47-48 | a later segment with the same name overwrites an earlier one, so the last one's value is kept |
| SocketAuth.MalformedSegmentIgnored | backend/utils/socketAuth.js:46 | a segment that does not split into exactly two parts (a value containing `=`) leaves the jar unchanged |
| SocketAuth.EmptyHeader | backend/utils/socketAuth.js:41-42 | a missing or empty header gives the empty jar |
| SocketAuth.TokenSource | backend/utils/socketAuth.js:5-14 | a non-empty handshake token is the token; whatever token is chosen is non-empty |
| SocketAuth.AuthenticateSocket | backend/utils/socketAuth.js:3-38 | no token iff the outcome is "no token provided"; authentication needs the secret and a successful verification, whose user id is set, and those two together authenticate |
| SocketAuth.AuthTokenTakesPrecedence | backend/utils/socketAuth.js:7-14 | a non-empty handshake token wins over any cookie header |
| Auth.ParseAccessTtlMs | backend/controllers/authController.js:48-54 | `NaN` (`None`) only for a non-empty setting whose count before the suffix does not parse |
| Auth.AccessTtlDefaults | backend/controllers/authController.js:48-54 | a missing or empty setting and any setting not ending in `d`, `h` or `m` give 900000 ms |
| Auth.TtlParsersCompared | backend/controllers/authController.js:48-54 | on `d`, `h` and `m` settings the access-token parser agrees with the refresh-token parser; on every other non-empty setting it gives fifteen minutes where the refresh parser gives seven days |
| Auth.MakeCookieOptions | backend/controllers/authController.js:15-27 | always `httpOnly` with the given `maxAge`; `secure` iff `COOKIE_SECURE` is `'true'`; `sameSite` is `'none'` iff secure; `domain` present iff `COOKIE_DOMAIN` is non-empty, and then equal to it |
| Auth.Register | backend/controllers/authController.js:57-128 | each outcome iff its condition, in the source's order: 400 iff the route validators fail; then 400 iff name, email or password is missing; 400 iff the strict e-mail check fails; 500 iff the name, pasted unescaped into `new RegExp`, is not a valid pattern; 400 iff that pattern matches a stored name; 400 iff the lower-cased address is stored; past those checks, 500 iff the trimmed name or e-mail is blank (the schema's `required`), 400 iff the trimmed, lower-cased address is stored (the unique index, E11000), and registered iff neither; a registered user has the trimmed name and the lower-cased, trimmed email; the answer is stored, normalised, iff both question and answer were given |
| Auth.LiteralNameIsCaseInsensitive | backend/controllers/authController.js:75-77 | for a name without pattern syntax the name check is exactly case-insensitive equality with a stored name |
| Auth.RegisteredEmailIsNormalized | backend/controllers/authController.js:88 | the stored address equals `trim().toLowerCase()` of the given one |
| Auth.UpdateMe | backend/controllers/authController.js:262-295 | 400 iff no body field qualifies; every update is a whitelisted field whose value has the right type, every qualifying field is updated, strings are stored trimmed and `name` only when non-empty after trimming |
| Auth.UpdateSecuritySettings | backend/controllers/authController.js:444-465 | 400 iff question or answer is missing; otherwise the question and the normalised answer are stored and attempts and lockout are cleared |
| Auth.WrongAnswer | backend/controllers/authController.js:508-515 | a wrong answer increments the attempts; reaching five resets them to 0 and locks the account until `now` plus fifteen minutes; nothing else changes |
| Auth.ResetViaQuestion | backend/controllers/authController.js:489-530 | the password is reset iff the fields are present, the new password has at least 6 characters, the account has a question and answer, it is not locked and the normalised answer matches, and then attempts and lockout are cleared; 429 iff everything before the answer check passes while locked; a wrong answer applies `WrongAnswer`; other outcomes change nothing |
| Auth.AnswerIgnoresCase | backend/scripts/test_security_question.js:63-72 | after setting the answer "Fluffy", recovery with "FLUFFY" resets the password |
| Auth.SettingsThenRecovery | backend/controllers/authController.js:452-506 | after new security settings, recovery succeeds iff the given answer equals the stored one after `trim().toLowerCase()` |
| Auth.AttemptsStayBelowMax | backend/controllers/authController.js:508-515 | from a counter in 0..4 the counter stays in 0..4 whatever the request |
| Auth.WrongAnswersCount | backend/controllers/authController.js:509 | fewer than five wrong answers from a fresh counter leave exactly that many attempts |
| Auth.FifthWrongAnswerLocks | backend/controllers/authController.js:502-512 | the fifth wrong answer in a row resets the counter and, for fifteen minutes afterwards, even the right answer gets 429 |
| Auth.ForgotPassword | backend/controllers/authController.js:365-414 | 400 iff no email; the generic reply iff the user is unknown; 403 iff the account is unverified and created after the cutoff; otherwise the token and an expiry one hour ahead are stored, and nothing changes on the other paths |
| Auth.ResetPassword | backend/controllers/authController.js:417-441 | "invalid or expired" iff the token differs or its expiry is not in the future; an update needs at least 6 characters and clears token and expiry; other outcomes change nothing |
| Auth.ResetLinkLifetime | backend/controllers/authController.js:386-434 | a reset link updates the password iff it is used within the hour, and it works only once |
| Common.TrimLower | backend/controllers/authController.js:88 | trimming and lower-casing commute |
| Common.NormalizeIgnoresCase | backend/controllers/authController.js:96 | texts equal up to letter case normalise to the same text |
| Common.NormalizeIdempotent | backend/controllers/authController.js:96 | normalising twice is normalising once |
| TokenService.Scale | backend/utils/tokenService.js:34-38 | a parsed count is multiplied by its unit and a `NaN` count stays `NaN` |
| TokenService.LeadingCountDigits | backend/utils/tokenService.js:34-38 | `parseInt(ttl.slice(0, -1), 10)` of digits followed by a unit letter is the decimal value of the digits |
| TokenService.RefreshTtlMs | backend/utils/tokenService.js:29-42 | `NaN` (`None`) only for a set, non-empty variable whose count before the suffix does not parse; the `'7d'` default always gives a number |
| TokenService.TtlFromSetting | backend/utils/tokenService.js:33-42 | `NaN` only when a `d`, `h` or `m` setting has an unparsable count; a setting without a known suffix is seven days |
| TokenService.SevenDays | backend/utils/tokenService.js:29-42 | the default `'7d'` is 604800000 ms |
| TokenService.RefreshTtlSuffixes | backend/utils/tokenService.js:33-38 | `<n>d`, `<n>h` and `<n>m` are `n` days, hours and minutes in milliseconds |
| TokenService.TtlDays | backend/utils/tokenService.js:33-34 | `<n>d` is `n` days in milliseconds |
| TokenService.TtlHours | backend/utils/tokenService.js:35-36 | `<n>h` is `n` hours in milliseconds |
| TokenService.TtlMinutes | backend/utils/tokenService.js:37-38 | `<n>m` is `n` minutes in milliseconds |
| TokenService.RefreshTtlNoSuffix | backend/utils/tokenService.js:39-42 | a setting ending in anything but `d`, `h` or `m` gives seven days |
| TokenService.RefreshTtlUnset | backend/utils/tokenService.js:29 | an unset or empty setting gives seven days |
| TokenService.CreateStep | backend/utils/tokenService.js:28-48 | creation succeeds iff the lifetime is a number and the token text is not already stored; then exactly that token is added, for the given user, expiring the lifetime after `now`, not revoked, and every other token is unchanged; a failure changes nothing |
| TokenService.RotateStep | backend/utils/tokenService.js:53-66 | an empty token is an error; the result is `null` iff the token is missing, revoked or expired (`now >= expiresAt`), and then nothing changes; otherwise the old token is revoked before the new one is created |
| TokenService.RotationIsSingleUse | backend/utils/tokenService.js:53-66 | a rotated token's successor belongs to the same user and is live, and the old token is refused from then on |
| TokenService.RevokeStep | backend/utils/tokenService.js:71-74 | an empty or unknown token changes nothing; otherwise exactly that token becomes revoked and unusable at every time |
| TokenService.RevokedCannotRotate | backend/utils/tokenService.js:56-74 | a revoked token can never be rotated |
| TokenService.TokenStore.constructor | backend/models/RefreshToken.js:4-10 | the collection starts empty |
| TokenService.TokenStore.CreateRefreshToken | backend/utils/tokenService.js:28-48 | returns and stores what `CreateStep` prescribes |
| TokenService.TokenStore.RotateRefreshToken | backend/utils/tokenService.js:53-66 | returns and stores what `RotateStep` prescribes |
| TokenService.TokenStore.RevokeRefreshToken | backend/utils/tokenService.js:71-74 | leaves the collection `RevokeStep` prescribes |
| RvVerification.RvEmailSplitUnique | backend/controllers/rvVerificationController.js:5 | in an address the pattern accepts, the `@` ending the local part is unique, so local part and domain are determined |
| RvVerification.RvEmailIsTrimmed | backend/controllers/rvVerificationController.js:5 | an accepted address has no leading or trailing white space, so `trim()` leaves it unchanged |
| RvVerification.KnownDomainEndsInN | backend/controllers/rvVerificationController.js:5 | each of the three accepted domains ends in `n` in either case |
| RvVerification.SampleAddresses | backend/controllers/rvVerificationController.js:5 | `student@rvce.edu.in` and `a@MS.RVCE.EDU.IN` (the `i` flag) match |
| RvVerification.LowerCaseAddress | backend/controllers/rvVerificationController.js:5 | `student@rvce.edu.in` matches |
| RvVerification.UpperCaseAddress | backend/controllers/rvVerificationController.js:5 | the domain is matched case-insensitively: `a@MS.RVCE.EDU.IN` matches |
| RvVerification.OtpFromRandom | backend/controllers/rvVerificationController.js:61 | for `Math.random()` in [0, 1) the password is between 100000 and 999999 |
| RvVerification.OtpHasSixDigits | backend/controllers/rvVerificationController.js:61 | the password's decimal text has exactly six digits |
| RvVerification.StartVerification | backend/controllers/rvVerificationController.js:23-79 | 400 iff the address is missing or does not match; 404 iff it matches and the user is missing; 409 iff it matches, the user exists and another verified account holds the normalised address; a password is issued iff none of these, and then the record holds the normalised address, the password, an expiry ten minutes ahead, status pending, `emailVerified` false, a truthy login id trimmed (else the stored one) and the card URL sent (else the stored one), and keeps the verification, expiry and rejection dates and the notes of an existing record; otherwise nothing is stored |
| RvVerification.VerifyOtp | backend/controllers/rvVerificationController.js:118-200 | each error outcome happens exactly under its condition, in the source's order (password compared before expiry), and changes nothing; success iff the trimmed input equals the stored password, it has not expired, the user exists and the Google or primary address matches; then the record is verified for 180 days with the password cleared, and the user record is given in full: verified, with that college address and the same verification and expiry dates, every other field kept (a user record is passed and returned alone, so no other user is touched) |
| RvVerification.StartThenVerify | backend/controllers/rvVerificationController.js:137-150 | a password just issued is accepted until ten minutes have passed by a user whose primary address is the college address, and a second use is refused |
| RvVerification.ExpiryCheckedAfterMatch | backend/controllers/rvVerificationController.js:137-150 | after the expiry the right password is refused as expired, a wrong one as invalid |
| RvVerification.UpdateRvProfile | backend/controllers/rvVerificationController.js:219-239 | 404 iff no user; 403 iff not verified; both change nothing; otherwise the new user record is given in full: a non-empty branch is stored trimmed and a falsy one keeps the stored branch; the year is what `ParsedYear` gives (1..5), and a falsy, unparsable or out-of-range year keeps the stored one; every other field is kept |
| RvVerification.ParsedYear | backend/controllers/rvVerificationController.js:232-236 | a year is set only from a non-empty value whose `parseInt` is in 1..5, and it is that value |
| RvVerification.YearStaysInRange | backend/controllers/rvVerificationController.js:234 | a stored year in 1..5 stays in 1..5 after any update |
| RvVerification.ParsedYearOf | backend/controllers/rvVerificationController.js:233-236 | a value parsing to `v` sets `v` iff `v` is in 1..5 |
| RvVerification.YearFromLeadingDigit | backend/controllers/rvVerificationController.js:233 | `parseInt` reads only the leading number, so `"2nd"` sets year 2 |
| RvVerification.YearOutOfRangeIgnored | backend/controllers/rvVerificationController.js:234 | a year whose leading digit is 0 or 6-9 leaves the stored year as it was |
| RvVerification.GetStatus | backend/controllers/rvVerificationController.js:261-301 | `'none'` without a record; `rvVerified` iff status is verified; each field shown is the record's (or the user's profile) value: the college address and card URL iff pending or verified; login id, verification and expiry dates, branch and year only when verified; notes and rejection date only when rejected; the password never |
| EmailService.ReplaceAll | backend/services/emailService.js:24-25 | replacing a placeholder by itself leaves the text as it was, and a value as long as the placeholder keeps the length |
| EmailService.SplitOn | backend/services/emailService.js:24-25 | the text before the first match is a prefix of the input, and there is always at least one piece |
| EmailService.JoinCons | backend/services/emailService.js:25 | joining commutes with adding a first character to the first piece |
| EmailService.JoinEmptyHead | backend/services/emailService.js:25 | an empty first piece contributes only its separator |
| EmailService.ReplaceIsSplitJoin | backend/services/emailService.js:24-25 | replacing every match is splitting at the matches and joining the pieces with the value |
| EmailService.SplitOnJoin | backend/services/emailService.js:24-25 | joining the pieces with the pattern gives back the input, so nothing but the matches is changed |
| EmailService.SplitOnPiecesFree | backend/services/emailService.js:24-25 | no piece contains the pattern: the global flag replaces every occurrence |
| EmailService.ReplaceAbsent | backend/services/emailService.js:25 | a text without the pattern is unchanged |
| EmailService.ReplaceWhole | backend/services/emailService.js:25 | a text that is exactly the placeholder becomes the value |
| EmailService.Render | backend/services/emailService.js:25 | `value \|\| ''`: empty iff the value is missing, `''` or `0`; text is kept; a number becomes its decimal text, with a leading `-` when negative |
| EmailService.Placeholder | backend/services/emailService.js:24 | the placeholder is the key wrapped in `{{` and `}}` |
| EmailService.SubstAfterStep | backend/services/emailService.js:23-26 | after `i + 1` entries the text is the text after `i` entries with the `i`-th entry substituted |
| EmailService.ReplaceVariables | backend/services/emailService.js:21-28 | the result is the template with each entry's placeholder replaced by its rendered value, entry after entry in order |
| EmailService.SubstWithoutPlaceholders | backend/services/emailService.js:21-28 | a template containing none of the placeholders comes back unchanged |
| EmailService.SubstInOrder | backend/services/emailService.js:23-26 | a value containing a later key's placeholder is itself substituted by the later entry |
| EmailService.FalsyValueErases | backend/services/emailService.js:25 | a falsy value deletes its placeholder: the surrounding pieces are concatenated |
| EmailService.ReplaceCopiesPrefix | backend/services/emailService.js:25 | the scan copies unchanged a prefix in which no match starts |
| EmailService.ReplaceKeepsUntouched | backend/services/emailService.js:25 | an occurrence of any text that no match of the pattern overlaps is still there after the replacement |
| EmailService.IncludesAfter | backend/services/emailService.js:25 | text put in front of an occurrence does not hide it |
| EmailService.PlaceholderBraces | backend/services/emailService.js:24 | for a brace-free key, `{{key}}` has `{` exactly in its first two places and `}` exactly in its last two |
| EmailService.BracesInText | backend/services/emailService.js:24 | the same, read off the text where the placeholder occurs |
| EmailService.PlaceholdersApart | backend/services/emailService.js:24-25 | occurrences of the placeholders of two different brace-free keys never overlap |
| EmailService.SubstKeeps | backend/services/emailService.js:23-26 | substituting another brace-free key keeps every `{{key}}` occurrence's presence |
| EmailService.UnsuppliedPlaceholderSurvives | backend/services/emailService.js:21-28 | with brace-free keys, a `{{key}}` in the template for a key that no entry supplies is still in the rendered e-mail |
| EmailService.GetEmailProvider | backend/services/emailService.js:4-14 | unset, empty and `sendgrid` choose SendGrid; `nodemailer` chooses Nodemailer; any other name is an error carrying that name |
| EmailService.SendOne | backend/services/emailService.js:30-77 | skipped (and successful) iff `EMAIL_ENABLED` is `'false'`; otherwise successful iff the provider is known, the template loads and the delivery succeeds |
| EmailService.SendSessionScheduled | backend/services/emailService.js:79-140 | skipped iff disabled; otherwise successful iff the provider is known, the template loads and both deliveries succeed |
| EmailService.DisabledShortCircuits | backend/services/emailService.js:32-85 | with `EMAIL_ENABLED='false'` every sender returns `{ success: true, skipped: true }` whatever else holds |
| EmailService.ScheduledNeedsBoth | backend/services/emailService.js:125-134 | the scheduled notice succeeds iff each of its two e-mails would succeed on its own |
| SkillController.CollapseRunsShape | backend/controllers/skillController.js:8 | after `replace(/[^a-z0-9]+/g, '-')` the text holds only `[a-z0-9-]` and never two `-` in a row |
| SkillController.StripDashesShape | backend/controllers/skillController.js:8 | removing one leading and one trailing `-` from such a text leaves no `-` at either end |
| SkillController.Slugify | backend/controllers/skillController.js:8 | every slug holds only `[a-z0-9-]`, has no `--` and no `-` at either end |
| SkillController.CollapseRunsOfCollapsed | backend/controllers/skillController.js:8 | the run collapse leaves a text of that shape unchanged |
| SkillController.SlugifyIdempotent | backend/controllers/skillController.js:8 | slugifying a slug gives the same slug |
| SkillController.Alnums | backend/controllers/skillController.js:8 | the letters and digits picked out are all lower-case letters or digits |
| SkillController.AlnumsConcat | backend/controllers/skillController.js:8 | picking letters and digits distributes over concatenation |
| SkillController.CollapseRunsKeepsAlnums | backend/controllers/skillController.js:8 | the run collapse keeps every letter and digit, in order |
| SkillController.StripDashesKeepsAlnums | backend/controllers/skillController.js:8 | stripping the end dashes keeps every letter and digit |
| SkillController.SlugifyKeepsAlnums | backend/controllers/skillController.js:8 | the slug's letters and digits are exactly those of the lower-cased name, in order |
| SkillController.CreateSkill | backend/controllers/skillController.js:15-47 | 400 iff the name is empty; 409 iff some catalog skill has the name as sent or the same slug; 500 iff neither holds and the slug is empty or the trimmed name is already listed; a created skill has the trimmed, non-empty name, a non-empty well-formed slug, a name and slug no existing skill has, and category `'general'` when none is given |
| SkillController.SlugImpliesName | backend/models/skill.js:5-6 | a name whose slug is non-empty is not blank once trimmed, so the slug test is the only `required` failure |
| SkillController.NoAlnumNeverCreated | backend/controllers/skillController.js:8-42 | a name with no ASCII letter or digit is never added: it is a duplicate or fails to save |
| SkillController.ListSkipPages | backend/controllers/skillController.js:112 | page `p` with limit `l` skips `(max(1, p) - 1) * l` records, so pages 1 and below skip nothing |
| SkillController.ConsecutivePagesAdjacent | backend/controllers/skillController.js:112 | from page 1 on, page `p + 1` starts exactly `l` records after page `p` |
| SkillController.ListSkipDefaults | backend/controllers/skillController.js:98-112 | without a page the default page 1 skips nothing, whatever the limit |
| SessionController.Cost | backend/controllers/sessionController.js:21 | `Number(pointsCost \|\| 1)` on whole numbers: an absent or zero cost is one point, any other cost is kept (non-numeric and fractional costs are under "Left out") |
| SessionController.Refund | backend/controllers/sessionController.js:219-223 | the whole cost is refunded iff the session is more than 24 hours ahead, otherwise nothing |
| SessionController.Credit | backend/controllers/sessionController.js:225-228 | only a positive refund is credited, so the balance never drops |
| SessionController.Reward | backend/controllers/sessionController.js:190 | `max(0, Math.round(cost * 0.8))` equals `max(0, floor((8 * cost + 5) / 10))` |
| SessionController.RewardBounds | backend/controllers/sessionController.js:190 | the reward lies between 0 and the cost, is 0 for a cost of 0 or less, is below the cost from 3 points up, and 1, 2 and 5 points give 1, 2 and 4 |
| SessionController.RoundTenth | backend/controllers/sessionController.js:288 | `Math.round(x * 10) / 10` lies within half a tenth of `x` |
| SessionController.NextRating | backend/controllers/sessionController.js:282-288 | the stored average is within half a tenth of the true running mean `(old · count + rating) / (count + 1)` |
| SessionController.RoundTenthInScale | backend/controllers/sessionController.js:288 | rounding to a tenth keeps a value in 1..5 |
| SessionController.RatingStaysInScale | backend/controllers/sessionController.js:280-288 | a rating in 1..5 keeps the mentor's rounded running average in 1..5; the first rating sets it |
| SessionController.MeanInScale | backend/controllers/sessionController.js:285 | the unrounded new average of ratings in 1..5 lies in 1..5 |
| SessionController.FirstRatingIsTheAverage | backend/controllers/sessionController.js:280-288 | the first whole-star rating becomes the mentor's average exactly |
| SessionController.RequestThenCancelBalance | backend/controllers/sessionController.js:219-228 | a request followed by an early cancellation restores the learner's balance; a late one keeps the charge |
| SessionController.RequestStep | backend/controllers/sessionController.js:8-46 | a session is created iff mentor id and date are given, mentor and learner exist and the learner holds at least the cost; missing fields give 400; the new session is pending, costs `Cost`, lasts `durationMins \|\| 60` minutes and is unrated, without a link or a video start |
| SessionController.RequestNeverOverdraws | backend/controllers/sessionController.js:22-25 | an accepted request never leaves the learner's balance negative |
| SessionController.AcceptStep | backend/controllers/sessionController.js:312-351 | 403 iff the caller is not the mentor, 400 iff the session is not pending, both changing nothing; otherwise the session is accepted with the generated meeting link and password |
| SessionController.RejectStep | backend/controllers/sessionController.js:358-379 | 403 iff the caller is not the mentor, 400 iff not pending; otherwise the session becomes rejected and nothing else changes |
| SessionController.RequestAnsweredOnce | backend/controllers/sessionController.js:326-373 | after an acceptance or a rejection neither answer is possible again |
| SessionController.CancelStep | backend/controllers/sessionController.js:206-231 | 403 iff the caller is not a participant; 400 iff completed or already cancelled; otherwise the session is cancelled and the refund is `Refund` |
| SessionController.RefundedAtMostOnce | backend/controllers/sessionController.js:216 | after a cancellation a second one, by anyone at any time, is refused with no refund |
| SessionController.CompleteStep | backend/controllers/sessionController.js:163-196 | 403 iff not a participant; 400 iff already completed; a failed save iff the resulting rating is outside the schema's 1..5; on success the session is completed, keeps the old rating and feedback unless new truthy ones are given, a started video is marked ended, and the mentor's reward is `Reward(pointsCost)` |
| SessionController.CancelledSessionStillCompletes | backend/controllers/sessionController.js:174-216 | a cancelled session can still be completed, and the mentor is then rewarded |
| SessionController.RateStep | backend/controllers/sessionController.js:239-262 | the intended flow, with `Session` bound to the model: 400 iff the rating is outside 1..5; 403 iff the caller is not the learner; 409 iff already rated; otherwise the rating and feedback are stored and nothing else changes |
| SessionController.RatedOnce | backend/controllers/sessionController.js:258-260 | a session is rated at most once |
| SessionController.DetailsStep | backend/controllers/sessionController.js:110-143 | 403 iff not a participant; only the mentor changes the agenda and only the learner the notes, each only when given; no other field changes |
| SessionController.DetailsRolesSeparate | backend/controllers/sessionController.js:125-133 | when mentor and learner differ, the learner never touches the agenda and the mentor never the notes |
| SessionController.JoinStep | backend/controllers/sessionController.js:83-104 | 403 iff not a participant; the first join records the start time and nothing else changes |
| SessionController.VideoStartRecordedOnce | backend/controllers/sessionController.js:95-98 | joining again, by either participant, keeps the first start time |
| SessionController.SessionRecord.constructor | backend/controllers/sessionController.js:28-38 | the new document holds the given fields |
| SessionController.RequestSession | backend/controllers/sessionController.js:8-46 | returns what `RequestStep` prescribes, creates the session exactly then, and charges the learner the cost exactly then |
| SessionController.AcceptRequest | backend/controllers/sessionController.js:312-354 | 404 without a session; otherwise the reply and the new session are `AcceptStep`'s |
| SessionController.RejectRequest | backend/controllers/sessionController.js:358-382 | 404 without a session; otherwise the reply and the new session are `RejectStep`'s |
| SessionController.CancelSession | backend/controllers/sessionController.js:206-235 | 404 without a session; otherwise `CancelStep`'s reply, session and refund, and the learner is credited that refund |
| SessionController.CompleteSession | backend/controllers/sessionController.js:163-200 | 404 without a session; otherwise `CompleteStep`'s reply and session; on success the mentor gains the reward and the level matches the review count; otherwise the mentor is untouched |
| SessionController.CloseSession | backend/controllers/sessionController.js:176-185 | the session becomes completed with the rating, the truthy feedback and the video end |
| SessionController.PayMentor | backend/controllers/sessionController.js:188-197 | the mentor's points grow by the reward and the level is refreshed from the unchanged review count |
| SessionController.RateAsWritten | backend/controllers/sessionController.js:246-252 | as written: 400 iff the rating is outside 1..5, otherwise 500 (the local `require` yields the exports object, whose `findById` is undefined); the session never changes |
| SessionController.RatingNeverStored | backend/controllers/sessionController.js:246-264 | every request the intended flow would store gets 500 as written, and the session differs from what the intended flow leaves |
| SessionController.AsWrittenAgreesOutOfRange | backend/controllers/sessionController.js:250 | outside 1..5 the handler as written and the intended flow give the same 400 and change nothing |
| SessionController.SubmitRating | backend/controllers/sessionController.js:239-306 | the handler as written: 400 iff the rating is outside 1..5, 500 iff it is inside; nothing is modified |
| SessionController.SubmitRatingCorrected | backend/controllers/sessionController.js:239-306 | with `Session` bound to the model: `RateStep`'s reply and session; on success the mentor's average becomes `NextRating`, the review count grows by one and the level follows it; otherwise the mentor is untouched |
| SessionController.UpdateSessionDetails | backend/controllers/sessionController.js:110-146 | 404 without a session; otherwise `DetailsStep`'s reply and session |
| SessionController.JoinVideo | backend/controllers/sessionController.js:83-107 | 404 without a session; otherwise `JoinStep`'s reply and session |
| UserSkill.NewEntry | backend/controllers/userSkillController.js:35-40 | the pushed entry has the display name as the schema stores it (trimmed), level `level \|\| 'beginner'`, the given description and no endorsements |
| UserSkill.AddStep | backend/controllers/userSkillController.js:30-42 | 409 iff a listed name equals the sent name up to case; a failed save iff the entry is not storable; otherwise exactly the new entry is appended, and a refusal leaves the list unchanged |
| UserSkill.AddedNameRefusedAgain | backend/controllers/userSkillController.js:31-85 | a name just added (sent without padding) is refused the second time, in any case |
| UserSkill.PaddedNameSlipsPast | backend/controllers/userSkillController.js:31-37 | a listed name sent again with a leading space passes the duplicate check and the list ends up holding that name twice |
| UserSkill.PaddingChangesName | backend/controllers/userSkillController.js:31 | a padded name never equals the unpadded one up to case |
| UserSkill.PaddingTrimmedAway | backend/models/User.js:6 | the schema's `trim` turns the padded name back into the listed one |
| UserSkill.AddStepTrimmed | backend/controllers/userSkillController.js:31-37 | the corrected check: 409 iff the trimmed name is already listed up to case, otherwise as `AddStep` |
| UserSkill.TrimmedAddKeepsNamesDistinct | backend/controllers/userSkillController.js:31-37 | with the corrected check a list whose names are distinct up to case stays so after any add |
| UserSkill.FindEntry | backend/controllers/userSkillController.js:129 | `teaches.id(teachId)` finds the first entry with that id, and none iff no entry has it |
| UserSkill.Endorse | backend/controllers/userSkillController.js:137-138 | one endorsement is appended and the count grows by exactly one; nothing else changes |
| UserSkill.AwardAfterShape | backend/controllers/userSkillController.js:144-156 | the threshold loop only appends badges, reports every badge it appends, each for a reached threshold, and keeps badge keys distinct |
| UserSkill.AwardAfterComplete | backend/controllers/userSkillController.js:148-155 | after the loop every threshold the count reaches has its badge |
| UserSkill.EndorseStep | backend/controllers/userSkillController.js:117-160 | 400 iff `teachId` is missing or the user endorses themselves; success iff the target and the skill exist and this user has not endorsed it; then that entry gets the endorsement and the badges are those the threshold loop gives; every refusal changes nothing |
| UserSkill.EndorsedOnce | backend/controllers/userSkillController.js:133-135 | the same user endorsing the same skill again gets 409 |
| UserSkill.EndorsementBadges | backend/controllers/userSkillController.js:144-156 | after an endorsement the old badges are kept, keys stay distinct, each of 3, 10 and 25 that the count reaches has its badge, and only reached thresholds are reported |
| UserSkill.UpdateTeachEntry | backend/controllers/userSkillController.js:183-189 | a level is stored lower-cased only when it is a valid level in any case; a given description replaces the old one; a valid level stays valid |
| UserSkill.UpdateLearnEntry | backend/controllers/userSkillController.js:215-218 | a level outside the enum makes the save fail and changes nothing; otherwise a given level and description are stored as sent |
| UserSkill.LevelCaseHandledDifferently | backend/controllers/userSkillController.js:185-215 | `"Expert"` is stored as `expert` for a taught skill and fails validation for a learnt one |
| UserSkill.CatalogSkill.constructor | backend/models/skill.js:13 | a catalog skill with the given name and popularity |
| UserSkill.Profile.constructor | backend/models/User.js:28-40 | a user document with the given lists and badges |
| UserSkill.AddSkill | backend/controllers/userSkillController.js:9-98 | 400 without skill id and name; 404 for an unknown catalog skill or user; the catalog popularity rises by one whenever a catalog skill was found; otherwise the list and reply are `AddStep`'s on the catalog or given name, and the other list and the badges never change |
| UserSkill.EndorseTeachSkill | backend/controllers/userSkillController.js:117-164 | the reply, list, badges and count are `EndorseStep`'s, and the learn list is untouched |
| UserSkill.AwardBadges | backend/controllers/userSkillController.js:144-156 | the loop over `[3, 10, 25]` leaves the badges and reported keys `AwardAfter` gives, and only the badges change |
| UserSkill.UpdateTeachSkill | backend/controllers/userSkillController.js:171-196 | 404 without user or entry; otherwise only the found entry changes, as `UpdateTeachEntry` prescribes |
| UserSkill.UpdateLearnSkill | backend/controllers/userSkillController.js:203-223 | 404 without user or entry; otherwise the found entry and reply are `UpdateLearnEntry`'s and nothing else changes |
| TaskQueue.JobQueue.constructor | backend/utils/taskQueue.js:13-17 | a new queue is empty |
| TaskQueue.JobQueue.Enqueue | backend/utils/taskQueue.js:26-33 | a non-object job is refused and leaves the queue as it was; an object is appended at the back, stamped with `now` |
| TaskQueue.JobQueue.Dequeue | backend/utils/taskQueue.js:40-48 | `null` on an empty queue; otherwise the front job, which is removed and nothing else |
| TaskQueue.JobQueue.Peek | backend/utils/taskQueue.js:54-56 | `null` iff the queue is empty, otherwise the front job; the queue is unchanged |
| TaskQueue.JobQueue.Size | backend/utils/taskQueue.js:62-64 | the number of queued jobs |
| TaskQueue.JobQueue.IsEmpty | backend/utils/taskQueue.js:70-72 | true iff no job is queued |
| TaskQueue.JobQueue.Clear | backend/utils/taskQueue.js:78-82 | the queue becomes empty and the count emitted is the number of jobs dropped |
| TaskQueue.JobQueue.GetAll | backend/utils/taskQueue.js:88-90 | the queued jobs, front first |
| TaskQueue.JobQueue.FilterJobs | backend/utils/taskQueue.js:97-99 | exactly the queued jobs the predicate accepts, in queue order, as many as it accepts |
| TaskQueue.JobQueue.Remove | backend/utils/taskQueue.js:106-110 | the queue keeps exactly the jobs the predicate rejects, in order, and the result is the number it accepted, which is how much the queue shrank |
| TaskQueue.RejectCount | backend/utils/taskQueue.js:108-109 | the kept and the removed jobs add up to the whole queue, and a job is kept iff it is queued and the predicate rejects it |
| TaskQueue.RunIsFifo | backend/utils/taskQueue.js:31-45 | over any run of enqueues and dequeues, the dequeued jobs followed by the queue left equal the jobs queued before followed by those enqueued, in order |
| TaskQueue.DequeuedInArrivalOrder | backend/utils/taskQueue.js:5-45 | from an empty queue the dequeued jobs are a prefix of the enqueued jobs: first in, first out |
| SimpleCache.Lookup | backend/utils/simpleCache.js:82 | `Map.get` finds an entry iff the key is stored, and the entry found is stored under that key |
| SimpleCache.Put | backend/utils/simpleCache.js:70 | `Map.set` appends a new key at the end and keeps every key in its place when the key exists |
| SimpleCache.PutLookup | backend/utils/simpleCache.js:70 | after `set` the key reads the new entry and every other key reads what it read before |
| SimpleCache.Delete | backend/utils/simpleCache.js:107 | `Map.delete` leaves every other key's entry as it was, removes one slot iff the key was present and keeps the others |
| SimpleCache.DeleteForgets | backend/utils/simpleCache.js:107 | with distinct keys, the deleted key reads nothing afterwards and the keys stay distinct |
| SimpleCache.PutDistinct | backend/utils/simpleCache.js:70 | `set` keeps the keys distinct |
| SimpleCache.Live | backend/utils/simpleCache.js:233-238 | a sweep never adds entries |
| SimpleCache.LiveSound | backend/utils/simpleCache.js:234 | every entry the sweep keeps was stored and has not expired |
| SimpleCache.LiveComplete | backend/utils/simpleCache.js:234 | every entry that has not expired survives the sweep |
| SimpleCache.LiveCount | backend/utils/simpleCache.js:231-236 | kept and removed entries add up to the entries before the sweep |
| SimpleCache.LivePrefixStep | backend/utils/simpleCache.js:233-237 | each loop iteration keeps the current entry iff it has not expired and counts it otherwise |
| SimpleCache.LiveAllExpired | backend/utils/simpleCache.js:234 | when every entry has expired the sweep keeps nothing |
| SimpleCache.LiveDistinct | backend/utils/simpleCache.js:233-237 | the sweep keeps the keys distinct |
| SimpleCache.EvictOldest | backend/utils/simpleCache.js:248-254 | the first key in insertion order is dropped and counted as an eviction, unless the map is empty |
| SimpleCache.SetStep | backend/utils/simpleCache.js:58-72 | `set` fails iff the key is not a non-empty string or the TTL is not positive, and then nothing changes; otherwise the key reads the new value expiring `ttl` after `now` and `sets` grows by one while hits and misses stay |
| SimpleCache.MakeRoom | backend/utils/simpleCache.js:66-68 | making room moves no hit, miss or set counter |
| SimpleCache.GetStep | backend/utils/simpleCache.js:81-98 | a value is returned iff the key holds an unexpired entry, and then it is that entry's value and one hit is counted; a missing key is one miss; an expired entry is deleted and counted as a miss and an eviction |
| SimpleCache.HasStep | backend/utils/simpleCache.js:143-154 | true iff the key holds an unexpired entry; an expired one is deleted and counted as an eviction; hits, misses and sets never move, and otherwise nothing changes |
| SimpleCache.DelStep | backend/utils/simpleCache.js:106-108 | true iff the key was present; every other key is unaffected, the size drops by one exactly then, and no counter moves |
| SimpleCache.SweepStep | backend/utils/simpleCache.js:229-242 | the sweep keeps exactly the unexpired entries, returns how many it removed, which is the drop in size, and adds that number to `evictions` |
| SimpleCache.ClearAsWritten | backend/utils/simpleCache.js:168-171 | as written, `clear` empties the cache and leaves `evictions` unchanged |
| SimpleCache.ClearCounted | backend/utils/simpleCache.js:168-171 | the corrected `clear` empties the cache and counts every dropped entry as an eviction |
| SimpleCache.ResetStatsStep | backend/utils/simpleCache.js:189-196 | all counters go back to 0 and the entries stay |
| SimpleCache.SetPlacement | backend/utils/simpleCache.js:66-70 | overwriting keeps every key in its place without evicting; a new key goes last, after evicting the earliest-inserted key when the cache is full |
| SimpleCache.SetOverwrites | backend/utils/simpleCache.js:66-70 | setting an existing key evicts nothing and keeps the key order |
| SimpleCache.SetAppends | backend/utils/simpleCache.js:66-70 | a new key in a cache below capacity is appended without eviction |
| SimpleCache.SetEvicts | backend/utils/simpleCache.js:66-70 | a new key in a full cache replaces the oldest key and counts one eviction |
| SimpleCache.SetKeepsValid | backend/utils/simpleCache.js:58-72 | `set` keeps keys distinct and non-empty and the size within `maxSize` (one entry when `maxSize` is below 1) |
| SimpleCache.MakeRoomValid | backend/utils/simpleCache.js:66-68 | after making room a new key fits and the keys stay distinct |
| SimpleCache.PutValid | backend/utils/simpleCache.js:70-71 | storing into a cache with room keeps it within bounds |
| SimpleCache.GetKeepsValid | backend/utils/simpleCache.js:81-154 | `get`, `has` and `del` keep the cache's invariant |
| SimpleCache.SweepKeepsValid | backend/utils/simpleCache.js:229-242 | the sweep keeps the cache's invariant |
| SimpleCache.GetWithinTtl | backend/utils/simpleCache.js:58-98 | an entry set at `t` with TTL `d` is returned by `get` up to and including `t + d`, counting one hit |
| SimpleCache.RemovedKeysAreGone | backend/utils/simpleCache.js:107 | after `del`, or a `get` or `has` that found no live entry, the key reads nothing |
| SimpleCache.ClearLosesEvictions | backend/utils/simpleCache.js:169-170 | clearing a non-empty cache as written adds nothing to `evictions` |
| SimpleCache.ClearCountsLikeSweep | backend/utils/simpleCache.js:168-242 | the corrected `clear` leaves the same state a sweep would when every entry has expired |
| SimpleCache.Cache.constructor | backend/utils/simpleCache.js:33-48 | an empty cache with zero counters and capacity `maxSize \|\| 1000`, satisfying the invariant |
| SimpleCache.Cache.EvictOldestEntry | backend/utils/simpleCache.js:248-254 | the new state is `EvictOldest` of the old one |
| SimpleCache.Cache.Set | backend/utils/simpleCache.js:58-72 | the result and new state are `SetStep`'s |
| SimpleCache.Cache.StoreEntry | backend/utils/simpleCache.js:66-71 | the entry is stored after making room and `sets` is counted |
| SimpleCache.Cache.Get | backend/utils/simpleCache.js:81-98 | the result and new state are `GetStep`'s |
| SimpleCache.Cache.Has | backend/utils/simpleCache.js:143-154 | the result and new state are `HasStep`'s |
| SimpleCache.Cache.Del | backend/utils/simpleCache.js:106-108 | the result and new state are `DelStep`'s |
| SimpleCache.Cache.Wrap | backend/utils/simpleCache.js:119-136 | a non-function `computeFn` throws the `TypeError` before the cache is read; a live cached value is returned as `get` leaves it; a `computeFn` that throws or rejects propagates its error with nothing stored and the state `get` left; otherwise the computed value is stored with `set` and returned, or the error of `set` is raised |
| SimpleCache.Cache.Size | backend/utils/simpleCache.js:160-162 | the number of stored entries |
| SimpleCache.Cache.Clear | backend/utils/simpleCache.js:168-171 | the new state is `ClearAsWritten` of the old one |
| SimpleCache.Cache.GetStats | backend/utils/simpleCache.js:177-183 | the counters and the current size |
| SimpleCache.Cache.ResetStats | backend/utils/simpleCache.js:189-196 | the new state is `ResetStatsStep` of the old one |
| SimpleCache.Cache.Sweep | backend/utils/simpleCache.js:229-242 | the result and new state are `SweepStep`'s |
| SimpleCache.SweepState | backend/utils/simpleCache.js:229-242 | the sweep on the cache's contents yields `SweepStep` |
| SimpleCache.ScanExpired | backend/utils/simpleCache.js:233-238 | the loop keeps exactly the unexpired entries in order and counts the expired ones |
| LeaderboardHeap.Swap | backend/utils/leaderboardHeap.js:118-143 | the destructuring swap exchanges the two slots, keeps every other slot and keeps the items |
| LeaderboardHeap.SwapUpStep | backend/utils/leaderboardHeap.js:113-120 | swapping an item with a smaller parent moves the only heap violation one level up |
| LeaderboardHeap.Largest | backend/utils/leaderboardHeap.js:131-140 | the chosen slot is the node or one of its children and its key is at least the node's and both children's |
| LeaderboardHeap.ChildrenOf | backend/utils/leaderboardHeap.js:114-133 | the children of `k` under `floor((i - 1) / 2)` are exactly `2k + 1` and `2k + 2` |
| LeaderboardHeap.SwapDownStep | backend/utils/leaderboardHeap.js:141-144 | swapping a node with its larger child moves the only violation one level down |
| LeaderboardHeap.BubbleUp | backend/utils/leaderboardHeap.js:112-121 | from a heap whose only violation is above `k`, the loop restores the heap order and keeps the same items |
| LeaderboardHeap.BubbleDown | backend/utils/leaderboardHeap.js:128-146 | from a heap whose only violations are below `k`, the loop restores the heap order and keeps the same items |
| LeaderboardHeap.RaisedKey | backend/utils/leaderboardHeap.js:78-81 | raising one key leaves only the edge above it to repair |
| LeaderboardHeap.LoweredKey | backend/utils/leaderboardHeap.js:78-83 | lowering one key leaves only the edges below it to repair |
| LeaderboardHeap.RootIsMax | backend/utils/leaderboardHeap.js:107-110 | in a max-heap slot 0 holds a largest key |
| LeaderboardHeap.InsertAtCapacityDropsLeader | backend/utils/leaderboardHeap.js:39-45 | at capacity, a new key beating the root replaces the largest item while a smaller one stays |
| LeaderboardHeap.DroppingMinKeepsLargest | backend/utils/leaderboardHeap.js:30 | replacing an item of smallest key with a larger new one keeps only items at least as large as the one dropped |
| LeaderboardHeap.MinIndex | backend/utils/leaderboardHeap.js:30-41 | the scan finds a slot holding a smallest key |
| LeaderboardHeap.FindIndex | backend/utils/leaderboardHeap.js:72-73 | `findIndex` gives the first matching slot, and -1 iff nothing matches |
| LeaderboardHeap.PeekTopK | backend/utils/leaderboardHeap.js:56-62 | `min(k, size)` items (size plus `k` for a negative `k`, as `slice` does), which are the first items of the heap sorted by descending key, sorted and drawn from the heap |
| LeaderboardHeap.Leaderboard.constructor | backend/utils/leaderboardHeap.js:19-26 | an empty heap with the given key function and capacity |
| LeaderboardHeap.Leaderboard.Insert | backend/utils/leaderboardHeap.js:35-47 | below capacity the item joins; at capacity a new key beating the root replaces the root item; otherwise nothing changes; the heap order and the capacity hold throughout |
| LeaderboardHeap.Leaderboard.LoweredOrRaised | backend/utils/leaderboardHeap.js:43-44 | replacing the root leaves only the edges below it to repair |
| LeaderboardHeap.Leaderboard.InsertKeepingTop | backend/utils/leaderboardHeap.js:28-47 | the corrected insert: below capacity the item is added; at capacity, when the new key beats some stored key, an item of smallest key is replaced by the new one and the rest is kept, so only the largest items stay; otherwise the heap is unchanged |
| LeaderboardHeap.Leaderboard.Replace | backend/utils/leaderboardHeap.js:71-87 | true iff some item matches; then the first match gives way to the new item, the size stays and the heap order is restored; otherwise nothing changes |
| LeaderboardHeap.Leaderboard.Size | backend/utils/leaderboardHeap.js:94-96 | the number of items |
| LeaderboardHeap.Leaderboard.Clear | backend/utils/leaderboardHeap.js:103-105 | the heap becomes empty |
| LeaderboardHeap.Leaderboard.PeekTop | backend/utils/leaderboardHeap.js:56-62 | as `PeekTopK` on this heap, leaving it unchanged: `min(k, size)` items (size plus `k` for a negative `k`), the first of the heap sorted by descending key |
| LeaderboardHeap.Create | backend/utils/leaderboardHeap.js:19-22 | a heap is created iff `keyFn` is a function, and it is empty with that key function and capacity |
| SkillTrie.Key | backend/utils/skillTrie.js:38-41 | a missing or non-string text gives the empty key; a string gives its lower-cased, trimmed form |
| SkillTrie.KeyIdempotent | backend/utils/skillTrie.js:38-41 | normalising a key again leaves it unchanged |
| SkillTrie.ChildIndex | backend/utils/skillTrie.js:57-110 | `children.has`/`get`: the slot found holds the character and no earlier slot does; -1 means no slot holds it |
| SkillTrie.ChildIndexOf | backend/utils/skillTrie.js:10-60 | with distinct Map keys, looking up a child's own character finds that child |
| SkillTrie.ChildIndexAppend | backend/utils/skillTrie.js:57-58 | `children.set` of a new character appends it and leaves every other lookup as it was |
| SkillTrie.ChildIndexUpdate | backend/utils/skillTrie.js:58-60 | replacing a child in its own slot leaves every lookup as it was |
| SkillTrie.FindConcat | backend/utils/skillTrie.js:56-111 | walking `p + q` is walking `p` and then `q` from where it ended, and fails when `p` fails |
| SkillTrie.FindWellFormed | backend/utils/skillTrie.js:8-14 | every node reached from a well-formed node is well formed |
| SkillTrie.EmptyHoldsNothing | backend/utils/skillTrie.js:27-30 | a fresh root stores no ids at any word |
| SkillTrie.Walk | backend/utils/skillTrie.js:104-172 | the character loop of `searchPrefix` and `contains` ends at the node the path reaches, or reports a missing child |
| SkillTrie.InsertIds | backend/utils/skillTrie.js:54-67 | insertion changes the ids of its own word only, and there appends the id unless `includes` already finds it |
| SkillTrie.InsertIdsNewChild | backend/utils/skillTrie.js:57-60 | the same, for the step that creates a missing child |
| SkillTrie.InsertIdsExistingChild | backend/utils/skillTrie.js:57-60 | the same, for the step that descends into an existing child |
| SkillTrie.InsertKeepsWellFormed | backend/utils/skillTrie.js:54-67 | insertion keeps child keys distinct and each node's ids free of repeats |
| SkillTrie.FlattenAppend | backend/utils/skillTrie.js:136-139 | collecting two runs of children in turn gives the two collections joined |
| SkillTrie.FlattenFrom | backend/utils/skillTrie.js:136-139 | the children from `k` on collect child `k` first, then the rest |
| SkillTrie.FlattenSplit | backend/utils/skillTrie.js:136-139 | the children collect those before child `i`, then child `i`, then those after |
| SkillTrie.FlattenMember | backend/utils/skillTrie.js:136-139 | every collected pair comes from one of the children |
| SkillTrie.AllPairsSound | backend/utils/skillTrie.js:126-140 | every pair collected below a node has a text extending the node's text and an id stored at that word |
| SkillTrie.BranchSound | backend/utils/skillTrie.js:136-139 | the same for the pairs collected under one child, with the child's character appended (`currentText + char`) |
| SkillTrie.AllPairsComplete | backend/utils/skillTrie.js:126-140 | every id stored at a word below a node is collected, paired with that word |
| SkillTrie.AppendChildCount | backend/utils/skillTrie.js:58 | appending a child adds exactly the child's pairs to the count |
| SkillTrie.ReplaceChildCount | backend/utils/skillTrie.js:58-60 | replacing a child changes the count by the difference of the two subtries |
| SkillTrie.AddIdCount | backend/utils/skillTrie.js:63-66 | pushing an id a node lacks adds exactly one stored pair |
| SkillTrie.InsertCountsOnce | backend/utils/skillTrie.js:63-67 | insertion adds one stored pair when the id is new at its word and none otherwise, so `totalSkills` counts distinct pairs |
| SkillTrie.FillOne | backend/utils/skillTrie.js:131-132 | below the limit, one push appends the result |
| SkillTrie.FillFill | backend/utils/skillTrie.js:127-137 | pushing two runs against the limit in turn is pushing their concatenation |
| SkillTrie.PushIds | backend/utils/skillTrie.js:129-134 | the loop over a word's ids pushes them, each paired with the word, until `limit` results exist |
| SkillTrie.CollectSkills | backend/utils/skillTrie.js:126-140 | `_collectSkills` appends the node's pairs (its own ids, then each child's in Map order) to the results and stops at `limit` |
| SkillTrie.SearchNode | backend/utils/skillTrie.js:100-116 | `searchPrefix` below a root value returns the specified search |
| SkillTrie.SearchBounded | backend/utils/skillTrie.js:100-116 | at most `limit` results, none for an empty prefix or one whose path is absent, and always the first matches in collection order |
| SkillTrie.SearchSound | backend/utils/skillTrie.js:100-140 | every result pairs an id with a stored word that starts with the prefix |
| SkillTrie.MatchSound | backend/utils/skillTrie.js:113-140 | every match of a prefix is a stored pair whose word starts with it |
| SkillTrie.FillAll | backend/utils/skillTrie.js:127-137 | starting empty, fewer than `limit` candidates are all kept |
| SkillTrie.MatchesComplete | backend/utils/skillTrie.js:104-114 | every stored pair whose word starts with the prefix is among its matches |
| SkillTrie.SearchComplete | backend/utils/skillTrie.js:100-140 | when fewer than `limit` pairs match a non-empty prefix, every one of them is returned |
| SkillTrie.BuiltWellFormed | backend/utils/skillTrie.js:50-68 | any sequence of `insert` calls from a fresh root builds a well-formed trie |
| SkillTrie.BuiltStep | backend/utils/skillTrie.js:50-68 | one more call applies `insert` to the trie built so far |
| SkillTrie.InsertedAtStep | backend/utils/skillTrie.js:51-52 | a word has been inserted after one more call exactly when it had been before or the call stores under it |
| SkillTrie.InsertOpIds | backend/utils/skillTrie.js:50-68 | after one `insert` a word holds ids exactly when it did before or the call has a truthy id and that key |
| SkillTrie.BuiltIds | backend/utils/skillTrie.js:50-68 | in a built trie a word holds ids exactly when some call with a truthy id and that key inserted it |
| SkillTrie.InsertOpCount | backend/utils/skillTrie.js:50-68 | one `insert` keeps the trie well formed and adds a stored pair exactly when the pair is new |
| SkillTrie.ContainsIffInserted | backend/utils/skillTrie.js:164-175 | `contains(text)` is true exactly when some earlier `insert` stored a truthy id under the same normalised text |
| SkillTrie.Truthy | backend/utils/skillTrie.js:85-88 | `bulkBuild` inserts only entries with a truthy id and text, never more than it was given |
| SkillTrie.TruthyStep | backend/utils/skillTrie.js:85-88 | one more entry adds itself when truthy and nothing otherwise |
| SkillTrie.InsertCounted | backend/utils/skillTrie.js:50-68 | the insert below a root value returns the new root and adds one to the count exactly for a new pair |
| SkillTrie.InsertKeepsConsistent | backend/utils/skillTrie.js:50-68 | one `insert` keeps root, `totalSkills` and the recorded calls in step |
| SkillTrie.Trie.constructor | backend/utils/skillTrie.js:27-30 | a new trie has an empty root, no calls and `totalSkills` 0 |
| SkillTrie.Trie.Insert | backend/utils/skillTrie.js:50-68 | records the call, applies it to the root and counts the pair only when it is new |
| SkillTrie.Trie.InsertItem | backend/utils/skillTrie.js:85-88 | one entry of `bulkBuild` is inserted when truthy and skipped otherwise |
| SkillTrie.Trie.BulkBuild | backend/utils/skillTrie.js:77-90 | a non-array is rejected with nothing changed (`TypeError`); an array resets the trie and inserts its truthy entries in order |
| SkillTrie.Trie.SearchPrefix | backend/utils/skillTrie.js:100-116 | returns the search for the normalised prefix with `limit` defaulting to 10 |
| SkillTrie.Trie.Contains | backend/utils/skillTrie.js:164-175 | true exactly when some recorded `insert` stored under the same normalised text |
| SkillTrie.Trie.Size | backend/utils/skillTrie.js:146-148 | `size()` is the number of distinct stored `(id, word)` pairs |
| SkillTrie.Trie.Clear | backend/utils/skillTrie.js:154-157 | resets to an empty root with count 0 |
| SkillTrie.CreateSkillTrie | backend/utils/skillTrie.js:183-189 | no argument gives an empty trie, an array a trie built from its truthy entries, and a non-array the `TypeError` |
| SessionIntervalTree.Validate | backend/utils/sessionIntervalTree.js:38-51 | an interval is accepted exactly when it is an object with a truthy id, Date start and end, and start before end; the accepted session carries those fields |
| SessionIntervalTree.OverlapIsHalfOpen | backend/utils/sessionIntervalTree.js:127-129 | overlap is symmetric, intervals that only touch do not overlap, and a proper interval overlaps itself |
| SessionIntervalTree.OverlapsIn | backend/utils/sessionIntervalTree.js:191-205 | the reference answer, the overlapping sessions of a collection, is never longer than it |
| SessionIntervalTree.OverlapsInMembers | backend/utils/sessionIntervalTree.js:127-129 | a session is reported exactly when it is in the collection and overlaps the query |
| SessionIntervalTree.OverlapsInAppend | backend/utils/sessionIntervalTree.js:191-205 | the overlaps of two runs joined are the overlaps of each, joined |
| SessionIntervalTree.OverlapsInCount | backend/utils/sessionIntervalTree.js:191-205 | a session is reported as often as it is stored when it overlaps, and never otherwise |
| SessionIntervalTree.OverlapsInMultiset | backend/utils/sessionIntervalTree.js:191-205 | two collections holding the same sessions report the same overlaps, as many times, whatever their order |
| SessionIntervalTree.NoOverlapsIn | backend/utils/sessionIntervalTree.js:198-203 | a collection none of whose sessions overlap the query reports nothing |
| SessionIntervalTree.EndsBelowMax | backend/utils/sessionIntervalTree.js:149-179 | every end in an ordered subtree is at most its node's `max` |
| SessionIntervalTree.EndsAtMostWeaken | backend/utils/sessionIntervalTree.js:149-151 | ends bounded by `v` are bounded by anything above `v` |
| SessionIntervalTree.EndsAtMostAll | backend/utils/sessionIntervalTree.js:149-151 | the bound holds for every session the subtree holds |
| SessionIntervalTree.MaxIsLargestEnd | backend/utils/sessionIntervalTree.js:149-179 | each node's `max` is the largest end time in its subtree: every end is at most it and some end equals it |
| SessionIntervalTree.InsertNode | backend/utils/sessionIntervalTree.js:138-154 | `_insertNode` returns a node whose `max` is the old `max` raised to the new end |
| SessionIntervalTree.InsertStartsAtMost | backend/utils/sessionIntervalTree.js:138-154 | inserting a session starting at most `v` into a tree whose starts are at most `v` keeps that bound |
| SessionIntervalTree.InsertStartsAtLeast | backend/utils/sessionIntervalTree.js:138-154 | the same for a lower bound on starts |
| SessionIntervalTree.InsertKeepsOrdered | backend/utils/sessionIntervalTree.js:138-154 | insertion keeps earlier starts left, later or equal starts right and every `max` exact |
| SessionIntervalTree.InsertAddsOne | backend/utils/sessionIntervalTree.js:138-154 | insertion adds exactly the new session to what the tree holds |
| SessionIntervalTree.InsertKeepsTiesRight | backend/utils/sessionIntervalTree.js:143-147 | a tree grown by `insert` keeps equal starts out of left subtrees |
| SessionIntervalTree.OverlapsInNode | backend/utils/sessionIntervalTree.js:194-204 | a node's overlaps are its own, then its left subtree's, then its right subtree's |
| SessionIntervalTree.LeftPruned | backend/utils/sessionIntervalTree.js:198 | a left subtree whose `max` is before the query's start holds no overlap, so skipping it loses nothing |
| SessionIntervalTree.RightPruned | backend/utils/sessionIntervalTree.js:202 | a right subtree whose starts are at or after the query's end holds no overlap |
| SessionIntervalTree.SearchOverlaps | backend/utils/sessionIntervalTree.js:191-205 | the pruned search appends every overlapping session of the subtree, in node-left-right order, and nothing else |
| SessionIntervalTree.SortByStart | backend/utils/sessionIntervalTree.js:95 | the sort is a permutation ordered by start |
| SessionIntervalTree.Middle | backend/utils/sessionIntervalTree.js:167 | `Math.floor((start + end) / 2)` lies in the range |
| SessionIntervalTree.NodeHolds | backend/utils/sessionIntervalTree.js:168-171 | a node holds its session and what its two subtrees hold |
| SessionIntervalTree.SliceAround | backend/utils/sessionIntervalTree.js:167-171 | the range splits into the part before `mid`, the middle element and the part after |
| SessionIntervalTree.BuildBalanced | backend/utils/sessionIntervalTree.js:164-182 | `null` exactly for an empty range |
| SessionIntervalTree.BuildHoldsRange | backend/utils/sessionIntervalTree.js:164-182 | `_buildBalanced` holds exactly the elements of its range |
| SessionIntervalTree.BuildStartsAtMost | backend/utils/sessionIntervalTree.js:164-182 | a range of starts at most `v` builds a tree with that bound |
| SessionIntervalTree.BuildStartsAtLeast | backend/utils/sessionIntervalTree.js:164-182 | the same for a lower bound |
| SessionIntervalTree.BuildOrdered | backend/utils/sessionIntervalTree.js:164-182 | built from a list sorted by start, the tree keeps the search invariant, `max` included |
| SessionIntervalTree.BuildMayPutTiesLeft | backend/utils/sessionIntervalTree.js:143-171 | unlike `insert`, `build` can place an equal start in a left subtree (three equal starts put the first on the left) |
| SessionIntervalTree.ValidateAll | backend/utils/sessionIntervalTree.js:86-94 | the `map` succeeds exactly when every entry validates, keeping order; otherwise it reports the first entry's error |
| SessionIntervalTree.InsertKeepsStored | backend/utils/sessionIntervalTree.js:68-69 | pushing a proper session onto the list and into the tree keeps the two in step |
| SessionIntervalTree.ValidatedAreProper | backend/utils/sessionIntervalTree.js:48-94 | every validated session starts before it ends |
| SessionIntervalTree.ProperPermuted | backend/utils/sessionIntervalTree.js:95 | sorting keeps every session proper |
| SessionIntervalTree.BuildStored | backend/utils/sessionIntervalTree.js:97-98 | the balanced tree over a sorted list is in step with that list |
| SessionIntervalTree.InsertedIsFound | backend/utils/sessionIntervalTree.js:59-118 | after inserting a session, a query for that same interval reports it |
| SessionIntervalTree.IntervalTree.constructor | backend/utils/sessionIntervalTree.js:27-30 | a new tree is empty with an empty list |
| SessionIntervalTree.IntervalTree.Insert | backend/utils/sessionIntervalTree.js:59-70 | an invalid interval throws its validation error with nothing changed; a valid one is appended to the list and inserted into the tree |
| SessionIntervalTree.IntervalTree.Build | backend/utils/sessionIntervalTree.js:78-99 | a non-array throws with nothing changed; an invalid entry throws after the reset, leaving the tree empty; otherwise the list is the sorted sessions and the tree their balanced build |
| SessionIntervalTree.IntervalTree.FindOverlaps | backend/utils/sessionIntervalTree.js:107-118 | an invalid query throws; otherwise the result is every stored session overlapping the query, as many times as it is stored |
| SessionIntervalTree.IntervalTree.Size | backend/utils/sessionIntervalTree.js:211-213 | the list's length, which equals the number of tree nodes |
| SessionIntervalTree.IntervalTree.Clear | backend/utils/sessionIntervalTree.js:219-222 | empties both tree and list |
| SessionIntervalTree.IntervalTree.FindConflictsForParticipant | backend/utils/sessionIntervalTree.js:232-239 | an invalid query throws; otherwise a session is returned exactly when it is stored, overlaps the query and its mentor (role 'mentor') or student id is set and equals the participant |
| SessionIntervalTree.CreateSessionIntervalTree | backend/utils/sessionIntervalTree.js:247-253 | a missing or empty argument gives an empty tree; a non-array with positive length throws; an array builds a tree holding all its entries exactly when they all validate |
| Matchmaking.SpaceJoinEmpty | backend/ml/matchmaking_model.py:18-20 | the goals text is empty exactly when there are no goals or the single goal is empty, the case that takes the fallback |
| Matchmaking.Rows | backend/ml/matchmaking_model.py:25-34 | one table row per candidate |
| Matchmaking.Corpus | backend/ml/matchmaking_model.py:43 | the corpus is the goals text followed by each row's skills text, in row order |
| Matchmaking.ScoredRows | backend/ml/matchmaking_model.py:54-57 | every row gets a score |
| Matchmaking.Formatted | backend/ml/matchmaking_model.py:63-70 | one result per selected row |
| Matchmaking.CandidateRows | backend/ml/matchmaking_model.py:25-34 | the loop builds the candidate table in input order |
| Matchmaking.FormatResults | backend/ml/matchmaking_model.py:63-70 | the loop formats each selected row in rank order |
| Matchmaking.PredictMatches | backend/ml/matchmaking_model.py:5-72 | `predict_matches` returns the specified prediction |
| Matchmaking.NoGoalsReturnsCandidates | backend/ml/matchmaking_model.py:18-23 | with no goals the first `top_n` candidates come back unchanged and unscored |
| Matchmaking.NoCandidatesNoMatches | backend/ml/matchmaking_model.py:36-39 | with goals but no candidates the result is empty |
| Matchmaking.ScoredRowsGenuine | backend/ml/matchmaking_model.py:43-57 | row `i` keeps candidate `i`'s fields and gets the similarity of corpus entry `i + 1` |
| Matchmaking.RankingGenuine | backend/ml/matchmaking_model.py:57-58 | every ranked row is a candidate with its own fields and its own similarity |
| Matchmaking.RankingDistinct | backend/ml/matchmaking_model.py:58 | sorting ranks no candidate twice |
| Matchmaking.ScoredLengthAndOrder | backend/ml/matchmaking_model.py:57-70 | for `top_n >= 0` there are `min(top_n, len(candidates))` results with non-increasing scores, given a monotone rounding |
| Matchmaking.ResultsCarryRows | backend/ml/matchmaking_model.py:58-70 | result `j` is the `j`-th ranked row, a genuine candidate, with its id, name, skills text and rounded score |
| MentorFeatures.FirstTruthy | backend/ml/featureBuilders/mentorFeatures.js:96 | `a \|\| b \|\| d` on numbers: the first operand that is present and non-zero, else the default |
| MentorFeatures.NormalizeMentorRating | backend/ml/featureBuilders/mentorFeatures.js:95-112 | 0.5 for a mentor without reviews; otherwise the Bayesian average (five reviews of 3.5) mapped from [1, 5] and clamped, always in [0, 1] |
| MentorFeatures.CancelPositive | backend/ml/featureBuilders/mentorFeatures.js:108 | dividing both sides by the positive weight `count + 5` keeps an inequality |
| MentorFeatures.BayesianBetween | backend/ml/featureBuilders/mentorFeatures.js:106-109 | the Bayesian average lies between the mean rating and the prior 3.5, so a rating in [1, 5] needs no clamp |
| MentorFeatures.CompletionRate | backend/ml/featureBuilders/mentorFeatures.js:121-134 | with a history, the completed share of it; without, `(rating - 2) / 3` clamped with rating defaulting to 3; always in [0, 1] |
| MentorFeatures.Share | backend/ml/featureBuilders/mentorFeatures.js:128 | `k / Math.max(1, n)` for `k <= n` lies in [0, 1] |
| MentorFeatures.BestMatchIsLargest | backend/ml/featureBuilders/mentorFeatures.js:148-167 | the loop's best match is at least every taught skill's contribution and is either 0 or one of them, within [0, 1] |
| MentorFeatures.FirstEndorsed | backend/ml/featureBuilders/mentorFeatures.js:170-172 | `teaches.find` returns a taught skill with the requested name and endorsements, and finds none only when no such skill exists |
| MentorFeatures.SkillMatchBounds | backend/ml/featureBuilders/mentorFeatures.js:143-179 | the skill match is in [0, 1], at least every contribution, at most 0.2 above the best match, and equal to it without an endorsed same-name skill |
| MentorFeatures.UnrelatedMatchesZero | backend/ml/featureBuilders/mentorFeatures.js:150-167 | with no taught skill equal to, containing or contained in the requested name, the match is 0 |
| MentorFeatures.CalculateSkillMatch | backend/ml/featureBuilders/mentorFeatures.js:143-179 | the loop and the endorsement boost compute the specified skill match |
| MentorFeatures.BestMatchNonNegative | backend/ml/featureBuilders/mentorFeatures.js:148 | the best match starts at 0 and never falls below it |
| MentorFeatures.SkillOverlap | backend/ml/featureBuilders/mentorFeatures.js:188-200 | the overlap is a share in [0, 1] |
| MentorFeatures.SkillOverlapFull | backend/ml/featureBuilders/mentorFeatures.js:188-200 | the overlap is 1 exactly when the student wants some skill and the mentor teaches every one of them (names compared lower-cased) |
| MentorFeatures.CountOverlap | backend/ml/featureBuilders/mentorFeatures.js:194-197 | the counting loop counts the student's skills the mentor teaches |
| MentorFeatures.OverlapStep | backend/ml/featureBuilders/mentorFeatures.js:195-196 | one more visited skill adds one to the count exactly when the mentor teaches it |
| MentorFeatures.CalculateSkillOverlap | backend/ml/featureBuilders/mentorFeatures.js:188-200 | the method computes the specified overlap |
| MentorFeatures.NormalizeExperience | backend/ml/featureBuilders/mentorFeatures.js:208-212 | at most 1; years/10 up to ten years, 1 from ten on, non-negative for non-negative years (missing years count 0) |
| MentorFeatures.ActivityRecency | backend/ml/featureBuilders/mentorFeatures.js:220-229 | 0.3 when never seen; at most 1 for a past sighting, 0 once thirty days have passed, never negative |
| MentorFeatures.SuccessStreak | backend/ml/featureBuilders/mentorFeatures.js:238-257 | with a history, a share in [0, 1]; without, `max(0, (rating - 2) / 3)`, never negative |
| MentorFeatures.SuccessStreakRecent | backend/ml/featureBuilders/mentorFeatures.js:243-245 | the streak looks at the `min(10, n)` most recent sessions, newest first |
| MentorFeatures.Features | backend/ml/featureBuilders/mentorFeatures.js:18-76 | the builder pushes eight features |
| MentorFeatures.BuildMentorFeatures | backend/ml/featureBuilders/mentorFeatures.js:14-86 | eight features, the last 1 when online and 0.3 otherwise; an explanation with parts has at least one, and an online mentor always has 'Currently online' |
| MentorFeatures.FeaturesInUnitRange | backend/ml/featureBuilders/mentorFeatures.js:14-86 | every feature lies in [0, 1] for non-negative experience, a past `lastSeen` and, without a history, a rating of at most 5 |
| MentorFeatures.EightInUnitRange | backend/ml/featureBuilders/mentorFeatures.js:15-76 | eight values each in [0, 1] form a vector with every entry in [0, 1] |
| MentorFeatures.StreakFallbackUncapped | backend/ml/featureBuilders/mentorFeatures.js:255-256 | without a history the streak fallback is not capped at 1: a rating above 5 gives a feature above 1 |
| MentorRecommender.WeightsSumToOne | backend/ml/mentorRecommender.js:33-42 | the eight mentor weights are non-negative and sum to 1 |
| MentorRecommender.MentorScoreInUnitRange | backend/ml/mentorRecommender.js:200-217 | a mentor whose data lie in the documented ranges gets a raw linear score in [0, 1] before the clamp |
| MentorRecommender.ComputeMentorRecommendations | backend/ml/mentorRecommender.js:174-233 | computes the specified recommendations for one skill: none for an unknown skill or no candidates, else the top `limit` by score |
| MentorRecommender.ScoredFromCandidates | backend/ml/mentorRecommender.js:198-222 | every scored item names a candidate other than the requesting user, carries the requested `skillId` argument and a score in [0, 1] |
| MentorRecommender.ComputedProperties | backend/ml/mentorRecommender.js:174-233 | at most `limit` items, sorted by descending score, each from a candidate other than the user |
| MentorRecommender.IndexOf | backend/ml/mentorRecommender.js:140 | `mentorScores.has`/`get`: the slot found holds that mentor; -1 means no slot does |
| MentorRecommender.DedupBest | backend/ml/mentorRecommender.js:137-143 | the loop leaves the Map holding the specified best item per mentor |
| MentorRecommender.BestPerMentorDistinct | backend/ml/mentorRecommender.js:137-143 | the Map holds each mentor once |
| MentorRecommender.BestPerMentorIds | backend/ml/mentorRecommender.js:137-143 | every mentor recommended is kept, and no other |
| MentorRecommender.IdsAppend | backend/ml/mentorRecommender.js:141 | appending an item adds its mentor to the mentors named |
| MentorRecommender.UpdateKeepsIds | backend/ml/mentorRecommender.js:141 | `set` on a mentor already present keeps the mentors named |
| MentorRecommender.WinnerExtends | backend/ml/mentorRecommender.js:140 | an item of another mentor, or a no-higher item of the same, leaves the current best item the best |
| MentorRecommender.WinnerArrives | backend/ml/mentorRecommender.js:140 | an item beating every earlier one of its mentor becomes that mentor's best |
| MentorRecommender.BestPerMentorWinners | backend/ml/mentorRecommender.js:137-143 | for each mentor the Map keeps the highest score, the first such item winning ties |
| MentorRecommender.NewMentorWins | backend/ml/mentorRecommender.js:140-141 | a mentor seen for the first time is appended and is the best so far |
| MentorRecommender.HigherScoreWins | backend/ml/mentorRecommender.js:140-141 | a higher score replaces the mentor's value in place and is the best so far |
| MentorRecommender.OldWinnerStays | backend/ml/mentorRecommender.js:140 | an earlier best stays best when a lower or unrelated item arrives |
| MentorRecommender.RankedProperties | backend/ml/mentorRecommender.js:137-147 | the ranking has at most `requestLimit` items, by descending score, each mentor once and by their best item |
| MentorRecommender.RankedKeepsEveryMentorUnderLimit | backend/ml/mentorRecommender.js:137-147 | with no more items than the limit every recommended mentor is in the ranking |
| MentorRecommender.BestPerMentorLength | backend/ml/mentorRecommender.js:137-143 | the Map never holds more entries than there were items |
| MentorRecommender.NormalizeFallbackRating | backend/ml/mentorRecommender.js:347-349 | the 1 to 5 scale mapped onto [0, 1]: linear inside, 0 below 1, 1 above 5 |
| MentorRecommender.CollectFallbackItems | backend/ml/mentorRecommender.js:302-318 | the nested loops push one item per mentor and matching skill, in order |
| MentorRecommender.DedupFirst | backend/ml/mentorRecommender.js:321-327 | the loop leaves the Map holding the specified first item per mentor |
| MentorRecommender.FirstPerMentorDistinct | backend/ml/mentorRecommender.js:321-327 | the fallback keeps each mentor once |
| MentorRecommender.FirstPerMentorIds | backend/ml/mentorRecommender.js:321-327 | the fallback drops no mentor |
| MentorRecommender.FirstPerMentorFirsts | backend/ml/mentorRecommender.js:321-327 | each mentor is kept by their first item |
| MentorRecommender.FallbackMentorRecommendations | backend/ml/mentorRecommender.js:264-339 | computes the specified fallback: top-rated mentors without skills, else the deduplicated skill matches |
| MentorRecommender.FallbackProperties | backend/ml/mentorRecommender.js:288-333 | with skills, at most `limit` items, each mentor once and by their first matching item among the `limit * 2` best rated |
| MentorRecommender.RecommendMentors | backend/ml/mentorRecommender.js:56-165 | `recommendMentors` returns the specified outcome: fallback when ML is off or the user is missing, else cache hits plus fresh computations, deduplicated and ranked |
| MentorRecommender.ComputeNeeding | backend/ml/mentorRecommender.js:120-134 | the loop computes fresh recommendations for every skill the cache missed, in order |
| MentorRecommender.GatherCached | backend/ml/mentorRecommender.js:94-118 | cache hits go straight into the list, re-stamped `fallback: false`; misses are set aside in order |
| MentorRecommender.NoSkillsNoItems | backend/ml/mentorRecommender.js:68-71 | with ML on and no skill asked for, the result is empty |
| MentorRecommender.RecommendProperties | backend/ml/mentorRecommender.js:56-152 | with ML on, skills asked for and a known user: at most `requestLimit` items, by descending score, each mentor once and each the best of that mentor's cached and computed recommendations |
| MentorRecommender.RecomputedExcludesSelf | backend/ml/mentorRecommender.js:93-152 | with `skipCache` every item is computed, so the requesting user is never recommended and every score is in [0, 1] |
| MentorRecommender.NothingCachedWhenSkipped | backend/ml/mentorRecommender.js:94 | `skipCache` takes nothing from the cache |
| MentorRecommender.FreshExcludesSelf | backend/ml/mentorRecommender.js:120-134 | every computed item names another mentor with a score in [0, 1] |
| SkillFeatures.IntersectionWithinUnion | backend/ml/featureBuilders/skillFeatures.js:151-154 | the intersection is never larger than the union, and the union of two sets not both empty is non-empty |
| SkillFeatures.Jaccard | backend/ml/featureBuilders/skillFeatures.js:145-155 | the Jaccard index lies in [0, 1], and is 0 for two empty sets |
| SkillFeatures.JaccardSymmetric | backend/ml/featureBuilders/skillFeatures.js:145-155 | the similarity does not depend on the order of its arguments |
| SkillFeatures.JaccardOne | backend/ml/featureBuilders/skillFeatures.js:145-155 | the similarity is 1 exactly for two equal non-empty sets |
| SkillFeatures.JaccardZero | backend/ml/featureBuilders/skillFeatures.js:145-155 | the similarity is 0 exactly when the sets share nothing |
| SkillFeatures.ExtractUserTags | backend/ml/featureBuilders/skillFeatures.js:90-108 | the `forEach` collects the specified tag set |
| SkillFeatures.AddSkillTags | backend/ml/featureBuilders/skillFeatures.js:96-105 | one skill adds its lower-cased name, when it has one, and its lower-cased tags |
| SkillFeatures.LowerSetStep | backend/ml/featureBuilders/skillFeatures.js:103 | one more tag adds its lower-cased form |
| SkillFeatures.TagsOfUnion | backend/ml/featureBuilders/skillFeatures.js:96-105 | the tags are exactly the lower-cased non-empty names plus the lower-cased tags |
| SkillFeatures.NameTagsAppend | backend/ml/featureBuilders/skillFeatures.js:97-100 | one more skill adds its lower-cased name when the name is non-empty |
| SkillFeatures.TagTagsAppend | backend/ml/featureBuilders/skillFeatures.js:102-104 | one more skill adds its lower-cased tags |
| SkillFeatures.UserTagsUnion | backend/ml/featureBuilders/skillFeatures.js:90-108 | the user's tags are the lower-cased names and tags of everything they teach, then learn |
| SkillFeatures.LearningGap | backend/ml/featureBuilders/skillFeatures.js:178-196 | the learning gap lies in [0, 1] |
| SkillFeatures.WantingTheSkill | backend/ml/featureBuilders/skillFeatures.js:183-188 | adding a wanted entry whose name contains the skill's name gives a gap of at least 0.5, and exactly 1 iff no taught name contains it |
| SkillFeatures.LearnerOfTheSkill | backend/ml/featureBuilders/skillFeatures.js:184-188 | a user learning the skill itself gets a gap of at least 0.5 |
| SkillFeatures.CalculateComplementarity | backend/ml/featureBuilders/skillFeatures.js:227-257 | corrected loop: 0.8 exactly when some taught skill's pairing list has a substring relation with the skill name, else 0 |
| SkillFeatures.Complementarity | backend/ml/featureBuilders/skillFeatures.js:227-257 | the corrected feature only takes the values 0 and 0.8 |
| SkillFeatures.ComplementarityAsWritten | backend/ml/featureBuilders/skillFeatures.js:227-257 | the loop as written: when it does not throw, the value is 0 or 0.8 and no taught name is an inherited key of the pairing table |
| SkillFeatures.ConstructorTeacherThrows | backend/ml/featureBuilders/skillFeatures.js:231-249 | as written, a user teaching "Constructor" finds an inherited key in the pairing table and the lookup throws, whatever the skill |
| SkillFeatures.AsWrittenAgreesElsewhere | backend/ml/featureBuilders/skillFeatures.js:244-256 | when no taught name is an inherited key, the loop as written computes the corrected feature |
| SkillFeatures.AsWrittenThrowsIff | backend/ml/featureBuilders/skillFeatures.js:231-249 | the loop as written throws exactly when some taught name, lower-cased, is an inherited key |
| SkillFeatures.AnyComplementsSnoc | backend/ml/featureBuilders/skillFeatures.js:244-254 | one more taught skill complements exactly when the earlier ones did or it does |
| SkillFeatures.FirstContaining | backend/ml/featureBuilders/skillFeatures.js:271 | `teaches.find` returns a taught skill whose lower-cased name contains the skill name, and finds none only when none does |
| SkillFeatures.SkillLevelGap | backend/ml/featureBuilders/skillFeatures.js:266-284 | the gap lies in [0.1, 1] and is 1 exactly when the user teaches nothing containing the skill name, or at an unknown level |
| SkillFeatures.ExpertGapIsLowest | backend/ml/featureBuilders/skillFeatures.js:271-283 | the gap is 0.1 exactly when the first taught match is at expert level |
| SkillFeatures.NormalizePopularity | backend/ml/featureBuilders/skillFeatures.js:163-169 | 0 for a non-positive popularity, and always in [0, 1] whatever the logarithm ratio |
| SkillFeatures.Recency | backend/ml/featureBuilders/skillFeatures.js:206-218 | 0 when never seen, at most 1 for a past sighting, never negative |
| SkillFeatures.Features | backend/ml/featureBuilders/skillFeatures.js:17-75 | the builder pushes seven features |
| SkillFeatures.BuildSkillFeatures | backend/ml/featureBuilders/skillFeatures.js:13-82 | seven features; the general-popularity explanation exactly when no feature passes its threshold, otherwise at least one reason |
| SkillFeatures.BuildSkillFeaturesAsWritten | backend/ml/featureBuilders/skillFeatures.js:13-82 | the builder as written throws exactly when some taught name is an inherited key, and otherwise returns what the corrected builder returns |
| SkillFeatures.FeaturesInUnitRange | backend/ml/featureBuilders/skillFeatures.js:13-82 | every feature lies in [0, 1] when the user was last seen no later than now |
| SkillFeatures.SevenInUnitRange | backend/ml/featureBuilders/skillFeatures.js:14-75 | seven values each in [0, 1] form a vector with every entry in [0, 1] |
| SkillRecommender.WeightsSumToOne | backend/ml/skillRecommender.js:33-41 | the seven skill weights are non-negative and sum to 1 |
| SkillRecommender.SkillScoreInUnitRange | backend/ml/skillRecommender.js:188-194 | features in their documented ranges give a raw linear score in [0, 1] before the clamp |
| SkillRecommender.FirstNamed | backend/ml/skillRecommender.js:179 | `teaches.find` returns a taught skill with exactly the requested lower-cased name |
| SkillRecommender.FindsTaughtName | backend/ml/skillRecommender.js:168-179 | a name in `userSkillNames` is always found again by the `find`, so the filter never sees `undefined` |
| SkillRecommender.DroppedIffFirstTaughtIsExpert | backend/ml/skillRecommender.js:168-181 | a candidate is filtered out exactly when the first taught skill of the same name is at expert level |
| SkillRecommender.FirstMaxIndex | backend/ml/skillRecommender.js:203 | `indexOf(Math.max(...))` is a position holding the largest value, with every earlier value strictly smaller |
| SkillRecommender.Weighted | backend/ml/skillRecommender.js:202 | one weighted value per feature |
| SkillRecommender.ChooseReason | backend/ml/skillRecommender.js:199-209 | the builder's explanation is kept exactly when the largest weighted feature is recency (4) or level gap (6) |
| SkillRecommender.ReasonFollowsLargestContribution | backend/ml/skillRecommender.js:202-209 | 'next step' means the learning gap's contribution is the largest and beats every earlier one; 'interests' means the tag similarity's is the largest |
| SkillRecommender.ComputeRecommendations | backend/ml/skillRecommender.js:154-225 | computes the specified recommendations: filter, score each kept candidate whose features can be built, sort by descending score, keep the first `limit` |
| SkillRecommender.ScoreAll | backend/ml/skillRecommender.js:186-219 | the scoring loop yields, in order, one recommendation per kept candidate whose features can be built; a candidate whose builder throws is skipped by the `catch` |
| SkillRecommender.ScoredPrefixStep | backend/ml/skillRecommender.js:186-219 | one more candidate appends its own recommendation, or nothing when it is skipped |
| SkillRecommender.ScoreSkill | backend/ml/skillRecommender.js:186-218 | a candidate is skipped exactly when the user teaches a name that is an inherited key of the pairing table; otherwise it gets a recommendation for itself, scored in [0, 1] and not marked as fallback |
| SkillRecommender.ScoreOne | backend/ml/skillRecommender.js:188-214 | the loop body scores one candidate as specified, through the feature builder as written, the score clamped to [0, 1] |
| SkillRecommender.InheritedTeacherScoresNothing | backend/ml/skillRecommender.js:186-219 | a user teaching "constructor" or "__proto__" in any case gets no scored candidate at all |
| SkillRecommender.OrdinaryTeacherScoresAll | backend/ml/skillRecommender.js:186-219 | every other user gets exactly one recommendation per kept candidate, for that candidate and in order |
| SkillRecommender.InheritedTeacherGetsNothing | backend/ml/skillRecommender.js:154-225 | a user teaching an inherited key gets an empty computed list, whatever the candidates and the limit |
| SkillRecommender.ScoredFromKept | backend/ml/skillRecommender.js:186-219 | every scored item is a candidate that passed the filter, with a score in [0, 1] |
| SkillRecommender.ComputedProperties | backend/ml/skillRecommender.js:154-225 | at most `limit` items, by descending score, each a kept candidate scored in [0, 1] |
| SkillRecommender.PopularityForFallback | backend/ml/skillRecommender.js:288-291 | 0.1 for a non-positive popularity, else the logarithmic ratio capped at 1 |
| SkillRecommender.RecommendSkillsForUser | backend/ml/skillRecommender.js:63-146 | `recommendSkillsForUser` returns the specified outcome: fallback when ML is off or the user is missing, else a cache hit or a fresh computation |
| SkillRecommender.InheritedTeacherGetsEmptyOutcome | backend/ml/skillRecommender.js:118-139 | with ML on and no cache hit, a user teaching an inherited key receives an empty list, not the fallback |
| SkillRecommender.CacheHitProperties | backend/ml/skillRecommender.js:93-116 | a cache hit returns exactly `requestLimit` cached entries, in cache order, none marked as fallback |
| SkillRecommender.ComputedRecommendProperties | backend/ml/skillRecommender.js:120-134 | otherwise at most `requestLimit` items, by descending score, each in [0, 1], none marked as fallback |
| SkillRecommender.RestampKeepsScores | backend/ml/skillRecommender.js:104-133 | re-stamping keeps length, order and scores and clears the fallback mark |
| SkillRecommender.FallbackProperties | backend/ml/skillRecommender.js:256-280 | at most `limit` items, each marked as fallback, with a skill lacking popularity scored 0.1 |
| Recommending.RequestLimit | backend/ml/mentorRecommender.js:57 | the requested limit clamped to [1, 50]: unchanged inside, 1 below, 50 above (the same line is skillRecommender.js:64) |
| Recommending.ComputeLinearScore | backend/ml/mentorRecommender.js:241-254 | the loop computes the dot product of features and weights over their common prefix (the same function is skillRecommender.js:233-246) |
| Recommending.WeightedSumBounds | backend/ml/skillRecommender.js:239-243 | with features in [0, 1] and non-negative weights, the partial sum lies between 0 and the sum of the weights used |
| Recommending.TotalOfPrefix | backend/ml/skillRecommender.js:239 | a prefix of non-negative weights sums to no more than all of them |
| Recommending.TotalOfSlice | backend/ml/skillRecommender.js:239 | dropping the last weight leaves the sums of shorter prefixes unchanged |
| Recommending.LinearScoreInUnitRange | backend/ml/mentorRecommender.js:241-254 | features in [0, 1] and non-negative weights summing to 1 give a raw score in [0, 1] |
| SessionSuccess.DefaultWeightsSumToOne | backend/ml/sessionSuccessModel.js:16 | the eight default weights are non-negative and sum to 1 |
| SessionSuccess.Dot | backend/ml/sessionSuccessModel.js:351-360 | the dot product throws (`None`) exactly when the lengths differ |
| SessionSuccess.DotProduct | backend/ml/sessionSuccessModel.js:351-360 | the loop computes the specified dot product, or throws on a length mismatch |
| SessionSuccess.WeightedSumSymmetric | backend/ml/sessionSuccessModel.js:356-358 | summing `a[i] * b[i]` does not depend on which vector comes first |
| SessionSuccess.DotSymmetric | backend/ml/sessionSuccessModel.js:351-360 | the dot product, and its failure, do not depend on the order of the arguments |
| SessionSuccess.DotIsLinearScore | backend/ml/sessionSuccessModel.js:351-360 | on vectors of equal length it is the linear score the recommenders use |
| SessionSuccess.RiskLevel | backend/ml/sessionSuccessModel.js:157-162 | 'high' exactly below 0.4, 'medium' exactly in [0.4, 0.7), 'low' exactly from 0.7 |
| SessionSuccess.RiskMonotone | backend/ml/sessionSuccessModel.js:157-162 | a higher success probability never carries a higher risk |
| SessionSuccess.FallbackPrediction | backend/ml/sessionSuccessModel.js:308-315 | the fallback answers probability 0.7, risk 'medium', fallback set, version 'fallback' |
| SessionSuccess.FallbackRiskDiffersFromThresholds | backend/ml/sessionSuccessModel.js:308-315 | the thresholds would call the fallback's own 0.7 'low', yet it says 'medium' |
| SessionSuccess.MatchScore | backend/ml/sessionSuccessModel.js:234-240 | a level score in [0.4, 1], 0.5 for an unknown level |
| SessionSuccess.FirstTaught | backend/ml/sessionSuccessModel.js:232-233 | the first taught entry with the skill's lower-cased name, and none only when no entry has it |
| SessionSuccess.SkillMatchFeature | backend/ml/sessionSuccessModel.js:228-245 | in [0.2, 1], and 0.2 exactly when the mentor teaches nothing of that name |
| SessionSuccess.CalculateSkillMatchFeature | backend/ml/sessionSuccessModel.js:228-245 | the early-returning loop computes the specified feature |
| SessionSuccess.FirstMatchDecides | backend/ml/sessionSuccessModel.js:232-241 | the entry at the first matching index is the one found |
| SessionSuccess.SkillMatchOfFirstIndex | backend/ml/sessionSuccessModel.js:232-241 | the feature is the level score of the entry at the first matching index |
| SessionSuccess.CappedShare | backend/ml/sessionSuccessModel.js:192-201 | `Math.min(1, x / d)` lies in [0, 1] and is 1 from `d` on |
| SessionSuccess.ShareBounds | backend/ml/sessionSuccessModel.js:192-201 | a non-negative count over a positive divisor is non-negative, and at least 1 from the divisor on |
| SessionSuccess.NonNegativeQuotient | backend/ml/sessionSuccessModel.js:187-210 | a non-negative value over a positive divisor is non-negative |
| SessionSuccess.SessionFeatures | backend/ml/sessionSuccessModel.js:183-222 | eight features; experience is 1 exactly from ten taught skills, prior sessions exactly from five, duration always 1, availability exactly when online |
| SessionSuccess.FeaturesInUnitRange | backend/ml/sessionSuccessModel.js:183-222 | with a rating within [0, 5] every feature lies in [0, 1] |
| SessionSuccess.LoadStep | backend/ml/sessionSuccessModel.js:269-302 | a cache younger than five minutes is returned as is; otherwise a stored model with weights is used, else the default, and cached with the current time |
| SessionSuccess.LoadedWeightsNonEmpty | backend/ml/sessionSuccessModel.js:279-299 | a loaded model always has weights, and the cache afterwards holds that same model |
| SessionSuccess.ReloadWithinTtl | backend/ml/sessionSuccessModel.js:271-287 | a load that misses the cache stores its model, which every load in the next five minutes returns |
| SessionSuccess.StaleCacheReloads | backend/ml/sessionSuccessModel.js:271-287 | once the cached entry is five minutes old the stored model is read again |
| SessionSuccess.VersionOf | backend/ml/sessionSuccessModel.js:168 | `model.modelVersion \|\| 'default'` is never empty |
| SessionSuccess.Predict | backend/ml/sessionSuccessModel.js:120-175 | prediction off or missing data gives the fallback; a model answer has the risk its probability's thresholds give and the model's version |
| SessionSuccess.WrongSizeModelFallsBack | backend/ml/sessionSuccessModel.js:352-354 | a model with other than eight weights makes the dot product throw, so every answer is the fallback |
| SessionSuccess.EightWeightsPredict | backend/ml/sessionSuccessModel.js:145-169 | with eight weights and all data present the model answers with the sigmoid of the score plus the bias |
| SessionSuccess.DefaultScoreInUnitRange | backend/ml/sessionSuccessModel.js:183-222 | under the default weights a mentor rated within [0, 5] gets a score in [0, 1] before the sigmoid |
| SessionSuccess.SessionSuccessModel.constructor | backend/ml/sessionSuccessModel.js:20 | the cache starts empty |
| SessionSuccess.SessionSuccessModel.LoadModel | backend/ml/sessionSuccessModel.js:269-302 | returns the specified model and leaves the cache holding it |
| SessionSuccess.SessionSuccessModel.ClearModelCache | backend/ml/sessionSuccessModel.js:365-368 | empties the cache |
| SessionSuccess.SessionSuccessModel.PredictSessionSuccess | backend/ml/sessionSuccessModel.js:120-175 | prediction off answers the fallback with the cache untouched; otherwise the model is loaded, cached, and used for the specified prediction |
| SessionSuccess.ValidateTrainingData | backend/ml/sessionSuccessModel.js:38-40 | training throws exactly for no samples or a label count that differs from the sample count |
| SessionSuccess.Thresholded | backend/ml/sessionSuccessModel.js:90-93 | one class per probability: 1 exactly from 0.5, else 0 |
| SessionSuccess.Classify | backend/ml/sessionSuccessModel.js:325-328 | a pair is left uncounted exactly when the label or the prediction is not 0 or 1 |
| SessionSuccess.TallyTotal | backend/ml/sessionSuccessModel.js:322-329 | the four counters never exceed the number of labels, and reach it exactly when every pair is 0/1 |
| SessionSuccess.TallyCounts | backend/ml/sessionSuccessModel.js:322-329 | on 0/1 data, tp + fn counts the positive labels, tp + fp the positive predictions, tp + tn the agreements |
| SessionSuccess.Ratio | backend/ml/sessionSuccessModel.js:332-333 | `a / b \|\| 0` lies in [0, 1], is 0 exactly when `a` is 0 (including 0/0) and 1 exactly when `a == b > 0` |
| SessionSuccess.HarmonicBound | backend/ml/sessionSuccessModel.js:334 | `2pr <= p + r` for p and r in [0, 1], so F1 stays at most 1 |
| SessionSuccess.NonNegativeProduct | backend/ml/sessionSuccessModel.js:334 | a product of non-negative values is non-negative |
| SessionSuccess.FractionBounds | backend/ml/sessionSuccessModel.js:331-334 | a fraction of non-negative values with numerator at most the denominator lies in [0, 1] |
| SessionSuccess.ProductZero | backend/ml/sessionSuccessModel.js:334 | the product of precision and recall is 0 exactly when one of them is |
| SessionSuccess.F1 | backend/ml/sessionSuccessModel.js:334 | F1 lies in [0, 1], is 0 exactly when precision or recall is, and is 1 when both are |
| SessionSuccess.MetricsOf | backend/ml/sessionSuccessModel.js:331-336 | accuracy is NaN (`None`) exactly when nothing was counted; precision and recall are the guarded ratios |
| SessionSuccess.MetricsInUnitRange | backend/ml/sessionSuccessModel.js:331-336 | every defined metric lies in [0, 1] |
| SessionSuccess.NoTruePositivesScoreZero | backend/ml/sessionSuccessModel.js:332-334 | without a true positive precision, recall and F1 fall back to 0 |
| SessionSuccess.NoErrorsScoreOne | backend/ml/sessionSuccessModel.js:332-334 | true positives and no errors of either kind give precision, recall and F1 of 1 |
| SessionSuccess.ComputeMetrics | backend/ml/sessionSuccessModel.js:321-337 | the counting loop and the formulas give the specified metrics |
| SessionSuccess.AccuracyIsAgreementShare | backend/ml/sessionSuccessModel.js:331 | on non-empty 0/1 data the accuracy is the share of predictions equal to their label |
| SessionSuccess.NoErrorsFullAccuracy | backend/ml/sessionSuccessModel.js:331 | counters with no false positive or false negative give accuracy 1 |
| SessionSuccess.PerfectPredictions | backend/ml/sessionSuccessModel.js:321-337 | predictions equal to 0/1 labels give accuracy 1, and precision, recall and F1 of 1 once some label is 1 |
| SessionSuccess.NoErrorsOnDiagonal | backend/ml/sessionSuccessModel.js:326-328 | comparing labels with themselves produces no false positive or false negative |
| SessionSuccess.TrainingAccuracyDefined | backend/ml/sessionSuccessModel.js:38-95 | after the training guard, 0/1 labels against thresholded predictions always give a defined accuracy |
| Common.ToLower | backend/utils/skillTrie.js:40 | `toLowerCase` on ASCII letters: the length is kept and each character is lower-cased on its own (see `Common.ToLower` under "## Left out") |
| Common.ToLowerIdempotent | backend/utils/skillTrie.js:40 | lower-casing twice is lower-casing once |
| Common.TrimStart | backend/utils/socketAuth.js:45 | drops exactly the leading JavaScript white space: what is left is a suffix that starts with a non-space |
| Common.TrimEnd | backend/utils/socketAuth.js:45 | drops exactly the trailing JavaScript white space |
| Common.Trim | backend/utils/skillTrie.js:40 | `trim` never lengthens, and a non-empty result starts and ends with a non-space |
| Common.TrimStartLower | backend/utils/skillTrie.js:40 | lower-casing and trimming the start commute |
| Common.TrimEndLower | backend/utils/skillTrie.js:40 | lower-casing and trimming the end commute |
| Common.TrimUnpadded | backend/utils/skillTrie.js:40 | a string without surrounding white space is its own trim |
| Common.TrimIdempotent | backend/utils/skillTrie.js:40 | trimming twice is trimming once |
| Common.Join | backend/ml/matchmaking_model.py:18 | joining nothing gives the empty string, one part gives that part |
| Common.Split | backend/utils/socketAuth.js:44-45 | `split` always yields at least one piece |
| Common.SplitJoin | backend/utils/socketAuth.js:44-45 | joining the pieces of a split with the separator gives back the string |
| Common.DigitPrefix | backend/controllers/skillController.js:112 | the longest prefix made only of digits, followed by a non-digit or the end |
| Common.DigitPrefixOfDigits | backend/controllers/skillController.js:112 | a digit run followed by a non-digit is exactly the digit prefix |
| Common.SingleDigitParse | backend/controllers/rvVerificationController.js:233 | `parseInt(s, 10)` reads a single leading digit before a non-digit as that digit |
| Common.ParseIntDigits | backend/utils/tokenService.js:34-38 | `parseInt(s, 10)` reads a plain digit run followed by a non-digit as its decimal value |
| Common.NatToString | backend/controllers/rvVerificationController.js:61 | `String(n)` is a non-empty digit string whose decimal value is `n` |
| Common.NatToStringLength | backend/controllers/rvVerificationController.js:61 | a number in `[10^k, 10^(k+1))` renders with `k + 1` digits |
| Common.JsRound | backend/controllers/sessionController.js:190 | `Math.round` is the integer within half of `x`, halves rounded up |
| Common.Clamp01 | backend/ml/mentorRecommender.js:217 | `Math.max(0, Math.min(1, x))` lies in [0, 1], keeps values inside and clips the rest to the nearer end |
| Common.SliceTo | backend/ml/mentorRecommender.js:147 | `slice(0, n)` is a prefix of length `min(n, len)`, or `len + n` clipped at 0 for a negative `n` |
| Common.InsertDesc | backend/ml/mentorRecommender.js:146 | inserting into the sorted run adds exactly the one element |
| Common.InsertDescSorted | backend/ml/mentorRecommender.js:146 | inserting into a descending run keeps it descending |
| Common.SortDesc | backend/ml/mentorRecommender.js:146 | `sort((a, b) => b.score - a.score)` is a permutation in descending key order |
| Common.InsertDescTies | backend/ml/mentorRecommender.js:146 | inserting passes only larger keys: among elements of the inserted one's key it comes first, and the order of every key's elements is kept |
| Common.SortDescStable | backend/ml/mentorRecommender.js:146 | the sort is stable, as ECMAScript requires: the elements of each key appear in their input order |
| Common.SortedPrefix | backend/ml/mentorRecommender.js:146-147 | a prefix of a descending sequence is descending |
| Common.CountWhere | backend/ml/featureBuilders/mentorFeatures.js:127 | `filter(p).length` never exceeds the length |
| Common.Filter | backend/utils/sessionIntervalTree.js:236-238 | `filter` keeps exactly the elements that satisfy the predicate |
| Common.FilterCount | backend/ml/featureBuilders/mentorFeatures.js:127 | the kept and the dropped elements together are all of them |
| Common.MultiplicityOfTwo | backend/ml/mentorRecommender.js:145-146 | an element at two positions occurs at least twice |
| Common.OccursOnce | backend/ml/mentorRecommender.js:145-146 | with distinct keys each element occurs once |
| Common.PermutationKeepsDistinct | backend/ml/mentorRecommender.js:145-146 | sorting keeps the keys distinct |
| Common.SubsetCard | backend/ml/featureBuilders/mentorFeatures.js:195-199 | a subset is no larger, and a proper subset is smaller |
| Common.SubsetSize | backend/ml/featureBuilders/mentorFeatures.js:195-199 | an intersection is no larger than either set |

## Left out

- `getDebugOtp` in backend/controllers/rvVerificationController.js: a development-only endpoint that echoes the stored code.
- E-mail delivery, template files and provider selection: the transport's answer and the template text are parameters of `EmailService`.
- JavaScript `String.replace` `$` patterns in template values: the substitution is literal.
- `removeTeachSkill` and `removeLearnSkill` in backend/controllers/userSkillController.js: a single database `$pull` by sub-document id, with no decision logic.
- `createAccessToken` and `verifyAccessToken` in backend/utils/tokenService.js: JWT signing and verification are a foreign library. Refresh-token rotation is modelled.
- Password hashing: the stored answer is the normalised text itself, so `bcrypt.compare` becomes equality.
- OAuth, the DNS lookup behind e-mail validation, the route validators of backend/routes/auth.js:15-18 and the regular-expression engine: foreign libraries. Registration takes their outcomes as parameters: whether the validators passed, whether the strict check passed, and the compiled name pattern's test (or its absence when the pattern does not compile).
- The `SimpleCache` sweep timer, `stopSweep`, `destroy` and `sweepIntervalMs`: timers. The sweep itself is modelled as a method over a given `now`.
- `SimpleCache.hitRate`: a floating-point division used only for statistics.
- `createWorker` in backend/utils/taskQueue.js: polling, `setTimeout` and retries with exponential backoff are timers and concurrency.
- `getSession`, `listMySessions` and `scheduleSession` in backend/controllers/sessionController.js: database reads and a field update with no decision logic.
- `getSkill`, `updateSkill`, `deleteSkill` and the query building of `listSkills` in backend/controllers/skillController.js: database calls. The page arithmetic of `listSkills` is modelled.
- Category auto-creation in `createSkill`: a database upsert.
- The `Review` document written by `submitRating`: persistence only. The rating arithmetic is modelled.
- Mongoose queries and the database recommendation caches: database reads, the cached recommendation entries included, are the fields of a `Db` datatype.
- The in-process caches of the two recommenders: the early return on a process-cache hit (backend/ml/mentorRecommender.js:74-81, backend/ml/skillRecommender.js:76-83) and the `processCache.set` after a computation (backend/ml/mentorRecommender.js:156, backend/ml/skillRecommender.js:113 and 137) are not modelled. `MentorRecommender.RecommendMentors` and `SkillRecommender.RecommendSkillsForUser` give the outcome of a process-cache miss; a hit would return the result stored by an earlier call with the same key unchanged.
- `Math.log10` in the popularity feature: a transcendental function. It is the parameter `logRatio`, whose range is stated.
- TF-IDF vectors and cosine similarity in backend/ml/matchmaking_model.py: a foreign library. The similarity is a parameter `sim`, and the rounding to four decimals is left abstract.
- The `ValueError` that `TfidfVectorizer.fit_transform` raises on an empty vocabulary (backend/ml/matchmaking_model.py:45-46), for goals and skills made only of English stop words: the similarity parameter is total, so the model always ranks.
- The tie order of pandas' sort: `sort_values` does not promise a stable order, while the model keeps tied candidates in their input order (`SortDesc` is stable, `Common.SortDescStable`). Which of two equally similar candidates comes first may differ.
- The sigmoid and `exp` in backend/ml/sessionSuccessModel.js: the sigmoid is a parameter. The model states the risk level and the version of whatever probability it returns.
- Model training, `trainSessionSuccessModel` in backend/ml/sessionSuccessModel.js:31-108 (run by backend/scripts/trainSessionSuccessModel.js): gradient descent over floats.
- SessionController.Cost: costs are integers here. In the source `Number(pointsCost || 1)` turns a non-numeric cost such as `"abc"` into `NaN`, which the schema's `Number` cast refuses when the session is saved (500 through `next`), and keeps a fractional cost such as `2.5`, which is charged as is and rewarded `Math.round(2.5 * 0.8)`, that is 2. Neither the `NaN` path nor fractional points are modelled.
- The `enqueue`, `dequeue` and `clear` events of backend/utils/taskQueue.js:32, 46 and 81: their listeners are code outside the queue. What each event carries (the job appended, the job removed, the number of jobs dropped) is the method's new state or result.
- The explanation text of `buildMentorFeatures` (backend/ml/featureBuilders/mentorFeatures.js:14-86): the explanation is modelled as the sequence of `Reason` values in the order the builder adds them, or `RecommendedMentor`. The strings, the numbers they interpolate (the years of experience, the rating) and the `join('; ')` are not modelled.
- Prototype-key lookups in the level-score tables: in the source `levelScores["constructor"]` yields a function. The tables are maps here, so such a level gets the default score.
- Dates that parse to `NaN`: every date is an integer timestamp.
- Common.ToLower: lower-cases ASCII letters only. JavaScript's `toLowerCase` also maps other letters (`Ä` to `ä`, the Kelvin sign to `k`), and it can change the length (`İ` becomes two code units). This reaches e-mail normalisation, trie keys, slugs (the Kelvin sign slugs to `k` in the source and to nothing here) and every case-insensitive name match, none of which is modelled outside ASCII.
- `countPriorSessions`: a database count, passed as the parameter `prior`.
- Regular-expression matching of mentors by skill: the caller supplies the matching mentors.
- `bulkUpsert`: a database batch write.
- Cookie names such as `__proto__`: the cookie jar is a map from names to values, so no name is special.
- `clearAllCaches` and `getStats`: operational helpers over process caches.
- Concurrency between requests: every handler runs alone on the state it is given.
- Interval-tree and trie nodes: they are datatype values inside a class field rather than shared mutable node objects, so aliasing between nodes is not modelled.
- SimpleCache.Put: its contract gives only the order of the keys. What a later lookup returns is proved in `SimpleCache.PutLookup`.
- MentorFeatures.ActivityRecency: the upper bound of 1 assumes `lastSeen` is not in the future. The source does not cap a future date.
- SkillFeatures.Recency: the upper bound of 1 assumes the skill's date is not in the future, as above.
- MentorFeatures.SuccessStreak: the fallback branch is not capped at 1, as in the source (`MentorFeatures.StreakFallbackUncapped`).

## Findings

| source | as written | input that shows it | evidently intended | confidence | as-written member | corrected member |
|---|---|---|---|---|---|---|
| backend/controllers/userSkillController.js:31-37 | the duplicate check compares the name as sent, but the schema stores it trimmed | "java" is listed and " java" is added | no name is listed twice after trimming | not executed | UserSkill.AddStep, UserSkill.PaddedNameSlipsPast | UserSkill.AddStepTrimmed, UserSkill.TrimmedAddKeepsNamesDistinct |
| backend/utils/simpleCache.js:168-171 | `clear` empties the map before it adds `this.cache.size` to `evictions`, so it adds 0 | a cache holding one entry is cleared | `evictions` grows by the number of entries dropped, as the sweep does | not executed | SimpleCache.ClearAsWritten, SimpleCache.ClearLosesEvictions | SimpleCache.ClearCounted, SimpleCache.ClearCountsLikeSweep |
| backend/utils/leaderboardHeap.js:39-45 | at capacity the new item is compared with and replaces `heap[0]`, the root of a max-heap, which is the largest score | maxSize 2, scores 1, 2, then 3 inserted: 2 is dropped and 1 kept | the smallest item is dropped, so the heap keeps the top k | not executed | LeaderboardHeap.Leaderboard.Insert, LeaderboardHeap.InsertAtCapacityDropsLeader | LeaderboardHeap.Leaderboard.InsertKeepingTop, LeaderboardHeap.DroppingMinKeepsLargest |
| backend/ml/featureBuilders/skillFeatures.js:231-249 | the pairing table is a plain object, so a taught name "constructor" finds an inherited function, and calling `.some` on it throws | a user who teaches "Constructor" | names outside the table score no complementarity | not executed | SkillFeatures.ComplementarityAsWritten, SkillFeatures.ConstructorTeacherThrows | SkillFeatures.CalculateComplementarity, SkillFeatures.AsWrittenAgreesElsewhere |
| backend/controllers/sessionController.js:246-252 | the handler re-binds `Session` to `require('../models/Session')`, the exports object `{ Session, ChatMessage }`, so `Session.findById` is not a function and throws | the learner rates an unrated completed session 4 | the rating is stored once and folded into the mentor's average | not executed | SessionController.SubmitRating, SessionController.RatingNeverStored | SessionController.SubmitRatingCorrected, SessionController.RatedOnce |

=== FILE: auth.dfy ===
/**
 * The decision logic of the authentication controller: the access-token
 * lifetime, cookie options, the registration, profile-update and
 * password-recovery guards, and the security-question lockout. Password
 * hashing is modelled by storing the normalised answer itself, so that
 * `bcrypt.compare` becomes equality; the clock is the parameter `now`.
 */
module Auth {
  import opened Common
  import TokenService

  const MinuteMs: int := 60 * 1000

  // ---------------------------------------------------------------------------
  // parseAccessTTLMs and cookieOptions

  /**
   * `parseAccessTTLMs(ttl)`: a falsy argument and any form without a `d`,
   * `h` or `m` suffix give fifteen minutes; `None` is `NaN`.
   */
  function ParseAccessTtlMs(ttl: Option<string>): (r: Option<int>)
    ensures r.None? ==> ttl.Some? && |ttl.value| > 0 && TokenService.LeadingCount(ttl.value).None?
  {
    if ttl.None? || ttl.value == [] then Some(15 * MinuteMs)
    else
      var t := ttl.value;
      if EndsWith(t, "d") then TokenService.Scale(TokenService.LeadingCount(t), 24 * 60 * MinuteMs)
      else if EndsWith(t, "h") then TokenService.Scale(TokenService.LeadingCount(t), 60 * MinuteMs)
      else if EndsWith(t, "m") then TokenService.Scale(TokenService.LeadingCount(t), MinuteMs)
      else Some(15 * MinuteMs)
  }

  /** `'15m'` is 900000 ms, a falsy argument too, and so is a form without a known suffix. */
  lemma AccessTtlDefaults(t: string)
    requires t != [] && t[|t| - 1] != 'd' && t[|t| - 1] != 'h' && t[|t| - 1] != 'm'
    ensures ParseAccessTtlMs(None) == Some(900000) && ParseAccessTtlMs(Some("")) == Some(900000)
    ensures ParseAccessTtlMs(Some(t)) == Some(900000)
  {
    assert !EndsWith(t, "d") && !EndsWith(t, "h") && !EndsWith(t, "m");
  }

  /**
   * The access parser and the refresh-token parser agree on every setting
   * with a `d`, `h` or `m` suffix, and differ on every other non-empty one:
   * fifteen minutes here, seven days there.
   */
  lemma TtlParsersCompared(t: string)
    requires t != []
    ensures EndsWith(t, "d") || EndsWith(t, "h") || EndsWith(t, "m") ==>
      ParseAccessTtlMs(Some(t)) == TokenService.RefreshTtlMs(Some(t))
    ensures !(EndsWith(t, "d") || EndsWith(t, "h") || EndsWith(t, "m")) ==>
      ParseAccessTtlMs(Some(t)) == Some(900000) && TokenService.RefreshTtlMs(Some(t)) == Some(604800000)
  {
  }

  datatype SameSite = Lax | NoneSameSite

  datatype CookieOptions = CookieOptions(httpOnly: bool, secure: bool, sameSite: SameSite,
                                         maxAge: Option<int>, domain: Option<string>)

  /**
   * `cookieOptions(maxAgeMs)`: always `httpOnly`; `secure` iff
   * `COOKIE_SECURE === 'true'`, and then `sameSite` is `'none'`, else `'lax'`;
   * `domain` only for a non-empty `COOKIE_DOMAIN`.
   */
  function MakeCookieOptions(maxAge: Option<int>, secureEnv: Option<string>,
                             domainEnv: Option<string>): (o: CookieOptions)
    ensures o.httpOnly && o.maxAge == maxAge
    ensures o.secure <==> secureEnv == Some("true")
    ensures o.sameSite == NoneSameSite <==> o.secure
    ensures o.domain.Some? <==> domainEnv.Some? && domainEnv.value != []
    ensures o.domain.Some? ==> o.domain == domainEnv
  {
    var secure := secureEnv == Some("true");
    CookieOptions(true, secure, if secure then NoneSameSite else Lax, maxAge,
                  if domainEnv.Some? && domainEnv.value != [] then domainEnv else None)
  }

  // ---------------------------------------------------------------------------
  // register

  datatype UserRecord = UserRecord(name: string, email: string, securityQuestion: string,
                                   answer: Option<string>)

  datatype RegisterRequest = RegisterRequest(name: string, email: string, password: string,
                                             securityQuestion: string, securityAnswer: string)

  datatype RegisterOutcome =
    | BodyInvalid              // 400 with the route validators' errors
    | MissingFields            // 400 'Name, email, and password are required'
    | InvalidEmail             // 400 from the strict e-mail validation
    | PatternError             // 500: `new RegExp('^' + name + '$', 'i')` throws
    | NameTaken                // 400 'Name already taken'
    | EmailTaken               // 400 'Email already registered'
    | SaveInvalid              // 500: the schema's `required` refuses a blank trimmed name or e-mail
    | DuplicateKey             // 400 from the unique index on the stored e-mail
    | Registered(user: UserRecord)

  /** `!name || !email || !password` is false. */
  predicate FieldsPresent(req: RegisterRequest)
  {
    req.name != [] && req.email != [] && req.password != []
  }

  /** The name query finds a stored user. */
  predicate NameClash(users: seq<UserRecord>, test: string -> bool)
  {
    exists k :: 0 <= k < |users| && test(users[k].name)
  }

  /** Some stored user has exactly this address. */
  predicate EmailListed(users: seq<UserRecord>, email: string)
  {
    exists k :: 0 <= k < |users| && users[k].email == email
  }

  /** Every check before `user.save()` passes. */
  predicate ReachesSave(users: seq<UserRecord>, req: RegisterRequest, validatorsPassed: bool, emailValid: bool,
                        nameTest: Option<string -> bool>)
  {
    && validatorsPassed && FieldsPresent(req) && emailValid && nameTest.Some?
    && !NameClash(users, nameTest.value) && !EmailListed(users, ToLower(req.email))
  }

  /**
   * `register`. `validatorsPassed` is the outcome of the route's validators
   * and `emailValid` that of the strict (DNS) e-mail check. The name is pasted
   * unescaped into a case-insensitive regular expression: `nameTest` is that
   * expression's test on a stored name, or `None` when the text is not a
   * valid pattern and the constructor throws into the `catch` (500). The
   * e-mail check compares the lower-cased, untrimmed address, while the
   * document is saved with both fields trimmed: a field that trims to nothing
   * fails `required` (500), and a clash that only the trimmed address
   * reveals is caught by the unique index.
   */
  function Register(users: seq<UserRecord>, req: RegisterRequest, validatorsPassed: bool, emailValid: bool,
                    nameTest: Option<string -> bool>): (r: RegisterOutcome)
    ensures r == BodyInvalid <==> !validatorsPassed
    ensures r == MissingFields <==> validatorsPassed && !FieldsPresent(req)
    ensures r == InvalidEmail <==> validatorsPassed && FieldsPresent(req) && !emailValid
    ensures r == PatternError <==> validatorsPassed && FieldsPresent(req) && emailValid && nameTest.None?
    ensures r == NameTaken <==>
      validatorsPassed && FieldsPresent(req) && emailValid && nameTest.Some? && NameClash(users, nameTest.value)
    ensures r == EmailTaken <==>
      && validatorsPassed && FieldsPresent(req) && emailValid && nameTest.Some? && !NameClash(users, nameTest.value)
      && EmailListed(users, ToLower(req.email))
    ensures r == SaveInvalid <==>
      ReachesSave(users, req, validatorsPassed, emailValid, nameTest)
      && (Trim(req.name) == [] || Trim(ToLower(req.email)) == [])
    ensures r == DuplicateKey <==>
      && ReachesSave(users, req, validatorsPassed, emailValid, nameTest)
      && Trim(req.name) != [] && Trim(ToLower(req.email)) != []
      && EmailListed(users, Trim(ToLower(req.email)))
    ensures r.Registered? <==>
      && ReachesSave(users, req, validatorsPassed, emailValid, nameTest)
      && Trim(req.name) != [] && Trim(ToLower(req.email)) != []
      && !EmailListed(users, Trim(ToLower(req.email)))
    ensures r.Registered? ==>
      && r.user.name == Trim(req.name) && r.user.name != []
      && r.user.email == Trim(ToLower(req.email)) && r.user.email != []
      && forall k :: 0 <= k < |users| ==> !nameTest.value(users[k].name) && users[k].email != r.user.email
    ensures r.Registered? ==>
      (r.user.answer.Some? <==> req.securityQuestion != [] && req.securityAnswer != [])
    ensures r.Registered? && r.user.answer.Some? ==> r.user.answer.value == Normalize(req.securityAnswer)
  {
    if !validatorsPassed then BodyInvalid
    else if req.name == [] || req.email == [] || req.password == [] then MissingFields
    else if !emailValid then InvalidEmail
    else if nameTest.None? then PatternError
    else if exists k :: 0 <= k < |users| && nameTest.value(users[k].name) then NameTaken
    else if exists k :: 0 <= k < |users| && users[k].email == ToLower(req.email) then EmailTaken
    else
      var email := Trim(ToLower(req.email));
      if Trim(req.name) == [] || email == [] then SaveInvalid
      else if exists k :: 0 <= k < |users| && users[k].email == email then DuplicateKey
      else
        var hasAnswer := req.securityQuestion != [] && req.securityAnswer != [];
        Registered(UserRecord(Trim(req.name), email, if hasAnswer then req.securityQuestion else [],
                              if hasAnswer then Some(Normalize(req.securityAnswer)) else None))
  }

  /**
   * The stored address is the canonical one: trimmed and lower-cased, in
   * either order.
   */
  lemma RegisteredEmailIsNormalized(users: seq<UserRecord>, req: RegisterRequest, validatorsPassed: bool,
                                    emailValid: bool, nameTest: Option<string -> bool>)
    requires Register(users, req, validatorsPassed, emailValid, nameTest).Registered?
    ensures Register(users, req, validatorsPassed, emailValid, nameTest).user.email == Normalize(req.email)
  {
    TrimLower(req.email);
  }

  /**
   * When the name holds no pattern syntax, so that the expression matches
   * exactly the stored names equal to it up to ASCII case, the name check is
   * the intended case-insensitive comparison and a registered user's name
   * differs in case-folded form from every stored one.
   */
  lemma {:induction false} LiteralNameIsCaseInsensitive(users: seq<UserRecord>, req: RegisterRequest,
                                                        validatorsPassed: bool, emailValid: bool)
    ensures var r := Register(users, req, validatorsPassed, emailValid,
                              Some((n: string) => ToLower(n) == ToLower(req.name)));
      && (r == NameTaken <==>
            validatorsPassed && req.name != [] && req.email != [] && req.password != [] && emailValid
            && exists k :: 0 <= k < |users| && ToLower(users[k].name) == ToLower(req.name))
      && (r.Registered? ==> forall k :: 0 <= k < |users| ==> ToLower(users[k].name) != ToLower(req.name))
  {
    var test := (n: string) => ToLower(n) == ToLower(req.name);
    forall k | 0 <= k < |users|
      ensures test(users[k].name) == (ToLower(users[k].name) == ToLower(req.name))
    {
    }
  }

  // ---------------------------------------------------------------------------
  // updateMe

  /** A request-body value, by its JavaScript type. */
  datatype BodyValue =
    | Str(s: string)
    | Num(x: int)
    | Items(items: seq<(string, Option<string>)>)   // an array of `{url, description}`
    | OtherValue

  datatype FieldUpdate = SetText(text: string) | SetNumber(n: int) | SetItems(items: seq<(string, string)>)

  /** The trimmed string fields other than `name`. */
  const TextFields: set<string> :=
    {"avatarUrl", "bio", "location", "github", "linkedin", "twitter", "website", "title", "roadmapGoal"}

  const ItemFields: set<string> := {"demoVideos", "projectFiles"}

  predicate Whitelisted(field: string)
  {
    field == "name" || field in TextFields || field == "yearsOfExperience" || field in ItemFields
  }

  /** Whether a body entry produces an update. */
  predicate Qualifies(field: string, v: BodyValue)
  {
    if field == "name" then v.Str? && Trim(v.s) != []
    else if field in TextFields then v.Str?
    else if field == "yearsOfExperience" then v.Num?
    else if field in ItemFields then v.Items?
    else false
  }

  function UpdateValue(field: string, v: BodyValue): FieldUpdate
    requires Qualifies(field, v)
  {
    if v.Str? then SetText(Trim(v.s))
    else if v.Num? then SetNumber(v.x)
    else SetItems(seq(|v.items|, i requires 0 <= i < |v.items| =>
                        (v.items[i].0, if v.items[i].1.Some? then v.items[i].1.value else [])))
  }

  /**
   * `updateMe`: only whitelisted fields of the right type are kept, strings
   * trimmed, `name` only when non-empty after trimming, media items with their
   * description defaulting to `''`; `None` is the 400 for an empty update.
   */
  function UpdateMe(body: map<string, BodyValue>): (r: Option<map<string, FieldUpdate>>)
    ensures r.None? <==> forall f :: f in body ==> !Qualifies(f, body[f])
    ensures r.Some? ==> forall f :: f in r.value ==> Whitelisted(f) && f in body && Qualifies(f, body[f])
    ensures r.Some? ==> forall f :: f in body && Qualifies(f, body[f]) ==> f in r.value
    ensures r.Some? ==> forall f :: f in r.value && r.value[f].SetText? ==>
      f in body && body[f].Str? && r.value[f].text == Trim(body[f].s) && (f == "name" ==> r.value[f].text != [])
  {
    var updates := map f | f in body && Qualifies(f, body[f]) :: UpdateValue(f, body[f]);
    assert forall f :: f in body && Qualifies(f, body[f]) ==> f in updates;
    if updates == map[] then None else Some(updates)
  }

  // ---------------------------------------------------------------------------
  // Security question and lockout

  /** The recovery-related fields of a user document. */
  datatype Account = Account(email: string, securityQuestion: string, answer: Option<string>,
                             attempts: int, lockoutUntil: Option<int>, password: string)

  const LockoutMs: int := 15 * 60 * 1000
  const MaxAttempts: int := 5

  /** `updateSecuritySettings`: a new question and answer clear attempts and lockout. */
  function UpdateSecuritySettings(a: Account, question: string, answer: string): (r: Option<Account>)
    ensures r.None? <==> question == [] || answer == []
    ensures r.Some? ==> r.value == a.(securityQuestion := question, answer := Some(Normalize(answer)),
                                      attempts := 0, lockoutUntil := None)
  {
    if question == [] || answer == [] then None
    else Some(a.(securityQuestion := question, answer := Some(Normalize(answer)), attempts := 0,
                 lockoutUntil := None))
  }

  datatype RecoveryOutcome =
    | RecoveryMissingFields    // 400 'Missing fields'
    | PasswordTooShort         // 400 'Password too short'
    | RecoveryUnavailable      // 400, no user or no question/answer on file
    | TooManyAttempts          // 429 while the lockout lasts
    | IncorrectAnswer          // 400, attempts counted
    | PasswordReset

  predicate LockedAt(a: Account, now: int)
  {
    a.lockoutUntil.Some? && a.lockoutUntil.value > now
  }

  /** The account after one wrong answer: five in a row lock it for fifteen minutes. */
  function WrongAnswer(a: Account, now: int): (r: Account)
    ensures a.attempts + 1 >= MaxAttempts ==> r.attempts == 0 && r.lockoutUntil == Some(now + LockoutMs)
    ensures a.attempts + 1 < MaxAttempts ==> r.attempts == a.attempts + 1 && r.lockoutUntil == a.lockoutUntil
    ensures r == a.(attempts := r.attempts, lockoutUntil := r.lockoutUntil)
  {
    var n := a.attempts + 1;
    if n >= MaxAttempts then a.(attempts := 0, lockoutUntil := Some(now + LockoutMs))
    else a.(attempts := n)
  }

  /**
   * `resetPasswordViaQuestion`: field and length checks first, then the
   * account, then the lockout, and only then the answer.
   */
  function ResetViaQuestion(acct: Option<Account>, email: string, answer: string, newPassword: string,
                            now: int): (r: (RecoveryOutcome, Option<Account>))
    ensures r.0 != PasswordReset && r.0 != IncorrectAnswer ==> r.1 == acct
    ensures r.0 == PasswordReset <==>
      && email != [] && answer != [] && |newPassword| >= 6
      && acct.Some? && acct.value.securityQuestion != [] && acct.value.answer.Some?
      && !LockedAt(acct.value, now) && acct.value.answer.value == Normalize(answer)
    ensures r.0 == PasswordReset ==>
      r.1 == Some(acct.value.(password := newPassword, attempts := 0, lockoutUntil := None))
    ensures r.0 == IncorrectAnswer ==> acct.Some? && r.1 == Some(WrongAnswer(acct.value, now))
    ensures r.0 == TooManyAttempts <==>
      && email != [] && answer != [] && |newPassword| >= 6
      && acct.Some? && acct.value.securityQuestion != [] && acct.value.answer.Some?
      && LockedAt(acct.value, now)
  {
    if email == [] || answer == [] || newPassword == [] then (RecoveryMissingFields, acct)
    else if |newPassword| < 6 then (PasswordTooShort, acct)
    else if acct.None? || acct.value.securityQuestion == [] || acct.value.answer.None? then
      (RecoveryUnavailable, acct)
    else
      var a := acct.value;
      if LockedAt(a, now) then (TooManyAttempts, acct)
      else if a.answer.value != Normalize(answer) then (IncorrectAnswer, Some(WrongAnswer(a, now)))
      else (PasswordReset, Some(a.(password := newPassword, attempts := 0, lockoutUntil := None)))
  }

  /** The answer check is case-insensitive: an answer set as "Fluffy" is accepted as "FLUFFY". */
  lemma AnswerIgnoresCase(a: Account, question: string, newPassword: string, now: int)
    requires question != [] && |newPassword| >= 6 && a.email != []
    ensures var updated := UpdateSecuritySettings(a, question, "Fluffy").value;
      ResetViaQuestion(Some(updated), a.email, "FLUFFY", newPassword, now).0 == PasswordReset
  {
    var stored, given := "Fluffy", "FLUFFY";
    SameLetters();
    NormalizeIgnoresCase(stored, given);
    SettingsThenRecovery(a, question, stored, given, newPassword, now);
  }

  lemma SameLetters()
    ensures ToLower("Fluffy") == ToLower("FLUFFY")
  {
    assert ToLower("Fluffy") == "fluffy";
    assert ToLower("FLUFFY") == "fluffy";
  }

  /** After new security settings, recovery succeeds exactly for answers equal up to case and padding. */
  lemma SettingsThenRecovery(a: Account, question: string, answer: string, given: string,
                             newPassword: string, now: int)
    requires question != [] && answer != [] && given != [] && |newPassword| >= 6 && a.email != []
    ensures var updated := UpdateSecuritySettings(a, question, answer).value;
      ResetViaQuestion(Some(updated), a.email, given, newPassword, now).0 == PasswordReset
      <==> Normalize(given) == Normalize(answer)
  {
  }

  /** The attempt counter stays below five. */
  lemma AttemptsStayBelowMax(acct: Account, email: string, answer: string, newPassword: string, now: int)
    requires 0 <= acct.attempts < MaxAttempts
    ensures var r := ResetViaQuestion(Some(acct), email, answer, newPassword, now);
      r.1.Some? && 0 <= r.1.value.attempts < MaxAttempts
  {
  }

  /** The account after `n` consecutive wrong answers at times `times[..n]`. */
  function WrongAnswers(a: Account, times: seq<int>, n: nat): Account
    requires n <= |times|
  {
    if n == 0 then a else WrongAnswer(WrongAnswers(a, times, n - 1), times[n - 1])
  }

  lemma {:induction false} WrongAnswersCount(a: Account, times: seq<int>, n: nat)
    requires a.attempts == 0 && n <= |times| && n < MaxAttempts
    ensures WrongAnswers(a, times, n) == a.(attempts := n)
  {
    if n > 0 {
      WrongAnswersCount(a, times, n - 1);
    }
  }

  /**
   * Five wrong answers in a row, from a fresh counter, lock the account: for
   * fifteen minutes after the fifth one even the right answer gets 429.
   */
  lemma FifthWrongAnswerLocks(a: Account, times: seq<int>, answer: string, newPassword: string, now: int)
    requires a.attempts == 0 && |times| == MaxAttempts
    requires a.securityQuestion != [] && a.answer.Some? && a.email != []
    requires answer != [] && |newPassword| >= 6
    requires times[MaxAttempts - 1] <= now < times[MaxAttempts - 1] + LockoutMs
    ensures WrongAnswers(a, times, MaxAttempts).attempts == 0
    ensures ResetViaQuestion(Some(WrongAnswers(a, times, MaxAttempts)), a.email, answer, newPassword, now).0
            == TooManyAttempts
  {
    WrongAnswersCount(a, times, MaxAttempts - 1);
    var fourth := WrongAnswers(a, times, MaxAttempts - 1);
    assert WrongAnswers(a, times, MaxAttempts) == WrongAnswer(fourth, times[MaxAttempts - 1]);
    assert WrongAnswers(a, times, MaxAttempts).lockoutUntil == Some(times[MaxAttempts - 1] + LockoutMs);
  }

  // ---------------------------------------------------------------------------
  // forgotPassword and resetPassword

  /** `LEGACY_CUTOFF_DATE`, 2026-01-18T00:00:00Z, in milliseconds since the epoch. */
  const LegacyCutoff: int := 1768694400000

  const ResetWindowMs: int := 3600000

  datatype ResetFields = ResetFields(isVerified: bool, createdAt: int, resetToken: Option<string>,
                                     resetExpires: Option<int>, password: string)

  datatype ForgotOutcome =
    | EmailRequired            // 400
    | GenericReply             // 200 without revealing whether the user exists
    | MustVerifyFirst          // 403 for a new, unverified account
    | ResetLinkSent(token: string)   // 200, the same reply text as GenericReply

  /** `forgotPassword`: `token` is the random hex token. */
  function ForgotPassword(email: string, user: Option<ResetFields>, now: int, token: string)
    : (r: (ForgotOutcome, Option<ResetFields>))
    ensures r.0 == EmailRequired <==> email == []
    ensures r.0 == GenericReply <==> email != [] && user.None?
    ensures r.0 == MustVerifyFirst <==>
      email != [] && user.Some? && !user.value.isVerified && user.value.createdAt > LegacyCutoff
    ensures r.0.ResetLinkSent? ==>
      user.Some? && r.1 == Some(user.value.(resetToken := Some(token), resetExpires := Some(now + ResetWindowMs)))
    ensures !r.0.ResetLinkSent? ==> r.1 == user
  {
    if email == [] then (EmailRequired, user)
    else if user.None? then (GenericReply, user)
    else if !user.value.isVerified && user.value.createdAt > LegacyCutoff then (MustVerifyFirst, user)
    else (ResetLinkSent(token), Some(user.value.(resetToken := Some(token),
                                                 resetExpires := Some(now + ResetWindowMs))))
  }

  datatype ResetOutcome = InvalidOrExpired | ShortPassword | PasswordUpdated

  /**
   * `resetPassword`: the token must match and its expiry lie strictly in the
   * future; the length of the new password is checked only after that.
   */
  function ResetPassword(user: ResetFields, token: string, newPassword: string, now: int)
    : (r: (ResetOutcome, ResetFields))
    ensures r.0 == InvalidOrExpired <==>
      !(user.resetToken == Some(token) && user.resetExpires.Some? && user.resetExpires.value > now)
    ensures r.0 == PasswordUpdated ==>
      |newPassword| >= 6 && r.1 == user.(password := newPassword, resetToken := None, resetExpires := None)
    ensures r.0 != PasswordUpdated ==> r.1 == user
  {
    if !(user.resetToken == Some(token) && user.resetExpires.Some? && user.resetExpires.value > now) then
      (InvalidOrExpired, user)
    else if |newPassword| < 6 then (ShortPassword, user)
    else (PasswordUpdated, user.(password := newPassword, resetToken := None, resetExpires := None))
  }

  /** A reset link works for one hour, once. */
  lemma ResetLinkLifetime(user: ResetFields, email: string, issued: int, token: string,
                          newPassword: string, now: int)
    requires ForgotPassword(email, Some(user), issued, token).0.ResetLinkSent?
    requires |newPassword| >= 6
    ensures var u := ForgotPassword(email, Some(user), issued, token).1.value;
      (ResetPassword(u, token, newPassword, now).0 == PasswordUpdated <==> now < issued + ResetWindowMs)
      && (now < issued + ResetWindowMs ==>
            ResetPassword(ResetPassword(u, token, newPassword, now).1, token, newPassword, now).0
            == InvalidOrExpired)
  {
  }
}

=== FILE: common.dfy ===
/**
 * Helpers shared by every module: optional values, the JavaScript string
 * primitives the backend relies on (ASCII `toLowerCase`, `trim`, `includes`,
 * `parseInt`, `Array.prototype.join`, `slice`), a stable descending sort
 * (the behaviour of `Array.prototype.sort` with a `b - a` comparator) and
 * the `Math.max(0, Math.min(1, x))` clamp.
 */
module Common {

  datatype Option<T> = None | Some(value: T)

  /** The HTTP status of a handler's reply: 200, 201, 400, 403, 404, 409, or an error passed to `next`. */
  datatype Reply = Ok | Created | BadRequest | Forbidden | NotFound | Conflict | ServerError

  // ---------------------------------------------------------------------------
  // Characters and case

  predicate IsUpperAscii(c: char) { 'A' <= c <= 'Z' }

  predicate IsDigit(c: char) { '0' <= c <= '9' }

  predicate IsLowerAlnum(c: char) { 'a' <= c <= 'z' || IsDigit(c) }

  /** `toLowerCase` on one character, restricted to ASCII letters. */
  function LowerChar(c: char): char
  {
    if IsUpperAscii(c) then (c as int + 32) as char else c
  }

  /** `String.prototype.toLowerCase`, ASCII letters only. */
  function ToLower(s: string): (r: string)
    ensures |r| == |s|
    ensures forall i :: 0 <= i < |s| ==> r[i] == LowerChar(s[i])
  {
    seq(|s|, i requires 0 <= i < |s| => LowerChar(s[i]))
  }

  lemma ToLowerIdempotent(s: string)
    ensures ToLower(ToLower(s)) == ToLower(s)
  {
  }

  /** The WhiteSpace and LineTerminator code points that `trim` and `parseInt` skip. */
  predicate IsJsWhitespace(c: char)
  {
    c == ' ' || c == '\t' || c == '\n' || c == '\r' || c == '\U{000B}' || c == '\U{000C}'
    || c == '\U{00A0}' || c == '\U{1680}' || ('\U{2000}' <= c <= '\U{200A}')
    || c == '\U{2028}' || c == '\U{2029}' || c == '\U{202F}' || c == '\U{205F}'
    || c == '\U{3000}' || c == '\U{FEFF}'
  }

  function TrimStart(s: string): (r: string)
    ensures |r| <= |s| && r == s[|s| - |r|..]
    ensures |r| > 0 ==> !IsJsWhitespace(r[0])
    ensures forall i :: 0 <= i < |s| - |r| ==> IsJsWhitespace(s[i])
  {
    if |s| > 0 && IsJsWhitespace(s[0]) then TrimStart(s[1..]) else s
  }

  function TrimEnd(s: string): (r: string)
    ensures |r| <= |s| && r == s[..|r|]
    ensures |r| > 0 ==> !IsJsWhitespace(r[|r| - 1])
    ensures forall i :: |r| <= i < |s| ==> IsJsWhitespace(s[i])
  {
    if |s| > 0 && IsJsWhitespace(s[|s| - 1]) then TrimEnd(s[..|s| - 1]) else s
  }

  /** `String.prototype.trim`. */
  function Trim(s: string): (r: string)
    ensures |r| <= |s|
    ensures |r| > 0 ==> !IsJsWhitespace(r[0]) && !IsJsWhitespace(r[|r| - 1])
  {
    TrimEnd(TrimStart(s))
  }

  lemma WhitespaceUnderLower(c: char)
    ensures IsJsWhitespace(LowerChar(c)) <==> IsJsWhitespace(c)
  {
  }

  lemma {:induction false} TrimStartLower(s: string)
    ensures TrimStart(ToLower(s)) == ToLower(TrimStart(s))
  {
    if |s| > 0 {
      WhitespaceUnderLower(s[0]);
      if IsJsWhitespace(s[0]) {
        assert ToLower(s)[1..] == ToLower(s[1..]);
        TrimStartLower(s[1..]);
      }
    }
  }

  lemma {:induction false} TrimEndLower(s: string)
    ensures TrimEnd(ToLower(s)) == ToLower(TrimEnd(s))
  {
    if |s| > 0 {
      var l, init := ToLower(s), s[..|s| - 1];
      WhitespaceUnderLower(s[|s| - 1]);
      assert l[|l| - 1] == LowerChar(s[|s| - 1]);
      if IsJsWhitespace(s[|s| - 1]) {
        assert l[..|l| - 1] == ToLower(init);
        assert TrimEnd(l) == TrimEnd(ToLower(init));
        TrimEndLower(init);
      }
    }
  }

  /** A string holding a character other than whitespace does not trim to nothing. */
  lemma NonSpaceSurvivesTrim(s: string, i: int)
    requires 0 <= i < |s| && !IsJsWhitespace(s[i])
    ensures Trim(s) != []
  {
    var t := TrimStart(s);
    assert |s| - |t| <= i;
    assert t[i - (|s| - |t|)] == s[i];
  }

  /** Text that neither starts nor ends with white space is its own trim. */
  lemma TrimUnpadded(s: string)
    requires |s| > 0 && !IsJsWhitespace(s[0]) && !IsJsWhitespace(s[|s| - 1])
    ensures Trim(s) == s
  {
    assert TrimStart(s) == s;
  }

  /** Lower-casing and trimming commute: `toLowerCase().trim()` is `trim().toLowerCase()`. */
  lemma TrimLower(s: string)
    ensures Trim(ToLower(s)) == ToLower(Trim(s))
  {
    TrimStartLower(s);
    TrimEndLower(TrimStart(s));
  }

  /** Two texts that differ only in letter case normalise to the same text. */
  lemma NormalizeIgnoresCase(a: string, b: string)
    requires ToLower(a) == ToLower(b)
    ensures Normalize(a) == Normalize(b)
  {
    TrimLower(a);
    TrimLower(b);
  }

  lemma TrimIdempotent(s: string)
    ensures Trim(Trim(s)) == Trim(s)
  {
    var t := Trim(s);
    if |t| > 0 {
      assert TrimStart(t) == t;
    }
  }

  /** Normalising twice is normalising once. */
  lemma NormalizeIdempotent(s: string)
    ensures Normalize(Normalize(s)) == Normalize(s)
  {
    TrimLower(Trim(s));
    TrimIdempotent(s);
    ToLowerIdempotent(Trim(s));
  }

  /** `trim().toLowerCase()`, the normalisation applied to emails, answers and skill names. */
  function Normalize(s: string): string
  {
    ToLower(Trim(s))
  }

  // ---------------------------------------------------------------------------
  // Substrings

  predicate StartsWith(s: string, p: string) { |p| <= |s| && s[..|p|] == p }

  predicate EndsWith(s: string, p: string) { |p| <= |s| && s[|s| - |p|..] == p }

  /** `s.includes(p)`. */
  predicate Includes(s: string, p: string)
  {
    exists i | 0 <= i <= |s| - |p| :: OccursAt(s, p, i)
  }

  predicate OccursAt(s: string, p: string, i: int)
  {
    0 <= i && i + |p| <= |s| && s[i..i + |p|] == p
  }

  lemma IncludesSelf(s: string)
    ensures Includes(s, s)
  {
    assert OccursAt(s, s, 0);
  }

  /** `Array.prototype.join(sep)` (and Python's `sep.join`). */
  function Join(parts: seq<string>, sep: string): (r: string)
    ensures parts == [] ==> r == []
    ensures |parts| == 1 ==> r == parts[0]
  {
    if |parts| == 0 then []
    else if |parts| == 1 then parts[0]
    else parts[0] + sep + Join(parts[1..], sep)
  }

  /** `String.prototype.split(sep)` for a one-character separator. */
  function Split(s: string, sep: char): (r: seq<string>)
    ensures |r| >= 1
  {
    if |s| == 0 then [[]]
    else
      var rest := Split(s[1..], sep);
      if s[0] == sep then [[]] + rest else [[s[0]] + rest[0]] + rest[1..]
  }

  lemma {:induction false} SplitJoin(s: string, sep: char)
    ensures Join(Split(s, sep), [sep]) == s
  {
    if |s| > 0 {
      SplitJoin(s[1..], sep);
      var rest := Split(s[1..], sep);
      if s[0] == sep {
        assert s == [sep] + s[1..];
      } else {
        if |rest| == 1 {
          assert Split(s, sep) == [[s[0]] + rest[0]];
        } else {
          assert Split(s, sep)[1..] == rest[1..];
        }
      }
    }
  }

  // ---------------------------------------------------------------------------
  // Numbers

  function DigitValue(c: char): nat requires IsDigit(c) { c as int - '0' as int }

  /** The longest prefix of `s` made of decimal digits. */
  function DigitPrefix(s: string): (r: string)
    ensures |r| <= |s| && r == s[..|r|]
    ensures forall i :: 0 <= i < |r| ==> IsDigit(r[i])
    ensures |r| < |s| ==> !IsDigit(s[|r|])
  {
    if |s| > 0 && IsDigit(s[0]) then [s[0]] + DigitPrefix(s[1..]) else []
  }

  /** The value of a string of decimal digits, most significant first. */
  function DecValue(d: string): nat
    requires forall i :: 0 <= i < |d| ==> IsDigit(d[i])
  {
    if |d| == 0 then 0 else 10 * DecValue(d[..|d| - 1]) + DigitValue(d[|d| - 1])
  }

  /**
   * `parseInt(s, 10)`: leading white space is skipped, an optional sign is
   * read, and the longest decimal digit prefix is converted. `None` stands
   * for `NaN`.
   */
  function ParseInt10(s: string): Option<int>
  {
    var t := TrimStart(s);
    var negative := |t| > 0 && t[0] == '-';
    var body := if |t| > 0 && (t[0] == '-' || t[0] == '+') then t[1..] else t;
    ParseDecimal(negative, body)
  }

  function ParseDecimal(negative: bool, body: string): Option<int>
  {
    var d := DigitPrefix(body);
    if |d| == 0 then None else Some(if negative then 0 - DecValue(d) as int else DecValue(d) as int)
  }

  predicate AllDigits(d: string) { forall i :: 0 <= i < |d| ==> IsDigit(d[i]) }

  lemma {:induction false} DigitPrefixOfDigits(d: string, rest: string)
    requires AllDigits(d)
    requires |rest| > 0 ==> !IsDigit(rest[0])
    ensures DigitPrefix(d + rest) == d
  {
    if |d| > 0 {
      assert (d + rest)[1..] == d[1..] + rest;
      DigitPrefixOfDigits(d[1..], rest);
    } else {
      assert d + rest == rest;
    }
  }

  /** A single leading digit followed by a non-digit reads as that digit. */
  lemma SingleDigitParse(d: char, rest: string)
    requires IsDigit(d)
    requires |rest| > 0 ==> !IsDigit(rest[0])
    ensures ParseInt10([d] + rest) == Some(d as int - '0' as int)
  {
    var s := [d] + rest;
    assert s[0] == d;
    DigitStartsNumber(s);
    assert AllDigits([d]);
    DigitPrefixOfDigits([d], rest);
    DecValueSingle(d);
    assert ParseInt10(s) == ParseDecimal(false, s);
  }

  lemma DecValueSingle(d: char)
    requires IsDigit(d)
    ensures DecValue([d]) == d as int - '0' as int
  {
    assert [d][..0] == [];
  }

  lemma DigitStartsNumber(s: string)
    requires |s| > 0 && IsDigit(s[0])
    ensures TrimStart(s) == s && s[0] != '-' && s[0] != '+'
  {
    assert !IsJsWhitespace(s[0]);
  }

  /** `parseInt(s, 10)` reads a plain run of decimal digits followed by a non-digit. */
  lemma ParseIntDigits(d: string, rest: string)
    requires |d| > 0 && AllDigits(d)
    requires |rest| > 0 ==> !IsDigit(rest[0])
    ensures ParseInt10(d + rest) == Some(DecValue(d))
  {
    var s := d + rest;
    assert s[0] == d[0];
    DigitStartsNumber(s);
    DigitPrefixOfDigits(d, rest);
  }

  /** Decimal rendering of a natural number (`String(n)`). */
  function NatToString(n: nat): (r: string)
    ensures |r| > 0 && AllDigits(r)
    ensures DecValue(r) == n
  {
    if n < 10 then [('0' as int + n) as char]
    else
      var r := NatToString(n / 10) + [('0' as int + n % 10) as char];
      assert r[..|r| - 1] == NatToString(n / 10);
      r
  }

  lemma {:induction false} NatToStringLength(n: nat, k: nat)
    requires Pow10(k) <= n < Pow10(k + 1)
    ensures |NatToString(n)| == k + 1
  {
    if k > 0 {
      NatToStringLength(n / 10, k - 1);
    }
  }

  function Pow10(k: nat): nat { if k == 0 then 1 else 10 * Pow10(k - 1) }

  function Min(a: int, b: int): int { if a < b then a else b }

  function Max(a: int, b: int): int { if a < b then b else a }

  function MinReal(a: real, b: real): real { if a < b then a else b }

  function MaxReal(a: real, b: real): real { if a < b then b else a }

  /** The product of two non-negative reals is non-negative. */
  lemma ProductNonNegative(x: real, y: real)
    requires x >= 0.0 && y >= 0.0
    ensures x * y >= 0.0
  {
  }

  /** `Math.round`: the nearest integer, halves rounded up. */
  function JsRound(x: real): (n: int)
    ensures n as real - 0.5 <= x < n as real + 0.5
  {
    (x + 0.5).Floor
  }

  /** `Math.max(0, Math.min(1, x))`. */
  function Clamp01(x: real): (r: real)
    ensures 0.0 <= r <= 1.0
    ensures 0.0 <= x <= 1.0 ==> r == x
    ensures x < 0.0 ==> r == 0.0
    ensures x > 1.0 ==> r == 1.0
  {
    MaxReal(0.0, MinReal(1.0, x))
  }

  /**
   * `s.slice(0, n)` in JavaScript, `s[:n]` in Python and `DataFrame.head(n)`:
   * a negative `n` counts from the end.
   */
  function SliceTo<T>(s: seq<T>, n: int): (r: seq<T>)
    ensures |r| <= |s| && r == s[..|r|]
    ensures n >= 0 ==> |r| == Min(n, |s|)
    ensures n < 0 ==> |r| == Max(0, |s| + n)
  {
    if n >= 0 then s[..Min(n, |s|)] else s[..Max(0, |s| + n)]
  }

  // ---------------------------------------------------------------------------
  // Stable sort by a key, largest key first

  ghost predicate SortedDesc<T>(s: seq<T>, key: T -> real)
  {
    forall i, j :: 0 <= i < j < |s| ==> key(s[i]) >= key(s[j])
  }

  /** Places `x` before the first element whose key is not larger than its own. */
  function InsertDesc<T>(x: T, s: seq<T>, key: T -> real): (r: seq<T>)
    ensures multiset(r) == multiset(s) + multiset{x}
    ensures |r| == |s| + 1
  {
    if |s| == 0 || key(s[0]) <= key(x) then [x] + s
    else
      assert s == [s[0]] + s[1..];
      [s[0]] + InsertDesc(x, s[1..], key)
  }

  lemma {:induction false} InsertDescSorted<T>(x: T, s: seq<T>, key: T -> real)
    requires SortedDesc(s, key)
    ensures SortedDesc(InsertDesc(x, s, key), key)
  {
    if |s| > 0 && key(s[0]) > key(x) {
      var t := InsertDesc(x, s[1..], key);
      InsertDescSorted(x, s[1..], key);
      forall k | 0 <= k < |t|
        ensures key(s[0]) >= key(t[k])
      {
        assert t[k] in multiset(t);
        if t[k] != x {
          assert t[k] in multiset(s[1..]);
        }
      }
    }
  }

  /**
   * `array.sort((a, b) => key(b) - key(a))`: ECMAScript requires the sort to
   * be stable, and inserting each element in front of its equals from the
   * back of the input keeps earlier elements ahead of later equal ones.
   */
  function SortDesc<T>(s: seq<T>, key: T -> real): (r: seq<T>)
    ensures multiset(r) == multiset(s)
    ensures |r| == |s|
    ensures SortedDesc(r, key)
  {
    if |s| == 0 then []
    else
      assert s == [s[0]] + s[1..];
      var t := SortDesc(s[1..], key);
      InsertDescSorted(s[0], t, key);
      InsertDesc(s[0], t, key)
  }

  /** Elements whose key is exactly `k`. */
  function KeyIs<T>(key: T -> real, k: real): T -> bool
  {
    x => key(x) == k
  }

  /** `filter` on a sequence with a first element. */
  lemma FilterCons<T>(x: T, s: seq<T>, p: T -> bool)
    ensures Filter([x] + s, p) == (if p(x) then [x] else []) + Filter(s, p)
  {
    assert ([x] + s)[0] == x && ([x] + s)[1..] == s;
  }

  lemma SwapKept<T>(a: seq<T>, b: seq<T>, f: seq<T>)
    requires a == [] || b == []
    ensures a + (b + f) == b + (a + f)
  {
    if a == [] {
      assert a + (b + f) == b + f == b + (a + f);
    } else {
      assert a + (b + f) == a + f == b + (a + f);
    }
  }

  /**
   * Inserting `x` passes only elements with a strictly larger key, so among the
   * elements of any one key `x` lands in front, and all others keep their order.
   */
  lemma {:induction false} InsertDescTies<T>(x: T, s: seq<T>, key: T -> real, k: real)
    ensures Filter(InsertDesc(x, s, key), KeyIs(key, k))
         == (if key(x) == k then [x] else []) + Filter(s, KeyIs(key, k))
  {
    var p := KeyIs(key, k);
    if |s| == 0 || key(s[0]) <= key(x) {
      FilterCons(x, s, p);
    } else {
      var t := InsertDesc(x, s[1..], key);
      assert InsertDesc(x, s, key) == [s[0]] + t;
      assert s == [s[0]] + s[1..];
      FilterCons(s[0], t, p);
      FilterCons(s[0], s[1..], p);
      InsertDescTies(x, s[1..], key, k);
      // the two cannot both be kept: `s[0]`'s key is strictly larger
      var a := if p(s[0]) then [s[0]] else [];
      var b := if p(x) then [x] else [];
      SwapKept(a, b, Filter(s[1..], p));
    }
  }

  /**
   * Stability: for every key, the elements with that key appear in the sorted
   * sequence in the same order as in the input.
   */
  lemma {:induction false} SortDescStable<T>(s: seq<T>, key: T -> real, k: real)
    ensures Filter(SortDesc(s, key), KeyIs(key, k)) == Filter(s, KeyIs(key, k))
  {
    if |s| > 0 {
      var t := SortDesc(s[1..], key);
      SortDescStable(s[1..], key, k);
      InsertDescTies(s[0], t, key, k);
    }
  }

  lemma SortedPrefix<T>(s: seq<T>, n: nat, key: T -> real)
    requires SortedDesc(s, key) && n <= |s|
    ensures SortedDesc(s[..n], key)
  {
  }

  /** Number of elements satisfying `p`. */
  function CountWhere<T>(s: seq<T>, p: T -> bool): (n: nat)
    ensures n <= |s|
  {
    if |s| == 0 then 0 else (if p(s[0]) then 1 else 0) + CountWhere(s[1..], p)
  }

  /** `Array.prototype.filter`. */
  function Filter<T>(s: seq<T>, p: T -> bool): (r: seq<T>)
    ensures |r| <= |s|
    ensures forall x :: x in r ==> x in s && p(x)
    ensures forall x :: x in s && p(x) ==> x in r
  {
    if |s| == 0 then [] else (if p(s[0]) then [s[0]] else []) + Filter(s[1..], p)
  }

  lemma {:induction false} FilterCount<T>(s: seq<T>, p: T -> bool)
    ensures |Filter(s, p)| == CountWhere(s, p)
    ensures |Filter(s, p)| + CountWhere(s, x => !p(x)) == |s|
  {
    if |s| > 0 {
      FilterCount(s[1..], p);
    }
  }
  // ---------------------------------------------------------------------------
  // Keys that tell the elements of a sequence apart

  ghost predicate DistinctKeys<T, K>(s: seq<T>, key: T -> K)
  {
    forall i, j :: 0 <= i < j < |s| ==> key(s[i]) != key(s[j])
  }

  lemma MultiplicityOfTwo<T>(s: seq<T>, i: int, j: int)
    requires 0 <= i < j < |s| && s[i] == s[j]
    ensures multiset(s)[s[i]] >= 2
  {
    assert s == s[..i] + [s[i]] + s[i + 1..j] + [s[j]] + s[j + 1..];
  }

  /** With distinct keys every element occurs once. */
  lemma OccursOnce<T, K>(s: seq<T>, key: T -> K, k: int)
    requires DistinctKeys(s, key) && 0 <= k < |s|
    ensures multiset(s)[s[k]] == 1
  {
    var x := s[k];
    assert s == s[..k] + [x] + s[k + 1..];
    assert forall i :: 0 <= i < |s| && i != k ==> s[i] != x;
    assert x !in s[..k];
    assert x !in s[k + 1..];
  }

  /** Reordering a sequence whose keys are distinct keeps them distinct. */
  lemma PermutationKeepsDistinct<T, K>(a: seq<T>, b: seq<T>, key: T -> K)
    requires DistinctKeys(a, key) && multiset(a) == multiset(b)
    ensures DistinctKeys(b, key)
  {
    forall i, j | 0 <= i < j < |b|
      ensures key(b[i]) != key(b[j])
    {
      if key(b[i]) == key(b[j]) {
        assert b[i] in multiset(a) && b[j] in multiset(a);
        var p :| 0 <= p < |a| && a[p] == b[i];
        var q :| 0 <= q < |a| && a[q] == b[j];
        assert p == q;
        MultiplicityOfTwo(b, i, j);
        OccursOnce(a, key, p);
        assert false;
      }
    }
  }

  // ---------------------------------------------------------------------------
  // Sets of strings

  /** `new Set(names.map(n => n.toLowerCase()))`. */
  function LowerSet(names: seq<string>): set<string>
  {
    set n | n in names :: ToLower(n)
  }

  lemma SubsetCard(a: set<string>, b: set<string>)
    requires a <= b
    ensures |a| <= |b|
    ensures a != b ==> |a| < |b|
  {
    assert b == a + (b - a);
    assert a !! (b - a);
    if a != b {
      var x :| x in b && x !in a;
      assert x in b - a;
    }
  }

  lemma SubsetSize(a: set<string>, b: set<string>)
    ensures |a * b| <= |a|
  {
    SubsetCard(a * b, a);
  }
}

=== FILE: email_service.dfy ===
/**
 * The e-mail service's pure parts: provider selection, `{{key}}` template
 * substitution and the short-circuits of the senders. Delivery itself (the
 * provider's `sendEmail`) and reading the template file are I/O; their outcomes
 * are parameters.
 */
module EmailService {
  import opened Common

  // ---------------------------------------------------------------------------
  // Global replacement of a literal pattern

  /**
   * `s.replace(new RegExp(p, 'g'), v)` for a pattern without regular-expression
   * operators: a left-to-right scan that replaces each occurrence and resumes
   * after it, so occurrences never overlap.
   */
  function ReplaceAll(s: string, p: string, v: string): (r: string)
    requires |p| > 0
    ensures v == p ==> r == s
    ensures |v| == |p| ==> |r| == |s|
    decreases |s|
  {
    if |s| == 0 then []
    else if StartsWith(s, p) then v + ReplaceAll(s[|p|..], p, v)
    else [s[0]] + ReplaceAll(s[1..], p, v)
  }

  /**
   * The same scan, keeping the text between the matches: `s.split(p)`. The
   * first piece is a prefix of `s`.
   */
  function SplitOn(s: string, p: string): (r: seq<string>)
    requires |p| > 0
    ensures |r| >= 1 && StartsWith(s, r[0])
    decreases |s|
  {
    if |s| == 0 then [[]]
    else if StartsWith(s, p) then [[]] + SplitOn(s[|p|..], p)
    else
      var rest := SplitOn(s[1..], p);
      [[s[0]] + rest[0]] + rest[1..]
  }

  lemma JoinCons(c: char, parts: seq<string>, sep: string)
    requires |parts| >= 1
    ensures Join([[c] + parts[0]] + parts[1..], sep) == [c] + Join(parts, sep)
  {
    var q := [[c] + parts[0]] + parts[1..];
    if |parts| > 1 {
      assert q[1..] == parts[1..];
    }
  }

  lemma JoinEmptyHead(parts: seq<string>, sep: string)
    requires |parts| >= 1
    ensures Join([[]] + parts, sep) == sep + Join(parts, sep)
  {
    assert ([[]] + parts)[1..] == parts;
  }

  /** Replacing is splitting at the matches and joining the pieces with the value. */
  lemma {:induction false} ReplaceIsSplitJoin(s: string, p: string, v: string)
    requires |p| > 0
    ensures ReplaceAll(s, p, v) == Join(SplitOn(s, p), v)
    decreases |s|
  {
    if |s| > 0 {
      if StartsWith(s, p) {
        ReplaceIsSplitJoin(s[|p|..], p, v);
        JoinEmptyHead(SplitOn(s[|p|..], p), v);
      } else {
        ReplaceIsSplitJoin(s[1..], p, v);
        var rest := SplitOn(s[1..], p);
        JoinCons(s[0], rest, v);
      }
    }
  }

  /** Joining the pieces with the pattern gives back the input. */
  lemma {:induction false} SplitOnJoin(s: string, p: string)
    requires |p| > 0
    ensures Join(SplitOn(s, p), p) == s
    decreases |s|
  {
    if |s| > 0 {
      if StartsWith(s, p) {
        var t := s[|p|..];
        SplitOnJoin(t, p);
        assert SplitOn(s, p) == [[]] + SplitOn(t, p);
        JoinEmptyHead(SplitOn(t, p), p);
        assert s == p + t;
      } else {
        var rest := SplitOn(s[1..], p);
        SplitOnJoin(s[1..], p);
        assert SplitOn(s, p) == [[s[0]] + rest[0]] + rest[1..];
        JoinCons(s[0], rest, p);
        assert s == [s[0]] + s[1..];
      }
    }
  }

  /** No piece between two replaced matches contains the pattern: every occurrence was replaced. */
  lemma {:induction false} SplitOnPiecesFree(s: string, p: string)
    requires |p| > 0
    ensures forall k :: 0 <= k < |SplitOn(s, p)| ==> !Includes(SplitOn(s, p)[k], p)
    decreases |s|
  {
    if |s| > 0 {
      if StartsWith(s, p) {
        SplitOnPiecesFree(s[|p|..], p);
        assert SplitOn(s, p) == [[]] + SplitOn(s[|p|..], p);
      } else {
        SplitOnPiecesFree(s[1..], p);
        var rest := SplitOn(s[1..], p);
        var head := [s[0]] + rest[0];
        assert SplitOn(s, p) == [head] + rest[1..];
        forall i | 0 <= i <= |head| - |p|
          ensures !OccursAt(head, p, i)
        {
          if i == 0 {
            assert StartsWith(s, head);
          } else if OccursAt(head, p, i) {
            assert head[i..i + |p|] == rest[0][i - 1..i - 1 + |p|];
            assert OccursAt(rest[0], p, i - 1);
          }
        }
      }
    }
  }

  /** A text without the pattern is left as it is. */
  lemma {:induction false} ReplaceAbsent(s: string, p: string, v: string)
    requires |p| > 0 && !Includes(s, p)
    ensures ReplaceAll(s, p, v) == s
    decreases |s|
  {
    if |s| > 0 {
      assert !OccursAt(s, p, 0);
      assert !Includes(s[1..], p) by {
        forall i | 0 <= i <= |s[1..]| - |p|
          ensures !OccursAt(s[1..], p, i)
        {
          assert !OccursAt(s, p, i + 1);
          assert s[1..][i..i + |p|] == s[i + 1..i + 1 + |p|];
        }
      }
      ReplaceAbsent(s[1..], p, v);
    }
  }

  /** A text that is exactly the pattern becomes the value. */
  lemma ReplaceWhole(p: string, v: string)
    requires |p| > 0
    ensures ReplaceAll(p, p, v) == v
  {
    assert p[|p|..] == [];
  }

  // ---------------------------------------------------------------------------
  // replaceVariables

  /** A template variable's value as the callers pass it. */
  datatype Value = Text(text: string) | Number(n: int) | Missing

  /** The values `value || ''` turns into `''`: undefined/null, `''` and `0`. */
  predicate Falsy(v: Value)
  {
    v.Missing? || (v.Text? && v.text == []) || (v.Number? && v.n == 0)
  }

  /** `value || ''`, converted to text for the replacement. */
  function Render(v: Value): (r: string)
    ensures r == [] <==> Falsy(v)
    ensures v.Text? && !Falsy(v) ==> r == v.text
    ensures v.Number? && v.n > 0 ==> AllDigits(r) && DecValue(r) == v.n
    ensures v.Number? && v.n < 0 ==> |r| > 1 && r[0] == '-' && AllDigits(r[1..]) && DecValue(r[1..]) == -v.n
  {
    match v
    case Missing => []
    case Text(t) => t
    case Number(n) =>
      if n == 0 then []
      else if n > 0 then NatToString(n)
      else "-" + NatToString(-n)
  }

  /** `{{key}}`. */
  function Placeholder(key: string): (r: string)
    ensures |r| == |key| + 4 && StartsWith(r, "{{") && EndsWith(r, "}}")
  {
    "{{" + key + "}}"
  }

  /** One substitution: every `{{key}}` in `s` becomes the rendered value. */
  function SubstOne(s: string, entry: (string, Value)): string
  {
    ReplaceAll(s, Placeholder(entry.0), Render(entry.1))
  }

  /** The template after the substitutions for the first `n` entries, in order. */
  function SubstAfter(template: string, vars: seq<(string, Value)>, n: nat): string
    requires n <= |vars|
  {
    if n == 0 then template
    else SubstOne(SubstAfter(template, vars, n - 1), vars[n - 1])
  }

  lemma SubstAfterStep(template: string, vars: seq<(string, Value)>, i: nat)
    requires i < |vars|
    ensures SubstAfter(template, vars, i + 1) == SubstOne(SubstAfter(template, vars, i), vars[i])
  {
  }

  /**
   * `replaceVariables(template, variables)`, with `Object.entries(variables)`
   * as the sequence `vars`.
   */
  method ReplaceVariables(template: string, vars: seq<(string, Value)>) returns (result: string)
    ensures result == SubstAfter(template, vars, |vars|)
  {
    result := template;
    var i := 0;
    while i < |vars|
      invariant 0 <= i <= |vars|
      invariant result == SubstAfter(template, vars, i)
    {
      SubstAfterStep(template, vars, i);
      result := SubstOne(result, vars[i]);
      i := i + 1;
    }
  }

  /** A template mentioning none of the supplied placeholders comes back unchanged. */
  lemma {:induction false} SubstWithoutPlaceholders(template: string, vars: seq<(string, Value)>, n: nat)
    requires n <= |vars|
    requires forall j :: 0 <= j < n ==> !Includes(template, Placeholder(vars[j].0))
    ensures SubstAfter(template, vars, n) == template
  {
    if n > 0 {
      SubstWithoutPlaceholders(template, vars, n - 1);
      var e := vars[n - 1];
      assert !Includes(template, Placeholder(e.0));
      ReplaceAbsent(template, Placeholder(e.0), Render(e.1));
      assert SubstOne(template, e) == template;
    }
  }

  /**
   * Keys are substituted in order: a value that contains a later key's
   * placeholder is itself substituted.
   */
  lemma SubstInOrder(k1: string, k2: string, w: string)
    ensures SubstAfter(Placeholder(k1), [(k1, Text(Placeholder(k2))), (k2, Text(w))], 2)
            == Render(Text(w))
  {
    var vars := [(k1, Text(Placeholder(k2))), (k2, Text(w))];
    ReplaceWhole(Placeholder(k1), Placeholder(k2));
    assert SubstAfter(Placeholder(k1), vars, 1) == Placeholder(k2);
    ReplaceWhole(Placeholder(k2), Render(Text(w)));
  }

  /** A falsy value removes its placeholder: the pieces around it are simply concatenated. */
  lemma FalsyValueErases(s: string, key: string, v: Value)
    requires Falsy(v)
    ensures ReplaceAll(s, Placeholder(key), Render(v)) == Join(SplitOn(s, Placeholder(key)), [])
  {
    ReplaceIsSplitJoin(s, Placeholder(key), Render(v));
  }

  /** A key without `{` or `}`, as the callers' identifiers (`userName`, `otp`, …) are. */
  predicate BraceFree(key: string)
  {
    forall t :: 0 <= t < |key| ==> key[t] != '{' && key[t] != '}'
  }

  /** The scan copies, unchanged, a prefix in which no match of `p` starts. */
  lemma {:induction false} ReplaceCopiesPrefix(s: string, p: string, v: string, n: nat)
    requires |p| > 0 && n <= |s|
    requires forall i :: 0 <= i < n ==> !OccursAt(s, p, i)
    ensures ReplaceAll(s, p, v) == s[..n] + ReplaceAll(s[n..], p, v)
    decreases n
  {
    if n > 0 {
      assert !OccursAt(s, p, 0);
      assert !StartsWith(s, p);
      forall i | 0 <= i < n - 1
        ensures !OccursAt(s[1..], p, i)
      {
        OccursInTail(s, p, i);
      }
      ReplaceCopiesPrefix(s[1..], p, v, n - 1);
      assert s[1..][..n - 1] == s[1..n];
      assert s[1..][n - 1..] == s[n..];
      assert [s[0]] + s[1..n] == s[..n];
    }
  }

  /** An occurrence in `s[1..]` is one in `s`, a place further on. */
  lemma OccursInTail(s: string, p: string, i: nat)
    requires |s| > 0
    ensures OccursAt(s[1..], p, i) ==> OccursAt(s, p, i + 1)
  {
    if i + |p| <= |s| - 1 {
      assert s[1..][i..i + |p|] == s[i + 1..i + 1 + |p|];
    }
  }

  /**
   * An occurrence of `w` at `at` that no match of `p` overlaps is still an
   * occurrence after every match of `p` is replaced.
   */
  lemma {:induction false} ReplaceKeepsUntouched(s: string, p: string, v: string, w: string, at: nat)
    requires |p| > 0 && |w| > 0 && OccursAt(s, w, at)
    requires forall i :: OccursAt(s, p, i) ==> i + |p| <= at || at + |w| <= i
    ensures Includes(ReplaceAll(s, p, v), w)
    decreases |s|
  {
    if StartsWith(s, p) {
      assert OccursAt(s, p, 0);
      var rest := s[|p|..];
      assert OccursAt(rest, w, at - |p|) by {
        assert rest[at - |p|..at - |p| + |w|] == s[at..at + |w|];
      }
      forall i | OccursAt(rest, p, i)
        ensures i + |p| <= at - |p| || at - |p| + |w| <= i
      {
        assert rest[i..i + |p|] == s[i + |p|..i + |p| + |p|];
        assert OccursAt(s, p, i + |p|);
      }
      ReplaceKeepsUntouched(rest, p, v, w, at - |p|);
      IncludesAfter(v, ReplaceAll(rest, p, v), w);
    } else if at > 0 {
      var rest := s[1..];
      assert OccursAt(rest, w, at - 1) by {
        assert rest[at - 1..at - 1 + |w|] == s[at..at + |w|];
      }
      forall i | OccursAt(rest, p, i)
        ensures i + |p| <= at - 1 || at - 1 + |w| <= i
      {
        assert rest[i..i + |p|] == s[i + 1..i + 1 + |p|];
        assert OccursAt(s, p, i + 1);
      }
      ReplaceKeepsUntouched(rest, p, v, w, at - 1);
      IncludesAfter([s[0]], ReplaceAll(rest, p, v), w);
    } else {
      ReplaceCopiesPrefix(s, p, v, |w|);
      var r := ReplaceAll(s, p, v);
      assert r[0..|w|] == s[..|w|] == w;
      assert OccursAt(r, w, 0);
    }
  }

  /** Text in front of an occurrence does not hide it. */
  lemma IncludesAfter(a: string, b: string, w: string)
    requires Includes(b, w)
    ensures Includes(a + b, w)
  {
    var i :| 0 <= i <= |b| - |w| && OccursAt(b, w, i);
    assert (a + b)[|a| + i..|a| + i + |w|] == b[i..i + |w|];
    assert OccursAt(a + b, w, |a| + i);
  }

  /** Two placeholders of different brace-free keys never overlap in a text. */
  lemma PlaceholdersApart(s: string, j: string, k: string, i: int, at: int)
    requires BraceFree(j) && BraceFree(k) && j != k
    requires OccursAt(s, Placeholder(j), i) && OccursAt(s, Placeholder(k), at)
    ensures i + |Placeholder(j)| <= at || at + |Placeholder(k)| <= i
  {
    var q, w := Placeholder(j), Placeholder(k);
    BracesInText(s, j, i);
    BracesInText(s, k, at);
    assert s[i] == '{' && s[i + 1] == '{' && s[i + |j| + 2] == '}';
    assert s[at] == '{' && s[at + 1] == '{' && s[at + |k| + 2] == '}';
    assert i == at && |j| == |k| ==> q == w;
    assert q == w ==> j == k by {
      assert q[2..|q| - 2] == j && w[2..|w| - 2] == k;
    }
  }

  /** Where `{{key}}` occurs at `at`, its braces are the first two and the last two characters. */
  lemma BracesInText(s: string, key: string, at: int)
    requires BraceFree(key) && OccursAt(s, Placeholder(key), at)
    ensures forall x :: at <= x < at + |key| + 4 ==> (s[x] == '{' <==> x < at + 2)
    ensures forall x :: at <= x < at + |key| + 4 ==> (s[x] == '}' <==> x >= at + |key| + 2)
  {
    var w := Placeholder(key);
    PlaceholderBraces(key);
    forall x | at <= x < at + |w|
      ensures s[x] == w[x - at]
    {
      assert s[at..at + |w|][x - at] == s[x];
    }
  }

  /** `{` only in the first two places of a placeholder, `}` only in the last two. */
  lemma PlaceholderBraces(key: string)
    requires BraceFree(key)
    ensures forall t :: 0 <= t < |Placeholder(key)| ==> (Placeholder(key)[t] == '{' <==> t < 2)
    ensures forall t :: 0 <= t < |Placeholder(key)| ==> (Placeholder(key)[t] == '}' <==> t >= |key| + 2)
  {
    var q := Placeholder(key);
    forall t | 2 <= t < |key| + 2
      ensures q[t] == key[t - 2]
    {
    }
  }

  /**
   * A placeholder whose key is not supplied survives substitution: with
   * brace-free keys, a `{{key}}` in the template for a key that no entry names
   * is still in the e-mail.
   */
  lemma {:induction false} UnsuppliedPlaceholderSurvives(template: string, vars: seq<(string, Value)>,
                                                         n: nat, key: string)
    requires n <= |vars| && BraceFree(key)
    requires forall e :: 0 <= e < n ==> BraceFree(vars[e].0) && vars[e].0 != key
    requires Includes(template, Placeholder(key))
    ensures Includes(SubstAfter(template, vars, n), Placeholder(key))
  {
    if n > 0 {
      UnsuppliedPlaceholderSurvives(template, vars, n - 1, key);
      SubstKeeps(SubstAfter(template, vars, n - 1), vars[n - 1], key);
    }
  }

  /** One substitution for another brace-free key keeps an occurrence of `{{key}}`. */
  lemma SubstKeeps(s: string, entry: (string, Value), key: string)
    requires BraceFree(entry.0) && BraceFree(key) && entry.0 != key
    requires Includes(s, Placeholder(key))
    ensures Includes(SubstOne(s, entry), Placeholder(key))
  {
    var q, w := Placeholder(entry.0), Placeholder(key);
    var at :| 0 <= at <= |s| - |w| && OccursAt(s, w, at);
    forall i | OccursAt(s, q, i)
      ensures i + |q| <= at || at + |w| <= i
    {
      PlaceholdersApart(s, entry.0, key, i, at);
    }
    ReplaceKeepsUntouched(s, q, Render(entry.1), w, at);
  }

  // ---------------------------------------------------------------------------
  // getEmailProvider and the senders

  datatype Provider = SendGrid | Nodemailer

  datatype ProviderChoice = Chosen(provider: Provider) | UnknownProvider(name: string)

  /** `getEmailProvider()`: `EMAIL_PROVIDER`, defaulting to `'sendgrid'`; anything else throws. */
  function GetEmailProvider(env: Option<string>): (r: ProviderChoice)
    ensures env.None? || env.value == [] || env.value == "sendgrid" ==> r == Chosen(SendGrid)
    ensures env == Some("nodemailer") ==> r == Chosen(Nodemailer)
    ensures r.UnknownProvider? <==>
      env.Some? && env.value != [] && env.value != "sendgrid" && env.value != "nodemailer"
    ensures r.UnknownProvider? ==> env == Some(r.name)
  {
    var name := if env.Some? && env.value != [] then env.value else "sendgrid";
    if name == "sendgrid" then Chosen(SendGrid)
    else if name == "nodemailer" then Chosen(Nodemailer)
    else UnknownProvider(name)
  }

  /** `{ success, skipped }` as returned by a sender. */
  datatype EmailResult = EmailResult(success: bool, skipped: bool)

  /** `process.env.EMAIL_ENABLED !== 'false'`. */
  predicate EmailEnabled(flag: Option<string>)
  {
    flag != Some("false")
  }

  /**
   * `sendSessionRequest`, `sendSessionReminder` and `sendRVVerificationOTP`:
   * skipped (and successful) when e-mail is disabled; otherwise an unknown
   * provider or a missing template is caught as a failure, and the result is
   * the provider's delivery outcome.
   */
  function SendOne(flag: Option<string>, providerEnv: Option<string>, templateLoaded: bool,
                   delivered: bool): (r: EmailResult)
    ensures r.skipped <==> !EmailEnabled(flag)
    ensures r.skipped ==> r.success
    ensures !r.skipped ==> (r.success <==> GetEmailProvider(providerEnv).Chosen? && templateLoaded && delivered)
  {
    if !EmailEnabled(flag) then EmailResult(true, true)
    else if GetEmailProvider(providerEnv).UnknownProvider? || !templateLoaded then EmailResult(false, false)
    else EmailResult(delivered, false)
  }

  /**
   * `sendSessionScheduled`: one e-mail to the mentor and one to the learner;
   * the overall success needs both.
   */
  function SendSessionScheduled(flag: Option<string>, providerEnv: Option<string>, templateLoaded: bool,
                                mentorDelivered: bool, learnerDelivered: bool): (r: EmailResult)
    ensures r.skipped <==> !EmailEnabled(flag)
    ensures r.skipped ==> r.success
    ensures !r.skipped ==>
      (r.success <==> GetEmailProvider(providerEnv).Chosen? && templateLoaded && mentorDelivered && learnerDelivered)
  {
    if !EmailEnabled(flag) then EmailResult(true, true)
    else if GetEmailProvider(providerEnv).UnknownProvider? || !templateLoaded then EmailResult(false, false)
    else EmailResult(mentorDelivered && learnerDelivered, false)
  }

  /** With e-mail disabled every sender reports a skipped success, whatever else holds. */
  lemma DisabledShortCircuits(providerEnv: Option<string>, templateLoaded: bool, a: bool, b: bool)
    ensures SendOne(Some("false"), providerEnv, templateLoaded, a) == EmailResult(true, true)
    ensures SendSessionScheduled(Some("false"), providerEnv, templateLoaded, a, b) == EmailResult(true, true)
  {
  }

  /** The scheduled notice fails as soon as one of its two deliveries fails. */
  lemma ScheduledNeedsBoth(flag: Option<string>, providerEnv: Option<string>, templateLoaded: bool,
                           a: bool, b: bool)
    requires EmailEnabled(flag)
    ensures SendSessionScheduled(flag, providerEnv, templateLoaded, a, b).success
            == (SendOne(flag, providerEnv, templateLoaded, a).success
                && SendOne(flag, providerEnv, templateLoaded, b).success)
  {
  }
}

=== FILE: gamification.dfy ===
/**
 * Level selection of the gamification service: a user's level is the name of
 * the highest threshold their review count has reached.
 */
module Gamification {
  import opened Common

  datatype Level = Level(name: string, threshold: int)

  /** `LEVELS`, in increasing threshold order. */
  const Levels: seq<Level> := [
    Level("Novice", 0), Level("Apprentice", 5), Level("Master", 20), Level("Grandmaster", 50)
  ]

  ghost predicate Ascending(levels: seq<Level>)
  {
    forall i, j :: 0 <= i < j < |levels| ==> levels[i].threshold < levels[j].threshold
  }

  /**
   * `levels.slice().reverse().find(l => count >= l.threshold)`: the index of the
   * last level whose threshold is reached, if any.
   */
  function LastReached(levels: seq<Level>, count: int): (r: Option<nat>)
    ensures r.Some? ==> r.value < |levels| && count >= levels[r.value].threshold
    ensures r.Some? ==> forall j :: r.value < j < |levels| ==> count < levels[j].threshold
    ensures r.None? ==> forall j :: 0 <= j < |levels| ==> count < levels[j].threshold
  {
    if |levels| == 0 then None
    else if count >= levels[|levels| - 1].threshold then Some(|levels| - 1)
    else LastReached(levels[..|levels| - 1], count)
  }

  /** The level index for an activity count; `'Novice'` (index 0) when nothing is reached. */
  function LevelIndex(count: int): (i: nat)
    ensures i < |Levels|
  {
    match LastReached(Levels, count)
    case None => 0
    case Some(k) => k
  }

  /** The name of the level chosen for `count`. */
  function LevelFor(count: int): (name: string)
    ensures exists i :: 0 <= i < |Levels| && Levels[i].name == name && (i == 0 || Levels[i].threshold <= count)
  {
    Levels[LevelIndex(count)].name
  }

  /** The chosen level is the highest threshold not above the count. */
  lemma LevelIsHighestReached(count: int)
    requires count >= 0
    ensures Levels[LevelIndex(count)].threshold <= count
    ensures forall j :: LevelIndex(count) < j < |Levels| ==> count < Levels[j].threshold
  {
    assert Levels[0].threshold == 0;
  }

  lemma LevelBands(count: int)
    ensures 0 <= count < 5 ==> LevelFor(count) == "Novice"
    ensures 5 <= count < 20 ==> LevelFor(count) == "Apprentice"
    ensures 20 <= count < 50 ==> LevelFor(count) == "Master"
    ensures 50 <= count ==> LevelFor(count) == "Grandmaster"
  {
    if count >= 0 {
      LevelIsHighestReached(count);
      var i := LevelIndex(count);
      assert Levels[0].threshold == 0 && Levels[1].threshold == 5;
      assert Levels[2].threshold == 20 && Levels[3].threshold == 50;
      if i == 0 {
        assert count < 5;
      } else if i == 1 {
        assert 5 <= count < 20;
      } else if i == 2 {
        assert 20 <= count < 50;
      }
    }
  }

  /** More reviews never yield a lower level. */
  lemma LevelMonotone(a: int, b: int)
    requires a <= b
    ensures LevelIndex(a) <= LevelIndex(b)
  {
    var ra := LastReached(Levels, a);
    if ra.Some? {
      assert Levels[ra.value].threshold <= b;
    }
  }

  /** The user document fields read and written by `updateUserLevel`. */
  class GamifiedUser {
    var reviewsCount: Option<int>
    var level: string

    constructor (reviewsCount: Option<int>, level: string)
      ensures this.reviewsCount == reviewsCount && this.level == level
    {
      this.reviewsCount := reviewsCount;
      this.level := level;
    }
  }

  /** `user.reviewsCount || 0`. */
  function ActivityCount(reviewsCount: Option<int>): int
  {
    if reviewsCount.Some? then reviewsCount.value else 0
  }

  /**
   * `updateUserLevel`: a missing user is a no-op; otherwise the level is
   * recomputed and written (`saved`) only when it differs from the stored one.
   */
  method UpdateUserLevel(user: GamifiedUser?) returns (saved: bool)
    modifies user
    ensures user == null ==> !saved
    ensures user != null ==> user.level == LevelFor(ActivityCount(user.reviewsCount))
    ensures user != null ==> saved == (old(user.level) != user.level)
    ensures user != null ==> user.reviewsCount == old(user.reviewsCount)
  {
    if user == null {
      return false;
    }
    var newLevel := LevelFor(ActivityCount(user.reviewsCount));
    saved := newLevel != user.level;
    if saved {
      user.level := newLevel;
    }
  }
}

=== FILE: interval_tree.dfy ===
/**
 * The augmented interval tree used to find schedule conflicts. Each node keeps
 * one session and the largest end time in its subtree; the tree is ordered on
 * start times. Times are milliseconds since the epoch. Nodes are values here;
 * the tree object holds the root and the list of stored sessions and is
 * updated in place.
 */
module SessionIntervalTree {
  import opened Common

  /** A stored session, after validation. */
  datatype Session = Session(id: string, start: int, end: int, mentorId: Option<string>, studentId: Option<string>)

  /**
   * The fields of an interval argument. A falsy `id` is the empty string; a
   * `start` or `end` that is not a `Date` is `None`.
   */
  datatype Fields = Fields(id: string, start: Option<int>, end: Option<int>,
                           mentorId: Option<string>, studentId: Option<string>)

  datatype IntervalArg = NotAnObject | Object(fields: Fields)

  /** Why a call throws; the comment gives the JavaScript error. */
  datatype Invalid =
    | NotObject           // TypeError: Interval must be an object
    | MissingId           // Error: Interval must have an id
    | NotDates            // TypeError: Interval start and end must be Date objects
    | StartNotBeforeEnd   // Error: Interval start must be before end
    | NotAnArray          // TypeError: intervalsArray must be an array

  datatype Checked = Accepted(session: Session) | Rejected(reason: Invalid)

  /**
   * `_validateInterval` followed by the copy `insert`, `build` and
   * `findOverlaps` make of an accepted interval.
   */
  function Validate(arg: IntervalArg): (r: Checked)
    ensures r.Accepted? <==>
      && arg.Object? && arg.fields.id != []
      && arg.fields.start.Some? && arg.fields.end.Some?
      && arg.fields.start.value < arg.fields.end.value
    ensures r.Accepted? ==>
      && r.session.start < r.session.end
      && r.session == Session(arg.fields.id, arg.fields.start.value, arg.fields.end.value,
                              arg.fields.mentorId, arg.fields.studentId)
    ensures r.Rejected? ==> r.reason != NotAnArray
  {
    if arg.NotAnObject? then Rejected(NotObject)
    else
      var f := arg.fields;
      if f.id == [] then Rejected(MissingId)
      else if f.start.None? || f.end.None? then Rejected(NotDates)
      else if f.start.value >= f.end.value then Rejected(StartNotBeforeEnd)
      else Accepted(Session(f.id, f.start.value, f.end.value, f.mentorId, f.studentId))
  }

  /** `_overlaps(a, b)`: half-open intervals that share some instant. */
  predicate Overlaps(a: Session, b: Session)
  {
    a.start < b.end && b.start < a.end
  }

  /**
   * Overlap is symmetric, back-to-back sessions do not conflict, and a proper
   * session overlaps itself.
   */
  lemma OverlapIsHalfOpen(a: Session, b: Session)
    ensures Overlaps(a, b) <==> Overlaps(b, a)
    ensures a.end == b.start ==> !Overlaps(a, b)
    ensures a.start < a.end ==> Overlaps(a, a)
  {
  }

  /** The sessions of `s` that overlap `q`, in order. */
  function OverlapsIn(s: seq<Session>, q: Session): (r: seq<Session>)
    ensures |r| <= |s|
  {
    if s == [] then []
    else (if Overlaps(s[0], q) then [s[0]] else []) + OverlapsIn(s[1..], q)
  }

  /** A session is reported exactly when it is in the collection and overlaps the query. */
  lemma {:induction false} OverlapsInMembers(s: seq<Session>, q: Session)
    ensures forall x :: x in OverlapsIn(s, q) <==> x in s && Overlaps(x, q)
  {
    if s != [] {
      OverlapsInMembers(s[1..], q);
      assert s == [s[0]] + s[1..];
    }
  }

  lemma {:induction false} OverlapsInAppend(a: seq<Session>, b: seq<Session>, q: Session)
    ensures OverlapsIn(a + b, q) == OverlapsIn(a, q) + OverlapsIn(b, q)
  {
    if a == [] {
      assert a + b == b;
    } else {
      assert (a + b)[0] == a[0] && (a + b)[1..] == a[1..] + b;
      OverlapsInAppend(a[1..], b, q);
    }
  }

  lemma {:induction false} OverlapsInCount(s: seq<Session>, q: Session, x: Session)
    ensures multiset(OverlapsIn(s, q))[x] == if Overlaps(x, q) then multiset(s)[x] else 0
  {
    if s != [] {
      assert s == [s[0]] + s[1..];
      OverlapsInCount(s[1..], q, x);
    }
  }

  /** Two collections with the same elements have the same overlaps, as many times. */
  lemma OverlapsInMultiset(a: seq<Session>, b: seq<Session>, q: Session)
    requires multiset(a) == multiset(b)
    ensures multiset(OverlapsIn(a, q)) == multiset(OverlapsIn(b, q))
  {
    forall x
      ensures multiset(OverlapsIn(a, q))[x] == multiset(OverlapsIn(b, q))[x]
    {
      OverlapsInCount(a, q, x);
      OverlapsInCount(b, q, x);
    }
  }

  lemma NoOverlapsIn(s: seq<Session>, q: Session)
    requires forall x :: x in s ==> !Overlaps(x, q)
    ensures OverlapsIn(s, q) == []
  {
    OverlapsInMembers(s, q);
    if OverlapsIn(s, q) != [] {
      assert OverlapsIn(s, q)[0] in OverlapsIn(s, q);
    }
  }

  // ---------------------------------------------------------------------------
  // The tree

  datatype Tree = Leaf | Node(left: Tree, session: Session, max: int, right: Tree)

  /** The sessions in the order `_searchOverlaps` visits them: node, left, right. */
  function PreOrder(t: Tree): seq<Session>
  {
    if t.Leaf? then [] else [t.session] + PreOrder(t.left) + PreOrder(t.right)
  }

  /** `v` raised to a child's `max`, as `_buildBalanced` does; a missing child leaves it. */
  function Top(t: Tree, v: int): int
  {
    if t.Leaf? then v else Max(v, t.max)
  }

  /** Every start in the subtree is at most `v`. */
  predicate StartsAtMost(t: Tree, v: int)
  {
    t.Node? ==> t.session.start <= v && StartsAtMost(t.left, v) && StartsAtMost(t.right, v)
  }

  /** Every start in the subtree is at least `v`. */
  predicate StartsAtLeast(t: Tree, v: int)
  {
    t.Node? ==> v <= t.session.start && StartsAtLeast(t.left, v) && StartsAtLeast(t.right, v)
  }

  /** Every end in the subtree is at most `v`. */
  predicate EndsAtMost(t: Tree, v: int)
  {
    t.Node? ==> t.session.end <= v && EndsAtMost(t.left, v) && EndsAtMost(t.right, v)
  }

  /**
   * The invariant the search relies on: starts in the left subtree are at
   * most the node's start, starts in the right subtree at least, and `max`
   * combines the node's end with its children's `max`.
   */
  predicate Ordered(t: Tree)
  {
    t.Node? ==>
      && Ordered(t.left) && Ordered(t.right)
      && StartsAtMost(t.left, t.session.start)
      && StartsAtLeast(t.right, t.session.start)
      && t.max == Top(t.right, Top(t.left, t.session.end))
  }

  lemma {:induction false} EndsBelowMax(t: Tree)
    requires Ordered(t) && t.Node?
    ensures EndsAtMost(t, t.max)
  {
    if t.left.Node? {
      EndsBelowMax(t.left);
      EndsAtMostWeaken(t.left, t.left.max, t.max);
    }
    if t.right.Node? {
      EndsBelowMax(t.right);
      EndsAtMostWeaken(t.right, t.right.max, t.max);
    }
  }

  lemma {:induction false} EndsAtMostWeaken(t: Tree, v: int, w: int)
    requires EndsAtMost(t, v) && v <= w
    ensures EndsAtMost(t, w)
  {
    if t.Node? {
      EndsAtMostWeaken(t.left, v, w);
      EndsAtMostWeaken(t.right, v, w);
    }
  }

  lemma {:induction false} EndsAtMostAll(t: Tree, v: int)
    requires EndsAtMost(t, v)
    ensures forall x :: x in PreOrder(t) ==> x.end <= v
  {
    if t.Node? {
      EndsAtMostAll(t.left, v);
      EndsAtMostAll(t.right, v);
    }
  }

  /** Each node's `max` is the largest end time in its subtree. */
  lemma {:induction false} MaxIsLargestEnd(t: Tree)
    requires Ordered(t) && t.Node?
    ensures forall x :: x in PreOrder(t) ==> x.end <= t.max
    ensures exists x :: x in PreOrder(t) && x.end == t.max
  {
    EndsBelowMax(t);
    EndsAtMostAll(t, t.max);
    var l, s, r := t.left, t.session, t.right;
    assert PreOrder(t) == [s] + PreOrder(l) + PreOrder(r);
    if t.max == s.end {
      assert s in PreOrder(t);
    } else if l.Node? && t.max == l.max {
      MaxIsLargestEnd(l);
      var x :| x in PreOrder(l) && x.end == l.max;
      assert x in PreOrder(t);
    } else {
      MaxIsLargestEnd(r);
      var x :| x in PreOrder(r) && x.end == r.max;
      assert x in PreOrder(t);
    }
  }

  /**
   * `_insertNode(node, interval)`: a new leaf node, or down the left subtree
   * when the start is earlier than the node's and the right subtree otherwise
   * (ties go right), raising `max` on the way.
   */
  function InsertNode(t: Tree, x: Session): (r: Tree)
    ensures r.Node? && r.max == Top(t, x.end)
  {
    if t.Leaf? then Node(Leaf, x, x.end, Leaf)
    else
      var m := if t.max < x.end then x.end else t.max;
      if x.start < t.session.start then Node(InsertNode(t.left, x), t.session, m, t.right)
      else Node(t.left, t.session, m, InsertNode(t.right, x))
  }

  lemma {:induction false} InsertStartsAtMost(t: Tree, x: Session, v: int)
    requires StartsAtMost(t, v) && x.start <= v
    ensures StartsAtMost(InsertNode(t, x), v)
  {
    if t.Node? {
      InsertStartsAtMost(t.left, x, v);
      InsertStartsAtMost(t.right, x, v);
    }
  }

  lemma {:induction false} InsertStartsAtLeast(t: Tree, x: Session, v: int)
    requires StartsAtLeast(t, v) && v <= x.start
    ensures StartsAtLeast(InsertNode(t, x), v)
  {
    if t.Node? {
      InsertStartsAtLeast(t.left, x, v);
      InsertStartsAtLeast(t.right, x, v);
    }
  }

  /** Inserting keeps the invariant. */
  lemma {:induction false} InsertKeepsOrdered(t: Tree, x: Session)
    requires Ordered(t)
    ensures Ordered(InsertNode(t, x))
  {
    if t.Node? {
      if x.start < t.session.start {
        InsertKeepsOrdered(t.left, x);
        InsertStartsAtMost(t.left, x, t.session.start);
      } else {
        InsertKeepsOrdered(t.right, x);
        InsertStartsAtLeast(t.right, x, t.session.start);
      }
    }
  }

  /** Inserting adds exactly the new session. */
  lemma {:induction false} InsertAddsOne(t: Tree, x: Session)
    ensures multiset(PreOrder(InsertNode(t, x))) == multiset(PreOrder(t)) + multiset{x}
  {
    if t.Node? {
      if x.start < t.session.start {
        InsertAddsOne(t.left, x);
      } else {
        InsertAddsOne(t.right, x);
      }
    }
  }

  /** Every left subtree holds strictly earlier starts: ties went right. */
  predicate TiesRight(t: Tree)
  {
    t.Node? ==>
      TiesRight(t.left) && TiesRight(t.right) && StartsAtMost(t.left, t.session.start - 1)
  }

  /** A tree grown only by `insert` keeps equal starts to the right. */
  lemma {:induction false} InsertKeepsTiesRight(t: Tree, x: Session)
    requires TiesRight(t)
    ensures TiesRight(InsertNode(t, x))
  {
    if t.Node? && x.start < t.session.start {
      InsertKeepsTiesRight(t.left, x);
      InsertStartsAtMost(t.left, x, t.session.start - 1);
    } else if t.Node? {
      InsertKeepsTiesRight(t.right, x);
    }
  }

  // ---------------------------------------------------------------------------
  // Searching

  /** The overlaps in a node's subtree: the node's own, then its left, then its right subtree's. */
  lemma OverlapsInNode(l: Tree, x: Session, m: int, r: Tree, q: Session)
    ensures OverlapsIn(PreOrder(Node(l, x, m, r)), q) ==
      (if Overlaps(x, q) then [x] else []) + OverlapsIn(PreOrder(l), q) + OverlapsIn(PreOrder(r), q)
  {
    OverlapsInAppend([x] + PreOrder(l), PreOrder(r), q);
    OverlapsInAppend([x], PreOrder(l), q);
    assert [x][1..] == [];
  }

  /** No session of a subtree whose largest end is before the query starts overlaps it. */
  lemma LeftPruned(l: Tree, q: Session)
    requires Ordered(l) && (l.Leaf? || l.max < q.start)
    ensures OverlapsIn(PreOrder(l), q) == []
  {
    if l.Node? {
      MaxIsLargestEnd(l);
    }
    NoOverlapsIn(PreOrder(l), q);
  }

  /** No session of a subtree starting at or after the query's end overlaps it. */
  lemma {:induction false} RightPruned(r: Tree, v: int, q: Session)
    requires StartsAtLeast(r, v) && q.end <= v
    ensures OverlapsIn(PreOrder(r), q) == []
  {
    match r
    case Leaf =>
    case Node(rl, x, m, rr) =>
      RightPruned(rl, v, q);
      RightPruned(rr, v, q);
      OverlapsInNode(rl, x, m, rr, q);
  }

  /**
   * `_searchOverlaps(node, query, results)`: the pruning on `left.max` and on
   * the node's start loses nothing, so the sessions pushed are exactly the
   * overlapping ones, in visiting order.
   */
  method SearchOverlaps(t: Tree, q: Session, results: seq<Session>) returns (out: seq<Session>)
    requires Ordered(t)
    ensures out == results + OverlapsIn(PreOrder(t), q)
    decreases t
  {
    match t
    case Leaf =>
      out := results;
    case Node(l, x, m, r) =>
      var here := if Overlaps(x, q) then [x] else [];
      ghost var inLeft, inRight := OverlapsIn(PreOrder(l), q), OverlapsIn(PreOrder(r), q);
      out := results + here;
      if l.Node? && l.max >= q.start {
        out := SearchOverlaps(l, q, out);
      } else {
        LeftPruned(l, q);
        assert out + inLeft == out;
      }
      assert out == results + here + inLeft;
      if r.Node? && x.start < q.end {
        out := SearchOverlaps(r, q, out);
      } else if r.Node? {
        RightPruned(r, x.start, q);
        assert out + inRight == out;
      } else {
        assert out + inRight == out;
      }
      assert out == results + here + inLeft + inRight;
      OverlapsInNode(l, x, m, r, q);
      Regroup(results, here, inLeft, inRight);
  }

  lemma Regroup(a: seq<Session>, b: seq<Session>, c: seq<Session>, d: seq<Session>)
    ensures a + b + c + d == a + (b + c + d)
  {
  }

  // ---------------------------------------------------------------------------
  // Building

  predicate SortedByStart(s: seq<Session>)
  {
    forall i, j :: 0 <= i < j < |s| ==> s[i].start <= s[j].start
  }

  function NegStart(x: Session): real
  {
    -(x.start as real)
  }

  /** `.sort((a, b) => a.start - b.start)`, a stable sort. */
  function SortByStart(s: seq<Session>): (r: seq<Session>)
    ensures multiset(r) == multiset(s) && |r| == |s|
    ensures SortedByStart(r)
  {
    var r := SortDesc(s, NegStart);
    assert SortedDesc(r, NegStart);
    r
  }

  /** `Math.floor((start + end) / 2)` for non-negative bounds. */
  function Middle(lo: int, hi: int): (m: int)
    requires 0 <= lo <= hi
    ensures lo <= m <= hi
  {
    (lo + hi) / 2
  }

  /**
   * `_buildBalanced(sorted, lo, hi)`: the middle element (rounded down) at the
   * root, the two halves as subtrees, `max` from the node and its children.
   */
  function BuildBalanced(sorted: seq<Session>, lo: int, hi: int): (t: Tree)
    requires 0 <= lo && hi < |sorted| && lo <= hi + 1
    ensures t.Leaf? <==> lo > hi
    decreases hi - lo + 1
  {
    if lo > hi then Leaf
    else
      var mid := Middle(lo, hi);
      var l := BuildBalanced(sorted, lo, mid - 1);
      var r := BuildBalanced(sorted, mid + 1, hi);
      Node(l, sorted[mid], Top(r, Top(l, sorted[mid].end)), r)
  }

  /** A node holds its session and what its two subtrees hold. */
  lemma NodeHolds(l: Tree, x: Session, m: int, r: Tree, a: seq<Session>, b: seq<Session>)
    requires multiset(PreOrder(l)) == multiset(a) && multiset(PreOrder(r)) == multiset(b)
    ensures multiset(PreOrder(Node(l, x, m, r))) == multiset(a + [x] + b)
  {
    calc {
      multiset(PreOrder(Node(l, x, m, r)));
      multiset([x] + PreOrder(l) + PreOrder(r));
      multiset{x} + multiset(a) + multiset(b);
      multiset(a + [x] + b);
    }
  }

  lemma SliceAround(s: seq<Session>, lo: int, mid: int, hi: int)
    requires 0 <= lo <= mid <= hi < |s|
    ensures s[lo..hi + 1] == s[lo..mid] + [s[mid]] + s[mid + 1..hi + 1]
  {
  }

  /** The balanced tree holds exactly the elements of the range. */
  lemma {:induction false} BuildHoldsRange(sorted: seq<Session>, lo: int, hi: int)
    requires 0 <= lo && hi < |sorted| && lo <= hi + 1
    ensures multiset(PreOrder(BuildBalanced(sorted, lo, hi))) == multiset(sorted[lo..hi + 1])
    decreases hi - lo + 1
  {
    if lo <= hi {
      var mid := Middle(lo, hi);
      var l := BuildBalanced(sorted, lo, mid - 1);
      var r := BuildBalanced(sorted, mid + 1, hi);
      BuildHoldsRange(sorted, lo, mid - 1);
      BuildHoldsRange(sorted, mid + 1, hi);
      NodeHolds(l, sorted[mid], Top(r, Top(l, sorted[mid].end)), r, sorted[lo..mid], sorted[mid + 1..hi + 1]);
      SliceAround(sorted, lo, mid, hi);
    }
  }

  lemma {:induction false} BuildStartsAtMost(sorted: seq<Session>, lo: int, hi: int, v: int)
    requires 0 <= lo && hi < |sorted| && lo <= hi + 1
    requires forall j :: lo <= j <= hi ==> sorted[j].start <= v
    ensures StartsAtMost(BuildBalanced(sorted, lo, hi), v)
    decreases hi - lo + 1
  {
    if lo <= hi {
      var mid := Middle(lo, hi);
      BuildStartsAtMost(sorted, lo, mid - 1, v);
      BuildStartsAtMost(sorted, mid + 1, hi, v);
    }
  }

  lemma {:induction false} BuildStartsAtLeast(sorted: seq<Session>, lo: int, hi: int, v: int)
    requires 0 <= lo && hi < |sorted| && lo <= hi + 1
    requires forall j :: lo <= j <= hi ==> v <= sorted[j].start
    ensures StartsAtLeast(BuildBalanced(sorted, lo, hi), v)
    decreases hi - lo + 1
  {
    if lo <= hi {
      var mid := Middle(lo, hi);
      BuildStartsAtLeast(sorted, lo, mid - 1, v);
      BuildStartsAtLeast(sorted, mid + 1, hi, v);
    }
  }

  /** Built from a list sorted by start, the tree satisfies the search invariant. */
  lemma {:induction false} BuildOrdered(sorted: seq<Session>, lo: int, hi: int)
    requires 0 <= lo && hi < |sorted| && lo <= hi + 1 && SortedByStart(sorted)
    ensures Ordered(BuildBalanced(sorted, lo, hi))
    decreases hi - lo + 1
  {
    if lo <= hi {
      var mid := Middle(lo, hi);
      BuildOrdered(sorted, lo, mid - 1);
      BuildOrdered(sorted, mid + 1, hi);
      BuildStartsAtMost(sorted, lo, mid - 1, sorted[mid].start);
      BuildStartsAtLeast(sorted, mid + 1, hi, sorted[mid].start);
    }
  }

  /**
   * `build` does not keep ties to the right: three sessions with the same
   * start put the first one in the left subtree of the second.
   */
  lemma BuildMayPutTiesLeft(a: Session, b: Session, c: Session)
    requires a.start == b.start == c.start
    ensures !TiesRight(BuildBalanced([a, b, c], 0, 2))
  {
    var t := BuildBalanced([a, b, c], 0, 2);
    assert t.session == b;
    assert t.left == BuildBalanced([a, b, c], 0, 0);
    assert t.left.session == a;
  }

  /** Each argument validated in turn; the first rejection is what `build` throws. */
  datatype Normalized = AllValid(sessions: seq<Session>) | FirstInvalid(reason: Invalid)

  /** The `map` in `build`. */
  function ValidateAll(xs: seq<IntervalArg>): (r: Normalized)
    ensures r.AllValid? <==> forall i :: 0 <= i < |xs| ==> Validate(xs[i]).Accepted?
    ensures r.AllValid? ==>
      |r.sessions| == |xs| && forall i :: 0 <= i < |xs| ==> Validate(xs[i]) == Accepted(r.sessions[i])
    ensures r.FirstInvalid? ==>
      exists i :: 0 <= i < |xs| && Validate(xs[i]) == Rejected(r.reason)
                  && forall j :: 0 <= j < i ==> Validate(xs[j]).Accepted?
  {
    if xs == [] then AllValid([])
    else
      var first := Validate(xs[0]);
      if first.Rejected? then FirstInvalid(first.reason)
      else
        var rest := ValidateAll(xs[1..]);
        if rest.FirstInvalid? then
          ghost var i :| 0 <= i < |xs[1..]| && Validate(xs[1..][i]) == Rejected(rest.reason)
                         && forall j :: 0 <= j < i ==> Validate(xs[1..][j]).Accepted?;
          assert Validate(xs[i + 1]) == Rejected(rest.reason);
          FirstInvalid(rest.reason)
        else
          AllValid([first.session] + rest.sessions)
  }

  // ---------------------------------------------------------------------------
  // Participants

  /**
   * The participant filter of `findConflictsForParticipant`: the role's id is
   * present, truthy and equal to `participantId`.
   */
  predicate Involves(x: Session, participantId: string, mentorRole: bool)
  {
    var id := if mentorRole then x.mentorId else x.studentId;
    id.Some? && id.value != [] && id.value == participantId
  }

  /** `role = 'mentor'` selects `mentorId`; any other role selects `studentId`. */
  function IsMentorRole(role: Option<string>): bool
  {
    role.None? || role.value == "mentor"
  }

  // ---------------------------------------------------------------------------
  // The tree object

  /**
   * The tree satisfies the search invariant, holds exactly the listed
   * sessions, and every session ends after it starts.
   */
  ghost predicate Stored(root: Tree, intervals: seq<Session>)
  {
    && Ordered(root)
    && multiset(PreOrder(root)) == multiset(intervals)
    && AllProper(intervals)
  }

  /** Every session ends after it starts, as validation guarantees. */
  predicate AllProper(s: seq<Session>)
  {
    forall x :: x in s ==> x.start < x.end
  }

  lemma InsertKeepsStored(root: Tree, intervals: seq<Session>, x: Session)
    requires Stored(root, intervals) && x.start < x.end
    ensures Stored(InsertNode(root, x), intervals + [x])
  {
    InsertKeepsOrdered(root, x);
    InsertAddsOne(root, x);
  }

  lemma ValidatedAreProper(xs: seq<IntervalArg>)
    requires ValidateAll(xs).AllValid?
    ensures AllProper(ValidateAll(xs).sessions)
  {
    var all := ValidateAll(xs).sessions;
    forall x | x in all
      ensures x.start < x.end
    {
      var j :| 0 <= j < |all| && all[j] == x;
      assert Validate(xs[j]) == Accepted(x);
    }
  }

  lemma ProperPermuted(a: seq<Session>, b: seq<Session>)
    requires AllProper(a) && multiset(a) == multiset(b)
    ensures AllProper(b)
  {
    forall x | x in b
      ensures x.start < x.end
    {
      assert x in multiset(a);
    }
  }

  lemma BuildStored(sorted: seq<Session>)
    requires SortedByStart(sorted)
    requires AllProper(sorted)
    ensures Stored(BuildBalanced(sorted, 0, |sorted| - 1), sorted)
  {
    BuildOrdered(sorted, 0, |sorted| - 1);
    BuildHoldsRange(sorted, 0, |sorted| - 1);
    assert sorted[0..|sorted|] == sorted;
  }

  /** After `insert(x)`, a query equal to `x` reports it. */
  lemma InsertedIsFound(root: Tree, x: Session)
    requires Ordered(root) && x.start < x.end
    ensures x in OverlapsIn(PreOrder(InsertNode(root, x)), x)
  {
    InsertAddsOne(root, x);
    OverlapsInMembers(PreOrder(InsertNode(root, x)), x);
    assert x in multiset(PreOrder(InsertNode(root, x)));
  }

  /** What `findOverlaps` returns, or the error it throws. */
  datatype Found = Found(sessions: seq<Session>) | Thrown(reason: Invalid)

  /** The argument of `build` and `createSessionIntervalTree`. */
  datatype IntervalsArg =
    | Missing                               // undefined or null
    | Other(positiveLength: bool)           // a non-array; `length > 0` as given
    | Items(items: seq<IntervalArg>)

  class IntervalTree {
    var root: Tree
    var intervals: seq<Session>

    ghost predicate Valid()
      reads this
    {
      Stored(root, intervals)
    }

    constructor ()
      ensures Valid() && root == Leaf && intervals == []
    {
      root := Leaf;
      intervals := [];
    }

    /** `insert(interval)`: validate, record, then insert into the tree. */
    method Insert(arg: IntervalArg) returns (err: Option<Invalid>)
      requires Valid()
      modifies this
      ensures Valid()
      ensures err.Some? <==> Validate(arg).Rejected?
      ensures err.Some? ==> err.value == Validate(arg).reason && root == old(root) && intervals == old(intervals)
      ensures err.None? ==>
        && intervals == old(intervals) + [Validate(arg).session]
        && root == InsertNode(old(root), Validate(arg).session)
    {
      var checked := Validate(arg);
      if checked.Rejected? {
        return Some(checked.reason);
      }
      var x := checked.session;
      InsertKeepsStored(root, intervals, x);
      root, intervals := InsertNode(root, x), intervals + [x];
      err := None;
    }

    /**
     * `build(intervalsArray)`: a non-array throws before anything changes; the
     * tree is emptied next, so a rejected element leaves it empty; otherwise
     * the validated sessions, sorted by start, become the list and the
     * balanced tree.
     */
    method Build(arg: IntervalsArg) returns (err: Option<Invalid>)
      requires Valid()
      modifies this
      ensures Valid()
      ensures !arg.Items? ==> err == Some(NotAnArray) && root == old(root) && intervals == old(intervals)
      ensures arg.Items? && ValidateAll(arg.items).FirstInvalid? ==>
        err == Some(ValidateAll(arg.items).reason) && root == Leaf && intervals == []
      ensures arg.Items? && ValidateAll(arg.items).AllValid? ==>
        && err.None?
        && intervals == SortByStart(ValidateAll(arg.items).sessions)
        && |intervals| == |arg.items|
        && root == BuildBalanced(intervals, 0, |intervals| - 1)
    {
      if !arg.Items? {
        return Some(NotAnArray);
      }
      root, intervals := Leaf, [];
      var all := ValidateAll(arg.items);
      if all.FirstInvalid? {
        return Some(all.reason);
      }
      var sorted := SortByStart(all.sessions);
      ValidatedAreProper(arg.items);
      ProperPermuted(all.sessions, sorted);
      BuildStored(sorted);
      root, intervals := BuildBalanced(sorted, 0, |sorted| - 1), sorted;
      err := None;
    }

    /**
     * `findOverlaps(queryInterval)`: the stored sessions that overlap the
     * query, each as often as it is stored, or the validation error.
     */
    method FindOverlaps(arg: IntervalArg) returns (r: Found)
      requires Valid()
      ensures r.Thrown? <==> Validate(arg).Rejected?
      ensures r.Thrown? ==> r.reason == Validate(arg).reason
      ensures r.Found? ==> r.sessions == OverlapsIn(PreOrder(root), Validate(arg).session)
      ensures r.Found? ==> multiset(r.sessions) == multiset(OverlapsIn(intervals, Validate(arg).session))
    {
      var checked := Validate(arg);
      if checked.Rejected? {
        return Thrown(checked.reason);
      }
      var found := SearchOverlaps(root, checked.session, []);
      OverlapsInMultiset(PreOrder(root), intervals, checked.session);
      r := Found(found);
    }

    /** `size()`: the length of the list, which is the number of tree nodes. */
    method Size() returns (n: int)
      requires Valid()
      ensures n == |intervals| && n == |PreOrder(root)|
    {
      n := |intervals|;
      assert |multiset(PreOrder(root))| == |multiset(intervals)|;
    }

    /** `clear()`. */
    method Clear()
      modifies this
      ensures Valid() && root == Leaf && intervals == []
    {
      root, intervals := Leaf, [];
    }

    /**
     * `findConflictsForParticipant(queryInterval, participantId, role)`: the
     * overlaps in which the participant holds the role.
     */
    method FindConflictsForParticipant(arg: IntervalArg, participantId: string, role: Option<string>)
      returns (r: Found)
      requires Valid()
      ensures r.Thrown? <==> Validate(arg).Rejected?
      ensures r.Found? ==> forall x :: x in r.sessions <==>
        x in intervals && Overlaps(x, Validate(arg).session) && Involves(x, participantId, IsMentorRole(role))
    {
      var found := FindOverlaps(arg);
      if found.Thrown? {
        return found;
      }
      var mentorRole := IsMentorRole(role);
      var q := Validate(arg).session;
      r := Found(Filter(found.sessions, x => Involves(x, participantId, mentorRole)));
      OverlapsInMembers(intervals, q);
      forall x
        ensures x in found.sessions <==> x in intervals && Overlaps(x, q)
      {
        assert x in found.sessions <==> x in multiset(found.sessions);
        assert x in intervals <==> x in multiset(intervals);
        assert x in OverlapsIn(intervals, q) <==> x in multiset(OverlapsIn(intervals, q));
      }
    }
  }

  /**
   * `createSessionIntervalTree(intervalsArray)`: `build` runs only for a
   * truthy argument whose `length` is positive, and its error propagates.
   */
  method CreateSessionIntervalTree(arg: IntervalsArg) returns (tree: IntervalTree, err: Option<Invalid>)
    ensures fresh(tree) && tree.Valid()
    ensures arg.Missing? || (arg.Other? && !arg.positiveLength) || arg == Items([]) ==>
      err.None? && tree.intervals == []
    ensures arg.Other? && arg.positiveLength ==> err == Some(NotAnArray)
    ensures arg.Items? && arg.items != [] ==>
      (err.None? <==> ValidateAll(arg.items).AllValid?) && (err.None? ==> |tree.intervals| == |arg.items|)
  {
    tree := new IntervalTree();
    var build := match arg
      case Missing => false
      case Other(positive) => positive
      case Items(items) => items != [];
    if build {
      err := tree.Build(arg);
    } else {
      err := None;
    }
  }
}

=== FILE: jitsi.dfy ===
/**
 * Meeting-link construction for sessions: the Jitsi base URL (configurable,
 * one trailing slash removed), a room name made of the session id and a uuid,
 * and an eight-character password cut from a second uuid.
 */
module Jitsi {
  import opened Common

  datatype Meeting = Meeting(link: string, password: string)

  const DefaultBase: string := "https://meet.jit.si"

  /** `process.env.JITSI_BASE_URL || 'https://meet.jit.si'`. */
  function BaseUrl(env: Option<string>): (b: string)
    ensures env.Some? && env.value != [] ==> b == env.value
    ensures env.None? || env.value == [] ==> b == DefaultBase
  {
    if env.Some? && env.value != [] then env.value else DefaultBase
  }

  /** Removes exactly one trailing `/`, if there is one. */
  function CleanBase(base: string): (c: string)
    ensures EndsWith(base, "/") ==> c + "/" == base
    ensures !EndsWith(base, "/") ==> c == base
  {
    if |base| > 0 && base[|base| - 1] == '/' then base[..|base| - 1] else base
  }

  /**
   * `generateMeetingLink(sessionId)`, with the two `uuidv4()` results passed in
   * as `roomUuid` and `passwordUuid`.
   */
  function GenerateMeetingLink(sessionId: string, env: Option<string>, roomUuid: string,
                               passwordUuid: string): (m: Meeting)
    ensures m.link == CleanBase(BaseUrl(env)) + "/session-" + sessionId + "-" + roomUuid
    ensures |m.password| == Min(8, |passwordUuid|) && StartsWith(passwordUuid, m.password)
  {
    var roomId := "session-" + sessionId + "-" + roomUuid;
    var password := SliceTo(passwordUuid, 8);
    Meeting(CleanBase(BaseUrl(env)) + "/" + roomId, password)
  }

  /** Without configuration the link lives on the public Jitsi server. */
  lemma DefaultServer(sessionId: string, roomUuid: string, passwordUuid: string)
    ensures StartsWith(GenerateMeetingLink(sessionId, None, roomUuid, passwordUuid).link,
                       "https://meet.jit.si/session-")
  {
  }

  /** A custom base without a trailing slash is used verbatim as the prefix. */
  lemma CustomBasePrefix(base: string, sessionId: string, roomUuid: string, passwordUuid: string)
    requires base != [] && !EndsWith(base, "/")
    ensures StartsWith(GenerateMeetingLink(sessionId, Some(base), roomUuid, passwordUuid).link,
                       base + "/")
  {
    var link := GenerateMeetingLink(sessionId, Some(base), roomUuid, passwordUuid).link;
    assert link == (base + "/") + ("session-" + sessionId + "-" + roomUuid);
  }

  predicate NoSlash(s: string) { forall i :: 0 <= i < |s| ==> s[i] != '/' }

  /**
   * A base given with a trailing slash still produces a single `/` before the
   * room: for slash-free ids the link contains no `//session-`.
   */
  lemma TrailingSlashHandled(sessionId: string, roomUuid: string, passwordUuid: string)
    requires NoSlash(sessionId) && NoSlash(roomUuid)
    ensures !Includes(GenerateMeetingLink(sessionId, Some("https://meet.jit.si/"), roomUuid,
                                          passwordUuid).link, "//session-")
  {
    var host := "https://meet.jit.si/session-";
    var tail := sessionId + "-" + roomUuid;
    assert GenerateMeetingLink(sessionId, Some("https://meet.jit.si/"), roomUuid, passwordUuid).link
      == host + tail;
    assert NoSlash(tail) by {
      forall i | 0 <= i < |tail| ensures tail[i] != '/' {
        if i < |sessionId| {
          assert tail[i] == sessionId[i];
        } else if i > |sessionId| {
          assert tail[i] == roomUuid[i - |sessionId| - 1];
        }
      }
    }
    HostHasNoDoubleSlashS(host);
    NoDoubleSlashS(host, tail);
  }

  /** No `/` is followed by `/s` in the host part. */
  predicate NoSlashSlashS(host: string)
  {
    forall k :: 0 <= k < |host| - 1 && host[k] == '/' && host[k + 1] == '/' ==>
      k + 2 < |host| && host[k + 2] != 's'
  }

  lemma HostHasNoDoubleSlashS(host: string)
    requires host == "https://meet.jit.si/session-"
    ensures NoSlashSlashS(host)
  {
    assert host[6] == '/' && host[7] == '/' && host[8] == 'm';
    assert forall k :: 0 <= k < |host| && k != 6 && k != 7 && k != 19 ==> host[k] != '/';
  }

  lemma NoDoubleSlashS(host: string, tail: string)
    requires NoSlashSlashS(host) && NoSlash(tail)
    requires |host| > 0 && host[|host| - 1] != '/'
    ensures !Includes(host + tail, "//session-")
  {
    var link := host + tail;
    forall i | 0 <= i <= |link| - 10
      ensures !OccursAt(link, "//session-", i)
    {
      assert link[i] != '/' || link[i + 1] != '/' || link[i + 2] != 's' by {
        if i + 1 < |host| {
          assert link[i] == host[i] && link[i + 1] == host[i + 1];
          assert i + 2 < |host| ==> link[i + 2] == host[i + 2];
        } else {
          assert link[i + 1] == tail[i + 1 - |host|];
        }
      }
      var w, p := link[i..i + 10], "//session-";
      assert w[0] == link[i] && w[1] == link[i + 1] && w[2] == link[i + 2];
      assert p[0] == '/' && p[1] == '/' && p[2] == 's';
      assert w != p;
    }
  }
}

=== FILE: leaderboard_heap.dfy ===
/**
 * The bounded binary max-heap of `backend/utils/leaderboardHeap.js`. The
 * heap (a growable array in the source, a `seq` field here) is kept in level
 * order: the parent of slot `i > 0` is
 * `floor((i - 1) / 2)`, and every parent's key is at least its children's, so
 * slot 0 holds a largest key. Items are ranked by the caller's `keyFn`.
 */
module LeaderboardHeap {
  import opened Common

  function Parent(i: nat): nat
    requires i > 0
  {
    (i - 1) / 2
  }

  /** Every parent's key is at least the key of each of its children. */
  predicate IsHeap<T>(h: seq<T>, key: T -> real)
  {
    forall i :: 0 < i < |h| ==> key(h[Parent(i)]) >= key(h[i])
  }

  /**
   * The state inside `_bubbleUp` at slot `k`: every edge holds except the one
   * from `k` to its parent, and that parent already dominates `k`'s children.
   */
  predicate HeapExceptUp<T>(h: seq<T>, k: nat, key: T -> real)
  {
    && k < |h|
    && (forall i :: 0 < i < |h| && i != k ==> key(h[Parent(i)]) >= key(h[i]))
    && (k > 0 ==> forall c :: 0 < c < |h| && Parent(c) == k ==> key(h[Parent(k)]) >= key(h[c]))
  }

  /**
   * The state inside `_bubbleDown` at slot `k`: every edge holds except those
   * from `k` to its children, and `k`'s parent already dominates them.
   */
  predicate HeapExceptDown<T>(h: seq<T>, k: nat, key: T -> real)
  {
    && k < |h|
    && (forall i :: 0 < i < |h| && Parent(i) != k ==> key(h[Parent(i)]) >= key(h[i]))
    && (k > 0 ==> forall c :: 0 < c < |h| && Parent(c) == k ==> key(h[Parent(k)]) >= key(h[c]))
  }

  /** The destructuring swap `[h[i], h[j]] = [h[j], h[i]]`. */
  function Swap<T>(h: seq<T>, i: nat, j: nat): (r: seq<T>)
    requires i < |h| && j < |h|
    ensures |r| == |h| && multiset(r) == multiset(h)
    ensures r[i] == h[j] && r[j] == h[i]
    ensures forall m :: 0 <= m < |h| && m != i && m != j ==> r[m] == h[m]
  {
    h[i := h[j]][j := h[i]]
  }

  // ---------------------------------------------------------------------------
  // One step of each sift

  lemma SwapUpStep<T>(h: seq<T>, k: nat, key: T -> real)
    requires HeapExceptUp(h, k, key) && k > 0
    requires key(h[k]) > key(h[Parent(k)])
    ensures HeapExceptUp(Swap(h, k, Parent(k)), Parent(k), key)
  {
    var p := Parent(k);
    var r := Swap(h, k, p);
    forall i | 0 < i < |r| && i != p
      ensures key(r[Parent(i)]) >= key(r[i])
    {
      if i == k {
      } else if Parent(i) == k {
        assert key(h[p]) >= key(h[i]);
      } else if Parent(i) == p {
        assert key(h[p]) >= key(h[i]);
      } else {
        assert r[Parent(i)] == h[Parent(i)] && r[i] == h[i];
      }
    }
    if p > 0 {
      forall c | 0 < c < |r| && Parent(c) == p
        ensures key(r[Parent(p)]) >= key(r[c])
      {
        assert r[Parent(p)] == h[Parent(p)];
        assert key(h[Parent(p)]) >= key(h[p]);
        if c != k {
          assert key(h[p]) >= key(h[c]);
        }
      }
    }
  }

  /** The larger child of `k`, or `k` itself when it dominates both children. */
  function Largest<T>(h: seq<T>, k: nat, key: T -> real): (m: nat)
    requires k < |h|
    ensures m < |h| && (m == k || (m > 0 && Parent(m) == k))
    ensures key(h[m]) >= key(h[k])
    ensures 2 * k + 1 < |h| ==> key(h[m]) >= key(h[2 * k + 1])
    ensures 2 * k + 2 < |h| ==> key(h[m]) >= key(h[2 * k + 2])
  {
    var l := 2 * k + 1;
    var r := 2 * k + 2;
    var a := if l < |h| && key(h[l]) > key(h[k]) then l else k;
    if r < |h| && key(h[r]) > key(h[a]) then r else a
  }

  /** The children of `k` are `2k + 1` and `2k + 2`. */
  lemma ChildrenOf(k: nat, c: nat)
    requires c > 0 && Parent(c) == k
    ensures c == 2 * k + 1 || c == 2 * k + 2
  {
  }

  lemma SwapDownStep<T>(h: seq<T>, k: nat, key: T -> real)
    requires HeapExceptDown(h, k, key)
    requires Largest(h, k, key) != k
    ensures HeapExceptDown(Swap(h, k, Largest(h, k, key)), Largest(h, k, key), key)
  {
    var m := Largest(h, k, key);
    var r := Swap(h, k, m);
    forall i | 0 < i < |r| && Parent(i) != m
      ensures key(r[Parent(i)]) >= key(r[i])
    {
      if i == m {
      } else if Parent(i) == k {
        ChildrenOf(k, i);
      } else if i == k {
        assert key(h[Parent(k)]) >= key(h[m]);
      } else {
        assert r[Parent(i)] == h[Parent(i)] && r[i] == h[i];
      }
    }
    forall c | 0 < c < |r| && Parent(c) == m
      ensures key(r[Parent(m)]) >= key(r[c])
    {
      assert r[c] == h[c];
      assert key(h[m]) >= key(h[c]);
    }
  }

  // ---------------------------------------------------------------------------
  // The sifts

  /**
   * `_bubbleUp(k)`: moves the item at `k` towards the root while its key is
   * larger than its parent's.
   */
  method BubbleUp<T>(h: seq<T>, k: nat, key: T -> real) returns (r: seq<T>)
    requires HeapExceptUp(h, k, key)
    ensures IsHeap(r, key) && |r| == |h| && multiset(r) == multiset(h)
  {
    r := h;
    var index := k;
    while index > 0
      invariant HeapExceptUp(r, index, key)
      invariant |r| == |h| && multiset(r) == multiset(h)
      decreases index
    {
      var parent := Parent(index);
      if key(r[index]) <= key(r[parent]) {
        break;
      }
      SwapUpStep(r, index, key);
      r := Swap(r, index, parent);
      index := parent;
    }
  }

  /**
   * `_bubbleDown(k)`: moves the item at `k` towards the leaves, swapping it
   * with its larger child while that child's key is larger.
   */
  method BubbleDown<T>(h: seq<T>, k: nat, key: T -> real) returns (r: seq<T>)
    requires HeapExceptDown(h, k, key)
    ensures IsHeap(r, key) && |r| == |h| && multiset(r) == multiset(h)
  {
    r := h;
    var index := k;
    while true
      invariant HeapExceptDown(r, index, key)
      invariant |r| == |h| && multiset(r) == multiset(h)
      decreases |r| - index
    {
      var largest := Largest(r, index, key);
      if largest == index {
        break;
      }
      SwapDownStep(r, index, key);
      r := Swap(r, index, largest);
      index := largest;
    }
    forall i | 0 < i < |r| && Parent(i) == index
      ensures key(r[Parent(i)]) >= key(r[i])
    {
      ChildrenOf(index, i);
    }
  }

  /** Raising the key at `i` leaves only the edge above `i` to repair. */
  lemma RaisedKey<T>(h: seq<T>, i: nat, v: T, key: T -> real)
    requires IsHeap(h, key) && i < |h| && key(v) >= key(h[i])
    ensures HeapExceptUp(h[i := v], i, key)
  {
    var r := h[i := v];
    forall c | 0 < c < |r| && c != i
      ensures key(r[Parent(c)]) >= key(r[c])
    {
      assert key(h[Parent(c)]) >= key(h[c]);
    }
    if i > 0 {
      forall c | 0 < c < |r| && Parent(c) == i
        ensures key(r[Parent(i)]) >= key(r[c])
      {
        assert key(h[Parent(i)]) >= key(h[i]) >= key(h[c]);
      }
    }
  }

  /** Lowering the key at `i` leaves only the edges below `i` to repair. */
  lemma LoweredKey<T>(h: seq<T>, i: nat, v: T, key: T -> real)
    requires IsHeap(h, key) && i < |h| && key(v) <= key(h[i])
    ensures HeapExceptDown(h[i := v], i, key)
  {
    var r := h[i := v];
    forall c | 0 < c < |r| && Parent(c) != i
      ensures key(r[Parent(c)]) >= key(r[c])
    {
      assert key(h[Parent(c)]) >= key(h[c]);
    }
    if i > 0 {
      forall c | 0 < c < |r| && Parent(c) == i
        ensures key(r[Parent(i)]) >= key(r[c])
      {
        assert key(h[Parent(i)]) >= key(h[i]) >= key(h[c]);
      }
    }
  }

  /** The root holds a largest key. */
  lemma {:induction false} RootIsMax<T>(h: seq<T>, i: nat, key: T -> real)
    requires IsHeap(h, key) && i < |h|
    ensures key(h[0]) >= key(h[i])
    decreases i
  {
    if i > 0 {
      RootIsMax(h, Parent(i), key);
    }
  }

  // ---------------------------------------------------------------------------
  // The capacity policy

  /** Whether a heap of `n` items is below `maxSize` (`None` is `Infinity`). */
  predicate Below(n: nat, maxSize: Option<int>)
  {
    maxSize.None? || n < maxSize.value
  }

  /** No dropped item has a larger key than an item that was kept. */
  predicate KeepsLargest<T>(dropped: T, kept: multiset<T>, key: T -> real)
  {
    forall x :: x in kept ==> key(dropped) <= key(x)
  }

  /**
   * As written, `insert` at capacity overwrites `heap[0]`, which is the
   * largest item, whenever the new key beats it: the leader is dropped while a
   * smaller item stays.
   */
  lemma InsertAtCapacityDropsLeader<T>(h: seq<T>, item: T, j: nat, key: T -> real)
    requires IsHeap(h, key) && 0 < j < |h|
    requires key(h[j]) < key(h[0]) && key(item) > key(h[0])
    ensures forall i :: 0 <= i < |h| ==> key(h[0]) >= key(h[i])
    ensures !KeepsLargest(h[0], multiset(h) - multiset{h[0]} + multiset{item}, key)
  {
    forall i | 0 <= i < |h|
      ensures key(h[0]) >= key(h[i])
    {
      RootIsMax(h, i, key);
    }
    assert h[j] in multiset(h) - multiset{h[0]};
  }

  /**
   * Dropping an item with the smallest key instead, when the new key beats it,
   * keeps the largest items.
   */
  lemma DroppingMinKeepsLargest<T>(h: seq<T>, m: nat, item: T, key: T -> real)
    requires m < |h| && forall i :: 0 <= i < |h| ==> key(h[m]) <= key(h[i])
    requires key(item) > key(h[m])
    ensures KeepsLargest(h[m], multiset(h) - multiset{h[m]} + multiset{item}, key)
  {
    forall x | x in multiset(h) - multiset{h[m]} + multiset{item}
      ensures key(h[m]) <= key(x)
    {
      if x != item {
        assert x in multiset(h);
        var i :| 0 <= i < |h| && h[i] == x;
      }
    }
  }

  /** Slot `m` holds a smallest key of `h`. */
  predicate IsMinAt<T>(h: seq<T>, m: nat, key: T -> real)
  {
    m < |h| && forall i :: 0 <= i < |h| ==> key(h[m]) <= key(h[i])
  }

  /** A slot holding a smallest key: the scan the corrected `insert` needs. */
  method MinIndex<T>(h: seq<T>, key: T -> real) returns (m: nat)
    requires |h| > 0
    ensures m < |h| && forall i :: 0 <= i < |h| ==> key(h[m]) <= key(h[i])
  {
    m := 0;
    var i := 1;
    while i < |h|
      invariant 1 <= i <= |h| && m < i
      invariant forall j :: 0 <= j < i ==> key(h[m]) <= key(h[j])
    {
      if key(h[i]) < key(h[m]) {
        m := i;
      }
      i := i + 1;
    }
  }

  /** `heap.findIndex(predicate)`: the first matching slot, or -1. */
  function FindIndex<T>(h: seq<T>, p: T -> bool): (r: int)
    ensures -1 <= r < |h|
    ensures r == -1 <==> forall i :: 0 <= i < |h| ==> !p(h[i])
    ensures r >= 0 ==> p(h[r]) && forall i :: 0 <= i < r ==> !p(h[i])
  {
    if |h| == 0 then -1
    else if p(h[0]) then 0
    else var r := FindIndex(h[1..], p); if r == -1 then -1 else r + 1
  }

  /** `peekTopK(k)`, `None` standing for the default `heap.length`. */
  method PeekTopK<T>(h: seq<T>, k: Option<int>, key: T -> real) returns (r: seq<T>)
    ensures var count := if k.None? then |h| else Min(k.value, |h|);
      && (count >= 0 ==> |r| == count)
      && (count < 0 ==> |r| == Max(0, |h| + count))
    ensures |r| <= |h| && r == SortDesc(h, key)[..|r|]
    ensures SortedDesc(r, key) && multiset(r) <= multiset(h)
  {
    var count := if k.None? then |h| else Min(k.value, |h|);
    if count == 0 {
      return [];
    }
    var sorted := SortDesc(h, key);
    r := SliceTo(sorted, count);
    SortedPrefix(sorted, |r|, key);
    assert sorted == r + sorted[|r|..];
    assert multiset(sorted) == multiset(r) + multiset(sorted[|r|..]);
  }

  // ---------------------------------------------------------------------------
  // The heap object

  /** What the constructor receives as `keyFn`: a function, or anything else. */
  datatype KeyFn<!T> = NotAFunction | Function(f: T -> real)

  class Leaderboard<T> {
    var heap: seq<T>
    const key: T -> real
    const maxSize: Option<int>

    /** The heap order holds, and the size is within `maxSize`. */
    predicate Valid()
      reads this
    {
      IsHeap(heap, key) && (maxSize.Some? ==> |heap| <= Max(0, maxSize.value))
    }

    constructor (keyFn: T -> real, maxSize: Option<int>)
      ensures Valid() && heap == [] && key == keyFn && this.maxSize == maxSize
    {
      heap := [];
      key := keyFn;
      this.maxSize := maxSize;
    }

    /**
     * `insert(item)`. Below capacity the item joins the heap. At capacity, a
     * non-empty heap whose root key is beaten by the new key loses its root
     * (its largest item) to the new item; otherwise nothing changes.
     */
    method Insert(item: T)
      requires Valid()
      modifies this
      ensures Valid()
      ensures Below(|old(heap)|, maxSize) ==> multiset(heap) == multiset(old(heap)) + multiset{item}
      ensures !Below(|old(heap)|, maxSize) && |old(heap)| > 0 && key(item) > key(old(heap)[0]) ==>
        |heap| == |old(heap)|
        && multiset(heap) == multiset(old(heap)) - multiset{old(heap)[0]} + multiset{item}
      ensures !Below(|old(heap)|, maxSize) && (|old(heap)| == 0 || key(item) <= key(old(heap)[0])) ==>
        heap == old(heap)
    {
      if Below(|heap|, maxSize) {
        var pushed := heap + [item];
        assert HeapExceptUp(pushed, |heap|, key);
        heap := BubbleUp(pushed, |heap|, key);
      } else if |heap| > 0 && key(item) > key(heap[0]) {
        LoweredOrRaised(heap, item);
        heap := BubbleDown(heap[0 := item], 0, key);
      }
    }

    /** The root replaced by a key that beats it still only needs the sift down from 0. */
    lemma LoweredOrRaised(h: seq<T>, item: T)
      requires IsHeap(h, key) && |h| > 0
      ensures HeapExceptDown(h[0 := item], 0, key)
    {
      var r := h[0 := item];
      forall c | 0 < c < |r| && Parent(c) != 0
        ensures key(r[Parent(c)]) >= key(r[c])
      {
        assert key(h[Parent(c)]) >= key(h[c]);
      }
    }

    /**
     * `insert` as evidently intended by its comment and its `minScore`: at
     * capacity, an item with a smallest key makes way for a larger new key.
     */
    method InsertKeepingTop(item: T)
      requires Valid()
      modifies this
      ensures Valid()
      ensures Below(|old(heap)|, maxSize) ==> multiset(heap) == multiset(old(heap)) + multiset{item}
      ensures !Below(|old(heap)|, maxSize) ==> |heap| == |old(heap)|
      ensures !Below(|old(heap)|, maxSize) && (exists i :: 0 <= i < |old(heap)| && key(item) > key(old(heap)[i])) ==>
        exists m :: 0 <= m < |old(heap)| && IsMinAt(old(heap), m, key)
          && KeepsLargest(old(heap)[m], multiset(heap), key)
          && multiset(heap) == multiset(old(heap)) - multiset{old(heap)[m]} + multiset{item}
      ensures !Below(|old(heap)|, maxSize) && (forall i :: 0 <= i < |old(heap)| ==> key(item) <= key(old(heap)[i])) ==>
        heap == old(heap)
    {
      if Below(|heap|, maxSize) {
        var pushed := heap + [item];
        assert HeapExceptUp(pushed, |heap|, key);
        heap := BubbleUp(pushed, |heap|, key);
      } else if |heap| > 0 {
        var m := MinIndex(heap, key);
        if key(item) > key(heap[m]) {
          ghost var h0 := heap;
          RaisedKey(heap, m, item, key);
          DroppingMinKeepsLargest(heap, m, item, key);
          heap := BubbleUp(heap[m := item], m, key);
          assert multiset(h0[m := item]) == multiset(h0) - multiset{h0[m]} + multiset{item};
        }
      }
    }

    /**
     * `replace(predicate, newItem)`: `false` and no change when nothing
     * matches; otherwise the first match gives way to the new item, the size
     * stays, and the heap order is restored.
     */
    method Replace(p: T -> bool, newItem: T) returns (replaced: bool)
      requires Valid()
      modifies this
      ensures Valid()
      ensures replaced <==> FindIndex(old(heap), p) >= 0
      ensures !replaced ==> heap == old(heap)
      ensures replaced ==>
        |heap| == |old(heap)|
        && multiset(heap) == multiset(old(heap)) - multiset{old(heap)[FindIndex(old(heap), p)]} + multiset{newItem}
    {
      var index := FindIndex(heap, p);
      if index == -1 {
        return false;
      }
      ghost var h0 := heap;
      var oldScore := key(heap[index]);
      var newScore := key(newItem);
      var updated := heap[index := newItem];
      if newScore > oldScore {
        RaisedKey(heap, index, newItem, key);
        heap := BubbleUp(updated, index, key);
      } else if newScore < oldScore {
        LoweredKey(heap, index, newItem, key);
        heap := BubbleDown(updated, index, key);
      } else {
        RaisedKey(heap, index, newItem, key);
        heap := updated;
      }
      assert multiset(updated) == multiset(h0) - multiset{h0[index]} + multiset{newItem};
      replaced := true;
    }

    method Size() returns (n: nat)
      ensures n == |heap|
    {
      n := |heap|;
    }

    method Clear()
      requires Valid()
      modifies this
      ensures Valid() && heap == []
    {
      heap := [];
    }

    /** `peekTopK(k)` on this heap; the heap is left as it is. */
    method PeekTop(k: Option<int>) returns (r: seq<T>)
      ensures var count := if k.None? then |heap| else Min(k.value, |heap|);
        && (count >= 0 ==> |r| == count)
        && (count < 0 ==> |r| == Max(0, |heap| + count))
      ensures |r| <= |heap| && r == SortDesc(heap, key)[..|r|] && multiset(r) <= multiset(heap)
      ensures SortedDesc(r, key)
    {
      r := PeekTopK(heap, k, key);
    }
  }

  /**
   * `new LeaderboardHeap(keyFn, maxSize)`: a `TypeError` (`None`) unless
   * `keyFn` is a function; otherwise an empty heap.
   */
  method Create<T>(keyFn: KeyFn<T>, maxSize: Option<int>) returns (r: Option<Leaderboard<T>>)
    ensures r.Some? <==> keyFn.Function?
    ensures r.Some? ==>
      fresh(r.value) && r.value.Valid() && r.value.heap == []
      && r.value.key == keyFn.f && r.value.maxSize == maxSize
  {
    if keyFn.NotAFunction? {
      return None;
    }
    var h := new Leaderboard(keyFn.f, maxSize);
    r := Some(h);
  }
}

=== FILE: matchmaking.dfy ===
/**
 * `predict_matches(target_user, candidates, top_n)`: mentors ranked by how
 * well their skills text matches the target user's goals text. The TF-IDF
 * vectoriser and the cosine similarity are a library call and are a
 * parameter here (`sim(corpus, k)` is the similarity of row 0 and row `k` of
 * the fitted corpus); so is the rounding to four decimals.
 */
module Matchmaking {
  import opened Common

  datatype Candidate = Candidate(userId: string, name: string, skills: seq<string>)

  /** A row of the candidate table; `index` is the DataFrame index, the candidate's position. */
  datatype Row = Row(index: nat, userId: string, name: string, skillsText: string)

  datatype Ranked = Ranked(row: Row, score: real)

  /** A formatted result: `user_id`, `name`, `score`, `matched_skills`. */
  datatype Match = Match(userId: string, name: string, score: real, matchedSkills: string)

  /** Either the candidates returned verbatim (no goals) or the scored results. */
  datatype Prediction = Unscored(candidates: seq<Candidate>) | Scored(matches: seq<Match>)

  /** `" ".join(words) if words else ""`. */
  function SpaceJoin(words: seq<string>): string
  {
    Join(words, " ")
  }

  /**
   * The goals text is empty exactly for no goals or one empty goal: the test
   * is emptiness of the joined text, with no trimming, so `["", ""]` (one
   * space) counts as having goals.
   */
  lemma SpaceJoinEmpty(words: seq<string>)
    ensures SpaceJoin(words) == [] <==> words == [] || words == [""]
  {
    if |words| >= 2 {
      assert |Join(words, " ")| >= 1;
    }
  }

  /** Candidate `i` as a table row. */
  function RowOf(i: nat, c: Candidate): Row
  {
    Row(i, c.userId, c.name, SpaceJoin(c.skills))
  }

  /** The candidate table, in input order. */
  function Rows(candidates: seq<Candidate>): (r: seq<Row>)
    ensures |r| == |candidates|
  {
    seq(|candidates|, i requires 0 <= i < |candidates| => RowOf(i, candidates[i]))
  }

  /** `[target_goals_text] + df["skills_text"].tolist()`. */
  function Corpus(goalsText: string, rows: seq<Row>): (r: seq<string>)
    ensures |r| == |rows| + 1 && r[0] == goalsText
    ensures forall i :: 0 <= i < |rows| ==> r[i + 1] == rows[i].skillsText
  {
    [goalsText] + seq(|rows|, i requires 0 <= i < |rows| => rows[i].skillsText)
  }

  /** `df["score"] = similarity_scores`: row `i` gets the similarity of corpus row `i + 1`. */
  function ScoredRows(goalsText: string, rows: seq<Row>, sim: (seq<string>, nat) -> real): (r: seq<Ranked>)
    ensures |r| == |rows|
  {
    var corpus := Corpus(goalsText, rows);
    seq(|rows|, i requires 0 <= i < |rows| => Ranked(rows[i], sim(corpus, i + 1)))
  }

  function Score(r: Ranked): real
  {
    r.score
  }

  /** `df.sort_values(by="score", ascending=False)`. */
  function Ranking(goalsText: string, candidates: seq<Candidate>, sim: (seq<string>, nat) -> real): seq<Ranked>
  {
    SortDesc(ScoredRows(goalsText, Rows(candidates), sim), Score)
  }

  function MatchOf(r: Ranked, round4: real -> real): Match
  {
    Match(r.row.userId, r.row.name, round4(r.score), r.row.skillsText)
  }

  /** The output loop over `df.head(top_n)`. */
  function Formatted(top: seq<Ranked>, round4: real -> real): (r: seq<Match>)
    ensures |r| == |top|
  {
    seq(|top|, i requires 0 <= i < |top| => MatchOf(top[i], round4))
  }

  /** The result of `predict_matches`. */
  function Predict(goals: seq<string>, candidates: seq<Candidate>, topN: int,
                   sim: (seq<string>, nat) -> real, round4: real -> real): Prediction
  {
    var goalsText := SpaceJoin(goals);
    if goalsText == [] then Unscored(SliceTo(candidates, topN))
    else if candidates == [] then Scored([])
    else Scored(Formatted(SliceTo(Ranking(goalsText, candidates, sim), topN), round4))
  }

  /** The loop filling `candidate_data`. */
  method CandidateRows(candidates: seq<Candidate>) returns (rows: seq<Row>)
    ensures rows == Rows(candidates)
  {
    rows := [];
    var i := 0;
    while i < |candidates|
      invariant 0 <= i <= |candidates|
      invariant rows == Rows(candidates[..i])
    {
      assert Rows(candidates[..i + 1]) == rows + [RowOf(i, candidates[i])];
      rows := rows + [RowOf(i, candidates[i])];
      i := i + 1;
    }
    assert candidates[..i] == candidates;
  }

  /** The loop filling `results`. */
  method FormatResults(top: seq<Ranked>, round4: real -> real) returns (results: seq<Match>)
    ensures results == Formatted(top, round4)
  {
    results := [];
    var i := 0;
    while i < |top|
      invariant 0 <= i <= |top|
      invariant results == Formatted(top[..i], round4)
    {
      assert Formatted(top[..i + 1], round4) == results + [MatchOf(top[i], round4)];
      results := results + [MatchOf(top[i], round4)];
      i := i + 1;
    }
    assert top[..i] == top;
  }

  method PredictMatches(goals: seq<string>, candidates: seq<Candidate>, topN: int,
                        sim: (seq<string>, nat) -> real, round4: real -> real)
    returns (p: Prediction)
    ensures p == Predict(goals, candidates, topN, sim, round4)
  {
    var goalsText := SpaceJoin(goals);
    if goalsText == [] {
      return Unscored(SliceTo(candidates, topN));
    }
    var rows := CandidateRows(candidates);
    if rows == [] {
      return Scored([]);
    }
    var ranked := SortDesc(ScoredRows(goalsText, rows, sim), Score);
    var results := FormatResults(SliceTo(ranked, topN), round4);
    p := Scored(results);
  }

  // ---------------------------------------------------------------------------
  // What the result promises

  /** With no goals the first `top_n` candidates come back unchanged and unscored. */
  lemma NoGoalsReturnsCandidates(goals: seq<string>, candidates: seq<Candidate>, topN: int,
                                 sim: (seq<string>, nat) -> real, round4: real -> real)
    requires goals == [] || goals == [""]
    ensures Predict(goals, candidates, topN, sim, round4) == Unscored(SliceTo(candidates, topN))
  {
    SpaceJoinEmpty(goals);
  }

  /** With goals but no candidates the result is empty. */
  lemma NoCandidatesNoMatches(goals: seq<string>, topN: int,
                              sim: (seq<string>, nat) -> real, round4: real -> real)
    requires goals != [] && goals != [""]
    ensures Predict(goals, [], topN, sim, round4) == Scored([])
  {
    SpaceJoinEmpty(goals);
  }

  /** The candidate row scored against its own corpus row. */
  predicate Genuine(goalsText: string, candidates: seq<Candidate>, sim: (seq<string>, nat) -> real, r: Ranked)
  {
    r.row.index < |candidates|
    && r.row == RowOf(r.row.index, candidates[r.row.index])
    && r.score == sim(Corpus(goalsText, Rows(candidates)), r.row.index + 1)
  }

  lemma ScoredRowsGenuine(goalsText: string, candidates: seq<Candidate>, sim: (seq<string>, nat) -> real, i: int)
    requires 0 <= i < |candidates|
    ensures ScoredRows(goalsText, Rows(candidates), sim)[i].row.index == i
    ensures Genuine(goalsText, candidates, sim, ScoredRows(goalsText, Rows(candidates), sim)[i])
  {
  }

  /** Every ranked entry is some candidate, with its own fields and the similarity of its own corpus row. */
  lemma RankingGenuine(goalsText: string, candidates: seq<Candidate>, sim: (seq<string>, nat) -> real, r: Ranked)
    requires r in Ranking(goalsText, candidates, sim)
    ensures Genuine(goalsText, candidates, sim, r)
  {
    var scored := ScoredRows(goalsText, Rows(candidates), sim);
    assert r in multiset(scored);
    var k :| 0 <= k < |scored| && scored[k] == r;
    ScoredRowsGenuine(goalsText, candidates, sim, k);
  }

  /** No candidate is ranked twice. */
  lemma RankingDistinct(goalsText: string, candidates: seq<Candidate>, sim: (seq<string>, nat) -> real, i: int, j: int)
    requires 0 <= i < j < |candidates|
    ensures Ranking(goalsText, candidates, sim)[i].row.index != Ranking(goalsText, candidates, sim)[j].row.index
  {
    var scored := ScoredRows(goalsText, Rows(candidates), sim);
    forall k | 0 <= k < |scored|
      ensures scored[k].row.index == k
    {
      ScoredRowsGenuine(goalsText, candidates, sim, k);
    }
    PermutationKeepsDistinct(scored, Ranking(goalsText, candidates, sim), RowIndex);
  }

  function RowIndex(r: Ranked): nat { r.row.index }

  /** For `top_n >= 0` there are `min(top_n, len(candidates))` results, with scores non-increasing. */
  lemma ScoredLengthAndOrder(goals: seq<string>, candidates: seq<Candidate>, topN: int,
                             sim: (seq<string>, nat) -> real, round4: real -> real)
    requires topN >= 0 && SpaceJoin(goals) != []
    requires forall a: real, b: real :: a <= b ==> round4(a) <= round4(b)
    ensures Predict(goals, candidates, topN, sim, round4).Scored?
    ensures var ms := Predict(goals, candidates, topN, sim, round4).matches;
      |ms| == Min(topN, |candidates|)
      && forall i, j :: 0 <= i < j < |ms| ==> ms[i].score >= ms[j].score
  {
    var ranked := Ranking(SpaceJoin(goals), candidates, sim);
    var top := SliceTo(ranked, topN);
    SortedPrefix(ranked, |top|, Score);
    assert forall i, j :: 0 <= i < j < |top| ==> top[i].score >= top[j].score;
  }

  /** Result `j` is the `j`-th ranked row: a genuine candidate row, its fields and its rounded score. */
  lemma ResultsCarryRows(goals: seq<string>, candidates: seq<Candidate>, topN: int,
                         sim: (seq<string>, nat) -> real, round4: real -> real, j: int)
    requires SpaceJoin(goals) != [] && candidates != []
    requires 0 <= j < |Predict(goals, candidates, topN, sim, round4).matches|
    ensures j < |Ranking(SpaceJoin(goals), candidates, sim)|
    ensures Genuine(SpaceJoin(goals), candidates, sim, Ranking(SpaceJoin(goals), candidates, sim)[j])
    ensures Predict(goals, candidates, topN, sim, round4).matches[j]
      == MatchOf(Ranking(SpaceJoin(goals), candidates, sim)[j], round4)
  {
    var ranked := Ranking(SpaceJoin(goals), candidates, sim);
    RankingGenuine(SpaceJoin(goals), candidates, sim, ranked[j]);
  }
}

=== FILE: mentor_features.dfy ===
/**
 * The eight features that score a mentor for a student and a skill, each
 * meant to lie in [0, 1]. Numbers that JavaScript reads with `a || b || d`
 * are `Option<real>` here, and a zero counts as missing, as it does there.
 * The clock is a parameter (`now`, in milliseconds).
 */
module MentorFeatures {
  import opened Common

  datatype TeachSkill = TeachSkill(name: string, level: string, endorsementsCount: int)

  datatype SessionRecord = SessionRecord(status: string, rating: Option<real>, createdAt: int)

  datatype Mentor = Mentor(
    id: string,
    ratingsAverage: Option<real>, rating: Option<real>,
    ratingsCount: Option<nat>, reviewsCount: Option<nat>,
    teaches: seq<TeachSkill>,
    yearsOfExperience: Option<real>,
    lastSeen: Option<int>,
    isOnline: bool)

  /** The student: the names of the skills they want to learn. */
  datatype Student = Student(learns: seq<string>)

  /** `history.mentorSessions`, absent in every call the recommender makes. */
  datatype History = History(mentorSessions: Option<map<string, seq<SessionRecord>>>)

  /** `a || b || d` on numbers: the first one present and non-zero. */
  function FirstTruthy(a: Option<real>, b: Option<real>, d: real): (r: real)
    ensures a.Some? && a.value != 0.0 ==> r == a.value
    ensures !(a.Some? && a.value != 0.0) && b.Some? && b.value != 0.0 ==> r == b.value
    ensures !(a.Some? && a.value != 0.0) && !(b.Some? && b.value != 0.0) ==> r == d
  {
    if a.Some? && a.value != 0.0 then a.value
    else if b.Some? && b.value != 0.0 then b.value
    else d
  }

  function FirstCount(a: Option<nat>, b: Option<nat>): nat
  {
    if a.Some? && a.value != 0 then a.value
    else if b.Some? && b.value != 0 then b.value
    else 0
  }

  // ---------------------------------------------------------------------------
  // Feature 1: rating

  /** The Bayesian average of `count` reviews averaging `rating` with five reviews of 3.5. */
  function BayesianAverage(rating: real, count: nat): real
  {
    (rating * count as real + 3.5 * 5.0) / (count as real + 5.0)
  }

  /** `normalizeMentorRating`: neutral 0.5 without reviews, else the Bayesian average mapped from [1, 5]. */
  function NormalizeMentorRating(m: Mentor): (r: real)
    ensures 0.0 <= r <= 1.0
    ensures FirstCount(m.ratingsCount, m.reviewsCount) == 0 ==> r == 0.5
    ensures FirstCount(m.ratingsCount, m.reviewsCount) > 0 ==>
      r == Clamp01((BayesianAverage(FirstTruthy(m.ratingsAverage, m.rating, 0.0),
                                    FirstCount(m.ratingsCount, m.reviewsCount)) - 1.0) / 4.0)
  {
    var rating := FirstTruthy(m.ratingsAverage, m.rating, 0.0);
    var count := FirstCount(m.ratingsCount, m.reviewsCount);
    if count == 0 then 0.5
    else Clamp01((BayesianAverage(rating, count) - 1.0) / 4.0)
  }

  lemma CancelPositive(x: real, y: real, k: real)
    requires k > 0.0 && x * k <= y * k
    ensures x <= y
  {
  }

  /**
   * The Bayesian average lies between the mentor's own average and the prior
   * 3.5, so for ratings on the 1..5 scale the clamp never bites.
   */
  lemma BayesianBetween(rating: real, count: nat)
    requires count > 0
    ensures rating <= 3.5 ==> rating <= BayesianAverage(rating, count) <= 3.5
    ensures rating >= 3.5 ==> 3.5 <= BayesianAverage(rating, count) <= rating
    ensures 1.0 <= rating <= 5.0 ==> 0.0 <= (BayesianAverage(rating, count) - 1.0) / 4.0 <= 1.0
  {
    var c := count as real;
    var k := c + 5.0;
    var b := BayesianAverage(rating, count);
    assert b * k == rating * c + 17.5;
    assert rating * k == rating * c + rating * 5.0;
    assert 3.5 * k == 3.5 * c + 17.5;
    if rating <= 3.5 {
      ProductNonNegative(3.5 - rating, c);
      assert rating * c <= 3.5 * c;
      assert rating * 5.0 <= 17.5;
      calc {
        rating * k;
        == rating * c + rating * 5.0;
        <= rating * c + 17.5;
        == b * k;
      }
      CancelPositive(rating, b, k);
      assert b * k <= 3.5 * k;
      CancelPositive(b, 3.5, k);
    } else {
      ProductNonNegative(rating - 3.5, c);
      assert 3.5 * c <= rating * c;
      assert 17.5 <= rating * 5.0;
      calc {
        b * k;
        == rating * c + 17.5;
        <= rating * c + rating * 5.0;
        == rating * k;
      }
      CancelPositive(b, rating, k);
      assert 3.5 * k <= b * k;
      CancelPositive(3.5, b, k);
    }
  }

  // ---------------------------------------------------------------------------
  // Feature 2: completion rate

  predicate Completed(s: SessionRecord)
  {
    s.status == "completed"
  }

  function SessionsOf(m: Mentor, history: History): Option<seq<SessionRecord>>
  {
    if history.mentorSessions.Some? && m.id in history.mentorSessions.value
    then Some(history.mentorSessions.value[m.id])
    else None
  }

  /** `calculateCompletionRate`: the completed share of the history, else a guess from the rating (3 when missing). */
  function CompletionRate(m: Mentor, history: History): (r: real)
    ensures 0.0 <= r <= 1.0
    ensures SessionsOf(m, history).Some? ==>
      var s := SessionsOf(m, history).value;
      r == CountWhere(s, Completed) as real / Max(1, |s|) as real
    ensures SessionsOf(m, history).None? ==> r == Clamp01((FirstTruthy(m.ratingsAverage, m.rating, 3.0) - 2.0) / 3.0)
  {
    var sessions := SessionsOf(m, history);
    if sessions.Some? then
      var s := sessions.value;
      Share(CountWhere(s, Completed), |s|)
    else Clamp01((FirstTruthy(m.ratingsAverage, m.rating, 3.0) - 2.0) / 3.0)
  }

  /** `k / Math.max(1, n)` for a count `k` out of `n`. */
  function Share(k: nat, n: nat): (r: real)
    requires k <= n
    ensures 0.0 <= r <= 1.0
    ensures r == k as real / Max(1, n) as real
  {
    var d := Max(1, n) as real;
    assert k as real <= d;
    k as real / d
  }

  // ---------------------------------------------------------------------------
  // Feature 3: skill match

  /** `levelScores[level] || 0.5`. */
  function LevelScore(level: string): real
  {
    if level == "beginner" then 0.4
    else if level == "intermediate" then 0.6
    else if level == "advanced" then 0.8
    else if level == "expert" then 1.0
    else 0.5
  }

  /** What one taught skill contributes: its level score for the same name, 0.5 for a name containing or contained in the other. */
  function MatchValue(t: TeachSkill, skillLower: string): real
  {
    var n := ToLower(t.name);
    if n == skillLower then LevelScore(t.level)
    else if Includes(n, skillLower) || Includes(skillLower, n) then 0.5
    else 0.0
  }

  /** `bestMatch` after the loop over `teaches`. */
  function BestMatch(teaches: seq<TeachSkill>, skillLower: string): real
  {
    if teaches == [] then 0.0
    else MaxReal(BestMatch(teaches[..|teaches| - 1], skillLower), MatchValue(teaches[|teaches| - 1], skillLower))
  }

  /** The best match is the largest contribution, or 0 when nothing is related. */
  lemma {:induction false} BestMatchIsLargest(teaches: seq<TeachSkill>, skillLower: string)
    ensures forall t :: t in teaches ==> MatchValue(t, skillLower) <= BestMatch(teaches, skillLower)
    ensures BestMatch(teaches, skillLower) == 0.0
      || exists t :: t in teaches && MatchValue(t, skillLower) == BestMatch(teaches, skillLower)
    ensures 0.0 <= BestMatch(teaches, skillLower) <= 1.0
  {
    if teaches != [] {
      var init := teaches[..|teaches| - 1];
      BestMatchIsLargest(init, skillLower);
      assert teaches == init + [teaches[|teaches| - 1]];
      if BestMatch(teaches, skillLower) != MatchValue(teaches[|teaches| - 1], skillLower)
         && BestMatch(init, skillLower) != 0.0 {
        var t :| t in init && MatchValue(t, skillLower) == BestMatch(init, skillLower);
        assert t in teaches;
      }
    }
  }

  predicate Endorsed(t: TeachSkill, skillLower: string)
  {
    ToLower(t.name) == skillLower && t.endorsementsCount > 0
  }

  /** `teaches.find(…)`: the first taught skill with this name and some endorsements. */
  function FirstEndorsed(teaches: seq<TeachSkill>, skillLower: string): (r: Option<TeachSkill>)
    ensures r.Some? ==> r.value in teaches && Endorsed(r.value, skillLower)
    ensures r.None? ==> forall t :: t in teaches ==> !Endorsed(t, skillLower)
  {
    if teaches == [] then None
    else if Endorsed(teaches[0], skillLower) then Some(teaches[0])
    else FirstEndorsed(teaches[1..], skillLower)
  }

  /** `calculateSkillMatch(mentor, skill)`. */
  function SkillMatch(teaches: seq<TeachSkill>, skillName: string): real
  {
    var skillLower := ToLower(skillName);
    var best := BestMatch(teaches, skillLower);
    var boost := FirstEndorsed(teaches, skillLower);
    if boost.Some? then MinReal(1.0, best + MinReal(0.2, boost.value.endorsementsCount as real * 0.02))
    else best
  }

  /**
   * The match lies in [0, 1]; it is at least each taught skill's own
   * contribution; without endorsements it is exactly the best contribution,
   * and an endorsement adds at most 0.2.
   */
  lemma SkillMatchBounds(teaches: seq<TeachSkill>, skillName: string)
    ensures 0.0 <= SkillMatch(teaches, skillName) <= 1.0
    ensures forall t :: t in teaches ==> MatchValue(t, ToLower(skillName)) <= SkillMatch(teaches, skillName)
    ensures BestMatch(teaches, ToLower(skillName)) <= SkillMatch(teaches, skillName)
              <= BestMatch(teaches, ToLower(skillName)) + 0.2
    ensures FirstEndorsed(teaches, ToLower(skillName)).None? ==>
      SkillMatch(teaches, skillName) == BestMatch(teaches, ToLower(skillName))
  {
    BestMatchIsLargest(teaches, ToLower(skillName));
  }

  /** With no taught skill related to the requested one by name, the match is 0. */
  lemma UnrelatedMatchesZero(teaches: seq<TeachSkill>, skillName: string)
    requires forall t :: t in teaches ==>
      ToLower(t.name) != ToLower(skillName)
      && !Includes(ToLower(t.name), ToLower(skillName)) && !Includes(ToLower(skillName), ToLower(t.name))
    ensures SkillMatch(teaches, skillName) == 0.0
  {
    BestMatchIsLargest(teaches, ToLower(skillName));
  }

  /** The loop of `calculateSkillMatch` followed by the endorsement boost. */
  method CalculateSkillMatch(teaches: seq<TeachSkill>, skillName: string) returns (r: real)
    ensures r == SkillMatch(teaches, skillName)
  {
    var skillLower := ToLower(skillName);
    var best := 0.0;
    var i := 0;
    while i < |teaches|
      invariant 0 <= i <= |teaches|
      invariant best == BestMatch(teaches[..i], skillLower)
    {
      var n := ToLower(teaches[i].name);
      if n == skillLower {
        best := MaxReal(best, LevelScore(teaches[i].level));
      } else if Includes(n, skillLower) || Includes(skillLower, n) {
        best := MaxReal(best, 0.5);
      } else {
        BestMatchNonNegative(teaches[..i], skillLower);
      }
      assert teaches[..i + 1][..i] == teaches[..i];
      i := i + 1;
    }
    assert teaches[..i] == teaches;
    var boost := FirstEndorsed(teaches, skillLower);
    if boost.Some? {
      best := MinReal(1.0, best + MinReal(0.2, boost.value.endorsementsCount as real * 0.02));
    }
    r := best;
  }

  lemma BestMatchNonNegative(teaches: seq<TeachSkill>, skillLower: string)
    ensures BestMatch(teaches, skillLower) >= 0.0
  {
    BestMatchIsLargest(teaches, skillLower);
  }

  // ---------------------------------------------------------------------------
  // Feature 4: skill overlap

  /** `calculateSkillOverlap`: the share of the student's skills the mentor teaches. */
  function SkillOverlap(learns: seq<string>, teaches: seq<TeachSkill>): (r: real)
    ensures 0.0 <= r <= 1.0
  {
    var l := LowerSet(learns);
    var t := TaughtNames(teaches);
    if |l| == 0 || |t| == 0 then 0.0
    else
      SubsetSize(l, t);
      Share(|l * t|, |l|)
  }

  function TaughtNames(teaches: seq<TeachSkill>): set<string>
  {
    LowerSet(seq(|teaches|, i requires 0 <= i < |teaches| => teaches[i].name))
  }

  /** The overlap is 1 exactly when the mentor teaches every skill the student wants to learn. */
  lemma SkillOverlapFull(learns: seq<string>, teaches: seq<TeachSkill>)
    ensures SkillOverlap(learns, teaches) == 1.0 <==> |LowerSet(learns)| > 0 && LowerSet(learns) <= TaughtNames(teaches)
  {
    var l := LowerSet(learns);
    var t := TaughtNames(teaches);
    if |l| > 0 && |t| > 0 {
      SubsetSize(l, t);
      if l <= t {
        assert l * t == l;
      } else {
        SubsetCard(l * t, l);
      }
    } else if |l| > 0 {
      var x :| x in l;
      assert x !in t;
    }
  }

  /** The counting loop of `calculateSkillOverlap`, over the student's set. */
  method CountOverlap(l: set<string>, t: set<string>) returns (count: nat)
    ensures count == |l * t|
  {
    count := 0;
    var rest := l;
    while rest != {}
      invariant rest <= l
      invariant count == |(l - rest) * t|
      decreases |rest|
    {
      var x :| x in rest;
      OverlapStep(l, rest, t, x);
      if x in t {
        count := count + 1;
      }
      rest := rest - {x};
    }
    assert l - rest == l;
  }

  lemma OverlapStep(l: set<string>, rest: set<string>, t: set<string>, x: string)
    requires x in rest && rest <= l
    ensures |(l - (rest - {x})) * t| == |(l - rest) * t| + (if x in t then 1 else 0)
  {
    var before := (l - rest) * t;
    var after := (l - (rest - {x})) * t;
    if x in t {
      assert after == before + {x};
      assert x !in before;
    } else {
      assert after == before;
    }
  }

  method CalculateSkillOverlap(learns: seq<string>, teaches: seq<TeachSkill>) returns (r: real)
    ensures r == SkillOverlap(learns, teaches)
  {
    var l := LowerSet(learns);
    var t := TaughtNames(teaches);
    if |l| == 0 || |t| == 0 {
      return 0.0;
    }
    SubsetSize(l, t);
    var count := CountOverlap(l, t);
    r := Share(count, |l|);
  }

  // ---------------------------------------------------------------------------
  // Features 5 to 8

  /** `normalizeExperience`: ten years or more count fully; missing years are 0. */
  function NormalizeExperience(m: Mentor): (r: real)
    ensures r <= 1.0
    ensures var y := FirstTruthy(m.yearsOfExperience, None, 0.0);
      (y >= 0.0 ==> r >= 0.0) && (y <= 10.0 ==> r == y / 10.0) && (y >= 10.0 ==> r == 1.0)
  {
    MinReal(1.0, FirstTruthy(m.yearsOfExperience, None, 0.0) / 10.0)
  }

  const DayMs: real := 86400000.0

  /** `calculateActivityRecency`: 0.3 when never seen; otherwise falling from 1 today to 0 after thirty days. */
  function ActivityRecency(m: Mentor, now: int): (r: real)
    ensures r >= 0.0
    ensures m.lastSeen.None? ==> r == 0.3
    ensures m.lastSeen.Some? && m.lastSeen.value <= now ==> r <= 1.0
    ensures m.lastSeen.Some? && (now - m.lastSeen.value) as real >= 30.0 * DayMs ==> r == 0.0
  {
    if m.lastSeen.None? then 0.3
    else
      var days := (now - m.lastSeen.value) as real / DayMs;
      MaxReal(0.0, 1.0 - days / 30.0)
  }

  function CreatedAt(s: SessionRecord): real
  {
    s.createdAt as real
  }

  predicate Successful(s: SessionRecord)
  {
    s.status == "completed" && (if s.rating.Some? then s.rating.value else 0.0) >= 4.0
  }

  /**
   * `calculateSuccessStreak`: the successful share of the ten most recent
   * sessions, else `(rating - 2) / 3` floored at 0 (but not capped at 1).
   */
  function SuccessStreak(m: Mentor, history: History): (r: real)
    ensures r >= 0.0
    ensures SessionsOf(m, history).Some? ==> r <= 1.0
    ensures SessionsOf(m, history).None? ==>
      r == MaxReal(0.0, (FirstTruthy(m.ratingsAverage, m.rating, 0.0) - 2.0) / 3.0)
  {
    var sessions := SessionsOf(m, history);
    if sessions.Some? then
      var recent := SliceTo(SortDesc(sessions.value, CreatedAt), 10);
      Share(CountWhere(recent, Successful), |recent|)
    else MaxReal(0.0, (FirstTruthy(m.ratingsAverage, m.rating, 0.0) - 2.0) / 3.0)
  }

  /** The streak counts at most the ten most recent sessions. */
  lemma SuccessStreakRecent(m: Mentor, history: History)
    requires SessionsOf(m, history).Some?
    ensures var recent := SliceTo(SortDesc(SessionsOf(m, history).value, CreatedAt), 10);
      |recent| == Min(10, |SessionsOf(m, history).value|)
      && SortedDesc(recent, CreatedAt)
  {
    var all := SortDesc(SessionsOf(m, history).value, CreatedAt);
    SortedPrefix(all, |SliceTo(all, 10)|, CreatedAt);
  }

  // ---------------------------------------------------------------------------
  // The builder

  /** The explanation parts, in the order the builder adds them; their rendered text is not modelled. */
  datatype Reason =
    | HighlyRated | HighCompletion | ExpertInSkill | SharesInterests
    | Experienced | RecentlyActive | ConsistentSuccess | CurrentlyOnline

  /** `parts.join('; ')`, or `'Recommended mentor'` when there is none. */
  datatype Explanation = Because(parts: seq<Reason>) | RecommendedMentor

  datatype Built = Built(features: seq<real>, explanation: Explanation)

  function Part(cond: bool, r: Reason): seq<Reason>
  {
    if cond then [r] else []
  }

  /** The eight features, in the order the builder pushes them. */
  function Features(user: Student, m: Mentor, skillName: string, history: History, now: int): (f: seq<real>)
    ensures |f| == 8
  {
    [NormalizeMentorRating(m), CompletionRate(m, history), SkillMatch(m.teaches, skillName),
     SkillOverlap(user.learns, m.teaches), NormalizeExperience(m), ActivityRecency(m, now),
     SuccessStreak(m, history), if m.isOnline then 1.0 else 0.3]
  }

  function Reasons(f: seq<real>, online: bool): seq<Reason>
    requires |f| == 8
  {
    Part(f[0] > 0.8, HighlyRated) + Part(f[1] > 0.85, HighCompletion)
    + Part(f[2] > 0.7, ExpertInSkill) + Part(f[3] > 0.4, SharesInterests)
    + Part(f[4] > 0.7, Experienced) + Part(f[5] > 0.8, RecentlyActive)
    + Part(f[6] > 0.7, ConsistentSuccess) + Part(online, CurrentlyOnline)
  }

  /** `buildMentorFeatures({ user, mentor, skill, history })`. */
  function BuildMentorFeatures(user: Student, m: Mentor, skillName: string, history: History, now: int): (b: Built)
    ensures |b.features| == 8
    ensures b.features[7] == (if m.isOnline then 1.0 else 0.3)
    ensures b.explanation.Because? ==> b.explanation.parts != []
    ensures m.isOnline ==> b.explanation.Because? && CurrentlyOnline in b.explanation.parts
  {
    var f := Features(user, m, skillName, history, now);
    var parts := Reasons(f, m.isOnline);
    assert m.isOnline ==> parts[|parts| - 1] == CurrentlyOnline;
    Built(f, if parts == [] then RecommendedMentor else Because(parts))
  }

  /**
   * Every feature lies in [0, 1] when the inputs are in their documented
   * ranges: non-negative years, a last-seen time not in the future, and a
   * fallback rating of at most 5 (the streak fallback is not capped).
   */
  lemma FeaturesInUnitRange(user: Student, m: Mentor, skillName: string, history: History, now: int)
    requires FirstTruthy(m.yearsOfExperience, None, 0.0) >= 0.0
    requires m.lastSeen.Some? ==> m.lastSeen.value <= now
    requires SessionsOf(m, history).None? ==> FirstTruthy(m.ratingsAverage, m.rating, 0.0) <= 5.0
    ensures forall x :: x in Features(user, m, skillName, history, now) ==> 0.0 <= x <= 1.0
  {
    var rating, completion := NormalizeMentorRating(m), CompletionRate(m, history);
    var expertise, overlap := SkillMatch(m.teaches, skillName), SkillOverlap(user.learns, m.teaches);
    var experience, activity := NormalizeExperience(m), ActivityRecency(m, now);
    var streak, online := SuccessStreak(m, history), if m.isOnline then 1.0 else 0.3;
    SkillMatchBounds(m.teaches, skillName);
    assert Features(user, m, skillName, history, now)
      == [rating, completion, expertise, overlap, experience, activity, streak, online];
    EightInUnitRange(rating, completion, expertise, overlap, experience, activity, streak, online);
  }

  lemma EightInUnitRange(a: real, b: real, c: real, d: real, e: real, g: real, h: real, k: real)
    requires 0.0 <= a <= 1.0 && 0.0 <= b <= 1.0 && 0.0 <= c <= 1.0 && 0.0 <= d <= 1.0
    requires 0.0 <= e <= 1.0 && 0.0 <= g <= 1.0 && 0.0 <= h <= 1.0 && 0.0 <= k <= 1.0
    ensures forall x :: x in [a, b, c, d, e, g, h, k] ==> 0.0 <= x <= 1.0
  {
  }

  /** A rating above 5 with no history pushes the streak feature above 1. */
  lemma StreakFallbackUncapped(m: Mentor, history: History)
    requires SessionsOf(m, history).None? && m.ratingsAverage == Some(5.6)
    ensures SuccessStreak(m, history) > 1.0
  {
  }
}

=== FILE: mentor_recommender.dfy ===
/**
 * The mentor recommender: a linear model over the eight mentor features,
 * per-skill computation behind a database cache, deduplication by mentor
 * keeping the best score, and the rating-based fallback.
 *
 * A JavaScript `Map` filled in a loop is a sequence of its values in
 * insertion order, with distinct keys; `set` on a key already present
 * replaces the value in place, as `Map.prototype.set` does.
 * Database reads are the fields of `Db`; the clock is `now`.
 */
module MentorRecommender {
  import opened Common
  import opened Recommending
  import MentorFeatures

  // ---------------------------------------------------------------------------
  // The linear model

  /** MODEL_WEIGHTS: rating, completion, skill match, overlap, experience, activity, streak, availability. */
  const Weights: seq<real> := [0.25, 0.20, 0.20, 0.10, 0.08, 0.07, 0.05, 0.05]

  /** The mentor weights are non-negative and sum to 1. */
  lemma WeightsSumToOne()
    ensures Total(Weights, |Weights|) == 1.0
    ensures forall i :: 0 <= i < |Weights| ==> Weights[i] >= 0.0
  {
    assert Total(Weights, 1) == 0.25;
    assert Total(Weights, 2) == 0.45;
    assert Total(Weights, 3) == 0.65;
    assert Total(Weights, 4) == 0.75;
    assert Total(Weights, 5) == 0.83;
    assert Total(Weights, 6) == 0.90;
    assert Total(Weights, 7) == 0.95;
  }

  /** So a mentor whose data lie in the documented ranges has a raw score in [0, 1] before the clamp. */
  lemma MentorScoreInUnitRange(user: MentorFeatures.Student, m: MentorFeatures.Mentor, skillName: string, now: int)
    requires MentorFeatures.FirstTruthy(m.yearsOfExperience, None, 0.0) >= 0.0
    requires m.lastSeen.Some? ==> m.lastSeen.value <= now
    requires MentorFeatures.FirstTruthy(m.ratingsAverage, m.rating, 0.0) <= 5.0
    ensures var b := MentorFeatures.BuildMentorFeatures(user, m, skillName, MentorFeatures.History(None), now);
      0.0 <= LinearScore(b.features, Weights) <= 1.0
  {
    MentorFeatures.FeaturesInUnitRange(user, m, skillName, MentorFeatures.History(None), now);
    WeightsSumToOne();
    LinearScoreInUnitRange(MentorFeatures.Features(user, m, skillName, MentorFeatures.History(None), now), Weights);
  }

  // ---------------------------------------------------------------------------
  // Recommendations

  /** The reason a recommendation carries. */
  datatype Why =
    | Explained(explanation: MentorFeatures.Explanation)
    | Stored(text: string)
    | HighlyRatedMentor
    | TeachesThisSkill

  datatype Rec = Rec(mentorId: string, skillId: Option<string>, score: real, reason: Why, fallback: bool)

  datatype Skill = Skill(id: string, name: string)

  function RecScore(r: Rec): real { r.score }

  function MentorKey(r: Rec): string { r.mentorId }

  /** The mentors a sequence of recommendations names. */
  function Ids(s: seq<Rec>): set<string>
  {
    set r | r in s :: r.mentorId
  }

  function MentorIds(mentors: seq<MentorFeatures.Mentor>): set<string>
  {
    set m | m in mentors :: m.id
  }

  /** One candidate scored by the linear model, the score clamped to [0, 1]. */
  function ScoreMentor(user: MentorFeatures.Student, m: MentorFeatures.Mentor, skill: Skill, skillId: string, now: int): Rec
  {
    var b := MentorFeatures.BuildMentorFeatures(user, m, skill.name, MentorFeatures.History(None), now);
    Rec(m.id, Some(skillId), Clamp01(LinearScore(b.features, Weights)), Explained(b.explanation), false)
  }

  /** The candidates scored in order, the requesting user skipped. */
  function Scored(userId: string, user: MentorFeatures.Student, mentors: seq<MentorFeatures.Mentor>, skill: Skill,
                  skillId: string, now: int): seq<Rec>
  {
    if mentors == [] then []
    else
      var m := mentors[|mentors| - 1];
      Scored(userId, user, mentors[..|mentors| - 1], skill, skillId, now)
      + (if m.id == userId then [] else [ScoreMentor(user, m, skill, skillId, now)])
  }

  /** What `computeMentorRecommendations` returns: nothing for an unknown skill or no candidates, else the top `limit` by score. */
  function Computed(userId: string, user: MentorFeatures.Student, skillId: string, skill: Option<Skill>,
                    mentors: seq<MentorFeatures.Mentor>, limit: int, now: int): seq<Rec>
  {
    if skill.None? || mentors == [] then []
    else SliceTo(SortDesc(Scored(userId, user, mentors, skill.value, skillId, now), RecScore), limit)
  }

  /** `computeMentorRecommendations(user, skillId, limit)`, with the skill and its candidate mentors looked up by the caller. */
  method ComputeMentorRecommendations(userId: string, user: MentorFeatures.Student, skillId: string, skill: Option<Skill>,
                                      mentors: seq<MentorFeatures.Mentor>, limit: int, now: int)
    returns (recs: seq<Rec>)
    ensures recs == Computed(userId, user, skillId, skill, mentors, limit, now)
  {
    if skill.None? || mentors == [] {
      return [];
    }
    var scored := [];
    var i := 0;
    while i < |mentors|
      invariant 0 <= i <= |mentors|
      invariant scored == Scored(userId, user, mentors[..i], skill.value, skillId, now)
    {
      var m := mentors[i];
      assert mentors[..i + 1][..i] == mentors[..i];
      if m.id != userId {
        var b := MentorFeatures.BuildMentorFeatures(user, m, skill.value.name, MentorFeatures.History(None), now);
        var score := ComputeLinearScore(b.features, Weights);
        scored := scored + [Rec(m.id, Some(skillId), Clamp01(score), Explained(b.explanation), false)];
      }
      i := i + 1;
    }
    assert mentors[..i] == mentors;
    recs := SliceTo(SortDesc(scored, RecScore), limit);
  }

  /** A computed recommendation: another mentor among the candidates, for this skill, scored in [0, 1]. */
  predicate FromCandidates(r: Rec, userId: string, mentors: seq<MentorFeatures.Mentor>, skillId: string)
  {
    r.mentorId != userId && r.mentorId in MentorIds(mentors)
    && r.skillId == Some(skillId) && 0.0 <= r.score <= 1.0 && !r.fallback
  }

  lemma {:induction false} ScoredFromCandidates(userId: string, user: MentorFeatures.Student,
                                                mentors: seq<MentorFeatures.Mentor>, skill: Skill, skillId: string, now: int)
    ensures forall r :: r in Scored(userId, user, mentors, skill, skillId, now) ==> FromCandidates(r, userId, mentors, skillId)
  {
    if mentors != [] {
      var init := mentors[..|mentors| - 1];
      ScoredFromCandidates(userId, user, init, skill, skillId, now);
      assert MentorIds(init) <= MentorIds(mentors) by {
        forall m | m in init ensures m in mentors { }
      }
    }
  }

  /**
   * The requesting user is never their own mentor; every computed score
   * lies in [0, 1]; the list is sorted by score and no longer than `limit`.
   */
  lemma ComputedProperties(userId: string, user: MentorFeatures.Student, skillId: string, skill: Option<Skill>,
                           mentors: seq<MentorFeatures.Mentor>, limit: int, now: int)
    requires limit >= 0
    ensures var recs := Computed(userId, user, skillId, skill, mentors, limit, now);
      |recs| <= limit && SortedDesc(recs, RecScore)
      && forall r :: r in recs ==> FromCandidates(r, userId, mentors, skillId)
  {
    if skill.Some? && mentors != [] {
      var scored := Scored(userId, user, mentors, skill.value, skillId, now);
      var sorted := SortDesc(scored, RecScore);
      var recs := SliceTo(sorted, limit);
      ScoredFromCandidates(userId, user, mentors, skill.value, skillId, now);
      SortedPrefix(sorted, |recs|, RecScore);
      forall r | r in recs ensures FromCandidates(r, userId, mentors, skillId) {
        assert r in multiset(scored);
      }
    }
  }

  // ---------------------------------------------------------------------------
  // Deduplication keeping the best score

  /** The position of the value kept under `id`, or -1 when the Map has none. */
  function IndexOf(kept: seq<Rec>, id: string): (k: int)
    ensures -1 <= k < |kept|
    ensures k >= 0 ==> kept[k].mentorId == id
    ensures k < 0 ==> id !in Ids(kept)
  {
    if kept == [] then -1
    else if kept[0].mentorId == id then 0
    else
      var k := IndexOf(kept[1..], id);
      assert kept == [kept[0]] + kept[1..];
      if k < 0 then -1 else k + 1
  }

  /** One turn of the loop at lines 138-143: `set` when the mentor is new or the new score is higher. */
  function KeepBest(kept: seq<Rec>, r: Rec): seq<Rec>
  {
    var k := IndexOf(kept, r.mentorId);
    if k < 0 then kept + [r]
    else if kept[k].score < r.score then kept[k := r]
    else kept
  }

  function BestPerMentor(recs: seq<Rec>): seq<Rec>
  {
    if recs == [] then [] else KeepBest(BestPerMentor(recs[..|recs| - 1]), recs[|recs| - 1])
  }

  /** The Map `mentorScores` after the loop, as the sequence of its values. */
  method DedupBest(recs: seq<Rec>) returns (kept: seq<Rec>)
    ensures kept == BestPerMentor(recs)
  {
    kept := [];
    var i := 0;
    while i < |recs|
      invariant 0 <= i <= |recs|
      invariant kept == BestPerMentor(recs[..i])
    {
      var rec := recs[i];
      assert recs[..i + 1][..i] == recs[..i];
      var k := IndexOf(kept, rec.mentorId);
      if k < 0 {
        kept := kept + [rec];
      } else if kept[k].score < rec.score {
        kept := kept[k := rec];
      }
      i := i + 1;
    }
    assert recs[..i] == recs;
  }

  /**
   * `recs[k]` is the one the dedup keeps for its mentor: every earlier
   * recommendation of that mentor scores strictly less, every later one no more.
   */
  ghost predicate Winner(recs: seq<Rec>, k: int)
    requires 0 <= k < |recs|
  {
    forall j :: 0 <= j < |recs| && recs[j].mentorId == recs[k].mentorId ==>
      (j < k ==> recs[j].score < recs[k].score) && (k < j ==> recs[j].score <= recs[k].score)
  }

  ghost predicate IsWinner(recs: seq<Rec>, e: Rec)
  {
    exists k :: 0 <= k < |recs| && recs[k] == e && Winner(recs, k)
  }

  ghost predicate AllWinners(recs: seq<Rec>, kept: seq<Rec>)
  {
    forall p :: 0 <= p < |kept| ==> IsWinner(recs, kept[p])
  }

  /** Each mentor is kept once. */
  lemma {:induction false} BestPerMentorDistinct(recs: seq<Rec>)
    ensures DistinctKeys(BestPerMentor(recs), MentorKey)
  {
    if recs != [] {
      BestPerMentorDistinct(recs[..|recs| - 1]);
    }
  }

  /** Every mentor recommended is kept, and no other. */
  lemma {:induction false} BestPerMentorIds(recs: seq<Rec>)
    ensures Ids(BestPerMentor(recs)) == Ids(recs)
  {
    if recs != [] {
      var init, r := recs[..|recs| - 1], recs[|recs| - 1];
      BestPerMentorIds(init);
      assert recs == init + [r];
      var kept := BestPerMentor(init);
      var k := IndexOf(kept, r.mentorId);
      IdsAppend(init, r);
      if k < 0 {
        IdsAppend(kept, r);
      } else if kept[k].score < r.score {
        UpdateKeepsIds(kept, k, r);
      } else {
        assert kept[k] in kept;
      }
    }
  }

  lemma IdsAppend(s: seq<Rec>, r: Rec)
    ensures Ids(s + [r]) == Ids(s) + {r.mentorId}
  {
    assert forall e :: e in s + [r] <==> e in s || e == r;
  }

  lemma UpdateKeepsIds(kept: seq<Rec>, k: int, r: Rec)
    requires 0 <= k < |kept| && kept[k].mentorId == r.mentorId
    ensures Ids(kept[k := r]) == Ids(kept)
  {
    var u := kept[k := r];
    forall id | id in Ids(kept) ensures id in Ids(u) {
      var e :| e in kept && e.mentorId == id;
      var p :| 0 <= p < |kept| && kept[p] == e;
      assert u[p].mentorId == id;
    }
  }

  /** Adding a recommendation of another mentor, or a lower one of the same, keeps a winner a winner. */
  lemma WinnerExtends(recs: seq<Rec>, r: Rec, k: int)
    requires 0 <= k < |recs| && Winner(recs, k)
    requires recs[k].mentorId != r.mentorId || r.score <= recs[k].score
    ensures Winner(recs + [r], k)
  {
  }

  /** A recommendation that beats every earlier one of its mentor is a winner when it arrives. */
  lemma WinnerArrives(recs: seq<Rec>, r: Rec)
    requires forall j :: 0 <= j < |recs| && recs[j].mentorId == r.mentorId ==> recs[j].score < r.score
    ensures Winner(recs + [r], |recs|)
  {
  }

  /** The dedup keeps, for each mentor, the best score, the first one winning ties. */
  lemma {:induction false} BestPerMentorWinners(recs: seq<Rec>)
    ensures AllWinners(recs, BestPerMentor(recs))
  {
    if recs != [] {
      var init, r := recs[..|recs| - 1], recs[|recs| - 1];
      assert recs == init + [r];
      BestPerMentorWinners(init);
      BestPerMentorDistinct(init);
      BestPerMentorIds(init);
      var kept := BestPerMentor(init);
      var k := IndexOf(kept, r.mentorId);
      if k < 0 {
        NewMentorWins(init, r, kept);
      } else if kept[k].score < r.score {
        HigherScoreWins(init, r, kept, k);
      } else {
        forall p | 0 <= p < |kept| ensures IsWinner(init + [r], kept[p]) {
          OldWinnerStays(init, r, kept[p]);
        }
      }
    }
  }

  /** A mentor seen for the first time is appended, and wins. */
  lemma NewMentorWins(init: seq<Rec>, r: Rec, kept: seq<Rec>)
    requires AllWinners(init, kept) && Ids(kept) == Ids(init) && r.mentorId !in Ids(kept)
    ensures AllWinners(init + [r], kept + [r])
  {
    forall j | 0 <= j < |init| ensures init[j].mentorId != r.mentorId {
      assert init[j].mentorId in Ids(init);
    }
    WinnerArrives(init, r);
    assert (init + [r])[|init|] == r;
    forall p | 0 <= p < |kept| + 1 ensures IsWinner(init + [r], (kept + [r])[p]) {
      if p < |kept| {
        OldWinnerStays(init, r, kept[p]);
      }
    }
  }

  /** A higher score replaces the mentor's kept value in place, and wins. */
  lemma HigherScoreWins(init: seq<Rec>, r: Rec, kept: seq<Rec>, k: int)
    requires AllWinners(init, kept) && DistinctKeys(kept, MentorKey)
    requires 0 <= k < |kept| && kept[k].mentorId == r.mentorId && kept[k].score < r.score
    ensures AllWinners(init + [r], kept[k := r])
  {
    var q :| 0 <= q < |init| && init[q] == kept[k] && Winner(init, q);
    forall j | 0 <= j < |init| && init[j].mentorId == r.mentorId ensures init[j].score < r.score {
      assert init[j].score <= init[q].score;
    }
    WinnerArrives(init, r);
    assert (init + [r])[|init|] == r;
    var u := kept[k := r];
    forall p | 0 <= p < |u| ensures IsWinner(init + [r], u[p]) {
      if p != k {
        assert MentorKey(kept[p]) != MentorKey(kept[k]);
        OldWinnerStays(init, r, kept[p]);
      }
    }
  }

  lemma OldWinnerStays(init: seq<Rec>, r: Rec, e: Rec)
    requires IsWinner(init, e)
    requires e.mentorId != r.mentorId || r.score <= e.score
    ensures IsWinner(init + [r], e)
  {
    var q :| 0 <= q < |init| && init[q] == e && Winner(init, q);
    WinnerExtends(init, r, q);
    assert (init + [r])[q] == e;
  }

  /** `Array.from(mentorScores.values()).sort(byScoreDesc).slice(0, requestLimit)`. */
  function Ranked(recs: seq<Rec>, requestLimit: int): seq<Rec>
  {
    SliceTo(SortDesc(BestPerMentor(recs), RecScore), requestLimit)
  }

  /**
   * The ranked list names no mentor twice, each entry is the best (first on
   * ties) recommendation of its mentor, it is sorted by score and it holds
   * at most `requestLimit` entries.
   */
  lemma RankedProperties(recs: seq<Rec>, requestLimit: int)
    requires requestLimit >= 1
    ensures var r := Ranked(recs, requestLimit);
      |r| <= requestLimit && SortedDesc(r, RecScore) && DistinctKeys(r, MentorKey)
      && forall e :: e in r ==> IsWinner(recs, e)
  {
    var best := BestPerMentor(recs);
    var sorted := SortDesc(best, RecScore);
    var r := SliceTo(sorted, requestLimit);
    BestPerMentorDistinct(recs);
    BestPerMentorWinners(recs);
    PermutationKeepsDistinct(best, sorted, MentorKey);
    SortedPrefix(sorted, |r|, RecScore);
    forall e | e in r ensures IsWinner(recs, e) {
      assert e in multiset(best);
      var p :| 0 <= p < |best| && best[p] == e;
    }
  }

  /** Fewer mentors than the limit: every recommended mentor appears in the ranking. */
  lemma RankedKeepsEveryMentorUnderLimit(recs: seq<Rec>, requestLimit: int)
    requires |recs| <= requestLimit
    ensures Ids(Ranked(recs, requestLimit)) == Ids(recs)
  {
    var best := BestPerMentor(recs);
    var sorted := SortDesc(best, RecScore);
    BestPerMentorIds(recs);
    BestPerMentorLength(recs);
    assert SliceTo(sorted, requestLimit) == sorted;
    forall id | id in Ids(best) ensures id in Ids(sorted) {
      var e :| e in best && e.mentorId == id;
      assert e in multiset(sorted);
    }
    forall id | id in Ids(sorted) ensures id in Ids(best) {
      var e :| e in sorted && e.mentorId == id;
      assert e in multiset(best);
    }
  }

  lemma {:induction false} BestPerMentorLength(recs: seq<Rec>)
    ensures |BestPerMentor(recs)| <= |recs|
  {
    if recs != [] {
      BestPerMentorLength(recs[..|recs| - 1]);
    }
  }

  // ---------------------------------------------------------------------------
  // The fallback

  /** `normalizeFallbackRating`: the 1..5 scale mapped onto [0, 1]. */
  function NormalizeFallbackRating(rating: real): (r: real)
    ensures 0.0 <= r <= 1.0
    ensures 1.0 <= rating <= 5.0 ==> r == (rating - 1.0) / 4.0
    ensures rating <= 1.0 ==> r == 0.0
    ensures rating >= 5.0 ==> r == 1.0
  {
    Clamp01((rating - 1.0) / 4.0)
  }

  /** `normalizeFallbackRating(mentor.ratings?.average || 0)`. */
  function FallbackScore(m: MentorFeatures.Mentor): real
  {
    NormalizeFallbackRating(MentorFeatures.FirstTruthy(m.ratingsAverage, None, 0.0))
  }

  /** `mentor.teaches.find(t => t.name.toLowerCase().includes(skill.name.toLowerCase()))` finds one. */
  predicate TeachesSkill(m: MentorFeatures.Mentor, skill: Skill)
  {
    exists t :: t in m.teaches && Includes(ToLower(t.name), ToLower(skill.name))
  }

  function TopRated(mentors: seq<MentorFeatures.Mentor>): seq<Rec>
  {
    seq(|mentors|, i requires 0 <= i < |mentors| =>
      Rec(mentors[i].id, None, FallbackScore(mentors[i]), HighlyRatedMentor, true))
  }

  /** The items the inner loop pushes for one mentor, in skill order. */
  function ItemsFor(m: MentorFeatures.Mentor, skills: seq<Skill>): seq<Rec>
  {
    if skills == [] then []
    else
      var s := skills[|skills| - 1];
      ItemsFor(m, skills[..|skills| - 1])
      + (if TeachesSkill(m, s) then [Rec(m.id, Some(s.id), FallbackScore(m), TeachesThisSkill, true)] else [])
  }

  function FallbackItems(mentors: seq<MentorFeatures.Mentor>, skills: seq<Skill>): seq<Rec>
  {
    if mentors == [] then []
    else FallbackItems(mentors[..|mentors| - 1], skills) + ItemsFor(mentors[|mentors| - 1], skills)
  }

  /** The nested loops at lines 302-318. */
  method CollectFallbackItems(mentors: seq<MentorFeatures.Mentor>, skills: seq<Skill>) returns (items: seq<Rec>)
    ensures items == FallbackItems(mentors, skills)
  {
    items := [];
    var i := 0;
    while i < |mentors|
      invariant 0 <= i <= |mentors|
      invariant items == FallbackItems(mentors[..i], skills)
    {
      var m := mentors[i];
      assert mentors[..i + 1][..i] == mentors[..i];
      ghost var before := items;
      var j := 0;
      while j < |skills|
        invariant 0 <= j <= |skills|
        invariant items == before + ItemsFor(m, skills[..j])
      {
        var s := skills[j];
        assert skills[..j + 1][..j] == skills[..j];
        if TeachesSkill(m, s) {
          items := items + [Rec(m.id, Some(s.id), FallbackScore(m), TeachesThisSkill, true)];
        }
        j := j + 1;
      }
      assert skills[..j] == skills;
      i := i + 1;
    }
    assert mentors[..i] == mentors;
  }

  /** One turn of the loop at lines 322-327: only a mentor not yet seen is `set`. */
  function KeepFirst(kept: seq<Rec>, r: Rec): seq<Rec>
  {
    if IndexOf(kept, r.mentorId) < 0 then kept + [r] else kept
  }

  function FirstPerMentor(items: seq<Rec>): seq<Rec>
  {
    if items == [] then [] else KeepFirst(FirstPerMentor(items[..|items| - 1]), items[|items| - 1])
  }

  /** The Map `uniqueMentors` after the loop, as the sequence of its values. */
  method DedupFirst(items: seq<Rec>) returns (kept: seq<Rec>)
    ensures kept == FirstPerMentor(items)
  {
    kept := [];
    var i := 0;
    while i < |items|
      invariant 0 <= i <= |items|
      invariant kept == FirstPerMentor(items[..i])
    {
      var item := items[i];
      assert items[..i + 1][..i] == items[..i];
      if IndexOf(kept, item.mentorId) < 0 {
        kept := kept + [item];
      }
      i := i + 1;
    }
    assert items[..i] == items;
  }

  /** `items[k]` is the first item of its mentor. */
  ghost predicate FirstOfMentor(items: seq<Rec>, e: Rec)
  {
    exists k :: 0 <= k < |items| && items[k] == e && forall j :: 0 <= j < k ==> items[j].mentorId != e.mentorId
  }

  /** The fallback dedup keeps each mentor once. */
  lemma {:induction false} FirstPerMentorDistinct(items: seq<Rec>)
    ensures DistinctKeys(FirstPerMentor(items), MentorKey)
  {
    if items != [] {
      FirstPerMentorDistinct(items[..|items| - 1]);
    }
  }

  /** The fallback dedup drops no mentor. */
  lemma {:induction false} FirstPerMentorIds(items: seq<Rec>)
    ensures Ids(FirstPerMentor(items)) == Ids(items)
  {
    if items != [] {
      var init, r := items[..|items| - 1], items[|items| - 1];
      assert items == init + [r];
      FirstPerMentorIds(init);
      var kept := FirstPerMentor(init);
      IdsAppend(init, r);
      var k := IndexOf(kept, r.mentorId);
      if k < 0 {
        IdsAppend(kept, r);
      } else {
        assert kept[k] in kept;
      }
    }
  }

  /** Each mentor is kept by their first item. */
  lemma {:induction false} FirstPerMentorFirsts(items: seq<Rec>)
    ensures forall e :: e in FirstPerMentor(items) ==> FirstOfMentor(items, e)
  {
    if items != [] {
      var init, r := items[..|items| - 1], items[|items| - 1];
      assert items == init + [r];
      FirstPerMentorFirsts(init);
      FirstPerMentorIds(init);
      var kept := FirstPerMentor(init);
      forall e | e in kept ensures FirstOfMentor(items, e) {
        var k :| 0 <= k < |init| && init[k] == e && forall j :: 0 <= j < k ==> init[j].mentorId != e.mentorId;
        assert items[k] == e;
      }
      if IndexOf(kept, r.mentorId) < 0 {
        forall j | 0 <= j < |init| ensures init[j].mentorId != r.mentorId {
          assert init[j].mentorId in Ids(init);
        }
        assert items[|init|] == r;
      }
    }
  }

  datatype Outcome = Outcome(userId: string, skillIds: seq<string>, items: seq<Rec>)

  /** What the database holds for one request. */
  datatype Db = Db(
    /** `User.findById`: the users that exist. */
    users: map<string, MentorFeatures.Student>,
    /** `Skill.findById`. */
    skills: map<string, Skill>,
    /** Per skill id, the mentors whose taught skill names match the skill's name. */
    teachers: map<string, seq<MentorFeatures.Mentor>>,
    /** Per skill id, the fresh cached recommendations for this user. */
    cache: map<string, seq<Rec>>,
    /** All mentors, best rated first. */
    topRated: seq<MentorFeatures.Mentor>,
    /** `Skill.find({ _id: { $in: skillIds } })`. */
    found: seq<Skill>,
    /** The mentors teaching any of `found`, best rated first. */
    teaching: seq<MentorFeatures.Mentor>)

  /** `fallbackMentorRecommendations(userId, skillIds, limit)`. */
  function Fallback(userId: string, skillIds: seq<string>, limit: int, db: Db): Outcome
  {
    if skillIds == [] then Outcome(userId, [], TopRated(SliceTo(db.topRated, limit)))
    else Outcome(userId, skillIds, SliceTo(FirstPerMentor(FallbackItems(SliceTo(db.teaching, limit * 2), db.found)), limit))
  }

  method FallbackMentorRecommendations(userId: string, skillIds: seq<string>, limit: int, db: Db) returns (o: Outcome)
    ensures o == Fallback(userId, skillIds, limit, db)
  {
    if skillIds == [] {
      return Outcome(userId, [], TopRated(SliceTo(db.topRated, limit)));
    }
    var items := CollectFallbackItems(SliceTo(db.teaching, limit * 2), db.found);
    var unique := DedupFirst(items);
    o := Outcome(userId, skillIds, SliceTo(unique, limit));
  }

  /** The fallback names each mentor once, at most `limit` of them, each by their first matching item. */
  lemma FallbackProperties(userId: string, skillIds: seq<string>, limit: int, db: Db)
    requires skillIds != [] && limit >= 1
    ensures var items := Fallback(userId, skillIds, limit, db).items;
      |items| <= limit && DistinctKeys(items, MentorKey)
      && forall e :: e in items ==> FirstOfMentor(FallbackItems(SliceTo(db.teaching, limit * 2), db.found), e)
  {
    var items := FallbackItems(SliceTo(db.teaching, limit * 2), db.found);
    var unique := FirstPerMentor(items);
    FirstPerMentorDistinct(items);
    FirstPerMentorFirsts(items);
    assert forall e :: e in SliceTo(unique, limit) ==> e in unique;
  }

  // ---------------------------------------------------------------------------
  // recommendMentors

  /** The per-skill cache answers unless `skipCache` is set or it holds nothing. */
  predicate CacheHit(skillId: string, skipCache: bool, db: Db)
  {
    !skipCache && skillId in db.cache && |db.cache[skillId]| > 0
  }

  /** Cached records re-stamped with `fallback: false`. */
  function Restamp(recs: seq<Rec>): seq<Rec>
  {
    seq(|recs|, i requires 0 <= i < |recs| => recs[i].(fallback := false))
  }

  function FromCache(skillIds: seq<string>, skipCache: bool, db: Db): seq<Rec>
  {
    if skillIds == [] then []
    else
      var id := skillIds[|skillIds| - 1];
      FromCache(skillIds[..|skillIds| - 1], skipCache, db)
      + (if CacheHit(id, skipCache, db) then Restamp(db.cache[id]) else [])
  }

  function Needing(skillIds: seq<string>, skipCache: bool, db: Db): seq<string>
  {
    if skillIds == [] then []
    else
      var id := skillIds[|skillIds| - 1];
      Needing(skillIds[..|skillIds| - 1], skipCache, db) + (if CacheHit(id, skipCache, db) then [] else [id])
  }

  function SkillOf(skillId: string, db: Db): Option<Skill>
  {
    if skillId in db.skills then Some(db.skills[skillId]) else None
  }

  function TeachersOf(skillId: string, db: Db): seq<MentorFeatures.Mentor>
  {
    if skillId in db.teachers then db.teachers[skillId] else []
  }

  function Fresh(userId: string, user: MentorFeatures.Student, skillIds: seq<string>, db: Db, limit: int, now: int): seq<Rec>
  {
    if skillIds == [] then []
    else
      var id := skillIds[|skillIds| - 1];
      Fresh(userId, user, skillIds[..|skillIds| - 1], db, limit, now)
      + Computed(userId, user, id, SkillOf(id, db), TeachersOf(id, db), limit, now)
  }

  /** `recommendMentors({ userId, skillIds, limit, skipCache })` with ML switched on or off by `mlEnabled`. */
  function Recommend(userId: string, skillIds: seq<string>, limit: int, skipCache: bool, mlEnabled: bool, db: Db, now: int): Outcome
  {
    var requestLimit := RequestLimit(limit);
    if !mlEnabled then Fallback(userId, skillIds, requestLimit, db)
    else if skillIds == [] then Outcome(userId, [], [])
    else if userId !in db.users then Fallback(userId, skillIds, requestLimit, db)
    else
      var user := db.users[userId];
      var all := FromCache(skillIds, skipCache, db)
        + Fresh(userId, user, Needing(skillIds, skipCache, db), db, requestLimit * 2, now);
      Outcome(userId, skillIds, Ranked(all, requestLimit))
  }

  method RecommendMentors(userId: string, skillIds: seq<string>, limit: int, skipCache: bool, mlEnabled: bool, db: Db, now: int)
    returns (o: Outcome)
    ensures o == Recommend(userId, skillIds, limit, skipCache, mlEnabled, db, now)
  {
    var requestLimit := RequestLimit(limit);
    if !mlEnabled {
      o := FallbackMentorRecommendations(userId, skillIds, requestLimit, db);
      return;
    }
    if skillIds == [] {
      return Outcome(userId, [], []);
    }
    if userId !in db.users {
      o := FallbackMentorRecommendations(userId, skillIds, requestLimit, db);
      return;
    }
    var user := db.users[userId];
    var cached, needing := GatherCached(skillIds, skipCache, db);
    var computed := ComputeNeeding(userId, user, needing, db, requestLimit * 2, now);
    var kept := DedupBest(cached + computed);
    o := Outcome(userId, skillIds, SliceTo(SortDesc(kept, RecScore), requestLimit));
  }

  /** The loop at lines 124-134: fresh recommendations for every skill the cache missed. */
  method ComputeNeeding(userId: string, user: MentorFeatures.Student, needing: seq<string>, db: Db, limit: int, now: int)
    returns (all: seq<Rec>)
    ensures all == Fresh(userId, user, needing, db, limit, now)
  {
    all := [];
    var i := 0;
    while i < |needing|
      invariant 0 <= i <= |needing|
      invariant all == Fresh(userId, user, needing[..i], db, limit, now)
    {
      var id := needing[i];
      assert needing[..i + 1][..i] == needing[..i];
      var computed := ComputeMentorRecommendations(userId, user, id, SkillOf(id, db), TeachersOf(id, db), limit, now);
      all := all + computed;
      i := i + 1;
    }
    assert needing[..i] == needing;
  }

  /** The loop at lines 94-118: cache hits go straight into the list, misses are set aside. */
  method GatherCached(skillIds: seq<string>, skipCache: bool, db: Db) returns (all: seq<Rec>, needing: seq<string>)
    ensures all == FromCache(skillIds, skipCache, db)
    ensures needing == Needing(skillIds, skipCache, db)
  {
    all, needing := [], [];
    var i := 0;
    while i < |skillIds|
      invariant 0 <= i <= |skillIds|
      invariant all == FromCache(skillIds[..i], skipCache, db)
      invariant needing == Needing(skillIds[..i], skipCache, db)
    {
      var id := skillIds[i];
      assert skillIds[..i + 1][..i] == skillIds[..i];
      if !skipCache && id in db.cache && |db.cache[id]| > 0 {
        all := all + Restamp(db.cache[id]);
      } else {
        needing := needing + [id];
      }
      i := i + 1;
    }
    assert skillIds[..i] == skillIds;
  }

  /** With ML on and no skill asked for, there is nothing to recommend. */
  lemma NoSkillsNoItems(userId: string, limit: int, skipCache: bool, db: Db, now: int)
    ensures Recommend(userId, [], limit, skipCache, true, db, now) == Outcome(userId, [], [])
  {
  }

  /**
   * For a known user with ML on, the items name no mentor twice, are sorted
   * by score, number at most `requestLimit`, and each is the best of its
   * mentor's recommendations gathered from the cache and the computation.
   */
  lemma RecommendProperties(userId: string, skillIds: seq<string>, limit: int, skipCache: bool, db: Db, now: int)
    requires skillIds != [] && userId in db.users
    ensures var items := Recommend(userId, skillIds, limit, skipCache, true, db, now).items;
      |items| <= RequestLimit(limit) && SortedDesc(items, RecScore) && DistinctKeys(items, MentorKey)
    ensures var all := FromCache(skillIds, skipCache, db)
        + Fresh(userId, db.users[userId], Needing(skillIds, skipCache, db), db, RequestLimit(limit) * 2, now);
      forall e :: e in Recommend(userId, skillIds, limit, skipCache, true, db, now).items ==> IsWinner(all, e)
  {
    var user := db.users[userId];
    var all := FromCache(skillIds, skipCache, db)
      + Fresh(userId, user, Needing(skillIds, skipCache, db), db, RequestLimit(limit) * 2, now);
    RankedProperties(all, RequestLimit(limit));
  }

  /** Without the cache every item is computed, so the requesting user is never among them. */
  lemma RecomputedExcludesSelf(userId: string, skillIds: seq<string>, limit: int, db: Db, now: int)
    requires skillIds != [] && userId in db.users
    ensures forall e :: e in Recommend(userId, skillIds, limit, true, true, db, now).items ==>
      e.mentorId != userId && 0.0 <= e.score <= 1.0
  {
    var user := db.users[userId];
    var rl := RequestLimit(limit);
    var all := FromCache(skillIds, true, db) + Fresh(userId, user, Needing(skillIds, true, db), db, rl * 2, now);
    NothingCachedWhenSkipped(skillIds, db);
    FreshExcludesSelf(userId, user, Needing(skillIds, true, db), db, rl * 2, now);
    RankedProperties(all, rl);
    forall e | e in Ranked(all, rl) ensures e.mentorId != userId && 0.0 <= e.score <= 1.0 {
      var k :| 0 <= k < |all| && all[k] == e && Winner(all, k);
    }
  }

  lemma {:induction false} NothingCachedWhenSkipped(skillIds: seq<string>, db: Db)
    ensures FromCache(skillIds, true, db) == []
  {
    if skillIds != [] {
      NothingCachedWhenSkipped(skillIds[..|skillIds| - 1], db);
    }
  }

  lemma {:induction false} FreshExcludesSelf(userId: string, user: MentorFeatures.Student, skillIds: seq<string>,
                                             db: Db, limit: int, now: int)
    requires limit >= 0
    ensures forall e :: e in Fresh(userId, user, skillIds, db, limit, now) ==> e.mentorId != userId && 0.0 <= e.score <= 1.0
  {
    if skillIds != [] {
      var id := skillIds[|skillIds| - 1];
      FreshExcludesSelf(userId, user, skillIds[..|skillIds| - 1], db, limit, now);
      ComputedProperties(userId, user, id, SkillOf(id, db), TeachersOf(id, db), limit, now);
    }
  }
}

=== FILE: recommending.dfy ===
/**
 * What the mentor and the skill recommender share: the clamp on the
 * requested number of results and the linear model, a dot product of the
 * feature vector with fixed weights over their common prefix.
 */
module Recommending {
  import opened Common

  /** `Math.min(Math.max(1, limit), 50)`. */
  function RequestLimit(limit: int): (r: int)
    ensures 1 <= r <= 50
    ensures 1 <= limit <= 50 ==> r == limit
    ensures limit < 1 ==> r == 1
    ensures limit > 50 ==> r == 50
  {
    Min(Max(1, limit), 50)
  }

  /** Sum of `f[i] * w[i]` for `i < n`. */
  function WeightedSum(f: seq<real>, w: seq<real>, n: nat): real
    requires n <= |f| && n <= |w|
  {
    if n == 0 then 0.0 else WeightedSum(f, w, n - 1) + f[n - 1] * w[n - 1]
  }

  /** Sum of `w[i]` for `i < n`. */
  function Total(w: seq<real>, n: nat): real
    requires n <= |w|
  {
    if n == 0 then 0.0 else Total(w, n - 1) + w[n - 1]
  }

  /** The score of `computeLinearScore`: the dot product over the common prefix. */
  function LinearScore(f: seq<real>, w: seq<real>): real
  {
    WeightedSum(f, w, Min(|f|, |w|))
  }

  /** `computeLinearScore`, whose loop runs over `min(features.length, MODEL_WEIGHTS.length)`. */
  method ComputeLinearScore(features: seq<real>, weights: seq<real>) returns (score: real)
    ensures score == LinearScore(features, weights)
  {
    var len := Min(|features|, |weights|);
    score := 0.0;
    var i := 0;
    while i < len
      invariant 0 <= i <= len
      invariant score == WeightedSum(features, weights, i)
    {
      score := score + features[i] * weights[i];
      i := i + 1;
    }
  }

  /** With features in [0, 1] and non-negative weights the sum lies between 0 and the sum of the weights. */
  lemma {:induction false} WeightedSumBounds(f: seq<real>, w: seq<real>, n: nat)
    requires n <= |f| && n <= |w|
    requires forall i :: 0 <= i < n ==> 0.0 <= f[i] <= 1.0 && w[i] >= 0.0
    ensures 0.0 <= WeightedSum(f, w, n) <= Total(w, n)
  {
    if n > 0 {
      WeightedSumBounds(f, w, n - 1);
      var x, y := f[n - 1], w[n - 1];
      ProductBounds(x, y);
      AddBounds(WeightedSum(f, w, n - 1), Total(w, n - 1), x * y, y);
    }
  }

  lemma AddBounds(a: real, t: real, p: real, x: real)
    requires 0.0 <= a <= t && 0.0 <= p <= x
    ensures 0.0 <= a + p <= t + x
  {
  }

  lemma ProductBounds(x: real, y: real)
    requires 0.0 <= x <= 1.0 && y >= 0.0
    ensures 0.0 <= x * y <= y
  {
  }

  /** A prefix of non-negative weights sums to no more than all of them. */
  lemma {:induction false} TotalOfPrefix(w: seq<real>, n: nat)
    requires n <= |w|
    requires forall i :: 0 <= i < |w| ==> w[i] >= 0.0
    ensures Total(w, n) <= Total(w, |w|)
  {
    if n < |w| {
      TotalOfPrefix(w[..|w| - 1], n);
      TotalOfSlice(w, n);
      TotalOfSlice(w, |w| - 1);
    }
  }

  lemma {:induction false} TotalOfSlice(w: seq<real>, n: nat)
    requires n < |w|
    ensures Total(w[..|w| - 1], n) == Total(w, n)
  {
    if n > 0 {
      TotalOfSlice(w, n - 1);
    }
  }

  /** Features in [0, 1] and non-negative weights summing to 1 give a raw score in [0, 1]. */
  lemma LinearScoreInUnitRange(f: seq<real>, w: seq<real>)
    requires forall x :: x in f ==> 0.0 <= x <= 1.0
    requires forall i :: 0 <= i < |w| ==> w[i] >= 0.0
    requires Total(w, |w|) == 1.0
    ensures 0.0 <= LinearScore(f, w) <= 1.0
  {
    var n := Min(|f|, |w|);
    forall i | 0 <= i < n ensures 0.0 <= f[i] <= 1.0 && w[i] >= 0.0 {
      assert f[i] in f;
    }
    WeightedSumBounds(f, w, n);
    TotalOfPrefix(w, n);
  }
}

=== FILE: rv_verification.dfy ===
/**
 * RV College verification: the college e-mail pattern, the one-time password
 * flow (start, then verify before it expires), the profile update open to
 * verified users only, and the status view. Records are values; the clock
 * (`now`, in milliseconds) and `Math.random()` are parameters.
 */
module RvVerification {
  import opened Common

  // ---------------------------------------------------------------------------
  // RV_EMAIL_REGEX = /^[^\s@]+@(rvce\.edu\.in|rv\.edu\.in|ms\.rvce\.edu\.in)$/i

  predicate KnownDomain(d: string)
  {
    var l := ToLower(d);
    l == "rvce.edu.in" || l == "rv.edu.in" || l == "ms.rvce.edu.in"
  }

  /** `[^\s@]+`: non-empty, without white space or `@`. */
  predicate LocalPart(s: string)
  {
    |s| > 0 && forall i :: 0 <= i < |s| ==> !IsJsWhitespace(s[i]) && s[i] != '@'
  }

  /** The whole address matches the pattern, the domain compared case-insensitively. */
  predicate IsRvEmail(e: string)
  {
    exists i :: 0 <= i < |e| && e[i] == '@' && LocalPart(e[..i]) && KnownDomain(e[i + 1..])
  }

  /** The `@` of an accepted address is its first `@`, so the split is unique. */
  lemma RvEmailSplitUnique(e: string, i: int, j: int)
    requires 0 <= i < |e| && e[i] == '@' && LocalPart(e[..i])
    requires 0 <= j < |e| && e[j] == '@' && LocalPart(e[..j])
    ensures i == j
  {
  }

  /** An accepted address has no surrounding white space, so trimming it changes nothing. */
  lemma RvEmailIsTrimmed(e: string)
    requires IsRvEmail(e)
    ensures Trim(e) == e
  {
    var i :| 0 <= i < |e| && e[i] == '@' && LocalPart(e[..i]) && KnownDomain(e[i + 1..]);
    assert e[0] == e[..i][0];
    var d := e[i + 1..];
    KnownDomainEndsInN(d);
    var c := e[|e| - 1];
    assert c == d[|d| - 1];
    WhitespaceUnderLower(c);
    TrimUnpadded(e);
  }

  /** Every accepted domain ends in `n` or `N`. */
  lemma KnownDomainEndsInN(d: string)
    requires KnownDomain(d)
    ensures |d| > 0 && LowerChar(d[|d| - 1]) == 'n'
  {
    var l := ToLower(d);
    assert |l| == |d|;
    if l == "rvce.edu.in" {
      assert l[10] == 'n';
    } else if l == "rv.edu.in" {
      assert l[8] == 'n';
    } else {
      assert l[13] == 'n';
    }
  }

  lemma SampleAddresses()
    ensures IsRvEmail("student@rvce.edu.in")
    ensures IsRvEmail("a@MS.RVCE.EDU.IN")
  {
    LowerCaseAddress();
    UpperCaseAddress();
  }

  lemma LowerCaseAddress()
    ensures IsRvEmail("student@rvce.edu.in")
  {
    assert "student@rvce.edu.in"[7] == '@' && "student@rvce.edu.in"[8..] == "rvce.edu.in";
    assert "student@rvce.edu.in"[..7] == "student";
    assert ToLower("rvce.edu.in") == "rvce.edu.in";
  }

  lemma UpperCaseAddress()
    ensures IsRvEmail("a@MS.RVCE.EDU.IN")
  {
    assert "a@MS.RVCE.EDU.IN"[1] == '@' && "a@MS.RVCE.EDU.IN"[2..] == "MS.RVCE.EDU.IN";
    assert "a@MS.RVCE.EDU.IN"[..1] == "a";
    assert ToLower("MS.RVCE.EDU.IN") == "ms.rvce.edu.in";
  }

  // ---------------------------------------------------------------------------
  // Records

  datatype RvStatus = Pending | Verified | Rejected

  /** An `RVVerification` document. */
  datatype RvRecord = RvRecord(rvEmail: string, rvLoginId: Option<string>, idCardImageUrl: Option<string>,
                               otp: Option<string>, otpExpiresAt: Option<int>, emailVerified: bool,
                               status: RvStatus, verifiedAt: Option<int>, expiresAt: Option<int>,
                               rejectedAt: Option<int>, notes: Option<string>)

  /** The user-document fields the controller reads and writes. */
  datatype RvUser = RvUser(id: string, email: string, googleEmail: Option<string>, isVerified: bool,
                           collegeEmail: Option<string>, branch: Option<string>, year: Option<int>,
                           profileVerifiedAt: Option<int>, profileExpiresAt: Option<int>)

  const OtpWindowMs: int := 10 * 60 * 1000
  const VerificationLifetimeMs: int := 180 * 24 * 60 * 60 * 1000

  /** `Math.floor(100000 + Math.random() * 900000)`. */
  function OtpFromRandom(r: real): (n: nat)
    requires 0.0 <= r < 1.0
    ensures 100000 <= n <= 999999
  {
    (100000.0 + r * 900000.0).Floor
  }

  /** The one-time password as text always has six digits. */
  lemma OtpHasSixDigits(r: real)
    requires 0.0 <= r < 1.0
    ensures |NatToString(OtpFromRandom(r))| == 6 && AllDigits(NatToString(OtpFromRandom(r)))
  {
    assert Pow10(5) == 100000 && Pow10(6) == 1000000;
    NatToStringLength(OtpFromRandom(r), 5);
  }

  // ---------------------------------------------------------------------------
  // startVerification

  datatype StartOutcome =
    | EmailMissing                 // 400 'RV email is required'
    | WrongDomain                  // 400
    | StartUserNotFound            // 404
    | VerifiedByAnotherAccount     // 409
    | OtpIssued(otp: string)       // 200, whether or not the e-mail went out

  /** Another account has already verified this college address. */
  predicate TakenByOther(users: seq<RvUser>, userId: string, email: string)
  {
    exists k :: 0 <= k < |users| && users[k].collegeEmail == Some(email) && users[k].isVerified
                && users[k].id != userId
  }

  /**
   * `startVerification`: `otp` is the generated password as text. The record is
   * upserted with the fields of the request; fields the update leaves
   * undefined keep their previous value.
   */
  function StartVerification(userId: string, user: Option<RvUser>, users: seq<RvUser>, rvEmail: string,
                             rvLoginId: Option<string>, idCardImageUrl: Option<string>,
                             existing: Option<RvRecord>, now: int, otp: string)
    : (r: (StartOutcome, Option<RvRecord>))
    ensures r.0 == EmailMissing <==> rvEmail == []
    ensures r.0 == WrongDomain <==> rvEmail != [] && !IsRvEmail(rvEmail)
    ensures r.0 == StartUserNotFound <==> IsRvEmail(rvEmail) && user.None?
    ensures r.0 == VerifiedByAnotherAccount <==>
      IsRvEmail(rvEmail) && user.Some? && TakenByOther(users, userId, Normalize(rvEmail))
    ensures r.0.OtpIssued? <==>
      IsRvEmail(rvEmail) && user.Some? && !TakenByOther(users, userId, Normalize(rvEmail))
    ensures !r.0.OtpIssued? ==> r.1 == existing
    ensures r.0.OtpIssued? ==>
      && r.0.otp == otp && r.1.Some?
      && r.1.value.rvEmail == Normalize(rvEmail) && r.1.value.otp == Some(otp)
      && r.1.value.otpExpiresAt == Some(now + OtpWindowMs)
      && r.1.value.status == Pending && !r.1.value.emailVerified
    // a truthy login id is stored trimmed, a card URL as sent; either one left
    // undefined keeps what the record held
    ensures r.0.OtpIssued? ==>
      && r.1.value.rvLoginId ==
           (if rvLoginId.Some? && rvLoginId.value != [] then Some(Trim(rvLoginId.value))
            else if existing.Some? then existing.value.rvLoginId else None)
      && r.1.value.idCardImageUrl ==
           (if idCardImageUrl.Some? then idCardImageUrl
            else if existing.Some? then existing.value.idCardImageUrl else None)
    // the upsert keeps the rest of an existing record, and a new one has none of it
    ensures r.0.OtpIssued? && existing.Some? ==>
      && r.1.value.verifiedAt == existing.value.verifiedAt
      && r.1.value.expiresAt == existing.value.expiresAt
      && r.1.value.rejectedAt == existing.value.rejectedAt
      && r.1.value.notes == existing.value.notes
    ensures r.0.OtpIssued? && existing.None? ==>
      r.1.value.verifiedAt.None? && r.1.value.expiresAt.None? && r.1.value.rejectedAt.None?
      && r.1.value.notes.None?
  {
    if rvEmail == [] then (EmailMissing, existing)
    else if !IsRvEmail(rvEmail) then (WrongDomain, existing)
    else if user.None? then (StartUserNotFound, existing)
    else
      var email := Normalize(rvEmail);
      if TakenByOther(users, userId, email) then (VerifiedByAnotherAccount, existing)
      else
        var loginId := if rvLoginId.Some? && rvLoginId.value != [] then Some(Trim(rvLoginId.value))
                       else if existing.Some? then existing.value.rvLoginId else None;
        var card := if idCardImageUrl.Some? then idCardImageUrl
                    else if existing.Some? then existing.value.idCardImageUrl else None;
        var base := if existing.Some? then existing.value
                    else RvRecord(email, None, None, None, None, false, Pending, None, None, None, None);
        (OtpIssued(otp), Some(base.(rvEmail := email, rvLoginId := loginId, idCardImageUrl := card,
                                    otp := Some(otp), otpExpiresAt := Some(now + OtpWindowMs),
                                    emailVerified := false, status := Pending)))
  }

  // ---------------------------------------------------------------------------
  // verifyOTP

  datatype VerifyOutcome =
    | OtpMissing                   // 400 'OTP is required'
    | NoPendingVerification        // 404
    | InvalidOtp                   // 400
    | OtpExpired                   // 400
    | VerifyUserNotFound           // 404
    | AccountMismatch              // 403, neither the Google nor the primary e-mail matches
    | VerifiedOk(expiresAt: int)

  /** `new Date() > verification.otpExpiresAt`; an unset expiry compares false. */
  predicate OtpExpiredAt(rec: RvRecord, now: int)
  {
    rec.otpExpiresAt.Some? && now > rec.otpExpiresAt.value
  }

  /** The Google-provider e-mail or the primary e-mail equals the college address, normalised. */
  predicate AccountMatches(rec: RvRecord, u: RvUser)
  {
    (u.googleEmail.Some? && Normalize(u.googleEmail.value) == Normalize(rec.rvEmail))
    || Normalize(u.email) == Normalize(rec.rvEmail)
  }

  /**
   * `verifyOTP`: the password is compared before the expiry is looked at; on
   * success the record is verified for 180 days, the password is cleared and
   * the user is marked verified.
   */
  function VerifyOtp(otpInput: string, rec: Option<RvRecord>, user: Option<RvUser>, now: int)
    : (r: (VerifyOutcome, Option<RvRecord>, Option<RvUser>))
    ensures r.0 == OtpMissing <==> otpInput == []
    ensures r.0 == NoPendingVerification <==> otpInput != [] && rec.None?
    ensures r.0 == InvalidOtp <==> otpInput != [] && rec.Some? && rec.value.otp != Some(Trim(otpInput))
    ensures r.0 == OtpExpired <==>
      otpInput != [] && rec.Some? && rec.value.otp == Some(Trim(otpInput)) && OtpExpiredAt(rec.value, now)
    ensures r.0.VerifiedOk? <==>
      && otpInput != [] && rec.Some? && rec.value.otp == Some(Trim(otpInput))
      && !OtpExpiredAt(rec.value, now) && user.Some? && AccountMatches(rec.value, user.value)
    ensures !r.0.VerifiedOk? ==> r.1 == rec && r.2 == user
    ensures r.0.VerifiedOk? ==>
      && r.0.expiresAt == now + VerificationLifetimeMs
      && r.1 == Some(rec.value.(emailVerified := true, status := Verified, verifiedAt := Some(now),
                                expiresAt := Some(now + VerificationLifetimeMs), otp := None,
                                otpExpiresAt := None))
      && r.2.Some? && r.2.value.isVerified && r.2.value.collegeEmail == Some(rec.value.rvEmail)
    // the user record in full: only the verification fields change, the rest is kept
    ensures r.0.VerifiedOk? ==>
      r.2 == Some(user.value.(isVerified := true, collegeEmail := Some(rec.value.rvEmail),
                              profileVerifiedAt := Some(now),
                              profileExpiresAt := Some(now + VerificationLifetimeMs)))
  {
    if otpInput == [] then (OtpMissing, rec, user)
    else if rec.None? then (NoPendingVerification, rec, user)
    else
      var v := rec.value;
      if v.otp != Some(Trim(otpInput)) then (InvalidOtp, rec, user)
      else if OtpExpiredAt(v, now) then (OtpExpired, rec, user)
      else if user.None? then (VerifyUserNotFound, rec, user)
      else if !AccountMatches(v, user.value) then (AccountMismatch, rec, user)
      else
        var expiresAt := now + VerificationLifetimeMs;
        (VerifiedOk(expiresAt),
         Some(v.(emailVerified := true, status := Verified, verifiedAt := Some(now),
                 expiresAt := Some(expiresAt), otp := None, otpExpiresAt := None)),
         Some(user.value.(isVerified := true, collegeEmail := Some(v.rvEmail),
                          profileVerifiedAt := Some(now), profileExpiresAt := Some(expiresAt))))
  }

  /**
   * A password issued by `startVerification` is accepted up to and including
   * the tenth minute by a user whose primary e-mail is the college address,
   * and only once.
   */
  lemma StartThenVerify(userId: string, u: RvUser, users: seq<RvUser>, rvEmail: string,
                        existing: Option<RvRecord>, issued: int, now: int, otp: string)
    requires StartVerification(userId, Some(u), users, rvEmail, None, None, existing, issued, otp).0.OtpIssued?
    requires otp != [] && Trim(otp) == otp
    requires issued <= now <= issued + OtpWindowMs
    requires Normalize(u.email) == Normalize(rvEmail)
    ensures var rec := StartVerification(userId, Some(u), users, rvEmail, None, None, existing, issued, otp).1;
      var after := VerifyOtp(otp, rec, Some(u), now);
      after.0.VerifiedOk? && VerifyOtp(otp, after.1, after.2, now).0 == InvalidOtp
  {
    var rec := StartVerification(userId, Some(u), users, rvEmail, None, None, existing, issued, otp).1.value;
    assert rec.rvEmail == Normalize(rvEmail) && rec.otp == Some(otp);
    assert !OtpExpiredAt(rec, now);
    NormalizeIdempotent(rvEmail);
    assert AccountMatches(rec, u);
    var after := VerifyOtp(otp, Some(rec), Some(u), now);
    assert after.0.VerifiedOk?;
    assert after.1.value.otp.None?;
  }

  /** After the window the right password is refused as expired; a wrong one is refused as invalid first. */
  lemma ExpiryCheckedAfterMatch(otpInput: string, rec: RvRecord, user: Option<RvUser>, now: int)
    requires otpInput != [] && rec.otpExpiresAt.Some? && now > rec.otpExpiresAt.value
    ensures rec.otp == Some(Trim(otpInput)) ==> VerifyOtp(otpInput, Some(rec), user, now).0 == OtpExpired
    ensures rec.otp != Some(Trim(otpInput)) ==> VerifyOtp(otpInput, Some(rec), user, now).0 == InvalidOtp
  {
  }

  // ---------------------------------------------------------------------------
  // updateRVProfile

  datatype ProfileOutcome = ProfileUserNotFound | NotVerified | ProfileUpdated

  /**
   * `updateRVProfile`: verified users only; a truthy `branch` is trimmed and
   * stored, and `year` is stored only when `parseInt(year, 10)` is in 1..5.
   */
  function UpdateRvProfile(user: Option<RvUser>, branch: Option<string>, year: Option<string>)
    : (r: (ProfileOutcome, Option<RvUser>))
    ensures r.0 == ProfileUserNotFound <==> user.None?
    ensures r.0 == NotVerified <==> user.Some? && !user.value.isVerified
    ensures r.0 != ProfileUpdated ==> r.1 == user
    ensures r.0 == ProfileUpdated ==> r.1.Some?
    ensures r.0 == ProfileUpdated && branch.Some? && branch.value != [] ==> r.1.value.branch == Some(Trim(branch.value))
    ensures r.0 == ProfileUpdated ==>
      r.1.value.year == (if ParsedYear(year).Some? then ParsedYear(year) else user.value.year)
    // a falsy branch keeps the stored branch
    ensures r.0 == ProfileUpdated && (branch.None? || branch.value == []) ==> r.1.value.branch == user.value.branch
    // the user record in full: nothing but the branch and the year changes
    ensures r.0 == ProfileUpdated ==>
      r.1 == Some(user.value.(branch := if branch.Some? && branch.value != [] then Some(Trim(branch.value))
                                        else user.value.branch,
                              year := if ParsedYear(year).Some? then ParsedYear(year) else user.value.year))
  {
    if user.None? then (ProfileUserNotFound, user)
    else if !user.value.isVerified then (NotVerified, user)
    else
      var u := user.value;
      var u1 := if branch.Some? && branch.value != [] then u.(branch := Some(Trim(branch.value))) else u;
      var u2 := if ParsedYear(year).Some? then u1.(year := ParsedYear(year)) else u1;
      (ProfileUpdated, Some(u2))
  }

  /** The year a request sets: `parseInt(year, 10)` of a truthy value, when it is in 1..5. */
  function ParsedYear(year: Option<string>): (y: Option<int>)
    ensures y.Some? ==> 1 <= y.value <= 5 && year.Some? && ParseInt10(year.value) == y
  {
    var parsed := if year.Some? && year.value != [] then ParseInt10(year.value) else None;
    if parsed.Some? && 1 <= parsed.value <= 5 then parsed else None
  }

  /** A stored year stays within 1..5. */
  lemma YearStaysInRange(u: RvUser, branch: Option<string>, year: Option<string>)
    requires u.year.Some? ==> 1 <= u.year.value <= 5
    ensures var r := UpdateRvProfile(Some(u), branch, year).1.value;
      r.year.Some? ==> 1 <= r.year.value <= 5
  {
  }

  /** A truthy year whose `parseInt` value is `v` sets `v` when it is in 1..5, and nothing otherwise. */
  lemma ParsedYearOf(s: string, v: int)
    requires s != [] && ParseInt10(s) == Some(v)
    ensures ParsedYear(Some(s)) == (if 1 <= v <= 5 then Some(v) else None)
  {
  }

  /** `parseInt` reads the leading number, so `"2nd"` sets year 2. */
  lemma YearFromLeadingDigit(d: char, rest: string)
    requires '1' <= d <= '5'
    requires |rest| > 0 ==> !IsDigit(rest[0])
    ensures ParsedYear(Some([d] + rest)) == Some(d as int - '0' as int)
  {
    SingleDigitParse(d, rest);
    ParsedYearOf([d] + rest, d as int - '0' as int);
  }

  /** A year whose leading digit is 0 or 6..9, such as `"7"`, leaves the stored one as it was. */
  lemma YearOutOfRangeIgnored(u: RvUser, d: char, rest: string)
    requires u.isVerified
    requires d == '0' || '6' <= d <= '9'
    requires |rest| > 0 ==> !IsDigit(rest[0])
    ensures UpdateRvProfile(Some(u), None, Some([d] + rest)).1.value.year == u.year
  {
    SingleDigitParse(d, rest);
    ParsedYearOf([d] + rest, d as int - '0' as int);
  }

  // ---------------------------------------------------------------------------
  // getStatus

  /** The JSON body of `getStatus`; absent fields are `None`. */
  datatype StatusView = StatusView(rvVerified: bool, status: string, emailVerified: Option<bool>,
                                   rvEmail: Option<string>, rvLoginId: Option<string>,
                                   idCardImageUrl: Option<string>, verifiedAt: Option<int>,
                                   expiresAt: Option<int>, branch: Option<string>, year: Option<int>,
                                   notes: Option<string>, rejectedAt: Option<int>)

  function StatusName(s: RvStatus): string
  {
    match s
    case Pending => "pending"
    case Verified => "verified"
    case Rejected => "rejected"
  }

  /**
   * `getStatus`: `'none'` without a record; the college address is shown for
   * pending and verified records, the rejection notes only for rejected ones,
   * and the password never.
   */
  function GetStatus(rec: Option<RvRecord>, user: Option<RvUser>): (v: StatusView)
    ensures rec.None? ==> v.status == "none" && !v.rvVerified && v.emailVerified.None?
    ensures rec.Some? ==> (v.rvVerified <==> rec.value.status == Verified)
    ensures rec.Some? ==> v.status == StatusName(rec.value.status)
                          && v.emailVerified == Some(rec.value.emailVerified)
    ensures v.rvEmail.Some? <==> rec.Some? && rec.value.status != Rejected
    ensures v.rvEmail.Some? ==> v.rvEmail == Some(rec.value.rvEmail)
    // a pending or verified record shows its card URL
    ensures v.idCardImageUrl ==
      (if rec.Some? && rec.value.status != Rejected then rec.value.idCardImageUrl else None)
    // only a verified record shows its login id, its dates and the user's profile
    ensures v.rvLoginId == (if rec.Some? && rec.value.status == Verified then rec.value.rvLoginId else None)
    ensures v.verifiedAt == (if rec.Some? && rec.value.status == Verified then rec.value.verifiedAt else None)
    ensures v.expiresAt == (if rec.Some? && rec.value.status == Verified then rec.value.expiresAt else None)
    ensures v.branch ==
      (if rec.Some? && rec.value.status == Verified && user.Some? then user.value.branch else None)
    ensures v.year ==
      (if rec.Some? && rec.value.status == Verified && user.Some? then user.value.year else None)
    // only a rejected record shows the notes and the rejection date
    ensures v.notes == (if rec.Some? && rec.value.status == Rejected then rec.value.notes else None)
    ensures v.rejectedAt == (if rec.Some? && rec.value.status == Rejected then rec.value.rejectedAt else None)
  {
    var empty := StatusView(false, "none", None, None, None, None, None, None, None, None, None, None);
    if rec.None? then empty
    else
      var r := rec.value;
      var base := empty.(rvVerified := r.status == Verified, status := StatusName(r.status),
                         emailVerified := Some(r.emailVerified));
      match r.status
      case Verified =>
        base.(rvEmail := Some(r.rvEmail), rvLoginId := r.rvLoginId, idCardImageUrl := r.idCardImageUrl,
              verifiedAt := r.verifiedAt, expiresAt := r.expiresAt,
              branch := if user.Some? then user.value.branch else None,
              year := if user.Some? then user.value.year else None)
      case Pending => base.(rvEmail := Some(r.rvEmail), idCardImageUrl := r.idCardImageUrl)
      case Rejected => base.(notes := r.notes, rejectedAt := r.rejectedAt)
  }
}

=== FILE: session_controller.dfy ===
/**
 * The session lifecycle and the points ledger of the session controller.
 *
 * A session is requested by a learner (the cost is charged at once), accepted
 * or rejected by its mentor, cancelled by either participant (with a refund
 * when that happens more than a day ahead), completed (the mentor earns 80 %
 * of the cost) and rated by the learner (the mentor's running average moves).
 * Database look-ups become nullable parameters, the clock is `now` and the
 * meeting-room uuids are parameters.
 */
module SessionController {
  import opened Common
  import Jitsi
  import Gamification

  const DayMs: int := 24 * 60 * 60 * 1000

  datatype Status = Pending | Accepted | Rejected | Confirmed | Scheduled | Completed | Cancelled

  /**
   * The fields of a session document. A `rating` of 0 stands for an unset
   * rating (the schema only admits 1..5 once one is stored).
   */
  datatype SessionData = SessionData(
    mentor: string, learner: string, status: Status, pointsCost: int, scheduledAt: int,
    durationMins: int, agenda: string, learnerNotes: string, rating: real, feedback: string,
    meetingLink: Option<string>, meetingPassword: Option<string>,
    videoStartedAt: Option<int>, videoEndedAt: Option<int>)

  predicate IsParticipant(s: SessionData, userId: string)
  {
    userId == s.mentor || userId == s.learner
  }

  /** What the schema's `min: 1, max: 5` admits for a stored rating. */
  predicate StorableRating(r: real)
  {
    r == 0.0 || 1.0 <= r <= 5.0
  }

  // ---------------------------------------------------------------------------
  // Points arithmetic

  /** `Number(pointsCost || 1)`: an absent or zero cost is one point. */
  function Cost(pointsCost: int): (c: int)
    ensures c != 0
    ensures pointsCost != 0 ==> c == pointsCost
  {
    if pointsCost == 0 then 1 else pointsCost
  }

  /** The cancellation refund: the whole cost more than 24 hours ahead, nothing later. */
  function Refund(pointsCost: int, scheduledAt: int, now: int): (r: int)
    ensures scheduledAt - now > DayMs ==> r == pointsCost
    ensures scheduledAt - now <= DayMs ==> r == 0
  {
    if scheduledAt - now > DayMs then pointsCost else 0
  }

  /** The learner's balance after a refund: only a positive refund is credited. */
  function Credit(points: int, refund: int): (p: int)
    ensures p >= points
  {
    if refund > 0 then points + refund else points
  }

  /**
   * The mentor's reward for a completed session, `max(0, round(cost * 0.8))`,
   * is exact integer arithmetic: `max(0, ⌊(8·cost + 5) / 10⌋)`.
   */
  function Reward(pointsCost: int): (reward: int)
    ensures reward == Max(0, (8 * pointsCost + 5) / 10)
  {
    var m := JsRound(pointsCost as real * 0.8);
    var n := (8 * pointsCost + 5) / 10;
    assert 10 * n <= 8 * pointsCost + 5 < 10 * n + 10;
    assert (10 * m - 5) as real <= (8 * pointsCost) as real < (10 * m + 5) as real;
    assert 10 * m - 5 <= 8 * pointsCost < 10 * m + 5;
    assert m == n;
    Max(0, m)
  }

  /**
   * A mentor never earns more than the learner paid, earns nothing for a free
   * or negative cost, and keeps less than the whole cost from three points up;
   * one and two points round up to the whole cost.
   */
  lemma RewardBounds(c: int)
    ensures c >= 0 ==> 0 <= Reward(c) <= c
    ensures c <= 0 ==> Reward(c) == 0
    ensures c >= 3 ==> Reward(c) < c
    ensures Reward(1) == 1 && Reward(2) == 2 && Reward(5) == 4
  {
  }

  /** `Math.round(x * 10) / 10`. */
  function RoundTenth(x: real): (r: real)
    ensures r - 0.05 <= x < r + 0.05
  {
    JsRound(x * 10.0) as real / 10.0
  }

  /** The mentor's new average after one more rating `r`, over `count` earlier ones. */
  function NextRating(average: real, count: int, r: real): (next: real)
    requires count >= 0
    ensures var mean := (average * count as real + r) / (count + 1) as real;
      next - 0.05 <= mean < next + 0.05
  {
    RoundTenth((average * count as real + r) / (count + 1) as real)
  }

  /** A quotient whose numerator lies between `lo·b` and `hi·b` lies between `lo` and `hi`. */
  lemma QuotientBounds(a: real, b: real, lo: real, hi: real)
    requires b > 0.0 && lo * b <= a <= hi * b
    ensures lo <= a / b <= hi
  {
    var q := a / b;
    assert q * b == a;
    assert (q - lo) * b >= 0.0;
    assert (hi - q) * b >= 0.0;
  }

  /** Rounding to a tenth keeps a value in 1..5. */
  lemma RoundTenthInScale(x: real)
    requires 1.0 <= x <= 5.0
    ensures 1.0 <= RoundTenth(x) <= 5.0
  {
    var n := JsRound(x * 10.0);
    assert 10.0 <= x * 10.0 <= 50.0;
    assert 10 <= n <= 50;
  }

  /** A rating in 1..5 keeps an average in 1..5 (the first rating sets it). */
  lemma RatingStaysInScale(average: real, count: int, r: real)
    requires count >= 0 && 1.0 <= r <= 5.0
    requires count > 0 ==> 1.0 <= average <= 5.0
    ensures 1.0 <= NextRating(average, count, r) <= 5.0
  {
    var mean := (average * count as real + r) / (count + 1) as real;
    MeanInScale(average, count, r);
    RoundTenthInScale(mean);
  }

  lemma MeanInScale(average: real, count: int, r: real)
    requires count >= 0 && 1.0 <= r <= 5.0
    requires count > 0 ==> 1.0 <= average <= 5.0
    ensures 1.0 <= (average * count as real + r) / (count + 1) as real <= 5.0
  {
    var k := count as real;
    WeightedSumBounds(average, k);
    assert (count + 1) as real == k + 1.0;
    QuotientBounds(average * k + r, k + 1.0, 1.0, 5.0);
  }

  lemma WeightedSumBounds(average: real, k: real)
    requires k >= 0.0
    requires k > 0.0 ==> 1.0 <= average <= 5.0
    ensures k <= average * k <= 5.0 * k
  {
    if k > 0.0 {
      assert (average - 1.0) * k >= 0.0;
      assert (5.0 - average) * k >= 0.0;
    }
  }

  /** The first whole-star rating becomes the average exactly. */
  lemma FirstRatingIsTheAverage(average: real, r: int)
    requires 1 <= r <= 5
    ensures NextRating(average, 0, r as real) == r as real
  {
    var m := (average * (0 as int) as real + r as real) / (0 + 1) as real;
    assert NextRating(average, 0, r as real) == RoundTenth(m);
    FirstAverage(average, r as real);
    assert m * 10.0 == (10 * r) as real;
    RoundOfWhole(10 * r);
    assert JsRound(m * 10.0) == 10 * r;
    assert RoundTenth(m) == (10 * r) as real / 10.0;
    assert (10 * r) as real / 10.0 == r as real;
  }

  /** Averaging one value over no earlier ones gives that value. */
  lemma FirstAverage(average: real, x: real)
    ensures (average * (0 as int) as real + x) / (0 + 1) as real == x
  {
    assert (0 as int) as real == 0.0;
    assert average * 0.0 == 0.0;
  }

  lemma RoundOfWhole(k: int)
    ensures JsRound(k as real) == k
  {
    var n := JsRound(k as real);
    assert (n - k) as real < 0.5 && (k - n) as real <= 0.5;
  }

  /** Charging on request and refunding on an early cancellation balances out; a late one keeps the charge. */
  lemma RequestThenCancelBalance(points: int, pointsCost: int, scheduledAt: int, now: int)
    requires Cost(pointsCost) > 0
    ensures scheduledAt - now > DayMs ==>
      Credit(points - Cost(pointsCost), Refund(Cost(pointsCost), scheduledAt, now)) == points
    ensures scheduledAt - now <= DayMs ==>
      Credit(points - Cost(pointsCost), Refund(Cost(pointsCost), scheduledAt, now)) == points - Cost(pointsCost)
  {
  }

  // ---------------------------------------------------------------------------
  // Transitions on a session document

  /**
   * `requestSession`: `mentorId` and `scheduledAt` are required, the mentor and
   * the learner must exist (`learnerPoints` is `None` for a missing learner),
   * and the learner must hold at least the cost. The new session is pending,
   * lasts `durationMins || 60` minutes and has agenda `agenda || ''`.
   */
  function RequestStep(learnerId: string, learnerPoints: Option<int>, mentorId: string, mentorFound: bool,
                       scheduledAt: Option<int>, durationMins: int, pointsCost: int, agenda: string)
    : (r: (Reply, Option<SessionData>))
    ensures r.0 == Created <==> r.1.Some?
    ensures r.0 == Created <==>
      mentorId != [] && scheduledAt.Some? && mentorFound && learnerPoints.Some?
      && learnerPoints.value >= Cost(pointsCost)
    ensures mentorId == [] || scheduledAt.None? ==> r.0 == BadRequest
    ensures r.1.Some? ==>
      var s := r.1.value;
      && s.status == Pending && s.mentor == mentorId && s.learner == learnerId
      && s.pointsCost == Cost(pointsCost) && s.scheduledAt == scheduledAt.value
      && s.durationMins == (if durationMins == 0 then 60 else durationMins) && s.agenda == agenda
      && s.rating == 0.0 && s.meetingLink.None? && s.videoStartedAt.None?
  {
    if mentorId == [] || scheduledAt.None? then (BadRequest, None)
    else if !mentorFound || learnerPoints.None? then (NotFound, None)
    else if learnerPoints.value < Cost(pointsCost) then (BadRequest, None)
    else
      (Created, Some(SessionData(mentorId, learnerId, Pending, Cost(pointsCost), scheduledAt.value,
                                 if durationMins == 0 then 60 else durationMins, agenda, "", 0.0, "",
                                 None, None, None, None)))
  }

  /** A request never leaves the learner with a negative balance. */
  lemma RequestNeverOverdraws(learnerId: string, points: int, mentorId: string, mentorFound: bool,
                              scheduledAt: Option<int>, durationMins: int, pointsCost: int, agenda: string)
    requires RequestStep(learnerId, Some(points), mentorId, mentorFound, scheduledAt, durationMins,
                         pointsCost, agenda).0 == Created
    ensures points - Cost(pointsCost) >= 0
  {
  }

  /**
   * `acceptRequest`: only the mentor, only from pending; the session becomes
   * accepted with a generated meeting link and password.
   */
  function AcceptStep(s: SessionData, userId: string, sessionId: string, env: Option<string>,
                      roomUuid: string, passwordUuid: string): (r: (Reply, SessionData))
    ensures r.0 == Forbidden <==> userId != s.mentor
    ensures r.0 == BadRequest <==> userId == s.mentor && s.status != Pending
    ensures r.0 == Ok <==> userId == s.mentor && s.status == Pending
    ensures r.0 != Ok ==> r.1 == s
    ensures r.0 == Ok ==>
      var m := Jitsi.GenerateMeetingLink(sessionId, env, roomUuid, passwordUuid);
      r.1 == s.(status := Accepted, meetingLink := Some(m.link), meetingPassword := Some(m.password))
  {
    if userId != s.mentor then (Forbidden, s)
    else if s.status != Pending then (BadRequest, s)
    else
      var m := Jitsi.GenerateMeetingLink(sessionId, env, roomUuid, passwordUuid);
      (Ok, s.(status := Accepted, meetingLink := Some(m.link), meetingPassword := Some(m.password)))
  }

  /** `rejectRequest`: only the mentor, only from pending; the session becomes rejected. */
  function RejectStep(s: SessionData, userId: string): (r: (Reply, SessionData))
    ensures r.0 == Forbidden <==> userId != s.mentor
    ensures r.0 == BadRequest <==> userId == s.mentor && s.status != Pending
    ensures r.0 == Ok <==> userId == s.mentor && s.status == Pending
    ensures r.1 == (if r.0 == Ok then s.(status := Rejected) else s)
  {
    if userId != s.mentor then (Forbidden, s)
    else if s.status != Pending then (BadRequest, s)
    else (Ok, s.(status := Rejected))
  }

  /** A request is answered once: after acceptance or rejection neither is possible again. */
  lemma RequestAnsweredOnce(s: SessionData, sessionId: string, env: Option<string>, roomUuid: string,
                            passwordUuid: string)
    requires s.status == Pending
    ensures var a := AcceptStep(s, s.mentor, sessionId, env, roomUuid, passwordUuid).1;
      && AcceptStep(a, s.mentor, sessionId, env, roomUuid, passwordUuid).0 == BadRequest
      && RejectStep(a, s.mentor).0 == BadRequest
    ensures var j := RejectStep(s, s.mentor).1;
      && AcceptStep(j, s.mentor, sessionId, env, roomUuid, passwordUuid).0 == BadRequest
      && RejectStep(j, s.mentor).0 == BadRequest
  {
  }

  /**
   * `cancelSession`: participants only; a completed or cancelled session is
   * refused. The result carries the refund, which the learner is credited.
   */
  function CancelStep(s: SessionData, userId: string, now: int): (r: (Reply, SessionData, int))
    ensures r.0 == Forbidden <==> !IsParticipant(s, userId)
    ensures r.0 == BadRequest <==> IsParticipant(s, userId) && (s.status == Completed || s.status == Cancelled)
    ensures r.0 == Ok || r.0 == Forbidden || r.0 == BadRequest
    ensures r.0 == Ok ==> r.1 == s.(status := Cancelled) && r.2 == Refund(s.pointsCost, s.scheduledAt, now)
    ensures r.0 != Ok ==> r.1 == s && r.2 == 0
  {
    if !IsParticipant(s, userId) then (Forbidden, s, 0)
    else if s.status == Completed || s.status == Cancelled then (BadRequest, s, 0)
    else (Ok, s.(status := Cancelled), Refund(s.pointsCost, s.scheduledAt, now))
  }

  /** A session is refunded at most once: cancelling again is refused with no refund. */
  lemma RefundedAtMostOnce(s: SessionData, userId: string, other: string, now: int, later: int)
    requires CancelStep(s, userId, now).0 == Ok
    ensures var again := CancelStep(CancelStep(s, userId, now).1, other, later);
      again.0 != Ok && again.2 == 0
  {
  }

  /**
   * `completeSession`: participants only; an already completed session is
   * refused. A truthy `rating`/`feedback` replaces the stored one, and a
   * started video is marked ended. Saving fails when the rating is outside
   * the schema's 1..5. On success the result carries the mentor's reward.
   */
  function CompleteStep(s: SessionData, userId: string, rating: real, feedback: string, now: int)
    : (r: (Reply, SessionData, int))
    ensures r.0 == Forbidden <==> !IsParticipant(s, userId)
    ensures r.0 == BadRequest <==> IsParticipant(s, userId) && s.status == Completed
    ensures r.0 == ServerError <==>
      IsParticipant(s, userId) && s.status != Completed && !StorableRating(if rating != 0.0 then rating else s.rating)
    ensures r.0 == Ok || r.0 == Forbidden || r.0 == BadRequest || r.0 == ServerError
    ensures r.0 != Ok ==> r.1 == s && r.2 == 0
    ensures r.0 == Ok ==>
      && r.1.status == Completed && r.2 == Reward(s.pointsCost)
      && r.1.rating == (if rating != 0.0 then rating else s.rating)
      && r.1.feedback == (if feedback != [] then feedback else s.feedback)
      && r.1.videoEndedAt == (if s.videoStartedAt.Some? && s.videoEndedAt.None? then Some(now) else s.videoEndedAt)
      && r.1 == s.(status := Completed, rating := r.1.rating, feedback := r.1.feedback, videoEndedAt := r.1.videoEndedAt)
  {
    if !IsParticipant(s, userId) then (Forbidden, s, 0)
    else if s.status == Completed then (BadRequest, s, 0)
    else
      var rated := if rating != 0.0 then rating else s.rating;
      if !StorableRating(rated) then (ServerError, s, 0)
      else
        var ended := if s.videoStartedAt.Some? && s.videoEndedAt.None? then Some(now) else s.videoEndedAt;
        (Ok, s.(status := Completed, rating := rated, feedback := if feedback != [] then feedback else s.feedback,
                videoEndedAt := ended), Reward(s.pointsCost))
  }

  /**
   * Completion only refuses a completed session, so a cancelled session (whose
   * learner may already hold a refund) can still be completed and rewarded.
   */
  lemma CancelledSessionStillCompletes(s: SessionData, now: int, later: int)
    requires s.status != Completed && s.status != Cancelled && StorableRating(s.rating)
    ensures var c := CancelStep(s, s.learner, now);
      && c.0 == Ok
      && CompleteStep(c.1, s.mentor, 0.0, "", later).0 == Ok
      && CompleteStep(c.1, s.mentor, 0.0, "", later).2 == Reward(s.pointsCost)
  {
  }

  /**
   * `submitRating` on the session: the rating must be in 1..5, only the
   * learner may rate, and only once (409 when a rating is already stored).
   */
  function RateStep(s: SessionData, userId: string, rating: real, feedback: string): (r: (Reply, SessionData))
    ensures r.0 == BadRequest <==> !(1.0 <= rating <= 5.0)
    ensures r.0 == Forbidden <==> 1.0 <= rating <= 5.0 && userId != s.learner
    ensures r.0 == Conflict <==> 1.0 <= rating <= 5.0 && userId == s.learner && s.rating != 0.0
    ensures r.0 == Ok || r.0 == BadRequest || r.0 == Forbidden || r.0 == Conflict
    ensures r.1 == (if r.0 == Ok then s.(rating := rating, feedback := feedback) else s)
  {
    if !(1.0 <= rating <= 5.0) then (BadRequest, s)
    else if userId != s.learner then (Forbidden, s)
    else if s.rating != 0.0 then (Conflict, s)
    else (Ok, s.(rating := rating, feedback := feedback))
  }

  /**
   * `submitRating` as written. The handler's own `require('../models/Session')`
   * shadows the imported model with the module's exports object, which has no
   * `findById`; so every rating that passes the range test ends in a
   * `TypeError` that the `catch` hands to `next` (500), and the session is
   * left as it was.
   */
  function RateAsWritten(s: SessionData, userId: string, rating: real, feedback: string): (r: (Reply, SessionData))
    ensures r.0 == BadRequest <==> !(1.0 <= rating <= 5.0)
    ensures r.0 == ServerError <==> 1.0 <= rating <= 5.0
    ensures r.1 == s
  {
    if !(1.0 <= rating <= 5.0) then (BadRequest, s) else (ServerError, s)
  }

  /**
   * Every rating the intended flow would store is refused with a server error
   * as written, and never reaches the session.
   */
  lemma RatingNeverStored(s: SessionData, userId: string, rating: real, feedback: string)
    requires RateStep(s, userId, rating, feedback).0 == Ok
    ensures RateAsWritten(s, userId, rating, feedback).0 == ServerError
    ensures RateAsWritten(s, userId, rating, feedback).1 != RateStep(s, userId, rating, feedback).1
  {
    assert s.rating == 0.0 && rating >= 1.0;
    assert RateStep(s, userId, rating, feedback).1.rating == rating;
  }

  /** Outside 1..5 both flows answer 400 and change nothing. */
  lemma AsWrittenAgreesOutOfRange(s: SessionData, userId: string, rating: real, feedback: string)
    requires !(1.0 <= rating <= 5.0)
    ensures RateAsWritten(s, userId, rating, feedback) == RateStep(s, userId, rating, feedback)
  {
  }

  /** A session is rated at most once. */
  lemma RatedOnce(s: SessionData, userId: string, rating: real, feedback: string, rating2: real, feedback2: string)
    requires RateStep(s, userId, rating, feedback).0 == Ok
    ensures RateStep(RateStep(s, userId, rating, feedback).1, userId, rating2, feedback2).0 != Ok
  {
  }

  /**
   * `updateSessionDetails`: non-participants are refused; the mentor may set
   * `agenda`, the learner `learnerNotes`, and nothing else changes.
   */
  function DetailsStep(s: SessionData, userId: string, agenda: Option<string>, learnerNotes: Option<string>)
    : (r: (Reply, SessionData))
    ensures r.0 == Forbidden <==> !IsParticipant(s, userId)
    ensures r.0 == Ok || r.0 == Forbidden
    ensures r.1.agenda == (if r.0 == Ok && userId == s.mentor && agenda.Some? then agenda.value else s.agenda)
    ensures r.1.learnerNotes ==
      (if r.0 == Ok && userId == s.learner && learnerNotes.Some? then learnerNotes.value else s.learnerNotes)
    ensures r.1 == s.(agenda := r.1.agenda, learnerNotes := r.1.learnerNotes)
  {
    if !IsParticipant(s, userId) then (Forbidden, s)
    else
      var a := if userId == s.mentor && agenda.Some? then agenda.value else s.agenda;
      var n := if userId == s.learner && learnerNotes.Some? then learnerNotes.value else s.learnerNotes;
      (Ok, s.(agenda := a, learnerNotes := n))
  }

  /** A learner who is not also the mentor cannot touch the agenda, and vice versa for the notes. */
  lemma DetailsRolesSeparate(s: SessionData, agenda: Option<string>, learnerNotes: Option<string>)
    requires s.mentor != s.learner
    ensures DetailsStep(s, s.learner, agenda, learnerNotes).1.agenda == s.agenda
    ensures DetailsStep(s, s.mentor, agenda, learnerNotes).1.learnerNotes == s.learnerNotes
  {
  }

  /** `joinVideo`: participants only; the first call records the start time. */
  function JoinStep(s: SessionData, userId: string, now: int): (r: (Reply, SessionData))
    ensures r.0 == Forbidden <==> !IsParticipant(s, userId)
    ensures r.0 == Ok || r.0 == Forbidden
    ensures r.1.videoStartedAt == (if r.0 == Ok && s.videoStartedAt.None? then Some(now) else s.videoStartedAt)
    ensures r.1 == s.(videoStartedAt := r.1.videoStartedAt)
  {
    if !IsParticipant(s, userId) then (Forbidden, s)
    else if s.videoStartedAt.None? then (Ok, s.(videoStartedAt := Some(now)))
    else (Ok, s)
  }

  /** Joining again, by either participant, keeps the first start time. */
  lemma VideoStartRecordedOnce(s: SessionData, userId: string, other: string, now: int, later: int)
    requires IsParticipant(s, userId)
    ensures var first := JoinStep(s, userId, now).1;
      first.videoStartedAt.Some? && JoinStep(first, other, later).1 == first
  {
  }

  // ---------------------------------------------------------------------------
  // The documents

  class SessionRecord {
    const id: string
    var mentor: string
    var learner: string
    var status: Status
    var pointsCost: int
    var scheduledAt: int
    var durationMins: int
    var agenda: string
    var learnerNotes: string
    var rating: real
    var feedback: string
    var meetingLink: Option<string>
    var meetingPassword: Option<string>
    var videoStartedAt: Option<int>
    var videoEndedAt: Option<int>

    function Data(): SessionData
      reads this
    {
      SessionData(mentor, learner, status, pointsCost, scheduledAt, durationMins, agenda, learnerNotes,
                  rating, feedback, meetingLink, meetingPassword, videoStartedAt, videoEndedAt)
    }

    constructor (id: string, d: SessionData)
      ensures this.id == id && Data() == d
    {
      this.id := id;
      mentor, learner, status, pointsCost, scheduledAt := d.mentor, d.learner, d.status, d.pointsCost, d.scheduledAt;
      durationMins, agenda, learnerNotes, rating, feedback := d.durationMins, d.agenda, d.learnerNotes, d.rating, d.feedback;
      meetingLink, meetingPassword, videoStartedAt, videoEndedAt := d.meetingLink, d.meetingPassword, d.videoStartedAt, d.videoEndedAt;
    }
  }

  /** The user document fields the ledger touches; `reviewsCount` and `level` live in `profile`. */
  class Member {
    var points: int
    var rating: real
    const profile: Gamification.GamifiedUser

    constructor (points: int, rating: real, profile: Gamification.GamifiedUser)
      ensures this.points == points && this.rating == rating && this.profile == profile
    {
      this.points := points;
      this.rating := rating;
      this.profile := profile;
    }
  }

  // ---------------------------------------------------------------------------
  // The handlers

  method RequestSession(learnerId: string, learner: Member?, mentorId: string, mentorFound: bool,
                        scheduledAt: Option<int>, durationMins: int, pointsCost: int, agenda: string,
                        sessionId: string)
    returns (reply: Reply, session: SessionRecord?)
    modifies learner
    ensures var step := RequestStep(learnerId, if learner == null then None else Some(old(learner.points)),
                                    mentorId, mentorFound, scheduledAt, durationMins, pointsCost, agenda);
      && reply == step.0
      && (session == null <==> step.1.None?)
      && (session != null ==> fresh(session) && session.id == sessionId && session.Data() == step.1.value)
    ensures learner != null ==>
      learner.points == old(learner.points) - (if reply == Created then Cost(pointsCost) else 0)
      && learner.rating == old(learner.rating)
  {
    if mentorId == [] || scheduledAt.None? {
      return BadRequest, null;
    }
    if !mentorFound || learner == null {
      return NotFound, null;
    }
    var cost := Cost(pointsCost);
    if learner.points < cost {
      return BadRequest, null;
    }
    learner.points := learner.points - cost;
    var duration := if durationMins == 0 then 60 else durationMins;
    session := new SessionRecord(sessionId, SessionData(mentorId, learnerId, Pending, cost, scheduledAt.value,
                                                        duration, agenda, "", 0.0, "", None, None, None, None));
    reply := Created;
  }

  method AcceptRequest(userId: string, session: SessionRecord?, env: Option<string>, roomUuid: string,
                       passwordUuid: string)
    returns (reply: Reply)
    modifies session
    ensures session == null ==> reply == NotFound
    ensures session != null ==>
      (reply, session.Data()) == AcceptStep(old(session.Data()), userId, session.id, env, roomUuid, passwordUuid)
  {
    if session == null {
      return NotFound;
    }
    if session.mentor != userId {
      return Forbidden;
    }
    if session.status != Pending {
      return BadRequest;
    }
    var m := Jitsi.GenerateMeetingLink(session.id, env, roomUuid, passwordUuid);
    session.status := Accepted;
    session.meetingLink := Some(m.link);
    session.meetingPassword := Some(m.password);
    reply := Ok;
  }

  method RejectRequest(userId: string, session: SessionRecord?) returns (reply: Reply)
    modifies session
    ensures session == null ==> reply == NotFound
    ensures session != null ==> (reply, session.Data()) == RejectStep(old(session.Data()), userId)
  {
    if session == null {
      return NotFound;
    }
    if session.mentor != userId {
      return Forbidden;
    }
    if session.status != Pending {
      return BadRequest;
    }
    session.status := Rejected;
    reply := Ok;
  }

  /** `cancelSession`, crediting the refund to the learner when one is found. */
  method CancelSession(userId: string, session: SessionRecord?, learner: Member?, now: int)
    returns (reply: Reply, refund: int)
    modifies session, learner
    ensures session == null ==> reply == NotFound && refund == 0
    ensures session != null ==> (reply, session.Data(), refund) == CancelStep(old(session.Data()), userId, now)
    ensures learner != null ==> learner.points == Credit(old(learner.points), refund) && learner.rating == old(learner.rating)
  {
    if session == null {
      return NotFound, 0;
    }
    if session.mentor != userId && session.learner != userId {
      return Forbidden, 0;
    }
    if session.status == Completed || session.status == Cancelled {
      return BadRequest, 0;
    }
    var diffMs := session.scheduledAt - now;
    refund := 0;
    if diffMs > DayMs {
      refund := session.pointsCost;
    }
    if refund > 0 && learner != null {
      learner.points := learner.points + refund;
    }
    session.status := Cancelled;
    reply := Ok;
  }

  /** `completeSession`, paying the mentor's reward and refreshing the mentor's level. */
  method CompleteSession(userId: string, session: SessionRecord?, mentor: Member?, rating: real,
                         feedback: string, now: int)
    returns (reply: Reply)
    modifies session, mentor, if mentor == null then {} else {mentor.profile}
    ensures session == null ==> reply == NotFound
    ensures session != null ==>
      var step := CompleteStep(old(session.Data()), userId, rating, feedback, now);
      (reply, session.Data()) == (step.0, step.1)
    ensures mentor != null && session != null && reply == Ok ==>
      && mentor.points == old(mentor.points) + Reward(old(session.pointsCost))
      && mentor.profile.level == Gamification.LevelFor(Gamification.ActivityCount(mentor.profile.reviewsCount))
    ensures mentor != null && !(session != null && reply == Ok) ==>
      mentor.points == old(mentor.points) && mentor.profile.level == old(mentor.profile.level)
    ensures mentor != null ==>
      mentor.rating == old(mentor.rating) && mentor.profile.reviewsCount == old(mentor.profile.reviewsCount)
  {
    if session == null {
      return NotFound;
    }
    if session.mentor != userId && session.learner != userId {
      return Forbidden;
    }
    if session.status == Completed {
      return BadRequest;
    }
    var rated := if rating != 0.0 then rating else session.rating;
    if !StorableRating(rated) {
      return ServerError;
    }
    CloseSession(session, rated, feedback, now);
    if mentor != null {
      PayMentor(mentor, Reward(session.pointsCost));
    }
    reply := Ok;
  }

  /** The session half of a completion: completed, rated, with feedback and the video marked ended. */
  method CloseSession(session: SessionRecord, rated: real, feedback: string, now: int)
    modifies session
    ensures session.Data() == old(session.Data()).(
      status := Completed, rating := rated,
      feedback := if feedback != [] then feedback else old(session.feedback),
      videoEndedAt := if old(session.videoStartedAt).Some? && old(session.videoEndedAt).None? then Some(now)
                      else old(session.videoEndedAt))
  {
    session.status := Completed;
    session.rating := rated;
    session.feedback := if feedback != [] then feedback else session.feedback;
    if session.videoStartedAt.Some? && session.videoEndedAt.None? {
      session.videoEndedAt := Some(now);
    }
  }

  /** The mentor half of a completion: the reward is added and the level refreshed. */
  method PayMentor(mentor: Member, reward: int)
    modifies mentor, mentor.profile
    ensures mentor.points == old(mentor.points) + reward && mentor.rating == old(mentor.rating)
    ensures mentor.profile.reviewsCount == old(mentor.profile.reviewsCount)
    ensures mentor.profile.level == Gamification.LevelFor(Gamification.ActivityCount(mentor.profile.reviewsCount))
  {
    mentor.points := mentor.points + reward;
    var _ := Gamification.UpdateUserLevel(mentor.profile);
  }

  /**
   * `submitRating` as the code stands: a rating outside 1..5 is refused with
   * 400, and every other request fails with 500 before the session is read
   * (see `RateAsWritten`). Neither the session nor the mentor is changed.
   */
  method SubmitRating(userId: string, session: SessionRecord?, mentor: Member?, rating: real, feedback: string)
    returns (reply: Reply)
    ensures reply == BadRequest <==> !(1.0 <= rating <= 5.0)
    ensures reply == ServerError <==> 1.0 <= rating <= 5.0
  {
    if !(1.0 <= rating <= 5.0) {
      return BadRequest;
    }
    // `Session.findById` is not a function on the exports object.
    reply := ServerError;
  }

  /**
   * `submitRating` with the `Session` model bound as intended, folding the
   * rating into the mentor's running average and review count and refreshing
   * the mentor's level.
   */
  method SubmitRatingCorrected(userId: string, session: SessionRecord?, mentor: Member?, rating: real, feedback: string)
    returns (reply: Reply)
    requires mentor != null ==> Gamification.ActivityCount(mentor.profile.reviewsCount) >= 0
    modifies session, mentor, if mentor == null then {} else {mentor.profile}
    ensures !(1.0 <= rating <= 5.0) ==> reply == BadRequest
    ensures 1.0 <= rating <= 5.0 && session == null ==> reply == NotFound
    ensures session != null ==> (reply, session.Data()) == RateStep(old(session.Data()), userId, rating, feedback)
    ensures mentor != null && session != null && reply == Ok ==>
      var count := Gamification.ActivityCount(old(mentor.profile.reviewsCount));
      && mentor.rating == NextRating(old(mentor.rating), count, rating)
      && mentor.profile.reviewsCount == Some(count + 1)
      && mentor.profile.level == Gamification.LevelFor(count + 1)
    ensures mentor != null && !(session != null && reply == Ok) ==>
      mentor.rating == old(mentor.rating) && mentor.profile.reviewsCount == old(mentor.profile.reviewsCount)
      && mentor.profile.level == old(mentor.profile.level)
    ensures mentor != null ==> mentor.points == old(mentor.points)
  {
    if !(1.0 <= rating <= 5.0) {
      return BadRequest;
    }
    if session == null {
      return NotFound;
    }
    if session.learner != userId {
      return Forbidden;
    }
    if session.rating != 0.0 {
      return Conflict;
    }
    session.rating := rating;
    session.feedback := feedback;
    if mentor != null {
      var count := Gamification.ActivityCount(mentor.profile.reviewsCount);
      mentor.rating := NextRating(mentor.rating, count, rating);
      mentor.profile.reviewsCount := Some(count + 1);
      var _ := Gamification.UpdateUserLevel(mentor.profile);
    }
    reply := Ok;
  }

  method UpdateSessionDetails(userId: string, session: SessionRecord?, agenda: Option<string>,
                              learnerNotes: Option<string>)
    returns (reply: Reply)
    modifies session
    ensures session == null ==> reply == NotFound
    ensures session != null ==> (reply, session.Data()) == DetailsStep(old(session.Data()), userId, agenda, learnerNotes)
  {
    if session == null {
      return NotFound;
    }
    var isMentor := session.mentor == userId;
    var isLearner := session.learner == userId;
    if !isMentor && !isLearner {
      return Forbidden;
    }
    if isMentor && agenda.Some? {
      session.agenda := agenda.value;
    }
    if isLearner && learnerNotes.Some? {
      session.learnerNotes := learnerNotes.value;
    }
    reply := Ok;
  }

  method JoinVideo(userId: string, session: SessionRecord?, now: int) returns (reply: Reply)
    modifies session
    ensures session == null ==> reply == NotFound
    ensures session != null ==> (reply, session.Data()) == JoinStep(old(session.Data()), userId, now)
  {
    if session == null {
      return NotFound;
    }
    if session.mentor != userId && session.learner != userId {
      return Forbidden;
    }
    if session.videoStartedAt.None? {
      session.videoStartedAt := Some(now);
    }
    reply := Ok;
  }
}

=== FILE: session_success.dfy ===
/**
 * Session success prediction: a logistic model over eight features of a
 * mentor, a student, a skill and a time slot, a fixed fallback answer, a
 * five-minute model cache, and the confusion-matrix metrics reported after
 * training. The sigmoid is a parameter (`sigmoid`), and so are the clock
 * (`now`, in milliseconds), the stored model and the number of completed
 * sessions between the two users.
 */
module SessionSuccess {
  import opened Common
  import Recommending
  import MentorFeatures

  type Mentor = MentorFeatures.Mentor
  type TeachSkill = MentorFeatures.TeachSkill

  /** Feature order: mentor rating, student experience, skill match, prior sessions,
   *  time of day, day of week, duration match, availability. */
  const DefaultWeights: seq<real> := [0.3, 0.15, 0.25, 0.1, 0.05, 0.05, 0.05, 0.05]

  lemma DefaultWeightsSumToOne()
    ensures Recommending.Total(DefaultWeights, |DefaultWeights|) == 1.0
    ensures forall i :: 0 <= i < |DefaultWeights| ==> DefaultWeights[i] >= 0.0
  {
    assert Recommending.Total(DefaultWeights, 1) == 0.3;
    assert Recommending.Total(DefaultWeights, 2) == 0.45;
    assert Recommending.Total(DefaultWeights, 3) == 0.70;
    assert Recommending.Total(DefaultWeights, 4) == 0.80;
    assert Recommending.Total(DefaultWeights, 5) == 0.85;
    assert Recommending.Total(DefaultWeights, 6) == 0.90;
    assert Recommending.Total(DefaultWeights, 7) == 0.95;
  }

  // ---------------------------------------------------------------------------
  // Dot product
  // ---------------------------------------------------------------------------

  /** `dotProduct`: `None` where it throws on vectors of different lengths. */
  function Dot(a: seq<real>, b: seq<real>): (r: Option<real>)
    ensures r.None? <==> |a| != |b|
  {
    if |a| != |b| then None else Some(Recommending.WeightedSum(a, b, |a|))
  }

  method DotProduct(a: seq<real>, b: seq<real>) returns (r: Option<real>)
    ensures r == Dot(a, b)
  {
    if |a| != |b| {
      return None;
    }
    var sum := 0.0;
    var i := 0;
    while i < |a|
      invariant 0 <= i <= |a|
      invariant sum == Recommending.WeightedSum(a, b, i)
    {
      sum := sum + a[i] * b[i];
      i := i + 1;
    }
    r := Some(sum);
  }

  lemma {:induction false} WeightedSumSymmetric(a: seq<real>, b: seq<real>, n: nat)
    requires n <= |a| && n <= |b|
    ensures Recommending.WeightedSum(a, b, n) == Recommending.WeightedSum(b, a, n)
  {
    if n > 0 {
      WeightedSumSymmetric(a, b, n - 1);
    }
  }

  /** The dot product does not depend on the order of its arguments, nor does its failure. */
  lemma DotSymmetric(a: seq<real>, b: seq<real>)
    ensures Dot(a, b) == Dot(b, a)
  {
    if |a| == |b| {
      WeightedSumSymmetric(a, b, |a|);
    }
  }

  /** On vectors of equal length it is the linear score of the recommenders. */
  lemma DotIsLinearScore(a: seq<real>, b: seq<real>)
    requires |a| == |b|
    ensures Dot(a, b) == Some(Recommending.LinearScore(a, b))
  {
  }

  // ---------------------------------------------------------------------------
  // Risk level and the fallback answer
  // ---------------------------------------------------------------------------

  datatype Risk = Low | Medium | High

  /** How bad a risk level is: low 0, medium 1, high 2. */
  function Severity(r: Risk): nat
  {
    match r
    case Low => 0
    case Medium => 1
    case High => 2
  }

  /** The risk level of a success probability. */
  function RiskLevel(p: real): (r: Risk)
    ensures r == High <==> p < 0.4
    ensures r == Medium <==> 0.4 <= p < 0.7
    ensures r == Low <==> p >= 0.7
  {
    if p < 0.4 then High
    else if p < 0.7 then Medium
    else Low
  }

  /** A higher success probability never carries a higher risk. */
  lemma RiskMonotone(p: real, q: real)
    requires p <= q
    ensures Severity(RiskLevel(q)) <= Severity(RiskLevel(p))
  {
  }

  datatype Prediction = Prediction(probability: real, risk: Risk, fallback: bool, version: string)

  /** `fallbackPrediction`: the answer when prediction is off, data are missing or anything throws. */
  function FallbackPrediction(): (p: Prediction)
    ensures p.fallback && p.probability == 0.7 && p.risk == Medium && p.version == "fallback"
  {
    Prediction(0.7, Medium, true, "fallback")
  }

  /** The fallback's risk is not the one the thresholds give its own probability. */
  lemma FallbackRiskDiffersFromThresholds()
    ensures RiskLevel(FallbackPrediction().probability) == Low
    ensures FallbackPrediction().risk == Medium
  {
  }

  // ---------------------------------------------------------------------------
  // Features
  // ---------------------------------------------------------------------------

  type Hour = h: int | 0 <= h < 24
  type Weekday = d: int | 0 <= d < 7

  /** A slot as `getHours()` and `getDay()` see it (0 is Sunday). */
  datatype Slot = Slot(hour: Hour, day: Weekday)

  /** `student.teaches` may be missing. */
  datatype Student = Student(teaches: Option<seq<TeachSkill>>)

  datatype Skill = Skill(name: string)

  const MatchLevelScores: map<string, real> :=
    map["beginner" := 0.4, "intermediate" := 0.6, "advanced" := 0.8, "expert" := 1.0]

  /** The level score of a matching entry; an unknown level scores 0.5. */
  function MatchScore(level: string): (r: real)
    ensures 0.4 <= r <= 1.0
    ensures level !in MatchLevelScores ==> r == 0.5
  {
    if level in MatchLevelScores then MatchLevelScores[level] else 0.5
  }

  /** The first taught entry whose lowercased name is `lower`. */
  function FirstTaught(teaches: seq<TeachSkill>, lower: string): (r: Option<TeachSkill>)
    ensures r.Some? ==> r.value in teaches && ToLower(r.value.name) == lower
    ensures r.None? <==> forall t :: t in teaches ==> ToLower(t.name) != lower
  {
    if teaches == [] then None
    else if ToLower(teaches[0].name) == lower then Some(teaches[0])
    else
      assert forall t :: t in teaches[1..] ==> t in teaches;
      FirstTaught(teaches[1..], lower)
  }

  /** `calculateSkillMatchFeature`: the first exact (case-insensitive) match decides, 0.2 without one. */
  function SkillMatchFeature(teaches: seq<TeachSkill>, skillName: string): (r: real)
    ensures 0.2 <= r <= 1.0
    ensures r == 0.2 <==> forall t :: t in teaches ==> ToLower(t.name) != ToLower(skillName)
  {
    var m := FirstTaught(teaches, ToLower(skillName));
    if m.Some? then MatchScore(m.value.level) else 0.2
  }

  method CalculateSkillMatchFeature(teaches: seq<TeachSkill>, skillName: string) returns (r: real)
    ensures r == SkillMatchFeature(teaches, skillName)
  {
    var lower := ToLower(skillName);
    var i := 0;
    while i < |teaches|
      invariant 0 <= i <= |teaches|
      invariant FirstTaught(teaches[i..], lower) == FirstTaught(teaches, lower)
    {
      assert teaches[i..][1..] == teaches[i + 1..];
      if ToLower(teaches[i].name) == lower {
        return MatchScore(teaches[i].level);
      }
      i := i + 1;
    }
    return 0.2;
  }

  /** The score is the level score of the entry at the first index whose name matches. */
  lemma {:induction false} FirstMatchDecides(teaches: seq<TeachSkill>, lower: string, i: nat)
    requires i < |teaches| && ToLower(teaches[i].name) == lower
    requires forall j :: 0 <= j < i ==> ToLower(teaches[j].name) != lower
    ensures FirstTaught(teaches, lower) == Some(teaches[i])
  {
    if i > 0 {
      FirstMatchDecides(teaches[1..], lower, i - 1);
    }
  }

  lemma SkillMatchOfFirstIndex(teaches: seq<TeachSkill>, skillName: string, i: nat)
    requires i < |teaches| && ToLower(teaches[i].name) == ToLower(skillName)
    requires forall j :: 0 <= j < i ==> ToLower(teaches[j].name) != ToLower(skillName)
    ensures SkillMatchFeature(teaches, skillName) == MatchScore(teaches[i].level)
  {
    FirstMatchDecides(teaches, ToLower(skillName), i);
  }

  /** `Math.min(1, x / d)` for a count `x`. */
  function CappedShare(x: nat, d: nat): (r: real)
    requires d > 0
    ensures 0.0 <= r <= 1.0
    ensures x >= d ==> r == 1.0
  {
    var q := x as real / d as real;
    ShareBounds(x as real, d as real);
    MinReal(1.0, q)
  }

  lemma ShareBounds(a: real, b: real)
    requires a >= 0.0 && b > 0.0
    ensures a / b >= 0.0
    ensures a >= b ==> a / b >= 1.0
  {
    var q := a / b;
    assert q * b == a;
    if a >= b {
      assert 1.0 * b <= q * b;
      MentorFeatures.CancelPositive(1.0, q, b);
    }
    NonNegativeQuotient(a, b);
  }

  lemma NonNegativeQuotient(a: real, b: real)
    requires a >= 0.0 && b > 0.0
    ensures a / b >= 0.0
  {
  }

  /** The number of skills a student teaches, 0 when the list is missing. */
  function TeachCount(s: Student): nat
  {
    if s.teaches.Some? then |s.teaches.value| else 0
  }

  /** `buildSessionFeatures`, with the count of completed sessions between the two users as `prior`. */
  function SessionFeatures(mentor: Mentor, student: Student, skill: Skill, slot: Slot, prior: nat): (f: seq<real>)
    ensures |f| == |DefaultWeights|
    ensures f[1] == 1.0 <==> TeachCount(student) >= 10
    ensures f[3] == 1.0 <==> prior >= 5
    ensures f[6] == 1.0
    ensures f[7] == 1.0 <==> mentor.isOnline
  {
    [MentorFeatures.FirstTruthy(mentor.ratingsAverage, mentor.rating, 3.0) / 5.0,
     CappedShare(TeachCount(student), 10),
     SkillMatchFeature(mentor.teaches, skill.name),
     CappedShare(prior, 5),
     slot.hour as real / 24.0,
     slot.day as real / 7.0,
     1.0,
     if mentor.isOnline then 1.0 else 0.5]
  }

  /** With a rating within [0, 5] every feature lies in [0, 1]. */
  lemma FeaturesInUnitRange(mentor: Mentor, student: Student, skill: Skill, slot: Slot, prior: nat)
    requires 0.0 <= MentorFeatures.FirstTruthy(mentor.ratingsAverage, mentor.rating, 3.0) <= 5.0
    ensures forall x :: x in SessionFeatures(mentor, student, skill, slot, prior) ==> 0.0 <= x <= 1.0
  {
  }

  // ---------------------------------------------------------------------------
  // Model loading and prediction
  // ---------------------------------------------------------------------------

  datatype Model = Model(weights: seq<real>, bias: real, version: Option<string>)

  /** The active model as stored, or `None` when there is none or the lookup fails. */
  datatype StoredModel = StoredModel(weights: seq<real>, bias: Option<real>, version: Option<string>)

  datatype Cached = Cached(model: Model, cachedAt: int)

  const DefaultModel: Model := Model(DefaultWeights, 0.0, Some("default"))

  const CacheTtlMs: int := 5 * 60 * 1000

  /** `loadModel`: the model to use and the cache afterwards. */
  function LoadStep(cache: Option<Cached>, now: int, stored: Option<StoredModel>): (r: (Model, Cached))
    ensures cache.Some? && cache.value.cachedAt > now - CacheTtlMs ==> r == (cache.value.model, cache.value)
    ensures !(cache.Some? && cache.value.cachedAt > now - CacheTtlMs) ==>
      r.1 == Cached(r.0, now)
      && (if stored.Some? && |stored.value.weights| > 0
          then r.0.weights == stored.value.weights && r.0.version == stored.value.version
          else r.0 == DefaultModel)
  {
    if cache.Some? && cache.value.cachedAt > now - CacheTtlMs then (cache.value.model, cache.value)
    else if stored.Some? && |stored.value.weights| > 0 then
      var s := stored.value;
      var m := Model(s.weights, if s.bias.Some? then s.bias.value else 0.0, s.version);
      (m, Cached(m, now))
    else (DefaultModel, Cached(DefaultModel, now))
  }

  /** Loaded models always have weights, provided the cache started out that way. */
  lemma LoadedWeightsNonEmpty(cache: Option<Cached>, now: int, stored: Option<StoredModel>)
    requires cache.Some? ==> |cache.value.model.weights| > 0
    ensures |LoadStep(cache, now, stored).0.weights| > 0
    ensures LoadStep(cache, now, stored).1.model == LoadStep(cache, now, stored).0
  {
  }

  /** A load that misses the cache stores its model, which every load in the next five minutes returns. */
  lemma ReloadWithinTtl(cache: Option<Cached>, now: int, stored: Option<StoredModel>, later: int, stored2: Option<StoredModel>)
    requires !(cache.Some? && cache.value.cachedAt > now - CacheTtlMs)
    requires now <= later < now + CacheTtlMs
    ensures LoadStep(Some(LoadStep(cache, now, stored).1), later, stored2) == LoadStep(cache, now, stored)
  {
  }

  /** Once the cached entry is five minutes old the stored model is read again. */
  lemma StaleCacheReloads(c: Cached, now: int, stored: StoredModel)
    requires c.cachedAt <= now - CacheTtlMs && |stored.weights| > 0
    ensures LoadStep(Some(c), now, Some(stored)).0.weights == stored.weights
  {
  }

  /** `model.modelVersion || 'default'`. */
  function VersionOf(m: Model): (v: string)
    ensures v != ""
  {
    if m.version.Some? && m.version.value != "" then m.version.value else "default"
  }

  datatype Input = Input(mentor: Option<Mentor>, student: Option<Student>, skill: Option<Skill>, slot: Slot)

  /** `predictSessionSuccess` once the model is loaded. */
  function Predict(enabled: bool, model: Model, input: Input, prior: nat, sigmoid: real -> real): (p: Prediction)
    ensures !enabled || input.mentor.None? || input.student.None? || input.skill.None? ==> p == FallbackPrediction()
    ensures !p.fallback ==> p.risk == RiskLevel(p.probability) && p.version == VersionOf(model)
  {
    if !enabled || input.mentor.None? || input.student.None? || input.skill.None? then FallbackPrediction()
    else
      var f := SessionFeatures(input.mentor.value, input.student.value, input.skill.value, input.slot, prior);
      var z := Dot(model.weights, f);
      if z.None? then FallbackPrediction()
      else
        var p := sigmoid(z.value + model.bias);
        Prediction(p, RiskLevel(p), false, VersionOf(model))
  }

  /** A model with other than eight weights makes the dot product throw, so every answer is the fallback. */
  lemma WrongSizeModelFallsBack(enabled: bool, model: Model, input: Input, prior: nat, sigmoid: real -> real)
    requires |model.weights| != |DefaultWeights|
    ensures Predict(enabled, model, input, prior, sigmoid) == FallbackPrediction()
  {
  }

  /** With eight weights and all data present the model answers, with the sigmoid of the score plus bias. */
  lemma EightWeightsPredict(model: Model, input: Input, prior: nat, sigmoid: real -> real)
    requires |model.weights| == |DefaultWeights|
    requires input.mentor.Some? && input.student.Some? && input.skill.Some?
    ensures var p := Predict(true, model, input, prior, sigmoid);
      !p.fallback
      && p.probability == sigmoid(Recommending.LinearScore(model.weights,
           SessionFeatures(input.mentor.value, input.student.value, input.skill.value, input.slot, prior)) + model.bias)
  {
  }

  /** Under the default model a mentor rated within [0, 5] gets a score in [0, 1] before the sigmoid. */
  lemma DefaultScoreInUnitRange(mentor: Mentor, student: Student, skill: Skill, slot: Slot, prior: nat)
    requires 0.0 <= MentorFeatures.FirstTruthy(mentor.ratingsAverage, mentor.rating, 3.0) <= 5.0
    ensures var z := Dot(DefaultWeights, SessionFeatures(mentor, student, skill, slot, prior));
      z.Some? && 0.0 <= z.value <= 1.0
  {
    var f := SessionFeatures(mentor, student, skill, slot, prior);
    FeaturesInUnitRange(mentor, student, skill, slot, prior);
    DefaultWeightsSumToOne();
    Recommending.LinearScoreInUnitRange(f, DefaultWeights);
    DotSymmetric(DefaultWeights, f);
  }

  /** The module-level model cache and the operations that use it. */
  class SessionSuccessModel {
    var cached: Option<Cached>

    constructor()
      ensures cached == None
    {
      cached := None;
    }

    method LoadModel(now: int, stored: Option<StoredModel>) returns (m: Model)
      modifies this
      ensures (m, cached) == (LoadStep(old(cached), now, stored).0, Some(LoadStep(old(cached), now, stored).1))
    {
      var r := LoadStep(cached, now, stored);
      cached := Some(r.1);
      m := r.0;
    }

    /** `clearModelCache`. */
    method ClearModelCache()
      modifies this
      ensures cached == None
    {
      cached := None;
    }

    /** `predictSessionSuccess`: the model is loaded, and the cache touched, only when prediction is on. */
    method PredictSessionSuccess(enabled: bool, now: int, stored: Option<StoredModel>, input: Input,
                                 prior: nat, sigmoid: real -> real) returns (p: Prediction)
      modifies this
      ensures !enabled ==> p == FallbackPrediction() && cached == old(cached)
      ensures enabled ==>
        var r := LoadStep(old(cached), now, stored);
        p == Predict(true, r.0, input, prior, sigmoid) && cached == Some(r.1)
    {
      if !enabled {
        return FallbackPrediction();
      }
      var model := LoadModel(now, stored);
      p := Predict(true, model, input, prior, sigmoid);
    }
  }

  // ---------------------------------------------------------------------------
  // Training input and metrics
  // ---------------------------------------------------------------------------

  /** The training guard: `None` where training throws, else the number of features. */
  function ValidateTrainingData(X: seq<seq<real>>, y: seq<int>): (r: Option<nat>)
    ensures r.Some? <==> |X| > 0 && |X| == |y|
  {
    if |X| == 0 || |X| != |y| then None else Some(|X[0]|)
  }

  /** Training's class predictions: 1 when the probability is at least 0.5. */
  function Thresholded(probs: seq<real>): (r: seq<int>)
    ensures |r| == |probs|
    ensures forall i :: 0 <= i < |r| ==> (r[i] == 1 <==> probs[i] >= 0.5) && (r[i] == 0 <==> probs[i] < 0.5)
  {
    seq(|probs|, i requires 0 <= i < |probs| => if probs[i] >= 0.5 then 1 else 0)
  }

  datatype Cell = TruePos | FalsePos | TrueNeg | FalseNeg | Uncounted

  /** Which counter a pair of label and prediction increments; `None` is a missing prediction. */
  function Classify(t: int, p: Option<int>): (c: Cell)
    ensures c == Uncounted <==> !(t in {0, 1} && p.Some? && p.value in {0, 1})
  {
    if t == 1 && p == Some(1) then TruePos
    else if t == 0 && p == Some(1) then FalsePos
    else if t == 0 && p == Some(0) then TrueNeg
    else if t == 1 && p == Some(0) then FalseNeg
    else Uncounted
  }

  datatype Confusion = Confusion(tp: nat, fp: nat, tn: nat, fn: nat)

  function Total(c: Confusion): nat { c.tp + c.fp + c.tn + c.fn }

  function Count(c: Confusion, cell: Cell): Confusion
  {
    match cell
    case TruePos => c.(tp := c.tp + 1)
    case FalsePos => c.(fp := c.fp + 1)
    case TrueNeg => c.(tn := c.tn + 1)
    case FalseNeg => c.(fn := c.fn + 1)
    case Uncounted => c
  }

  function PredAt(yPred: seq<int>, i: nat): Option<int>
  {
    if i < |yPred| then Some(yPred[i]) else None
  }

  /** The four counters after the first `n` labels. */
  function Tally(yTrue: seq<int>, yPred: seq<int>, n: nat): Confusion
    requires n <= |yTrue|
  {
    if n == 0 then Confusion(0, 0, 0, 0)
    else Count(Tally(yTrue, yPred, n - 1), Classify(yTrue[n - 1], PredAt(yPred, n - 1)))
  }

  /** Every pair among the first `n` is a 0/1 label with a 0/1 prediction. */
  ghost predicate Binary(yTrue: seq<int>, yPred: seq<int>, n: nat)
    requires n <= |yTrue|
  {
    forall i :: 0 <= i < n ==> Classify(yTrue[i], PredAt(yPred, i)) != Uncounted
  }

  /** The counters add up to the number of labels exactly when every pair is 0/1. */
  lemma {:induction false} TallyTotal(yTrue: seq<int>, yPred: seq<int>, n: nat)
    requires n <= |yTrue|
    ensures Total(Tally(yTrue, yPred, n)) <= n
    ensures Total(Tally(yTrue, yPred, n)) == n <==> Binary(yTrue, yPred, n)
  {
    if n > 0 {
      TallyTotal(yTrue, yPred, n - 1);
    }
  }

  /** Labels equal to 1 among the first `n`. */
  function ActualPositives(yTrue: seq<int>, n: nat): nat
    requires n <= |yTrue|
  {
    if n == 0 then 0 else ActualPositives(yTrue, n - 1) + (if yTrue[n - 1] == 1 then 1 else 0)
  }

  /** Predictions equal to 1 among the first `n`. */
  function PredictedPositives(yPred: seq<int>, n: nat): nat
  {
    if n == 0 then 0 else PredictedPositives(yPred, n - 1) + (if PredAt(yPred, n - 1) == Some(1) then 1 else 0)
  }

  /** Positions among the first `n` where the prediction equals the label. */
  function Agreements(yTrue: seq<int>, yPred: seq<int>, n: nat): nat
    requires n <= |yTrue|
  {
    if n == 0 then 0 else Agreements(yTrue, yPred, n - 1) + (if PredAt(yPred, n - 1) == Some(yTrue[n - 1]) then 1 else 0)
  }

  /** On 0/1 data the counters agree with counting positives, predicted positives and agreements. */
  lemma {:induction false} TallyCounts(yTrue: seq<int>, yPred: seq<int>, n: nat)
    requires n <= |yTrue| && Binary(yTrue, yPred, n)
    ensures var c := Tally(yTrue, yPred, n);
      c.tp + c.fn == ActualPositives(yTrue, n)
      && c.tp + c.fp == PredictedPositives(yPred, n)
      && c.tp + c.tn == Agreements(yTrue, yPred, n)
  {
    if n > 0 {
      TallyCounts(yTrue, yPred, n - 1);
    }
  }

  datatype Metrics = Metrics(accuracy: Option<real>, precision: real, recall: real, f1: real)

  /** `a / b || 0`: 0 where JavaScript divides 0 by 0. */
  function Ratio(a: nat, b: nat): (r: real)
    requires a <= b
    ensures 0.0 <= r <= 1.0
    ensures r == 0.0 <==> a == 0
    ensures r == 1.0 <==> a == b && b > 0
  {
    if b == 0 then 0.0 else a as real / b as real
  }

  lemma HarmonicBound(p: real, r: real)
    requires 0.0 <= p <= 1.0 && 0.0 <= r <= 1.0
    ensures 2.0 * (p * r) <= p + r
  {
    var u, v := 1.0 - r, 1.0 - p;
    NonNegativeProduct(p, u);
    NonNegativeProduct(r, v);
    assert p + r - 2.0 * (p * r) == p * u + r * v;
  }

  lemma NonNegativeProduct(x: real, y: real)
    requires x >= 0.0 && y >= 0.0
    ensures x * y >= 0.0
  {
  }

  lemma FractionBounds(a: real, b: real)
    requires 0.0 <= a <= b && b > 0.0
    ensures 0.0 <= a / b <= 1.0
  {
  }

  lemma ProductZero(p: real, r: real)
    requires p >= 0.0 && r >= 0.0
    ensures p * r == 0.0 <==> p == 0.0 || r == 0.0
  {
    if p > 0.0 && r > 0.0 {
      assert p * r > 0.0;
    }
  }

  /** `2 * (precision * recall) / (precision + recall) || 0`. */
  function F1(p: real, r: real): (f: real)
    requires 0.0 <= p <= 1.0 && 0.0 <= r <= 1.0
    ensures 0.0 <= f <= 1.0
    ensures f == 0.0 <==> p == 0.0 || r == 0.0
    ensures p == 1.0 && r == 1.0 ==> f == 1.0
  {
    if p + r == 0.0 then 0.0
    else
      HarmonicBound(p, r);
      ProductZero(p, r);
      NonNegativeProduct(p, r);
      FractionBounds(2.0 * (p * r), p + r);
      2.0 * (p * r) / (p + r)
  }

  /** `computeMetrics` from the counters; the accuracy is NaN (`None`) when nothing was counted. */
  function MetricsOf(c: Confusion): (m: Metrics)
    ensures m.accuracy.None? <==> Total(c) == 0
    ensures m.precision == Ratio(c.tp, c.tp + c.fp) && m.recall == Ratio(c.tp, c.tp + c.fn)
  {
    var precision := Ratio(c.tp, c.tp + c.fp);
    var recall := Ratio(c.tp, c.tp + c.fn);
    Metrics(if Total(c) == 0 then None else Some((c.tp + c.tn) as real / Total(c) as real),
            precision, recall, F1(precision, recall))
  }

  /** Every metric lies in [0, 1]. */
  lemma MetricsInUnitRange(c: Confusion)
    ensures var m := MetricsOf(c);
      (m.accuracy.Some? ==> 0.0 <= m.accuracy.value <= 1.0)
      && 0.0 <= m.precision <= 1.0 && 0.0 <= m.recall <= 1.0 && 0.0 <= m.f1 <= 1.0
  {
    if Total(c) > 0 {
      FractionBounds((c.tp + c.tn) as real, Total(c) as real);
    }
  }

  /** Without a true positive, precision, recall and F1 all fall back to 0. */
  lemma NoTruePositivesScoreZero(c: Confusion)
    requires c.tp == 0
    ensures var m := MetricsOf(c); m.precision == 0.0 && m.recall == 0.0 && m.f1 == 0.0
  {
  }

  /** With true positives and no errors of either kind, precision, recall and F1 are 1. */
  lemma NoErrorsScoreOne(c: Confusion)
    requires c.tp > 0 && c.fp == 0 && c.fn == 0
    ensures var m := MetricsOf(c); m.precision == 1.0 && m.recall == 1.0 && m.f1 == 1.0
  {
  }

  method ComputeMetrics(yTrue: seq<int>, yPred: seq<int>) returns (m: Metrics)
    ensures m == MetricsOf(Tally(yTrue, yPred, |yTrue|))
  {
    var tp, fp, tn, fn := 0, 0, 0, 0;
    var i := 0;
    while i < |yTrue|
      invariant 0 <= i <= |yTrue|
      invariant Confusion(tp, fp, tn, fn) == Tally(yTrue, yPred, i)
    {
      var p := PredAt(yPred, i);
      if yTrue[i] == 1 && p == Some(1) {
        tp := tp + 1;
      } else if yTrue[i] == 0 && p == Some(1) {
        fp := fp + 1;
      } else if yTrue[i] == 0 && p == Some(0) {
        tn := tn + 1;
      } else if yTrue[i] == 1 && p == Some(0) {
        fn := fn + 1;
      }
      i := i + 1;
    }
    m := MetricsOf(Confusion(tp, fp, tn, fn));
  }

  /** On non-empty 0/1 data the accuracy is the share of predictions equal to their label. */
  lemma AccuracyIsAgreementShare(yTrue: seq<int>, yPred: seq<int>)
    requires |yTrue| > 0 && Binary(yTrue, yPred, |yTrue|)
    ensures MetricsOf(Tally(yTrue, yPred, |yTrue|)).accuracy
         == Some(Agreements(yTrue, yPred, |yTrue|) as real / |yTrue| as real)
  {
    TallyTotal(yTrue, yPred, |yTrue|);
    TallyCounts(yTrue, yPred, |yTrue|);
  }

  /** Counters with no false positive or false negative give accuracy 1. */
  lemma NoErrorsFullAccuracy(c: Confusion)
    requires c.fp == 0 && c.fn == 0 && Total(c) > 0
    ensures MetricsOf(c).accuracy == Some(1.0)
  {
    var t := Total(c) as real;
    assert (c.tp + c.tn) as real == t;
    assert t / t == 1.0;
  }

  /** Predictions that repeat the 0/1 labels score 1 on accuracy, and on the rest once a label is 1. */
  lemma PerfectPredictions(y: seq<int>)
    requires |y| > 0 && forall i :: 0 <= i < |y| ==> y[i] == 0 || y[i] == 1
    ensures var m := MetricsOf(Tally(y, y, |y|));
      m.accuracy == Some(1.0)
      && (ActualPositives(y, |y|) > 0 ==> m.precision == 1.0 && m.recall == 1.0 && m.f1 == 1.0)
  {
    var c := Tally(y, y, |y|);
    assert Binary(y, y, |y|);
    TallyTotal(y, y, |y|);
    NoErrorsOnDiagonal(y, |y|);
    TallyCounts(y, y, |y|);
    NoErrorsFullAccuracy(c);
    if c.tp > 0 {
      NoErrorsScoreOne(c);
    }
  }

  lemma {:induction false} NoErrorsOnDiagonal(y: seq<int>, n: nat)
    requires n <= |y|
    ensures Tally(y, y, n).fp == 0 && Tally(y, y, n).fn == 0
  {
    if n > 0 {
      NoErrorsOnDiagonal(y, n - 1);
    }
  }

  /** After the training guard, 0/1 labels against thresholded predictions always give a defined accuracy. */
  lemma TrainingAccuracyDefined(X: seq<seq<real>>, y: seq<int>, probs: seq<real>)
    requires ValidateTrainingData(X, y).Some?
    requires |probs| == |X|
    requires forall i :: 0 <= i < |y| ==> y[i] == 0 || y[i] == 1
    ensures MetricsOf(Tally(y, Thresholded(probs), |y|)).accuracy.Some?
  {
    var yPred := Thresholded(probs);
    assert Binary(y, yPred, |y|);
    TallyTotal(y, yPred, |y|);
  }
}

=== FILE: simple_cache.dfy ===
/**
 * The in-memory TTL cache of `backend/utils/simpleCache.js`: a JavaScript
 * `Map` from non-empty string keys to entries with an expiry time, a
 * capacity that evicts the earliest-inserted key, and hit/miss/set/eviction
 * counters. A `Map` iterates in insertion order and overwriting a key keeps
 * its place, so the map is modelled as a sequence of slots with distinct
 * keys. Time is the parameter `now` (`Date.now()`).
 */
module SimpleCache {
  import opened Common

  /** `new CacheEntry(value, ttl)` made at time `t`: it expires at `t + ttl`. */
  datatype CacheEntry<V> = CacheEntry(value: V, expiresAt: int)

  /** `isExpired()`: strictly after the expiry time. */
  predicate Expired<V>(e: CacheEntry<V>, now: int) { now > e.expiresAt }

  datatype Slot<V> = Slot(key: string, entry: CacheEntry<V>)

  datatype Stats = Stats(hits: nat, misses: nat, sets: nat, evictions: nat)

  const NoStats := Stats(0, 0, 0, 0)

  /** Why `wrap` threw: `computeFn` is not a function, it failed, or `set` refused the key or TTL. */
  datatype WrapError = NotAFunction | ComputeFailed | SetRefused

  /** What the promise `wrap` returns settles to. */
  datatype WrapResult<V> = Returned(value: V) | Thrown(error: WrapError)

  datatype CacheState<V> = CacheState(slots: seq<Slot<V>>, stats: Stats)

  // ---------------------------------------------------------------------------
  // The Map operations on insertion-ordered slots

  predicate KeyAbsent<V>(slots: seq<Slot<V>>, key: string)
  {
    forall i :: 0 <= i < |slots| ==> slots[i].key != key
  }

  predicate DistinctKeys<V>(slots: seq<Slot<V>>)
  {
    forall i, j :: 0 <= i < j < |slots| ==> slots[i].key != slots[j].key
  }

  /** `Map.prototype.get`: the entry stored under `key`, if any. */
  function Lookup<V>(slots: seq<Slot<V>>, key: string): (r: Option<CacheEntry<V>>)
    ensures r.None? <==> KeyAbsent(slots, key)
    ensures r.Some? ==> Slot(key, r.value) in slots
  {
    if |slots| == 0 then None
    else if slots[0].key == key then Some(slots[0].entry)
    else Lookup(slots[1..], key)
  }

  /**
   * `Map.prototype.set`: an existing key keeps its place and takes the new
   * entry; a new key goes last.
   */
  function Put<V>(slots: seq<Slot<V>>, key: string, e: CacheEntry<V>): (r: seq<Slot<V>>)
    ensures KeyAbsent(slots, key) ==> r == slots + [Slot(key, e)]
    ensures !KeyAbsent(slots, key) ==>
      |r| == |slots| && forall i :: 0 <= i < |r| ==> r[i].key == slots[i].key
  {
    if |slots| == 0 then [Slot(key, e)]
    else if slots[0].key == key then [Slot(key, e)] + slots[1..]
    else
      var rest := Put(slots[1..], key, e);
      assert ([slots[0]] + rest)[1..] == rest;
      assert KeyAbsent(slots, key) ==> [slots[0]] + (slots[1..] + [Slot(key, e)]) == slots + [Slot(key, e)];
      [slots[0]] + rest
  }

  /** After `set`, the key reads the new entry and every other key reads what it read before. */
  lemma {:induction false} PutLookup<V>(slots: seq<Slot<V>>, key: string, e: CacheEntry<V>, k: string)
    ensures Lookup(Put(slots, key, e), k) == if k == key then Some(e) else Lookup(slots, k)
  {
    if |slots| > 0 && slots[0].key != key {
      PutLookup(slots[1..], key, e, k);
      var r := Put(slots, key, e);
      assert r[0] == slots[0] && r[1..] == Put(slots[1..], key, e);
    }
  }

  /** `Map.prototype.delete`: removes the slot of `key`, keeping the order of the rest. */
  function Delete<V>(slots: seq<Slot<V>>, key: string): (r: seq<Slot<V>>)
    ensures forall k :: k != key ==> Lookup(r, k) == Lookup(slots, k)
    ensures KeyAbsent(slots, key) ==> r == slots
    ensures !KeyAbsent(slots, key) ==> |r| == |slots| - 1
    ensures forall i :: 0 <= i < |r| ==> r[i] in slots
  {
    if |slots| == 0 then []
    else if slots[0].key == key then slots[1..]
    else
      var rest := Delete(slots[1..], key);
      assert ([slots[0]] + rest)[1..] == rest;
      assert KeyAbsent(slots, key) ==> [slots[0]] + slots[1..] == slots;
      [slots[0]] + rest
  }

  lemma {:induction false} DeleteForgets<V>(slots: seq<Slot<V>>, key: string)
    requires DistinctKeys(slots)
    ensures Lookup(Delete(slots, key), key) == None
    ensures DistinctKeys(Delete(slots, key))
  {
    if |slots| > 0 && slots[0].key != key {
      DeleteForgets(slots[1..], key);
      var rest := Delete(slots[1..], key);
      assert ([slots[0]] + rest)[1..] == rest;
      forall x | x in rest
        ensures x.key != slots[0].key
      {
        var j :| 0 <= j < |slots[1..]| && slots[1..][j] == x;
        assert slots[1 + j] == x;
      }
    }
  }

  lemma PutDistinct<V>(slots: seq<Slot<V>>, key: string, e: CacheEntry<V>)
    requires DistinctKeys(slots)
    ensures DistinctKeys(Put(slots, key, e))
  {
    var r := Put(slots, key, e);
    if KeyAbsent(slots, key) {
      forall i, j | 0 <= i < j < |r| ensures r[i].key != r[j].key {
        assert r[i] == slots[i];
        if j < |slots| {
          assert r[j] == slots[j];
        }
      }
    } else {
      forall i, j | 0 <= i < j < |r| ensures r[i].key != r[j].key {
        assert r[i].key == slots[i].key && r[j].key == slots[j].key;
      }
    }
  }

  // ---------------------------------------------------------------------------
  // _sweep: which slots survive, and how many do not

  /** The slots not expired at `now`, in their order. */
  function Live<V>(slots: seq<Slot<V>>, now: int): (r: seq<Slot<V>>)
    ensures |r| <= |slots|
  {
    if |slots| == 0 then []
    else
      var last := slots[|slots| - 1];
      Live(slots[..|slots| - 1], now) + (if Expired(last.entry, now) then [] else [last])
  }

  function CountExpired<V>(slots: seq<Slot<V>>, now: int): (n: nat)
  {
    if |slots| == 0 then 0
    else CountExpired(slots[..|slots| - 1], now) + (if Expired(slots[|slots| - 1].entry, now) then 1 else 0)
  }

  /** Every slot a sweep keeps was there and has not expired. */
  lemma {:induction false} LiveSound<V>(slots: seq<Slot<V>>, now: int)
    ensures forall i :: 0 <= i < |Live(slots, now)| ==>
      Live(slots, now)[i] in slots && !Expired(Live(slots, now)[i].entry, now)
  {
    if |slots| > 0 {
      var init := slots[..|slots| - 1];
      LiveSound(init, now);
      assert slots == init + [slots[|slots| - 1]];
    }
  }

  /** Every slot that has not expired survives a sweep. */
  lemma {:induction false} LiveComplete<V>(slots: seq<Slot<V>>, now: int)
    ensures forall i :: 0 <= i < |slots| && !Expired(slots[i].entry, now) ==> slots[i] in Live(slots, now)
  {
    if |slots| > 0 {
      var init := slots[..|slots| - 1];
      LiveComplete(init, now);
      forall i | 0 <= i < |init| && !Expired(slots[i].entry, now)
        ensures slots[i] in Live(slots, now)
      {
        assert init[i] == slots[i];
      }
    }
  }

  /** A sweep drops as many slots as have expired. */
  lemma {:induction false} LiveCount<V>(slots: seq<Slot<V>>, now: int)
    ensures |Live(slots, now)| + CountExpired(slots, now) == |slots|
  {
    if |slots| > 0 {
      LiveCount(slots[..|slots| - 1], now);
    }
  }

  /** Extending the scanned prefix by one slot extends the survivors and the count accordingly. */
  lemma LivePrefixStep<V>(slots: seq<Slot<V>>, i: nat, now: int)
    requires i < |slots|
    ensures Live(slots[..i + 1], now) == Live(slots[..i], now) + (if Expired(slots[i].entry, now) then [] else [slots[i]])
    ensures CountExpired(slots[..i + 1], now) == CountExpired(slots[..i], now) + (if Expired(slots[i].entry, now) then 1 else 0)
  {
    assert slots[..i + 1][..i] == slots[..i];
  }

  /** When everything has expired a sweep keeps nothing. */
  lemma {:induction false} LiveAllExpired<V>(slots: seq<Slot<V>>, now: int)
    requires forall i :: 0 <= i < |slots| ==> Expired(slots[i].entry, now)
    ensures Live(slots, now) == []
  {
    if |slots| > 0 {
      LiveAllExpired(slots[..|slots| - 1], now);
    }
  }

  /** A sweep keeps the keys distinct. */
  lemma {:induction false} LiveDistinct<V>(slots: seq<Slot<V>>, now: int)
    requires DistinctKeys(slots)
    ensures DistinctKeys(Live(slots, now))
  {
    if |slots| > 0 {
      var init := slots[..|slots| - 1];
      var last := slots[|slots| - 1];
      LiveDistinct(init, now);
      LiveSound(init, now);
      var l := Live(init, now);
      forall i | 0 <= i < |l|
        ensures l[i].key != last.key
      {
        var j :| 0 <= j < |init| && init[j] == l[i];
        assert slots[j] == l[i];
      }
    }
  }

  // ---------------------------------------------------------------------------
  // Cache states and the steps of each operation

  /**
   * What every operation keeps: distinct, non-empty keys (`set` refuses the
   * empty key), and no more than `maxSize` entries. A capacity below 1 still
   * lets one entry in, because eviction happens before the new key is added.
   */
  predicate Valid<V>(s: CacheState<V>, maxSize: int)
  {
    && DistinctKeys(s.slots)
    && (forall i :: 0 <= i < |s.slots| ==> s.slots[i].key != [])
    && |s.slots| <= Max(1, maxSize)
  }

  /**
   * `_evictOldest`: the first key in `Map` order is deleted and counted as an
   * eviction, unless the map is empty (the key is falsy).
   */
  function EvictOldest<V>(s: CacheState<V>): (r: CacheState<V>)
    ensures |s.slots| > 0 && s.slots[0].key != [] ==>
      r.slots == s.slots[1..] && r.stats == s.stats.(evictions := s.stats.evictions + 1)
    ensures (|s.slots| == 0 || s.slots[0].key == []) ==> r == s
  {
    if |s.slots| > 0 && s.slots[0].key != [] then
      CacheState(s.slots[1..], s.stats.(evictions := s.stats.evictions + 1))
    else s
  }

  /**
   * `set(key, value, ttlMs)` at `now`. A `TypeError` (`false`, nothing
   * changed) when the key is not a non-empty string (`None` is a non-string)
   * or the TTL is not a positive number; otherwise, when the cache is full
   * and the key is new, the oldest key is evicted first, then the entry is
   * stored and `sets` counted.
   */
  function SetStep<V>(s: CacheState<V>, maxSize: int, key: Option<string>, value: V,
                      ttl: Option<int>, now: int): (r: (bool, CacheState<V>))
    ensures r.0 <==> key.Some? && key.value != [] && ttl.Some? && ttl.value > 0
    ensures !r.0 ==> r.1 == s
    ensures r.0 ==> Lookup(r.1.slots, key.value) == Some(CacheEntry(value, now + ttl.value))
    ensures r.0 ==>
      r.1.stats.sets == s.stats.sets + 1 && r.1.stats.hits == s.stats.hits
      && r.1.stats.misses == s.stats.misses
  {
    if key.None? || key.value == [] || ttl.None? || ttl.value <= 0 then (false, s)
    else
      var e := CacheEntry(value, now + ttl.value);
      var s1 := MakeRoom(s, maxSize, key.value);
      PutLookup(s1.slots, key.value, e, key.value);
      (true, CacheState(Put(s1.slots, key.value, e), s1.stats.(sets := s1.stats.sets + 1)))
  }

  /** The state `set` stores into: the oldest key evicted when the cache is full and the key new. */
  function MakeRoom<V>(s: CacheState<V>, maxSize: int, key: string): (r: CacheState<V>)
    ensures r.stats.hits == s.stats.hits && r.stats.misses == s.stats.misses && r.stats.sets == s.stats.sets
  {
    if |s.slots| >= maxSize && Lookup(s.slots, key).None? then EvictOldest(s) else s
  }

  /**
   * `get(key)` at `now`: a missing key is a miss; an expired entry is
   * deleted and counted as a miss and an eviction; a live entry is a hit and
   * its value is returned.
   */
  function GetStep<V>(s: CacheState<V>, key: string, now: int): (r: (Option<V>, CacheState<V>))
    ensures r.0.Some? <==> Lookup(s.slots, key).Some? && !Expired(Lookup(s.slots, key).value, now)
    ensures r.0.Some? ==>
      r.0.value == Lookup(s.slots, key).value.value
      && r.1.slots == s.slots && r.1.stats == s.stats.(hits := s.stats.hits + 1)
    ensures Lookup(s.slots, key).None? ==>
      r.1.slots == s.slots && r.1.stats == s.stats.(misses := s.stats.misses + 1)
    ensures Lookup(s.slots, key).Some? && Expired(Lookup(s.slots, key).value, now) ==>
      r.1.slots == Delete(s.slots, key)
      && r.1.stats == s.stats.(misses := s.stats.misses + 1, evictions := s.stats.evictions + 1)
  {
    var entry := Lookup(s.slots, key);
    if entry.None? then (None, s.(stats := s.stats.(misses := s.stats.misses + 1)))
    else if Expired(entry.value, now) then
      (None, CacheState(Delete(s.slots, key),
                        s.stats.(misses := s.stats.misses + 1, evictions := s.stats.evictions + 1)))
    else (Some(entry.value.value), s.(stats := s.stats.(hits := s.stats.hits + 1)))
  }

  /**
   * `has(key)` at `now`: true exactly for a live entry; an expired entry is
   * deleted and counted as an eviction. Hits and misses never change.
   */
  function HasStep<V>(s: CacheState<V>, key: string, now: int): (r: (bool, CacheState<V>))
    ensures r.0 <==> Lookup(s.slots, key).Some? && !Expired(Lookup(s.slots, key).value, now)
    ensures r.1.stats.hits == s.stats.hits && r.1.stats.misses == s.stats.misses
      && r.1.stats.sets == s.stats.sets
    ensures Lookup(s.slots, key).Some? && Expired(Lookup(s.slots, key).value, now) ==>
      r.1.slots == Delete(s.slots, key) && r.1.stats.evictions == s.stats.evictions + 1
    ensures !(Lookup(s.slots, key).Some? && Expired(Lookup(s.slots, key).value, now)) ==> r.1 == s
  {
    var entry := Lookup(s.slots, key);
    if entry.None? then (false, s)
    else if Expired(entry.value, now) then
      (false, CacheState(Delete(s.slots, key), s.stats.(evictions := s.stats.evictions + 1)))
    else (true, s)
  }

  /** `del(key)`: whether the key was present; it is removed and no counter moves. */
  function DelStep<V>(s: CacheState<V>, key: string): (r: (bool, CacheState<V>))
    ensures r.0 <==> !KeyAbsent(s.slots, key)
    ensures r.1.stats == s.stats
    ensures forall k :: k != key ==> Lookup(r.1.slots, k) == Lookup(s.slots, k)
    ensures |r.1.slots| == |s.slots| - (if r.0 then 1 else 0)
  {
    (Lookup(s.slots, key).Some?, s.(slots := Delete(s.slots, key)))
  }

  /**
   * `_sweep()` at `now`: removes every expired entry, returns how many, and
   * adds that number to `evictions`.
   */
  function SweepStep<V>(s: CacheState<V>, now: int): (r: (nat, CacheState<V>))
    ensures r.0 + |r.1.slots| == |s.slots|
    ensures forall i :: 0 <= i < |r.1.slots| ==>
      r.1.slots[i] in s.slots && !Expired(r.1.slots[i].entry, now)
    ensures forall i :: 0 <= i < |s.slots| && !Expired(s.slots[i].entry, now) ==>
      s.slots[i] in r.1.slots
    ensures r.1.stats == s.stats.(evictions := s.stats.evictions + r.0)
  {
    LiveSound(s.slots, now);
    LiveComplete(s.slots, now);
    LiveCount(s.slots, now);
    var n := CountExpired(s.slots, now);
    (n, CacheState(Live(s.slots, now), s.stats.(evictions := s.stats.evictions + n)))
  }

  /**
   * `clear()` as written: `evictions += this.cache.size` runs after
   * `this.cache.clear()`, when the size is already 0.
   */
  function ClearAsWritten<V>(s: CacheState<V>): (r: CacheState<V>)
    ensures r.slots == [] && r.stats == s.stats
  {
    CacheState([], s.stats.(evictions := s.stats.evictions + 0))
  }

  /** `clear()` as evidently intended: the dropped entries count as evictions. */
  function ClearCounted<V>(s: CacheState<V>): (r: CacheState<V>)
    ensures r.slots == []
    ensures r.stats == s.stats.(evictions := s.stats.evictions + |s.slots|)
  {
    var dropped := |s.slots|;
    CacheState([], s.stats.(evictions := s.stats.evictions + dropped))
  }

  /** `resetStats()`: all counters back to 0, entries untouched. */
  function ResetStatsStep<V>(s: CacheState<V>): (r: CacheState<V>)
    ensures r.slots == s.slots && r.stats == NoStats
  {
    s.(stats := NoStats)
  }

  // ---------------------------------------------------------------------------
  // Properties

  /**
   * Where `set` puts the entry: overwriting keeps every key in its place and
   * evicts nothing; a new key goes last, after evicting the earliest-inserted
   * key when the cache is full.
   */
  lemma SetPlacement<V>(s: CacheState<V>, maxSize: int, key: string, value: V, ttl: int, now: int)
    requires key != [] && ttl > 0
    requires |s.slots| > 0 ==> s.slots[0].key != []
    ensures var r := SetStep(s, maxSize, Some(key), value, Some(ttl), now).1;
      var slot := Slot(key, CacheEntry(value, now + ttl));
      && (!KeyAbsent(s.slots, key) ==>
            r.stats.evictions == s.stats.evictions && |r.slots| == |s.slots|
            && forall i :: 0 <= i < |s.slots| ==> r.slots[i].key == s.slots[i].key)
      && (KeyAbsent(s.slots, key) && |s.slots| < maxSize ==>
            r.slots == s.slots + [slot] && r.stats.evictions == s.stats.evictions)
      && (KeyAbsent(s.slots, key) && |s.slots| >= maxSize && |s.slots| > 0 ==>
            r.slots == s.slots[1..] + [slot] && r.stats.evictions == s.stats.evictions + 1)
  {
    if !KeyAbsent(s.slots, key) {
      SetOverwrites(s, maxSize, key, value, ttl, now);
    } else if |s.slots| < maxSize {
      SetAppends(s, maxSize, key, value, ttl, now);
    } else if |s.slots| > 0 {
      SetEvicts(s, maxSize, key, value, ttl, now);
    }
  }

  lemma SetOverwrites<V>(s: CacheState<V>, maxSize: int, key: string, value: V, ttl: int, now: int)
    requires key != [] && ttl > 0 && !KeyAbsent(s.slots, key)
    ensures var r := SetStep(s, maxSize, Some(key), value, Some(ttl), now).1;
      r.stats.evictions == s.stats.evictions && |r.slots| == |s.slots|
      && forall i :: 0 <= i < |s.slots| ==> r.slots[i].key == s.slots[i].key
  {
  }

  lemma SetAppends<V>(s: CacheState<V>, maxSize: int, key: string, value: V, ttl: int, now: int)
    requires key != [] && ttl > 0 && KeyAbsent(s.slots, key) && |s.slots| < maxSize
    ensures var r := SetStep(s, maxSize, Some(key), value, Some(ttl), now).1;
      r.slots == s.slots + [Slot(key, CacheEntry(value, now + ttl))] && r.stats.evictions == s.stats.evictions
  {
  }

  lemma SetEvicts<V>(s: CacheState<V>, maxSize: int, key: string, value: V, ttl: int, now: int)
    requires key != [] && ttl > 0 && KeyAbsent(s.slots, key) && |s.slots| >= maxSize
    requires |s.slots| > 0 && s.slots[0].key != []
    ensures var r := SetStep(s, maxSize, Some(key), value, Some(ttl), now).1;
      r.slots == s.slots[1..] + [Slot(key, CacheEntry(value, now + ttl))]
      && r.stats.evictions == s.stats.evictions + 1
  {
    var s1 := MakeRoom(s, maxSize, key);
    assert Lookup(s.slots, key).None?;
    assert s1.slots == s.slots[1..];
    assert KeyAbsent(s1.slots, key);
  }

  /** Every operation keeps the keys distinct and non-empty and the size within the capacity. */
  lemma SetKeepsValid<V>(s: CacheState<V>, maxSize: int, key: Option<string>, value: V,
                         ttl: Option<int>, now: int)
    requires Valid(s, maxSize)
    ensures Valid(SetStep(s, maxSize, key, value, ttl, now).1, maxSize)
  {
    if key.Some? && key.value != [] && ttl.Some? && ttl.value > 0 {
      var e := CacheEntry(value, now + ttl.value);
      var s1 := MakeRoom(s, maxSize, key.value);
      MakeRoomValid(s, maxSize, key.value);
      PutValid(s1, maxSize, key.value, e);
      assert SetStep(s, maxSize, key, value, ttl, now).1
          == CacheState(Put(s1.slots, key.value, e), s1.stats.(sets := s1.stats.sets + 1));
    } else {
      assert SetStep(s, maxSize, key, value, ttl, now).1 == s;
    }
  }

  /** Making room leaves space for a new key and keeps the keys distinct and non-empty. */
  lemma MakeRoomValid<V>(s: CacheState<V>, maxSize: int, key: string)
    requires Valid(s, maxSize)
    ensures var s1 := MakeRoom(s, maxSize, key);
      Valid(s1, maxSize) && (KeyAbsent(s1.slots, key) ==> |s1.slots| < Max(1, maxSize))
  {
    if |s.slots| >= maxSize && Lookup(s.slots, key).None? && |s.slots| > 0 {
      var rest := s.slots[1..];
      assert forall i :: 0 <= i < |rest| ==> rest[i] == s.slots[i + 1];
    }
  }

  lemma PutValid<V>(s1: CacheState<V>, maxSize: int, key: string, e: CacheEntry<V>)
    requires Valid(s1, maxSize) && key != []
    requires KeyAbsent(s1.slots, key) ==> |s1.slots| < Max(1, maxSize)
    ensures Valid(CacheState(Put(s1.slots, key, e), s1.stats.(sets := s1.stats.sets + 1)), maxSize)
  {
    PutDistinct(s1.slots, key, e);
  }

  lemma GetKeepsValid<V>(s: CacheState<V>, maxSize: int, key: string, now: int)
    requires Valid(s, maxSize)
    ensures Valid(GetStep(s, key, now).1, maxSize)
    ensures Valid(HasStep(s, key, now).1, maxSize)
    ensures Valid(DelStep(s, key).1, maxSize)
  {
    DeleteForgets(s.slots, key);
  }

  lemma SweepKeepsValid<V>(s: CacheState<V>, maxSize: int, now: int)
    requires Valid(s, maxSize)
    ensures Valid(SweepStep(s, now).1, maxSize)
  {
    LiveSound(s.slots, now);
    LiveCount(s.slots, now);
    LiveDistinct(s.slots, now);
  }

  /**
   * An entry set at `t` with TTL `d` is returned by `get` at any `now <= t + d`,
   * and that `get` counts one hit.
   */
  lemma GetWithinTtl<V>(s: CacheState<V>, maxSize: int, key: string, value: V, t: int, d: int, now: int)
    requires key != [] && d > 0 && now <= t + d
    ensures var s1 := SetStep(s, maxSize, Some(key), value, Some(d), t).1;
      GetStep(s1, key, now) == (Some(value), s1.(stats := s1.stats.(hits := s1.stats.hits + 1)))
  {
  }

  /** After an expired `get`, `del`, or `has` on an expired key, the key is gone. */
  lemma RemovedKeysAreGone<V>(s: CacheState<V>, key: string, now: int)
    requires DistinctKeys(s.slots)
    ensures Lookup(DelStep(s, key).1.slots, key) == None
    ensures GetStep(s, key, now).0 == None ==> Lookup(GetStep(s, key, now).1.slots, key) == None
    ensures HasStep(s, key, now).0 == false ==> Lookup(HasStep(s, key, now).1.slots, key) == None
  {
    DeleteForgets(s.slots, key);
  }

  /** As written, clearing a non-empty cache loses the dropped entries from `evictions`. */
  lemma ClearLosesEvictions<V>(s: CacheState<V>)
    requires |s.slots| > 0
    ensures ClearAsWritten(s).stats.evictions < s.stats.evictions + |s.slots|
    ensures ClearAsWritten(s).stats.evictions == s.stats.evictions
  {
  }

  /**
   * The corrected `clear` counts exactly as a sweep would at a time when every
   * entry has expired.
   */
  lemma ClearCountsLikeSweep<V>(s: CacheState<V>, now: int)
    requires forall i :: 0 <= i < |s.slots| ==> Expired(s.slots[i].entry, now)
    ensures ClearCounted(s) == SweepStep(s, now).1
  {
    LiveAllExpired(s.slots, now);
    LiveCount(s.slots, now);
  }

  // ---------------------------------------------------------------------------
  // The cache object

  class Cache<V> {
    var slots: seq<Slot<V>>
    var stats: Stats
    const maxSize: int

    function State(): CacheState<V>
      reads this
    {
      CacheState(slots, stats)
    }

    /** `new SimpleCache({ maxSize })`: `maxSize || 1000`; `None` is an absent option. */
    constructor (maxSizeOption: Option<int>)
      ensures State() == CacheState([], NoStats)
      ensures maxSize == (if maxSizeOption.None? || maxSizeOption.value == 0 then 1000 else maxSizeOption.value)
      ensures Valid(State(), maxSize)
    {
      slots := [];
      stats := NoStats;
      maxSize := if maxSizeOption.None? || maxSizeOption.value == 0 then 1000 else maxSizeOption.value;
    }

    method EvictOldestEntry()
      modifies this
      ensures State() == EvictOldest(old(State()))
    {
      if |slots| > 0 && slots[0].key != [] {
        slots := slots[1..];
        stats := stats.(evictions := stats.evictions + 1);
      }
    }

    method Set(key: Option<string>, value: V, ttl: Option<int>, now: int) returns (ok: bool)
      modifies this
      ensures (ok, State()) == SetStep(old(State()), maxSize, key, value, ttl, now)
    {
      if key.None? || key.value == [] || ttl.None? || ttl.value <= 0 {
        ok := false;
      } else {
        StoreEntry(key.value, CacheEntry(value, now + ttl.value));
        ok := true;
      }
    }

    /** The storing half of `set`, once the key and TTL have been checked. */
    method StoreEntry(key: string, e: CacheEntry<V>)
      modifies this
      ensures var s1 := MakeRoom(old(State()), maxSize, key);
        State() == CacheState(Put(s1.slots, key, e), s1.stats.(sets := s1.stats.sets + 1))
    {
      if |slots| >= maxSize && Lookup(slots, key).None? {
        EvictOldestEntry();
      }
      slots := Put(slots, key, e);
      stats := stats.(sets := stats.sets + 1);
    }

    method Get(key: string, now: int) returns (r: Option<V>)
      modifies this
      ensures (r, State()) == GetStep(old(State()), key, now)
    {
      var entry := Lookup(slots, key);
      if entry.None? {
        stats := stats.(misses := stats.misses + 1);
        return None;
      }
      if Expired(entry.value, now) {
        slots := Delete(slots, key);
        stats := stats.(misses := stats.misses + 1, evictions := stats.evictions + 1);
        return None;
      }
      stats := stats.(hits := stats.hits + 1);
      r := Some(entry.value.value);
    }

    method Has(key: string, now: int) returns (b: bool)
      modifies this
      ensures (b, State()) == HasStep(old(State()), key, now)
    {
      var entry := Lookup(slots, key);
      if entry.None? {
        return false;
      }
      if Expired(entry.value, now) {
        slots := Delete(slots, key);
        stats := stats.(evictions := stats.evictions + 1);
        return false;
      }
      b := true;
    }

    method Del(key: string) returns (existed: bool)
      modifies this
      ensures (existed, State()) == DelStep(old(State()), key)
    {
      existed := Lookup(slots, key).Some?;
      slots := Delete(slots, key);
    }

    /**
     * `wrap(key, ttlMs, computeFn)`. `isFunction` says whether `computeFn` is a
     * function; `computed` is what `computeFn()` resolves to, `None` when it
     * throws or its promise rejects. A non-function throws the `TypeError`
     * before the cache is read; a live cached value is returned; a failed
     * computation propagates its error with nothing stored; otherwise the value
     * is stored with `set`, whose own `TypeError` propagates the same way.
     */
    method Wrap(key: string, ttl: Option<int>, isFunction: bool, computed: Option<V>, now: int)
      returns (r: WrapResult<V>)
      modifies this
      ensures !isFunction ==> r == Thrown(NotAFunction) && State() == old(State())
      ensures isFunction ==>
        var g := GetStep(old(State()), key, now);
        if g.0.Some? then r == Returned(g.0.value) && State() == g.1
        else if computed.None? then r == Thrown(ComputeFailed) && State() == g.1
        else var st := SetStep(g.1, maxSize, Some(key), computed.value, ttl, now);
          State() == st.1 && r == (if st.0 then Returned(computed.value) else Thrown(SetRefused))
    {
      if !isFunction {
        return Thrown(NotAFunction);
      }
      var cached := Get(key, now);
      if cached.Some? {
        return Returned(cached.value);
      }
      if computed.None? {
        return Thrown(ComputeFailed);
      }
      var ok := Set(Some(key), computed.value, ttl, now);
      r := if ok then Returned(computed.value) else Thrown(SetRefused);
    }

    method Size() returns (n: nat)
      ensures n == |slots|
    {
      n := |slots|;
    }

    /** `clear()` as written; see `ClearAsWritten`. */
    method Clear()
      modifies this
      ensures State() == ClearAsWritten(old(State()))
    {
      slots := [];
      stats := stats.(evictions := stats.evictions + |slots|);
    }

    /** `getStats()` without `hitRate`: the counters and the current size. */
    method GetStats() returns (st: Stats, size: nat)
      ensures st == stats && size == |slots|
    {
      st, size := stats, |slots|;
    }

    method ResetStats()
      modifies this
      ensures State() == ResetStatsStep(old(State()))
    {
      stats := NoStats;
    }

    /** `_sweep()`: one pass over the entries in `Map` order. */
    method Sweep(now: int) returns (removed: nat)
      modifies this
      ensures (removed, State()) == SweepStep(old(State()), now)
    {
      var next;
      removed, next := SweepState(State(), now);
      slots, stats := next.slots, next.stats;
    }
  }

  /** The body of `_sweep` on the cache's contents. */
  method SweepState<V>(s: CacheState<V>, now: int) returns (removed: nat, next: CacheState<V>)
    ensures (removed, next) == SweepStep(s, now)
  {
    var kept;
    kept, removed := ScanExpired(s.slots, now);
    next := CacheState(kept, s.stats.(evictions := s.stats.evictions + removed));
  }

  /** The loop of `_sweep`: the entries it keeps, in order, and how many it deletes. */
  method ScanExpired<V>(all: seq<Slot<V>>, now: int) returns (kept: seq<Slot<V>>, removed: nat)
    ensures kept == Live(all, now) && removed == CountExpired(all, now)
  {
    kept := [];
    removed := 0;
    var i := 0;
    while i < |all|
      invariant 0 <= i <= |all|
      invariant kept == Live(all[..i], now)
      invariant removed == CountExpired(all[..i], now)
    {
      LivePrefixStep(all, i, now);
      if Expired(all[i].entry, now) {
        removed := removed + 1;
      } else {
        kept := kept + [all[i]];
      }
      i := i + 1;
    }
    assert all[..i] == all;
  }
}

=== FILE: skill_controller.dfy ===
/**
 * The catalogue controller's pure parts: `slugify`, the guards of
 * `createSkill` and the `skip` arithmetic of `listSkills`.
 */
module SkillController {
  import opened Common

  // ---------------------------------------------------------------------------
  // slugify: s.toLowerCase().replace(/[^a-z0-9]+/g, '-').replace(/^-|-$/g, '')

  /**
   * `replace(/[^a-z0-9]+/g, '-')`: every maximal run of characters outside
   * `[a-z0-9]` becomes one `-`. `inRun` says that the previous character was
   * already part of such a run.
   */
  function CollapseRuns(s: string, inRun: bool): string
  {
    if |s| == 0 then []
    else if IsLowerAlnum(s[0]) then [s[0]] + CollapseRuns(s[1..], false)
    else if inRun then CollapseRuns(s[1..], true)
    else ['-'] + CollapseRuns(s[1..], true)
  }

  /** `replace(/^-|-$/g, '')`: one leading and one trailing `-` are removed. */
  function StripDashes(t: string): string
  {
    var a := if |t| > 0 && t[0] == '-' then t[1..] else t;
    if |a| > 0 && a[|a| - 1] == '-' then a[..|a| - 1] else a
  }

  /** Every slug has only `[a-z0-9-]`, no `--` and no dash at either end. */
  function Slugify(s: string): (t: string)
    ensures IsSlug(t)
  {
    CollapseRunsShape(ToLower(s), false);
    StripDashesShape(CollapseRuns(ToLower(s), false));
    StripDashes(CollapseRuns(ToLower(s), false))
  }

  predicate SlugChar(c: char) { IsLowerAlnum(c) || c == '-' }

  /** Only `[a-z0-9-]`, never two `-` in a row. */
  predicate Collapsed(t: string)
  {
    (forall i :: 0 <= i < |t| ==> SlugChar(t[i]))
    && (forall i :: 0 <= i < |t| - 1 && t[i] == '-' ==> t[i + 1] != '-')
  }

  /** The shape of every slug: collapsed, with no `-` at either end. */
  predicate IsSlug(t: string)
  {
    Collapsed(t) && (|t| > 0 ==> t[0] != '-' && t[|t| - 1] != '-')
  }

  lemma {:induction false} CollapseRunsShape(s: string, inRun: bool)
    ensures Collapsed(CollapseRuns(s, inRun))
    ensures inRun && |CollapseRuns(s, inRun)| > 0 ==> CollapseRuns(s, inRun)[0] != '-'
  {
    if |s| > 0 {
      CollapseRunsShape(s[1..], !IsLowerAlnum(s[0]));
    }
  }

  lemma StripDashesShape(t: string)
    requires Collapsed(t)
    ensures IsSlug(StripDashes(t))
  {
    var a := if |t| > 0 && t[0] == '-' then t[1..] else t;
    assert Collapsed(a);
    if |a| > 0 && a[|a| - 1] == '-' {
      assert |a| >= 2 ==> a[|a| - 2] != '-';
    }
  }

  lemma {:induction false} CollapseRunsOfCollapsed(t: string, inRun: bool)
    requires Collapsed(t)
    requires inRun ==> |t| == 0 || t[0] != '-'
    ensures CollapseRuns(t, inRun) == t
  {
    if |t| > 0 {
      assert Collapsed(t[1..]);
      CollapseRunsOfCollapsed(t[1..], !IsLowerAlnum(t[0]));
    }
  }

  /** Slugifying a slug changes nothing. */
  lemma SlugifyIdempotent(s: string)
    ensures Slugify(Slugify(s)) == Slugify(s)
  {
    var t := Slugify(s);
    assert ToLower(t) == t;
    CollapseRunsOfCollapsed(t, false);
  }

  /** The letters and digits of a string, in order. */
  function Alnums(s: string): (r: string)
    ensures forall i :: 0 <= i < |r| ==> IsLowerAlnum(r[i])
  {
    if |s| == 0 then [] else (if IsLowerAlnum(s[0]) then [s[0]] else []) + Alnums(s[1..])
  }

  lemma {:induction false} AlnumsConcat(a: string, b: string)
    ensures Alnums(a + b) == Alnums(a) + Alnums(b)
  {
    if |a| > 0 {
      assert (a + b)[1..] == a[1..] + b;
      AlnumsConcat(a[1..], b);
    } else {
      assert a + b == b;
    }
  }

  lemma {:induction false} CollapseRunsKeepsAlnums(s: string, inRun: bool)
    ensures Alnums(CollapseRuns(s, inRun)) == Alnums(s)
  {
    if |s| > 0 {
      CollapseRunsKeepsAlnums(s[1..], !IsLowerAlnum(s[0]));
      if IsLowerAlnum(s[0]) {
        AlnumsConcat([s[0]], CollapseRuns(s[1..], false));
      } else if !inRun {
        AlnumsConcat(['-'], CollapseRuns(s[1..], true));
      }
    }
  }

  lemma StripDashesKeepsAlnums(t: string)
    ensures Alnums(StripDashes(t)) == Alnums(t)
  {
    var a := if |t| > 0 && t[0] == '-' then t[1..] else t;
    if |t| > 0 && t[0] == '-' {
      AlnumsConcat([t[0]], t[1..]);
      assert [t[0]] + t[1..] == t;
    }
    if |a| > 0 && a[|a| - 1] == '-' {
      AlnumsConcat(a[..|a| - 1], [a[|a| - 1]]);
      assert a[..|a| - 1] + [a[|a| - 1]] == a;
    }
  }

  /** The slug keeps every letter and digit of the lower-cased input, in order. */
  lemma SlugifyKeepsAlnums(s: string)
    ensures Alnums(Slugify(s)) == Alnums(ToLower(s))
  {
    CollapseRunsKeepsAlnums(ToLower(s), false);
    StripDashesKeepsAlnums(CollapseRuns(ToLower(s), false));
  }

  // ---------------------------------------------------------------------------
  // createSkill

  datatype CatalogSkill = CatalogSkill(name: string, slug: string, category: string,
                                       description: string, tags: seq<string>)

  datatype CreateRequest = CreateRequest(name: string, category: string, description: string,
                                         tags: Option<seq<string>>)

  datatype CreateOutcome = NameRequired | AlreadyExists | SaveFailed | SkillCreated(skill: CatalogSkill)

  /**
   * `createSkill`: 400 without a name, 409 when an existing skill has the name
   * as sent or the same slug. Otherwise `Skill.create` applies the schema: the
   * name is stored trimmed, an empty slug fails `required`, and a trimmed name
   * already in the catalogue breaks the unique index on `name`; both failures
   * reach `next` (500). The new entry takes category `'general'`, description
   * `''` and tags `[]` by default. Empty strings are the falsy values of the
   * request body.
   */
  function CreateSkill(catalog: seq<CatalogSkill>, req: CreateRequest): (r: CreateOutcome)
    ensures req.name == [] <==> r == NameRequired
    ensures r == AlreadyExists <==>
      req.name != [] &&
      (exists k :: 0 <= k < |catalog| && (catalog[k].name == req.name || catalog[k].slug == Slugify(req.name)))
    ensures r == SaveFailed <==>
      req.name != [] &&
      (forall k :: 0 <= k < |catalog| ==> catalog[k].name != req.name && catalog[k].slug != Slugify(req.name)) &&
      (Slugify(req.name) == [] || exists k :: 0 <= k < |catalog| && catalog[k].name == Trim(req.name))
    ensures r.SkillCreated? ==>
      && r.skill.name == Trim(req.name) && r.skill.name != []
      && r.skill.slug == Slugify(req.name) && r.skill.slug != [] && IsSlug(r.skill.slug)
    ensures r.SkillCreated? ==> forall k :: 0 <= k < |catalog| ==>
      catalog[k].name != r.skill.name && catalog[k].slug != r.skill.slug
    ensures r.SkillCreated? ==> r.skill.category == (if req.category == [] then "general" else req.category)
  {
    if req.name == [] then NameRequired
    else
      var slug := Slugify(req.name);
      SlugImpliesName(req.name);
      if exists k :: 0 <= k < |catalog| && (catalog[k].name == req.name || catalog[k].slug == slug)
      then AlreadyExists
      else if slug == [] || exists k :: 0 <= k < |catalog| && catalog[k].name == Trim(req.name)
      then SaveFailed
      else
        SkillCreated(CatalogSkill(Trim(req.name), slug, if req.category == [] then "general" else req.category,
                             req.description, if req.tags.Some? then req.tags.value else []))
  }

  lemma {:induction false} AlnumsHasAlnum(t: string)
    requires Alnums(t) != []
    ensures exists i :: 0 <= i < |t| && IsLowerAlnum(t[i])
  {
    if !IsLowerAlnum(t[0]) {
      AlnumsHasAlnum(t[1..]);
      var i :| 0 <= i < |t[1..]| && IsLowerAlnum(t[1..][i]);
      assert IsLowerAlnum(t[i + 1]);
    }
  }

  /** A non-empty slug comes from a name with a letter or digit in it. */
  lemma SlugHasAlnum(s: string)
    requires Slugify(s) != []
    ensures exists i :: 0 <= i < |s| && IsLowerAlnum(LowerChar(s[i]))
  {
    var t := Slugify(s);
    SlugifyKeepsAlnums(s);
    assert IsLowerAlnum(t[0]);
    assert Alnums(t) != [];
    AlnumsHasAlnum(ToLower(s));
  }

  /** A name with a non-empty slug is not blank, so the trimmed name passes `required`. */
  lemma SlugImpliesName(s: string)
    ensures Slugify(s) != [] ==> Trim(s) != []
  {
    if Slugify(s) != [] {
      SlugHasAlnum(s);
      var i :| 0 <= i < |s| && IsLowerAlnum(LowerChar(s[i]));
      NonSpaceSurvivesTrim(s, i);
    }
  }

  /**
   * A name with no ASCII letter or digit (`"!!!"`, `"   "`, `"++"`) is never
   * added to the catalogue: it is either a duplicate or fails to save.
   */
  lemma NoAlnumNeverCreated(catalog: seq<CatalogSkill>, req: CreateRequest)
    requires forall i :: 0 <= i < |req.name| ==> !IsLowerAlnum(LowerChar(req.name[i]))
    ensures !CreateSkill(catalog, req).SkillCreated?
    ensures req.name != [] ==> CreateSkill(catalog, req) == AlreadyExists || CreateSkill(catalog, req) == SaveFailed
  {
    if Slugify(req.name) != [] {
      SlugHasAlnum(req.name);
    }
  }

  // ---------------------------------------------------------------------------
  // listSkills

  /**
   * `(Math.max(1, parseInt(page, 10)) - 1) * parseInt(limit, 10)`, where an absent
   * query parameter takes its default (page 1, limit 20) and `None` is `NaN`.
   */
  function ListSkip(page: Option<string>, limit: Option<string>): Option<int>
  {
    var p := if page.None? then Some(1) else ParseInt10(page.value);
    var l := if limit.None? then Some(20) else ParseInt10(limit.value);
    if p.None? || l.None? then None else Some((Max(1, p.value) - 1) * l.value)
  }

  /** Page `p` skips the `p - 1` pages of `l` before it; pages 0 and 1 (and below) skip nothing. */
  lemma ListSkipPages(page: string, limit: string, p: int, l: int)
    requires ParseInt10(page) == Some(p) && ParseInt10(limit) == Some(l)
    ensures ListSkip(Some(page), Some(limit)) == Some((Max(1, p) - 1) * l)
  {
  }

  /** Consecutive pages are adjacent: page `p + 1` starts `l` records after page `p`. */
  lemma ConsecutivePagesAdjacent(page: string, next: string, limit: string, p: int, l: int)
    requires p >= 1
    requires ParseInt10(page) == Some(p) && ParseInt10(next) == Some(p + 1) && ParseInt10(limit) == Some(l)
    ensures ListSkip(Some(page), Some(limit)).Some?
    ensures ListSkip(Some(next), Some(limit)) == Some(ListSkip(Some(page), Some(limit)).value + l)
  {
    ListSkipPages(page, limit, p, l);
    ListSkipPages(next, limit, p + 1, l);
    assert (p + 1 - 1) * l == (p - 1) * l + l;
  }

  /** Without a page the first page is listed. */
  lemma ListSkipDefaults(limit: Option<string>)
    requires limit.Some? ==> ParseInt10(limit.value).Some?
    ensures ListSkip(None, limit) == Some(0)
  {
  }
}

=== FILE: skill_features.dfy ===
/**
 * The seven features that score a candidate skill for a user, each meant to
 * lie in [0, 1]. Names and tags are compared after ASCII lower-casing. The
 * clock (`now`, in milliseconds) and the logarithmic popularity ratio
 * (`logRatio`, standing for `log10(p + 1) / log10(1001)`) are parameters.
 */
module SkillFeatures {
  import opened Common

  /** An entry of a user's `teaches` or `learns`; missing tags are the empty list. */
  datatype UserSkill = UserSkill(name: string, level: string, tags: seq<string>, category: Option<string>)

  datatype User = User(teaches: seq<UserSkill>, learns: seq<UserSkill>, lastSeen: Option<int>)

  /** A candidate skill; a missing popularity is 0, as `skill.popularity || 0` reads it. */
  datatype Skill = Skill(id: string, name: string, tags: seq<string>, category: Option<string>, popularity: real)

  // ---------------------------------------------------------------------------
  // Jaccard similarity

  lemma IntersectionWithinUnion(a: set<string>, b: set<string>)
    ensures |a * b| <= |a + b|
    ensures |a| > 0 || |b| > 0 ==> |a + b| > 0
  {
    SubsetCard(a * b, a + b);
    SubsetCard(a, a + b);
    SubsetCard(b, a + b);
  }

  /**
   * `jaccardSimilarity` on sets; an array argument is lower-cased first,
   * which callers write as `LowerSet`.
   */
  function Jaccard(a: set<string>, b: set<string>): (r: real)
    ensures 0.0 <= r <= 1.0
  {
    if |a| == 0 && |b| == 0 then 0.0
    else
      IntersectionWithinUnion(a, b);
      (|a * b| as real) / (|a + b| as real)
  }

  /** The similarity does not depend on the order of its arguments. */
  lemma JaccardSymmetric(a: set<string>, b: set<string>)
    ensures Jaccard(a, b) == Jaccard(b, a)
  {
    assert a * b == b * a;
    assert a + b == b + a;
  }

  /** The similarity is 1 exactly for two equal non-empty sets. */
  lemma JaccardOne(a: set<string>, b: set<string>)
    ensures Jaccard(a, b) == 1.0 <==> a == b && |a| > 0
  {
    if |a| > 0 || |b| > 0 {
      IntersectionWithinUnion(a, b);
      if a != b {
        var x :| (x in a && x !in b) || (x in b && x !in a);
        assert x in a + b && x !in a * b;
        SubsetCard(a * b, a + b);
      } else {
        assert a * b == a + b;
      }
    }
  }

  /** The similarity is 0 exactly when the sets share nothing. */
  lemma JaccardZero(a: set<string>, b: set<string>)
    ensures Jaccard(a, b) == 0.0 <==> a * b == {}
  {
    if |a| > 0 || |b| > 0 {
      IntersectionWithinUnion(a, b);
      if a * b != {} {
        var x :| x in a * b;
        assert |a * b| > 0;
      }
    }
  }

  // ---------------------------------------------------------------------------
  // The user's tags and categories

  /** What one skill adds to the tag set: its lower-cased name when it has one, and its lower-cased tags. */
  function SkillTags(s: UserSkill): set<string>
  {
    (if s.name != "" then {ToLower(s.name)} else {}) + LowerSet(s.tags)
  }

  function TagsOf(skills: seq<UserSkill>): set<string>
  {
    if skills == [] then {} else TagsOf(skills[..|skills| - 1]) + SkillTags(skills[|skills| - 1])
  }

  function UserTags(user: User): set<string>
  {
    TagsOf(user.teaches + user.learns)
  }

  /** `extractUserTags`: one `tags.add` per name and per tag, over `[...teaches, ...learns]`. */
  method ExtractUserTags(user: User) returns (tags: set<string>)
    ensures tags == UserTags(user)
  {
    var all := user.teaches + user.learns;
    tags := {};
    var i := 0;
    while i < |all|
      invariant 0 <= i <= |all|
      invariant tags == TagsOf(all[..i])
    {
      assert all[..i + 1][..i] == all[..i];
      tags := AddSkillTags(tags, all[i]);
      i := i + 1;
    }
    assert all[..i] == all;
  }

  /** The body of the `forEach` for one skill. */
  method AddSkillTags(tags0: set<string>, s: UserSkill) returns (tags: set<string>)
    ensures tags == tags0 + SkillTags(s)
  {
    tags := tags0;
    if s.name != "" {
      tags := tags + {ToLower(s.name)};
    }
    var j := 0;
    while j < |s.tags|
      invariant 0 <= j <= |s.tags|
      invariant tags == tags0 + (if s.name != "" then {ToLower(s.name)} else {}) + LowerSet(s.tags[..j])
    {
      LowerSetStep(s.tags, j);
      tags := tags + {ToLower(s.tags[j])};
      j := j + 1;
    }
    assert s.tags[..j] == s.tags;
  }

  lemma LowerSetStep(names: seq<string>, j: int)
    requires 0 <= j < |names|
    ensures LowerSet(names[..j + 1]) == LowerSet(names[..j]) + {ToLower(names[j])}
  {
    assert names[..j + 1] == names[..j] + [names[j]];
  }

  /** The lower-cased non-empty names of the skills. */
  function NameTags(skills: seq<UserSkill>): set<string>
  {
    set s | s in skills && s.name != "" :: ToLower(s.name)
  }

  /** The lower-cased tags of the skills. */
  function TagTags(skills: seq<UserSkill>): set<string>
  {
    set s, t | s in skills && t in s.tags :: ToLower(t)
  }

  /** The user's tags are the lower-cased names and tags of everything they teach or learn. */
  lemma {:induction false} TagsOfUnion(skills: seq<UserSkill>)
    ensures TagsOf(skills) == NameTags(skills) + TagTags(skills)
  {
    if skills != [] {
      var init, s := skills[..|skills| - 1], skills[|skills| - 1];
      assert skills == init + [s];
      TagsOfUnion(init);
      NameTagsAppend(init, s);
      TagTagsAppend(init, s);
    }
  }

  lemma NameTagsAppend(init: seq<UserSkill>, s: UserSkill)
    ensures NameTags(init + [s]) == NameTags(init) + (if s.name != "" then {ToLower(s.name)} else {})
  {
    assert forall x :: x in init + [s] <==> x in init || x == s;
  }

  lemma TagTagsAppend(init: seq<UserSkill>, s: UserSkill)
    ensures TagTags(init + [s]) == TagTags(init) + LowerSet(s.tags)
  {
    assert forall x :: x in init + [s] <==> x in init || x == s;
  }

  lemma UserTagsUnion(user: User)
    ensures UserTags(user) == NameTags(user.teaches + user.learns) + TagTags(user.teaches + user.learns)
  {
    TagsOfUnion(user.teaches + user.learns);
  }

  /** `extractUserCategories`: the non-empty categories of everything the user teaches or learns. */
  function UserCategories(user: User): set<string>
  {
    set s | s in user.teaches + user.learns && s.category.Some? && s.category.value != "" :: s.category.value
  }

  // ---------------------------------------------------------------------------
  // Learning gap

  /** Some entry's lower-cased name contains `lower`. */
  predicate AnyNameIncludes(skills: seq<UserSkill>, lower: string)
  {
    exists s :: s in skills && Includes(ToLower(s.name), lower)
  }

  function Names(skills: seq<UserSkill>): seq<string>
  {
    seq(|skills|, i requires 0 <= i < |skills| => skills[i].name)
  }

  /**
   * `calculateLearningGap`: 1 when the user wants to learn the skill and does
   * not teach it, 0.5 when both, else the similarity of the names they want
   * to learn with the skill's tags.
   */
  function LearningGap(user: User, skill: Skill): (r: real)
    ensures 0.0 <= r <= 1.0
  {
    var lower := ToLower(skill.name);
    var wants := AnyNameIncludes(user.learns, lower);
    var teaches := AnyNameIncludes(user.teaches, lower);
    if wants && !teaches then 1.0
    else if wants && teaches then 0.5
    else Jaccard(LowerSet(Names(user.learns)), LowerSet(skill.tags))
  }

  /**
   * Adding to what the user wants to learn an entry whose name contains the
   * skill's name lifts the gap to at least 0.5, and to exactly 1 iff the user
   * teaches nothing whose name contains it; the tag similarity no longer
   * matters.
   */
  lemma WantingTheSkill(user: User, skill: Skill, s: UserSkill)
    requires Includes(ToLower(s.name), ToLower(skill.name))
    ensures var after := LearningGap(user.(learns := user.learns + [s]), skill);
      && after >= 0.5
      && (after == 1.0 <==> !AnyNameIncludes(user.teaches, ToLower(skill.name)))
  {
    assert s in user.learns + [s];
  }

  /** A user who lists the skill itself among what they want to learn gets a gap of at least 0.5. */
  lemma LearnerOfTheSkill(user: User, skill: Skill, s: UserSkill)
    requires s in user.learns && ToLower(s.name) == ToLower(skill.name)
    ensures LearningGap(user, skill) >= 0.5
  {
    IncludesSelf(ToLower(skill.name));
  }

  // ---------------------------------------------------------------------------
  // Complementarity

  /** The hard-coded skill pairings of `calculateComplementarity`. */
  const Pairs: map<string, seq<string>> := map[
    "javascript" := ["typescript", "react", "node", "nodejs"],
    "python" := ["django", "flask", "machine learning", "data science"],
    "react" := ["redux", "nextjs", "typescript"],
    "html" := ["css", "javascript"],
    "css" := ["html", "sass", "tailwind"],
    "java" := ["spring", "kotlin", "android"],
    "sql" := ["database", "postgresql", "mysql"]]

  /** A taught skill (lower-cased) whose pairing list has a substring relation with the skill name. */
  predicate Complements(teachLower: string, skillLower: string)
  {
    teachLower in Pairs && exists c :: c in Pairs[teachLower] && (Includes(skillLower, c) || Includes(c, skillLower))
  }

  predicate AnyComplements(teaches: seq<UserSkill>, skillLower: string)
  {
    exists t :: t in teaches && Complements(ToLower(t.name), skillLower)
  }

  /** `calculateComplementarity`, with the pairings looked up as the object's own keys. */
  method CalculateComplementarity(user: User, skill: Skill) returns (r: real)
    ensures r == 0.0 || r == 0.8
    ensures r == 0.8 <==> AnyComplements(user.teaches, ToLower(skill.name))
  {
    var skillLower := ToLower(skill.name);
    r := 0.0;
    var i := 0;
    while i < |user.teaches|
      invariant 0 <= i <= |user.teaches|
      invariant r == 0.0 || r == 0.8
      invariant r == 0.8 <==> AnyComplements(user.teaches[..i], skillLower)
    {
      var t := user.teaches[i];
      assert user.teaches[..i + 1] == user.teaches[..i] + [t];
      var teachLower := ToLower(t.name);
      if teachLower in Pairs {
        var isComplementary := exists c :: c in Pairs[teachLower] && (Includes(skillLower, c) || Includes(c, skillLower));
        if isComplementary {
          r := MaxReal(r, 0.8);
        }
      }
      i := i + 1;
    }
    assert user.teaches[..i] == user.teaches;
  }

  function Complementarity(user: User, skill: Skill): (r: real)
    ensures r == 0.0 || r == 0.8
  {
    if AnyComplements(user.teaches, ToLower(skill.name)) then 0.8 else 0.0
  }

  /**
   * The lower-cased keys a plain JavaScript object inherits from
   * `Object.prototype`: looking one up in the pairing table yields a
   * truthy non-array, and calling `.some` on it throws a `TypeError`.
   */
  const InheritedKeys: set<string> := {"constructor", "__proto__"}

  /**
   * The loop as written: the table lookup also finds inherited keys, so a
   * taught skill named "constructor" or "__proto__" (in any case) makes it
   * throw, shown as `None`.
   */
  function ComplementarityAsWritten(teaches: seq<UserSkill>, skillLower: string): (r: Option<real>)
    ensures r.Some? ==> r.value == 0.0 || r.value == 0.8
    ensures r.Some? ==> forall t :: t in teaches ==> ToLower(t.name) !in InheritedKeys
  {
    if teaches == [] then Some(0.0)
    else
      var rest := ComplementarityAsWritten(teaches[..|teaches| - 1], skillLower);
      var teachLower := ToLower(teaches[|teaches| - 1].name);
      if rest.None? || teachLower in InheritedKeys then None
      else if Complements(teachLower, skillLower) then Some(0.8)
      else rest
  }

  /** A user who teaches "Constructor" makes the feature builder throw, whatever the skill. */
  lemma ConstructorTeacherThrows(skill: Skill)
    ensures ComplementarityAsWritten([UserSkill("Constructor", "beginner", [], None)], ToLower(skill.name)).None?
  {
    assert ToLower("Constructor") == "constructor";
  }

  /** Away from the inherited keys the loop as written computes the corrected feature. */
  lemma {:induction false} AsWrittenAgreesElsewhere(teaches: seq<UserSkill>, skillLower: string)
    requires forall t :: t in teaches ==> ToLower(t.name) !in InheritedKeys
    ensures ComplementarityAsWritten(teaches, skillLower)
      == Some(if AnyComplements(teaches, skillLower) then 0.8 else 0.0)
  {
    if teaches != [] {
      var init, last := teaches[..|teaches| - 1], teaches[|teaches| - 1];
      assert teaches == init + [last];
      assert last in teaches;
      forall t | t in init ensures ToLower(t.name) !in InheritedKeys {
        assert t in teaches;
      }
      AsWrittenAgreesElsewhere(init, skillLower);
      AnyComplementsSnoc(init, last, skillLower);
    }
  }

  lemma AnyComplementsSnoc(init: seq<UserSkill>, last: UserSkill, skillLower: string)
    ensures AnyComplements(init + [last], skillLower)
      <==> AnyComplements(init, skillLower) || Complements(ToLower(last.name), skillLower)
  {
    var all := init + [last];
    if AnyComplements(all, skillLower) && !Complements(ToLower(last.name), skillLower) {
      var t :| t in all && Complements(ToLower(t.name), skillLower);
      assert t in init;
    }
    if AnyComplements(init, skillLower) {
      var t :| t in init && Complements(ToLower(t.name), skillLower);
      assert t in all;
    }
    assert last in all;
  }

  // ---------------------------------------------------------------------------
  // Skill level gap

  /** `teaches.find(s => s.name.toLowerCase().includes(lower))`. */
  function FirstContaining(teaches: seq<UserSkill>, lower: string): (r: Option<UserSkill>)
    ensures r.Some? ==> r.value in teaches && Includes(ToLower(r.value.name), lower)
    ensures r.None? ==> !AnyNameIncludes(teaches, lower)
  {
    if teaches == [] then None
    else if Includes(ToLower(teaches[0].name), lower) then Some(teaches[0])
    else
      assert teaches == [teaches[0]] + teaches[1..];
      FirstContaining(teaches[1..], lower)
  }

  const LevelScores: map<string, real> := map["beginner" := 0.8, "intermediate" := 0.6, "advanced" := 0.3, "expert" := 0.1]

  /** `calculateSkillLevelGap`: 1 for a skill the user does not teach or at an unknown level, else by level. */
  function SkillLevelGap(user: User, skill: Skill): (r: real)
    ensures 0.1 <= r <= 1.0
    ensures r == 1.0 <==> FirstContaining(user.teaches, ToLower(skill.name)).None?
                          || FirstContaining(user.teaches, ToLower(skill.name)).value.level !in LevelScores
  {
    var m := FirstContaining(user.teaches, ToLower(skill.name));
    if m.None? then 1.0
    else if m.value.level in LevelScores then LevelScores[m.value.level]
    else 1.0
  }

  /** The gap is smallest, 0.1, exactly when the first taught match is at expert level. */
  lemma ExpertGapIsLowest(user: User, skill: Skill)
    ensures SkillLevelGap(user, skill) == 0.1 <==>
      var m := FirstContaining(user.teaches, ToLower(skill.name));
      m.Some? && m.value.level == "expert"
  {
  }

  // ---------------------------------------------------------------------------
  // Popularity and recency

  /** `normalizePopularity`: 0 for a non-positive count, else the clamped logarithmic ratio. */
  function NormalizePopularity(popularity: real, logRatio: real -> real): (r: real)
    ensures 0.0 <= r <= 1.0
    ensures popularity <= 0.0 ==> r == 0.0
  {
    if popularity <= 0.0 then 0.0 else MinReal(1.0, MaxReal(0.0, logRatio(popularity)))
  }

  const DayMs: real := 86400000.0

  /** `calculateRecency`: 1 for a user seen now, falling linearly to 0 after 30 days. */
  function Recency(user: User, now: int): (r: real)
    ensures r >= 0.0
    ensures user.lastSeen.None? ==> r == 0.0
    ensures user.lastSeen.Some? && user.lastSeen.value <= now ==> r <= 1.0
  {
    if user.lastSeen.None? then 0.0
    else MaxReal(0.0, 1.0 - ((now - user.lastSeen.value) as real / DayMs) / 30.0)
  }

  // ---------------------------------------------------------------------------
  // The builder

  /** The explanation parts, in the order the builder adds them; their rendered text is not modelled. */
  datatype Reason =
    | StrongTagOverlap | MatchesCategory | HighlyPopular | AlignsWithGoals
    | RecentlyActiveInRelated | ComplementsExisting

  /** `parts.join('; ')`, or `'Recommended based on general popularity'` when there is none. */
  datatype Explanation = Because(parts: seq<Reason>) | GeneralPopularity

  datatype Built = Built(features: seq<real>, explanation: Explanation)

  function CategoryMatch(user: User, skill: Skill): real
  {
    if skill.category.Some? && skill.category.value in UserCategories(user) then 1.0 else 0.0
  }

  /** The seven features, in the order the builder pushes them. */
  function Features(user: User, skill: Skill, now: int, logRatio: real -> real): (f: seq<real>)
    ensures |f| == 7
  {
    [Jaccard(UserTags(user), LowerSet(skill.tags)), CategoryMatch(user, skill),
     NormalizePopularity(skill.popularity, logRatio), LearningGap(user, skill), Recency(user, now),
     Complementarity(user, skill), SkillLevelGap(user, skill)]
  }

  function Part(cond: bool, r: Reason): seq<Reason>
  {
    if cond then [r] else []
  }

  function Reasons(f: seq<real>): seq<Reason>
    requires |f| == 7
  {
    Part(f[0] > 0.3, StrongTagOverlap) + Part(f[1] > 0.0, MatchesCategory)
    + Part(f[2] > 0.7, HighlyPopular) + Part(f[3] > 0.5, AlignsWithGoals)
    + Part(f[4] > 0.6, RecentlyActiveInRelated) + Part(f[5] > 0.5, ComplementsExisting)
  }

  /** `buildSkillFeatures({ user, skill, history })`. */
  function BuildSkillFeatures(user: User, skill: Skill, now: int, logRatio: real -> real): (b: Built)
    ensures |b.features| == 7
    ensures b.explanation == GeneralPopularity <==>
      var f := b.features;
      f[0] <= 0.3 && f[1] <= 0.0 && f[2] <= 0.7 && f[3] <= 0.5 && f[4] <= 0.6 && f[5] <= 0.5
    ensures b.explanation.Because? ==> b.explanation.parts != []
  {
    var f := Features(user, skill, now, logRatio);
    var parts := Reasons(f);
    Built(f, if parts == [] then GeneralPopularity else Because(parts))
  }

  /** Some taught skill's lower-cased name is an inherited key of the pairing table. */
  predicate TeachesInheritedKey(teaches: seq<UserSkill>)
  {
    exists t :: t in teaches && ToLower(t.name) in InheritedKeys
  }

  /** The loop as written throws exactly when some taught name is an inherited key. */
  lemma {:induction false} AsWrittenThrowsIff(teaches: seq<UserSkill>, skillLower: string)
    ensures ComplementarityAsWritten(teaches, skillLower).None? <==> TeachesInheritedKey(teaches)
  {
    if teaches != [] {
      var init, last := teaches[..|teaches| - 1], teaches[|teaches| - 1];
      assert teaches == init + [last];
      assert last in teaches;
      AsWrittenThrowsIff(init, skillLower);
      if TeachesInheritedKey(init) {
        var t :| t in init && ToLower(t.name) in InheritedKeys;
        assert t in teaches;
      }
      if TeachesInheritedKey(teaches) && ToLower(last.name) !in InheritedKeys {
        var t :| t in teaches && ToLower(t.name) in InheritedKeys;
        assert t in init;
      }
    }
  }

  /**
   * `buildSkillFeatures` as written, with the complementarity loop that can
   * throw: `None` exactly when the user teaches a skill named after an
   * inherited key; otherwise the same features and explanation as the
   * corrected builder.
   */
  function BuildSkillFeaturesAsWritten(user: User, skill: Skill, now: int, logRatio: real -> real)
    : (r: Option<Built>)
    ensures r.None? <==> TeachesInheritedKey(user.teaches)
    ensures r.Some? ==> r.value == BuildSkillFeatures(user, skill, now, logRatio)
  {
    var c := ComplementarityAsWritten(user.teaches, ToLower(skill.name));
    AsWrittenThrowsIff(user.teaches, ToLower(skill.name));
    if c.None? then None
    else
      AsWrittenAgreesElsewhere(user.teaches, ToLower(skill.name));
      var full := Features(user, skill, now, logRatio);
      assert c.value == full[5];
      var f := full[5 := c.value];
      assert f == full;
      var parts := Reasons(f);
      Some(Built(f, if parts == [] then GeneralPopularity else Because(parts)))
  }

  /** Every feature lies in [0, 1] when the user was last seen no later than `now`. */
  lemma FeaturesInUnitRange(user: User, skill: Skill, now: int, logRatio: real -> real)
    requires user.lastSeen.Some? ==> user.lastSeen.value <= now
    ensures forall x :: x in Features(user, skill, now, logRatio) ==> 0.0 <= x <= 1.0
  {
    var tags, popularity := Jaccard(UserTags(user), LowerSet(skill.tags)), NormalizePopularity(skill.popularity, logRatio);
    var gap, recency := LearningGap(user, skill), Recency(user, now);
    var pairs, level := Complementarity(user, skill), SkillLevelGap(user, skill);
    var category := CategoryMatch(user, skill);
    assert Features(user, skill, now, logRatio) == [tags, category, popularity, gap, recency, pairs, level];
    SevenInUnitRange(tags, category, popularity, gap, recency, pairs, level);
  }

  lemma SevenInUnitRange(a: real, b: real, c: real, d: real, e: real, g: real, h: real)
    requires 0.0 <= a <= 1.0 && 0.0 <= b <= 1.0 && 0.0 <= c <= 1.0 && 0.0 <= d <= 1.0
    requires 0.0 <= e <= 1.0 && 0.0 <= g <= 1.0 && 0.0 <= h <= 1.0
    ensures forall x :: x in [a, b, c, d, e, g, h] ==> 0.0 <= x <= 1.0
  {
  }
}

=== FILE: skill_recommender.dfy ===
/**
 * The skill recommender: candidate skills minus those the user already
 * teaches at expert level, scored by a linear model over the seven skill
 * features, explained by the feature that contributes most, ranked and cut
 * to the requested size; a database cache in front and a popularity-based
 * fallback. Database reads are the fields of `Db`; the process cache is not
 * modelled.
 */
module SkillRecommender {
  import opened Common
  import opened Recommending
  import SkillFeatures

  /** MODEL_WEIGHTS: tags, category, popularity, learning gap, recency, complementarity, level gap. */
  const Weights: seq<real> := [0.25, 0.15, 0.10, 0.25, 0.10, 0.10, 0.05]

  /** The skill weights are non-negative and sum to 1. */
  lemma WeightsSumToOne()
    ensures Total(Weights, |Weights|) == 1.0
    ensures forall i :: 0 <= i < |Weights| ==> Weights[i] >= 0.0
  {
    assert Total(Weights, 1) == 0.25;
    assert Total(Weights, 2) == 0.40;
    assert Total(Weights, 3) == 0.50;
    assert Total(Weights, 4) == 0.75;
    assert Total(Weights, 5) == 0.85;
    assert Total(Weights, 6) == 0.95;
  }

  /** Features in the documented ranges give a raw score in [0, 1], before the clamp. */
  lemma SkillScoreInUnitRange(user: SkillFeatures.User, skill: SkillFeatures.Skill, now: int, logRatio: real -> real)
    requires user.lastSeen.Some? ==> user.lastSeen.value <= now
    ensures 0.0 <= LinearScore(SkillFeatures.BuildSkillFeatures(user, skill, now, logRatio).features, Weights) <= 1.0
  {
    SkillFeatures.FeaturesInUnitRange(user, skill, now, logRatio);
    WeightsSumToOne();
    LinearScoreInUnitRange(SkillFeatures.Features(user, skill, now, logRatio), Weights);
  }

  // ---------------------------------------------------------------------------
  // The expert filter

  /** `teaches.find(s => s.name.toLowerCase() === lower)`. */
  function FirstNamed(teaches: seq<SkillFeatures.UserSkill>, lower: string): (r: Option<SkillFeatures.UserSkill>)
    ensures r.Some? ==> r.value in teaches && ToLower(r.value.name) == lower
  {
    if teaches == [] then None
    else if ToLower(teaches[0].name) == lower then Some(teaches[0])
    else FirstNamed(teaches[1..], lower)
  }

  /** `userSkillNames`: the lower-cased names of what the user teaches. */
  function TaughtNames(user: SkillFeatures.User): set<string>
  {
    set s | s in user.teaches :: ToLower(s.name)
  }

  /** The filter predicate at lines 172-181. */
  predicate Kept(user: SkillFeatures.User, skill: SkillFeatures.Skill)
  {
    var lower := ToLower(skill.name);
    lower !in TaughtNames(user)
    || (FirstNamed(user.teaches, lower).Some? && FirstNamed(user.teaches, lower).value.level != "expert")
  }

  lemma {:induction false} FindsTaughtName(teaches: seq<SkillFeatures.UserSkill>, lower: string, s: SkillFeatures.UserSkill)
    requires s in teaches && ToLower(s.name) == lower
    ensures FirstNamed(teaches, lower).Some?
  {
    if ToLower(teaches[0].name) != lower {
      assert s in teaches[1..];
      FindsTaughtName(teaches[1..], lower, s);
    }
  }

  /**
   * A candidate is dropped exactly when the first skill the user teaches
   * under the same name (ignoring case) is at expert level.
   */
  lemma DroppedIffFirstTaughtIsExpert(user: SkillFeatures.User, skill: SkillFeatures.Skill)
    ensures !Kept(user, skill) <==>
      var m := FirstNamed(user.teaches, ToLower(skill.name));
      m.Some? && m.value.level == "expert"
  {
    var lower := ToLower(skill.name);
    if lower in TaughtNames(user) {
      var s :| s in user.teaches && ToLower(s.name) == lower;
      FindsTaughtName(user.teaches, lower, s);
    }
  }

  function Filtered(user: SkillFeatures.User, candidates: seq<SkillFeatures.Skill>): seq<SkillFeatures.Skill>
  {
    Filter(candidates, s => Kept(user, s))
  }

  // ---------------------------------------------------------------------------
  // Scoring and the reason

  /** The reason a recommendation carries. */
  datatype Why =
    | InterestsIn(tag: Option<string>)
    | PreferredCategory(category: Option<string>)
    | PopularInCommunity
    | NextStepOnPath
    | ComplementsSkills
    | Built(explanation: SkillFeatures.Explanation)
    | Stored(text: string)
    | PopularSkill

  datatype Rec = Rec(skillId: string, score: real, reason: Why, fallback: bool)

  function RecScore(r: Rec): real { r.score }

  /** `weightedFeatures.indexOf(Math.max(...weightedFeatures))`: the first position of the largest value. */
  function FirstMaxIndex(xs: seq<real>): (k: nat)
    requires |xs| > 0
    ensures k < |xs|
    ensures forall j :: 0 <= j < |xs| ==> xs[j] <= xs[k]
    ensures forall j :: 0 <= j < k ==> xs[j] < xs[k]
  {
    if |xs| == 1 then 0
    else
      var k := FirstMaxIndex(xs[..|xs| - 1]);
      if xs[|xs| - 1] > xs[k] then |xs| - 1 else k
  }

  /** `features.map((v, i) => v * MODEL_WEIGHTS[i])`. */
  function Weighted(f: seq<real>): (w: seq<real>)
    requires |f| == |Weights|
    ensures |w| == |f|
  {
    seq(|f|, i requires 0 <= i < |f| => f[i] * Weights[i])
  }

  /** `skill.tags?.[0] || 'related topics'`: the first tag when there is a non-empty one. */
  function FirstTag(skill: SkillFeatures.Skill): Option<string>
  {
    if |skill.tags| > 0 && skill.tags[0] != "" then Some(skill.tags[0]) else None
  }

  /** The reason chosen at lines 199-209 from the largest weighted feature. */
  function ChooseReason(f: seq<real>, skill: SkillFeatures.Skill, explanation: SkillFeatures.Explanation): (r: Why)
    requires |f| == |Weights|
    ensures var k := FirstMaxIndex(Weighted(f));
      && (r.Built? <==> k == 4 || k == 6)
      && (r.Built? ==> r.explanation == explanation)
  {
    var k := FirstMaxIndex(Weighted(f));
    if k == 0 then InterestsIn(FirstTag(skill))
    else if k == 1 then PreferredCategory(skill.category)
    else if k == 2 then PopularInCommunity
    else if k == 3 then NextStepOnPath
    else if k == 5 then ComplementsSkills
    else Built(explanation)
  }

  /** The reason names the feature with the largest weighted contribution, the first one on ties. */
  lemma ReasonFollowsLargestContribution(f: seq<real>, skill: SkillFeatures.Skill, explanation: SkillFeatures.Explanation)
    requires |f| == |Weights|
    ensures var w := Weighted(f);
      && (ChooseReason(f, skill, explanation) == NextStepOnPath ==>
            (forall j :: 0 <= j < 7 ==> w[j] <= w[3]) && (forall j :: 0 <= j < 3 ==> w[j] < w[3]))
      && (ChooseReason(f, skill, explanation).InterestsIn? ==> forall j :: 0 <= j < 7 ==> w[j] <= w[0])
  {
  }

  /**
   * One pass of the loop body inside its `try`: `None` when
   * `buildSkillFeatures` throws and the `catch` skips the candidate.
   */
  function ScoreSkill(user: SkillFeatures.User, skill: SkillFeatures.Skill, now: int, logRatio: real -> real)
    : (r: Option<Rec>)
    ensures r.None? <==> SkillFeatures.TeachesInheritedKey(user.teaches)
    ensures r.Some? ==> r.value.skillId == skill.id && 0.0 <= r.value.score <= 1.0 && !r.value.fallback
  {
    var built := SkillFeatures.BuildSkillFeaturesAsWritten(user, skill, now, logRatio);
    if built.None? then None
    else
      var b := built.value;
      Some(Rec(skill.id, Clamp01(LinearScore(b.features, Weights)), ChooseReason(b.features, skill, b.explanation), false))
  }

  /** The pushed recommendation, if any. */
  function Pushed(rec: Option<Rec>): seq<Rec>
  {
    if rec.Some? then [rec.value] else []
  }

  function Scored(user: SkillFeatures.User, skills: seq<SkillFeatures.Skill>, now: int, logRatio: real -> real): seq<Rec>
  {
    if skills == [] then []
    else Scored(user, skills[..|skills| - 1], now, logRatio) + Pushed(ScoreSkill(user, skills[|skills| - 1], now, logRatio))
  }

  /** What `computeRecommendations(user, limit)` returns for the candidates the database yields. */
  function Computed(user: SkillFeatures.User, candidates: seq<SkillFeatures.Skill>, limit: int, now: int, logRatio: real -> real): seq<Rec>
  {
    if candidates == [] then []
    else SliceTo(SortDesc(Scored(user, Filtered(user, candidates), now, logRatio), RecScore), limit)
  }

  /** `computeRecommendations`: filter, score each remaining candidate, sort, keep the first `limit`. */
  method ComputeRecommendations(user: SkillFeatures.User, candidates: seq<SkillFeatures.Skill>, limit: int, now: int,
                                logRatio: real -> real)
    returns (recs: seq<Rec>)
    ensures recs == Computed(user, candidates, limit, now, logRatio)
  {
    if candidates == [] {
      return [];
    }
    var kept := Filtered(user, candidates);
    var scored := ScoreAll(user, kept, now, logRatio);
    recs := SliceTo(SortDesc(scored, RecScore), limit);
  }

  /**
   * The scoring loop: one recommendation per kept candidate whose features
   * could be built, in their order.
   */
  method ScoreAll(user: SkillFeatures.User, kept: seq<SkillFeatures.Skill>, now: int, logRatio: real -> real)
    returns (scored: seq<Rec>)
    ensures scored == Scored(user, kept, now, logRatio)
  {
    scored := [];
    var i := 0;
    while i < |kept|
      invariant 0 <= i <= |kept|
      invariant scored == Scored(user, kept[..i], now, logRatio)
    {
      var rec := ScoreOne(user, kept[i], now, logRatio);
      ScoredPrefixStep(user, kept, i, now, logRatio);
      if rec.Some? {
        scored := scored + [rec.value];
      } else {
        assert scored + Pushed(rec) == scored;
      }
      i := i + 1;
    }
    assert kept[..i] == kept;
  }

  lemma ScoredPrefixStep(user: SkillFeatures.User, skills: seq<SkillFeatures.Skill>, i: nat, now: int, logRatio: real -> real)
    requires i < |skills|
    ensures Scored(user, skills[..i + 1], now, logRatio)
      == Scored(user, skills[..i], now, logRatio) + Pushed(ScoreSkill(user, skills[i], now, logRatio))
  {
    assert skills[..i + 1][..i] == skills[..i];
  }

  /** The body of the scoring loop for one candidate; `None` is the `catch`. */
  method ScoreOne(user: SkillFeatures.User, skill: SkillFeatures.Skill, now: int, logRatio: real -> real)
    returns (rec: Option<Rec>)
    ensures rec == ScoreSkill(user, skill, now, logRatio)
  {
    var built := SkillFeatures.BuildSkillFeaturesAsWritten(user, skill, now, logRatio);
    if built.None? {
      return None;
    }
    var b := built.value;
    var score := ComputeLinearScore(b.features, Weights);
    rec := Some(Rec(skill.id, Clamp01(score), ChooseReason(b.features, skill, b.explanation), false));
  }

  /**
   * A user who teaches a skill named "constructor" or "__proto__" (in any
   * case) makes every candidate throw inside the `try`: nothing is scored.
   */
  lemma {:induction false} InheritedTeacherScoresNothing(user: SkillFeatures.User, skills: seq<SkillFeatures.Skill>,
                                                         now: int, logRatio: real -> real)
    requires SkillFeatures.TeachesInheritedKey(user.teaches)
    ensures Scored(user, skills, now, logRatio) == []
  {
    if skills != [] {
      InheritedTeacherScoresNothing(user, skills[..|skills| - 1], now, logRatio);
    }
  }

  /** Every other user gets exactly one recommendation per kept candidate, for that candidate. */
  lemma {:induction false} OrdinaryTeacherScoresAll(user: SkillFeatures.User, skills: seq<SkillFeatures.Skill>,
                                                    now: int, logRatio: real -> real)
    requires !SkillFeatures.TeachesInheritedKey(user.teaches)
    ensures |Scored(user, skills, now, logRatio)| == |skills|
    ensures forall i :: 0 <= i < |skills| ==> Scored(user, skills, now, logRatio)[i].skillId == skills[i].id
  {
    if skills != [] {
      var init, last := skills[..|skills| - 1], skills[|skills| - 1];
      OrdinaryTeacherScoresAll(user, init, now, logRatio);
      var rec := ScoreSkill(user, last, now, logRatio);
      assert Scored(user, skills, now, logRatio) == Scored(user, init, now, logRatio) + [rec.value];
      forall i | 0 <= i < |skills| - 1
        ensures Scored(user, skills, now, logRatio)[i].skillId == skills[i].id
      {
        assert skills[i] == init[i];
      }
    }
  }

  /** Such a user's computed list is empty, whatever the candidates and the limit. */
  lemma InheritedTeacherGetsNothing(user: SkillFeatures.User, candidates: seq<SkillFeatures.Skill>, limit: int,
                                    now: int, logRatio: real -> real)
    requires SkillFeatures.TeachesInheritedKey(user.teaches)
    ensures Computed(user, candidates, limit, now, logRatio) == []
  {
    if candidates != [] {
      InheritedTeacherScoresNothing(user, Filtered(user, candidates), now, logRatio);
    }
  }

  /** The ids of the candidates that pass the filter. */
  function KeptIds(user: SkillFeatures.User, candidates: seq<SkillFeatures.Skill>): set<string>
  {
    set s | s in candidates && Kept(user, s) :: s.id
  }

  lemma {:induction false} ScoredFromKept(user: SkillFeatures.User, candidates: seq<SkillFeatures.Skill>,
                                          skills: seq<SkillFeatures.Skill>, now: int, logRatio: real -> real)
    requires forall s :: s in skills ==> s in candidates && Kept(user, s)
    ensures forall r :: r in Scored(user, skills, now, logRatio) ==>
      r.skillId in KeptIds(user, candidates) && 0.0 <= r.score <= 1.0
  {
    if skills != [] {
      ScoredFromKept(user, candidates, skills[..|skills| - 1], now, logRatio);
      assert skills[|skills| - 1] in skills;
    }
  }

  /**
   * The computed list holds at most `limit` recommendations, sorted by
   * score, each scored in [0, 1] and for a candidate the filter kept.
   */
  lemma ComputedProperties(user: SkillFeatures.User, candidates: seq<SkillFeatures.Skill>, limit: int, now: int,
                           logRatio: real -> real)
    requires limit >= 0
    ensures var recs := Computed(user, candidates, limit, now, logRatio);
      |recs| <= limit && SortedDesc(recs, RecScore)
      && forall r :: r in recs ==> r.skillId in KeptIds(user, candidates) && 0.0 <= r.score <= 1.0
  {
    if candidates != [] {
      var scored := Scored(user, Filtered(user, candidates), now, logRatio);
      var sorted := SortDesc(scored, RecScore);
      var recs := SliceTo(sorted, limit);
      ScoredFromKept(user, candidates, Filtered(user, candidates), now, logRatio);
      SortedPrefix(sorted, |recs|, RecScore);
      forall r | r in recs ensures r.skillId in KeptIds(user, candidates) && 0.0 <= r.score <= 1.0 {
        assert r in multiset(scored);
      }
    }
  }

  // ---------------------------------------------------------------------------
  // The fallback and recommendSkillsForUser

  /** `normalizePopularityForFallback`: 0.1 for a non-positive count, else the logarithmic ratio capped at 1. */
  function PopularityForFallback(popularity: real, logRatio: real -> real): (r: real)
    ensures popularity <= 0.0 ==> r == 0.1
    ensures popularity > 0.0 ==> r <= 1.0 && (logRatio(popularity) >= 0.0 ==> r >= 0.0)
  {
    if popularity <= 0.0 then 0.1 else MinReal(1.0, logRatio(popularity))
  }

  datatype Outcome = Outcome(userId: string, items: seq<Rec>)

  /** What the database holds for one request. */
  datatype Db = Db(
    /** `User.findById`: the users that exist. */
    users: map<string, SkillFeatures.User>,
    /** `Skill.find({})` in the database's order. */
    skills: seq<SkillFeatures.Skill>,
    /** The fresh cached recommendations for this user. */
    cache: seq<Rec>,
    /** All skills, most popular first. */
    popular: seq<SkillFeatures.Skill>)

  function PopularItem(s: SkillFeatures.Skill, logRatio: real -> real): Rec
  {
    Rec(s.id, PopularityForFallback(s.popularity, logRatio), PopularSkill, true)
  }

  /** `fallbackRecommendations(userId, limit)`. */
  function Fallback(userId: string, limit: int, db: Db, logRatio: real -> real): Outcome
  {
    var top := SliceTo(db.popular, limit);
    Outcome(userId, seq(|top|, i requires 0 <= i < |top| => PopularItem(top[i], logRatio)))
  }

  /** Records re-stamped with `fallback: false`. */
  function Restamp(recs: seq<Rec>): seq<Rec>
  {
    seq(|recs|, i requires 0 <= i < |recs| => recs[i].(fallback := false))
  }

  /** The database cache answers when it is not skipped and holds at least `requestLimit` entries. */
  predicate CacheHit(skipCache: bool, db: Db, requestLimit: int)
  {
    !skipCache && |db.cache| >= requestLimit
  }

  /** `recommendSkillsForUser({ userId, limit, skipCache })` with ML switched on or off by `mlEnabled`. */
  function Recommend(userId: string, limit: int, skipCache: bool, mlEnabled: bool, db: Db, now: int,
                     logRatio: real -> real): Outcome
  {
    var requestLimit := RequestLimit(limit);
    if !mlEnabled || userId !in db.users then Fallback(userId, requestLimit, db, logRatio)
    else if CacheHit(skipCache, db, requestLimit) then Outcome(userId, Restamp(SliceTo(db.cache, requestLimit)))
    else
      var computeLimit := requestLimit * 3;
      var recs := Computed(db.users[userId], SliceTo(db.skills, computeLimit * 2), computeLimit, now, logRatio);
      Outcome(userId, Restamp(SliceTo(recs, requestLimit)))
  }
  /**
   * With ML on and no cache hit, a user who teaches an inherited key gets an
   * empty list rather than the popularity fallback: the skipped candidates
   * raise nothing that reaches the outer `catch`.
   */
  lemma InheritedTeacherGetsEmptyOutcome(userId: string, limit: int, skipCache: bool, db: Db, now: int,
                                         logRatio: real -> real)
    requires userId in db.users && SkillFeatures.TeachesInheritedKey(db.users[userId].teaches)
    requires !CacheHit(skipCache, db, RequestLimit(limit))
    ensures Recommend(userId, limit, skipCache, true, db, now, logRatio) == Outcome(userId, [])
  {
    var computeLimit := RequestLimit(limit) * 3;
    InheritedTeacherGetsNothing(db.users[userId], SliceTo(db.skills, computeLimit * 2), computeLimit, now, logRatio);
  }


  method RecommendSkillsForUser(userId: string, limit: int, skipCache: bool, mlEnabled: bool, db: Db, now: int,
                                logRatio: real -> real)
    returns (o: Outcome)
    ensures o == Recommend(userId, limit, skipCache, mlEnabled, db, now, logRatio)
  {
    var requestLimit := RequestLimit(limit);
    if !mlEnabled || userId !in db.users {
      var top := SliceTo(db.popular, requestLimit);
      return Outcome(userId, seq(|top|, i requires 0 <= i < |top| => PopularItem(top[i], logRatio)));
    }
    if !skipCache && |db.cache| >= requestLimit {
      return Outcome(userId, Restamp(SliceTo(db.cache, requestLimit)));
    }
    var computeLimit := requestLimit * 3;
    var recs := ComputeRecommendations(db.users[userId], SliceTo(db.skills, computeLimit * 2), computeLimit, now, logRatio);
    o := Outcome(userId, Restamp(SliceTo(recs, requestLimit)));
  }

  /** With ML on and a known user, a cache hit returns exactly `requestLimit` cached entries, none marked as fallback. */
  lemma CacheHitProperties(userId: string, limit: int, skipCache: bool, db: Db, now: int, logRatio: real -> real)
    requires userId in db.users && CacheHit(skipCache, db, RequestLimit(limit))
    ensures var items := Recommend(userId, limit, skipCache, true, db, now, logRatio).items;
      |items| == RequestLimit(limit) && items == Restamp(db.cache[..RequestLimit(limit)])
      && forall r :: r in items ==> !r.fallback
  {
  }

  /**
   * With ML on, a known user and no cache hit, at most `requestLimit`
   * computed items, sorted by score, each in [0, 1], none marked as fallback.
   */
  lemma ComputedRecommendProperties(userId: string, limit: int, skipCache: bool, db: Db, now: int, logRatio: real -> real)
    requires userId in db.users && !CacheHit(skipCache, db, RequestLimit(limit))
    ensures var items := Recommend(userId, limit, skipCache, true, db, now, logRatio).items;
      |items| <= RequestLimit(limit) && SortedDesc(items, RecScore)
      && forall r :: r in items ==> 0.0 <= r.score <= 1.0 && !r.fallback
  {
    var requestLimit := RequestLimit(limit);
    var computeLimit := requestLimit * 3;
    var user, pool := db.users[userId], SliceTo(db.skills, computeLimit * 2);
    var recs := Computed(user, pool, computeLimit, now, logRatio);
    ComputedProperties(user, pool, computeLimit, now, logRatio);
    var top := SliceTo(recs, requestLimit);
    SortedPrefix(recs, |top|, RecScore);
    forall r | r in top ensures 0.0 <= r.score <= 1.0 {
      assert r in recs;
    }
    assert Recommend(userId, limit, skipCache, true, db, now, logRatio).items == Restamp(top);
    RestampKeepsScores(top);
  }

  /** Restamping clears the fallback mark and keeps the order and the scores. */
  lemma RestampKeepsScores(recs: seq<Rec>)
    requires SortedDesc(recs, RecScore)
    requires forall r :: r in recs ==> 0.0 <= r.score <= 1.0
    ensures var items := Restamp(recs);
      |items| == |recs| && SortedDesc(items, RecScore)
      && forall r :: r in items ==> 0.0 <= r.score <= 1.0 && !r.fallback
  {
    var items := Restamp(recs);
    forall r | r in items ensures 0.0 <= r.score <= 1.0 {
      var i :| 0 <= i < |items| && items[i] == r;
      assert recs[i] in recs;
    }
  }

  /** The fallback scores a skill without recorded popularity at 0.1, and returns at most `limit` skills. */
  lemma FallbackProperties(userId: string, limit: int, db: Db, logRatio: real -> real)
    requires limit >= 0
    ensures var items := Fallback(userId, limit, db, logRatio).items;
      |items| <= limit
      && forall i :: 0 <= i < |items| ==>
           (items[i].fallback && (SliceTo(db.popular, limit)[i].popularity <= 0.0 ==> items[i].score == 0.1))
  {
  }
}

=== FILE: skill_trie.dfy ===
/**
 * The prefix trie behind skill autocomplete. Each node has its children in the
 * order they were first added (a JavaScript `Map` keeps insertion order), the
 * skill ids stored at that word, and an end-of-word flag. Nodes are values
 * here; the trie object itself holds the root and the skill count and is
 * updated in place.
 */
module SkillTrie {
  import opened Common

  datatype Node = Node(children: seq<Edge>, skillIds: seq<string>, isEnd: bool)
  datatype Edge = Edge(ch: char, child: Node)

  /** One `{ skillId, text }` search result. */
  datatype Match = Match(skillId: string, text: string)

  /** `new TrieNode()`. */
  const EmptyNode: Node := Node([], [], false)

  // ---------------------------------------------------------------------------
  // Keys

  /**
   * `_normalize(text)`: a non-string (`None`) gives the empty key, a string is
   * lower-cased and then trimmed, which is the same as trimming first.
   */
  function Key(text: Option<string>): (r: string)
    ensures text.None? ==> r == []
    ensures text.Some? ==> r == Normalize(text.value)
  {
    if text.None? then []
    else
      TrimLower(text.value);
      Trim(ToLower(text.value))
  }

  /** A key is its own key. */
  lemma KeyIdempotent(text: Option<string>)
    ensures Key(Some(Key(text))) == Key(text)
  {
    if text.Some? {
      NormalizeIdempotent(text.value);
    }
  }

  // ---------------------------------------------------------------------------
  // Children

  /** `children.has(c)` / `children.get(c)`: the position of the child for `c`, or -1. */
  function ChildIndex(edges: seq<Edge>, c: char): (i: int)
    ensures -1 <= i < |edges|
    ensures 0 <= i ==> edges[i].ch == c
    ensures forall j :: 0 <= j < |edges| && (i < 0 || j < i) ==> edges[j].ch != c
  {
    if edges == [] then -1
    else if edges[0].ch == c then 0
    else
      var k := ChildIndex(edges[1..], c);
      if k < 0 then -1 else k + 1
  }

  /** The keys of a `Map` are distinct. */
  predicate DistinctKeys(edges: seq<Edge>)
  {
    forall i, j :: 0 <= i < j < |edges| ==> edges[i].ch != edges[j].ch
  }

  predicate DistinctIds(ids: seq<string>)
  {
    forall i, j :: 0 <= i < j < |ids| ==> ids[i] != ids[j]
  }

  /**
   * The shape every reachable node has: distinct child keys, distinct ids, and
   * the end flag set exactly when the node holds an id.
   */
  predicate WellFormed(n: Node)
  {
    && DistinctKeys(n.children)
    && DistinctIds(n.skillIds)
    && n.isEnd == (|n.skillIds| > 0)
    && forall k :: 0 <= k < |n.children| ==> WellFormed(n.children[k].child)
  }

  lemma ChildIndexOf(edges: seq<Edge>, k: int)
    requires DistinctKeys(edges) && 0 <= k < |edges|
    ensures ChildIndex(edges, edges[k].ch) == k
  {
  }

  lemma ChildIndexAppend(edges: seq<Edge>, e: Edge, c: char)
    requires ChildIndex(edges, e.ch) < 0
    ensures ChildIndex(edges + [e], c) ==
      if ChildIndex(edges, c) >= 0 then ChildIndex(edges, c)
      else if c == e.ch then |edges| else -1
  {
    var i := ChildIndex(edges, c);
    var j := ChildIndex(edges + [e], c);
    if i >= 0 {
      assert (edges + [e])[i] == edges[i];
    } else {
      assert (edges + [e])[|edges|] == e;
    }
  }

  lemma ChildIndexUpdate(edges: seq<Edge>, i: int, e: Edge, c: char)
    requires 0 <= i < |edges| && ChildIndex(edges, e.ch) == i
    ensures ChildIndex(edges[i := e], c) == ChildIndex(edges, c)
  {
    var j := ChildIndex(edges, c);
    var j' := ChildIndex(edges[i := e], c);
    if j >= 0 {
      assert edges[i := e][j].ch == c;
    }
    if j' >= 0 {
      assert edges[j'].ch == c;
    }
  }

  // ---------------------------------------------------------------------------
  // Walking a path

  /** The node reached by following `path` from `n`, if every step exists. */
  function Find(n: Node, path: string): Option<Node>
    decreases |path|
  {
    if path == [] then Some(n)
    else
      var i := ChildIndex(n.children, path[0]);
      if i < 0 then None else Find(n.children[i].child, path[1..])
  }

  /** The ids stored at the word `w`: those of the node it reaches, or none. */
  function IdsAt(n: Node, w: string): seq<string>
  {
    var found := Find(n, w);
    if found.None? then [] else found.value.skillIds
  }

  lemma {:induction false} FindConcat(n: Node, p: string, q: string)
    ensures Find(n, p + q) == if Find(n, p).None? then None else Find(Find(n, p).value, q)
    decreases |p|
  {
    if p == [] {
      assert p + q == q;
    } else {
      assert (p + q)[0] == p[0] && (p + q)[1..] == p[1..] + q;
      var i := ChildIndex(n.children, p[0]);
      if i >= 0 {
        FindConcat(n.children[i].child, p[1..], q);
      }
    }
  }

  lemma {:induction false} FindWellFormed(n: Node, p: string)
    requires WellFormed(n) && Find(n, p).Some?
    ensures WellFormed(Find(n, p).value)
    decreases |p|
  {
    if p != [] {
      FindWellFormed(n.children[ChildIndex(n.children, p[0])].child, p[1..]);
    }
  }

  lemma EmptyHoldsNothing(w: string)
    ensures IdsAt(EmptyNode, w) == []
  {
  }

  /**
   * The walk of `searchPrefix` and `contains`: one child per character, giving
   * up at the first character without a child.
   */
  method Walk(root: Node, path: string) returns (r: Option<Node>)
    ensures r == Find(root, path)
  {
    var node := root;
    var i := 0;
    while i < |path|
      invariant 0 <= i <= |path|
      invariant Find(root, path[..i]) == Some(node)
    {
      var c := ChildIndex(node.children, path[i]);
      FindConcat(root, path[..i], [path[i]]);
      assert path[..i + 1] == path[..i] + [path[i]];
      if c < 0 {
        FindConcat(root, path[..i + 1], path[i + 1..]);
        assert path[..i + 1] + path[i + 1..] == path;
        return None;
      }
      node := node.children[c].child;
      i := i + 1;
    }
    assert path[..i] == path;
    r := Some(node);
  }

  // ---------------------------------------------------------------------------
  // Inserting

  /** The ids after `push` unless `includes` already holds the id. */
  function Added(ids: seq<string>, id: string): seq<string>
  {
    if id in ids then ids else ids + [id]
  }

  /**
   * `insert` for a non-empty key and a truthy id: walk `path`, creating missing
   * children at the end of their parent's `Map`, and add the id at the last
   * node unless it is already there.
   */
  function InsertPath(n: Node, path: string, id: string): Node
    decreases |path|
  {
    if path == [] then
      if id in n.skillIds then n else Node(n.children, n.skillIds + [id], true)
    else
      var i := ChildIndex(n.children, path[0]);
      if i < 0 then
        n.(children := n.children + [Edge(path[0], InsertPath(EmptyNode, path[1..], id))])
      else
        n.(children := n.children[i := Edge(path[0], InsertPath(n.children[i].child, path[1..], id))])
  }

  /** `insert(skillId, text)`: nothing for an empty key or a falsy (empty) id. */
  function InsertOp(n: Node, skillId: string, text: Option<string>): Node
  {
    var k := Key(text);
    if k == [] || skillId == [] then n else InsertPath(n, k, skillId)
  }

  /** Inserting changes the ids of its own word only, and there adds the id once. */
  lemma {:induction false} InsertIds(n: Node, path: string, id: string, w: string)
    ensures IdsAt(InsertPath(n, path, id), w) ==
      if w == path then Added(IdsAt(n, path), id) else IdsAt(n, w)
    decreases |path|, 1
  {
    if path == [] || w == [] {
      return;
    }
    assert w == [w[0]] + w[1..] && path == [path[0]] + path[1..];
    if ChildIndex(n.children, path[0]) < 0 {
      InsertIdsNewChild(n, path, id, w);
    } else {
      InsertIdsExistingChild(n, path, id, w);
    }
  }

  lemma {:induction false} InsertIdsNewChild(n: Node, path: string, id: string, w: string)
    requires path != [] && w != [] && ChildIndex(n.children, path[0]) < 0
    ensures IdsAt(InsertPath(n, path, id), w) ==
      if w == path then Added(IdsAt(n, path), id) else IdsAt(n, w)
    decreases |path|, 0
  {
    var r := InsertPath(n, path, id);
    var c := path[0];
    var x := InsertPath(EmptyNode, path[1..], id);
    assert r == n.(children := n.children + [Edge(c, x)]);
    ChildIndexAppend(n.children, Edge(c, x), w[0]);
    if w[0] == c {
      InsertIds(EmptyNode, path[1..], id, w[1..]);
      EmptyHoldsNothing(w[1..]);
      EmptyHoldsNothing(path[1..]);
      assert w == [c] + w[1..] && path == [c] + path[1..];
    } else {
      var j := ChildIndex(n.children, w[0]);
      if j >= 0 {
        assert r.children[j] == n.children[j];
      }
    }
  }

  lemma {:induction false} InsertIdsExistingChild(n: Node, path: string, id: string, w: string)
    requires path != [] && w != [] && ChildIndex(n.children, path[0]) >= 0
    ensures IdsAt(InsertPath(n, path, id), w) ==
      if w == path then Added(IdsAt(n, path), id) else IdsAt(n, w)
    decreases |path|, 0
  {
    var r := InsertPath(n, path, id);
    var c := path[0];
    var i := ChildIndex(n.children, c);
    var x := InsertPath(n.children[i].child, path[1..], id);
    assert r == n.(children := n.children[i := Edge(c, x)]);
    ChildIndexUpdate(n.children, i, Edge(c, x), w[0]);
    if w[0] == c {
      InsertIds(n.children[i].child, path[1..], id, w[1..]);
      assert w == [c] + w[1..] && path == [c] + path[1..];
    } else {
      var j := ChildIndex(n.children, w[0]);
      if j >= 0 {
        assert r.children[j] == n.children[j];
      }
    }
  }

  /** Inserting keeps a node well formed. */
  lemma {:induction false} InsertKeepsWellFormed(n: Node, path: string, id: string)
    requires WellFormed(n)
    ensures WellFormed(InsertPath(n, path, id))
    decreases |path|
  {
    var r := InsertPath(n, path, id);
    if path == [] {
      return;
    }
    var i := ChildIndex(n.children, path[0]);
    if i < 0 {
      InsertKeepsWellFormed(EmptyNode, path[1..], id);
      assert forall k :: 0 <= k < |n.children| ==> r.children[k] == n.children[k];
    } else {
      InsertKeepsWellFormed(n.children[i].child, path[1..], id);
      assert forall k :: 0 <= k < |n.children| && k != i ==> r.children[k] == n.children[k];
    }
  }

  // ---------------------------------------------------------------------------
  // Stored pairs in collection order

  function Flatten(ss: seq<seq<Match>>): seq<Match>
  {
    if ss == [] then [] else ss[0] + Flatten(ss[1..])
  }

  lemma {:induction false} FlattenAppend(a: seq<seq<Match>>, b: seq<seq<Match>>)
    ensures Flatten(a + b) == Flatten(a) + Flatten(b)
  {
    if a == [] {
      assert a + b == b;
    } else {
      assert (a + b)[0] == a[0] && (a + b)[1..] == a[1..] + b;
      FlattenAppend(a[1..], b);
    }
  }

  lemma FlattenFrom(ss: seq<seq<Match>>, k: int)
    requires 0 <= k < |ss|
    ensures Flatten(ss[k..]) == ss[k] + Flatten(ss[k + 1..])
  {
    assert ss[k..][0] == ss[k];
    assert ss[k..][1..] == ss[k + 1..];
  }

  lemma {:induction false} FlattenSplit(ss: seq<seq<Match>>, i: int)
    requires 0 <= i < |ss|
    ensures Flatten(ss) == Flatten(ss[..i]) + ss[i] + Flatten(ss[i + 1..])
  {
    var front := ss[..i];
    if i == 0 {
      assert front == [];
      assert ss[1..] == ss[i + 1..];
    } else {
      var rest := ss[1..];
      FlattenSplit(rest, i - 1);
      assert rest[..i - 1] == front[1..];
      assert rest[i - 1] == ss[i];
      assert rest[i..] == ss[i + 1..];
      assert front[0] == ss[0];
      assert Flatten(front) == ss[0] + Flatten(front[1..]);
    }
  }

  /** Every element of the flattening comes from one of the parts. */
  lemma {:induction false} FlattenMember(ss: seq<seq<Match>>, x: Match)
    requires x in Flatten(ss)
    ensures exists i :: 0 <= i < |ss| && x in ss[i]
  {
    if x !in ss[0] {
      FlattenMember(ss[1..], x);
      var i :| 0 <= i < |ss[1..]| && x in ss[1..][i];
      assert x in ss[i + 1];
    }
  }

  /** The results for the ids stored at one node. */
  function Tag(ids: seq<string>, text: string): seq<Match>
  {
    seq(|ids|, j requires 0 <= j < |ids| => Match(ids[j], text))
  }

  function Here(n: Node, text: string): seq<Match>
  {
    if n.isEnd then Tag(n.skillIds, text) else []
  }

  /** The pairs under each child, in the order of the children. */
  function Branches(n: Node, text: string): seq<seq<Match>>
    decreases n, 0
  {
    seq(|n.children|, k requires 0 <= k < |n.children| =>
      AllPairs(n.children[k].child, text + [n.children[k].ch]))
  }

  /**
   * Every `(id, word)` pair stored under `n`, whose path from the root spells
   * `text`, in the depth-first order `_collectSkills` visits them: the node's
   * own ids, then each child in `Map` order.
   */
  function AllPairs(n: Node, text: string): seq<Match>
    decreases n, 1
  {
    Here(n, text) + Flatten(Branches(n, text))
  }

  /** Every collected pair extends the text and is stored at its word. */
  lemma {:induction false} AllPairsSound(n: Node, text: string)
    requires WellFormed(n)
    ensures forall x :: x in AllPairs(n, text) ==>
      StartsWith(x.text, text) && x.skillId in IdsAt(n, x.text[|text|..])
    decreases n
  {
    forall x | x in AllPairs(n, text)
      ensures StartsWith(x.text, text) && x.skillId in IdsAt(n, x.text[|text|..])
    {
      if x in Here(n, text) {
        var j :| 0 <= j < |n.skillIds| && Tag(n.skillIds, text)[j] == x;
        assert x.text[|text|..] == [];
      } else {
        FlattenMember(Branches(n, text), x);
        var k :| 0 <= k < |n.children| && x in Branches(n, text)[k];
        BranchSound(n, text, k, x);
      }
    }
  }

  lemma BranchSound(n: Node, text: string, k: int, x: Match)
    requires WellFormed(n) && 0 <= k < |n.children|
    requires x in AllPairs(n.children[k].child, text + [n.children[k].ch])
    ensures StartsWith(x.text, text) && x.skillId in IdsAt(n, x.text[|text|..])
    decreases n, 0
  {
    var e := n.children[k];
    var t := text + [e.ch];
    AllPairsSound(e.child, t);
    assert x.text[..|t|] == t;
    assert x.text[..|text|] == text;
    var p, rest := x.text[|text|..], x.text[|t|..];
    assert p[0] == e.ch && p[1..] == rest;
    ChildIndexOf(n.children, k);
    assert Find(n, p) == Find(e.child, rest);
  }

  /** Every stored pair is collected. */
  lemma {:induction false} AllPairsComplete(n: Node, text: string, w: string, id: string)
    requires WellFormed(n) && id in IdsAt(n, w)
    ensures Match(id, text + w) in AllPairs(n, text)
    decreases |w|
  {
    if w == [] {
      assert text + w == text;
      var j :| 0 <= j < |n.skillIds| && n.skillIds[j] == id;
      assert Here(n, text)[j] == Match(id, text);
    } else {
      var i := ChildIndex(n.children, w[0]);
      var e := n.children[i];
      AllPairsComplete(e.child, text + [e.ch], w[1..], id);
      assert (text + [e.ch]) + w[1..] == text + w;
      FlattenSplit(Branches(n, text), i);
    }
  }

  lemma AppendChildCount(n: Node, c: char, x: Node, text: string)
    ensures |AllPairs(n.(children := n.children + [Edge(c, x)]), text)| ==
      |AllPairs(n, text)| + |AllPairs(x, text + [c])|
  {
    var r := n.(children := n.children + [Edge(c, x)]);
    assert Here(r, text) == Here(n, text);
    assert Branches(r, text) == Branches(n, text) + [AllPairs(x, text + [c])];
    FlattenAppend(Branches(n, text), [AllPairs(x, text + [c])]);
  }

  lemma ReplaceChildCount(n: Node, i: int, c: char, x: Node, text: string)
    requires 0 <= i < |n.children| && n.children[i].ch == c
    ensures |AllPairs(n.(children := n.children[i := Edge(c, x)]), text)| ==
      |AllPairs(n, text)| - |AllPairs(n.children[i].child, text + [c])| + |AllPairs(x, text + [c])|
  {
    var r := n.(children := n.children[i := Edge(c, x)]);
    assert Here(r, text) == Here(n, text);
    assert Branches(r, text) == Branches(n, text)[i := AllPairs(x, text + [c])];
    FlattenSplit(Branches(n, text), i);
    FlattenSplit(Branches(r, text), i);
    assert Branches(r, text)[..i] == Branches(n, text)[..i];
    assert Branches(r, text)[i + 1..] == Branches(n, text)[i + 1..];
  }

  lemma AddIdCount(n: Node, id: string, text: string)
    requires WellFormed(n) && id !in n.skillIds
    ensures |AllPairs(Node(n.children, n.skillIds + [id], true), text)| == |AllPairs(n, text)| + 1
  {
  }

  /** Inserting a new id adds exactly one stored pair; a repeat adds none. */
  lemma {:induction false} InsertCountsOnce(n: Node, path: string, id: string, text: string)
    requires WellFormed(n)
    ensures |AllPairs(InsertPath(n, path, id), text)| ==
      |AllPairs(n, text)| + (if id in IdsAt(n, path) then 0 else 1)
    decreases |path|
  {
    if path == [] {
      if id !in n.skillIds {
        AddIdCount(n, id, text);
      }
      return;
    }
    var c := path[0];
    var i := ChildIndex(n.children, c);
    if i < 0 {
      var x := InsertPath(EmptyNode, path[1..], id);
      InsertCountsOnce(EmptyNode, path[1..], id, text + [c]);
      assert AllPairs(EmptyNode, text + [c]) == [];
      AppendChildCount(n, c, x, text);
    } else {
      var x := InsertPath(n.children[i].child, path[1..], id);
      InsertCountsOnce(n.children[i].child, path[1..], id, text + [c]);
      ReplaceChildCount(n, i, c, x, text);
    }
  }

  // ---------------------------------------------------------------------------
  // Collecting up to a limit

  /**
   * `results` after pushing the elements of `more` one at a time while
   * `results.length < limit`.
   */
  function Fill(results: seq<Match>, more: seq<Match>, limit: int): (r: seq<Match>)
  {
    if |results| >= limit then results
    else (results + more)[..Min(limit, |results| + |more|)]
  }

  lemma FillOne(results: seq<Match>, m: Match, limit: int)
    requires |results| < limit
    ensures Fill(results, [m], limit) == results + [m]
  {
  }

  lemma FillFill(results: seq<Match>, a: seq<Match>, b: seq<Match>, limit: int)
    ensures Fill(Fill(results, a, limit), b, limit) == Fill(results, a + b, limit)
  {
    if |results| < limit && |results| + |a| >= limit {
      assert (results + a)[..limit] == (results + (a + b))[..limit];
    } else if |results| < limit {
      assert results + a + b == results + (a + b);
    }
  }

  /** The loop over a word's ids in `_collectSkills`. */
  method PushIds(ids: seq<string>, text: string, results: seq<Match>, limit: int) returns (out: seq<Match>)
    ensures out == Fill(results, Tag(ids, text), limit)
  {
    out := results;
    var i := 0;
    while i < |ids|
      invariant 0 <= i <= |ids|
      invariant Fill(out, Tag(ids, text)[i..], limit) == Fill(results, Tag(ids, text), limit)
    {
      if |out| >= limit {
        break;
      }
      var m := Match(ids[i], text);
      assert Tag(ids, text)[i..] == [m] + Tag(ids, text)[i + 1..];
      FillFill(out, [m], Tag(ids, text)[i + 1..], limit);
      FillOne(out, m, limit);
      out := out + [m];
      i := i + 1;
    }
    assert |out| >= limit || Tag(ids, text)[i..] == [];
  }

  /**
   * `_collectSkills(node, currentText, results, limit)`: stop at `limit`, push
   * the node's ids when it ends a word, then recurse into each child in order.
   * The result is the pairs under `node` in depth-first order, appended to
   * `results` and cut off at `limit`.
   */
  method CollectSkills(n: Node, text: string, results: seq<Match>, limit: int) returns (out: seq<Match>)
    ensures out == Fill(results, AllPairs(n, text), limit)
    decreases n
  {
    out := results;
    if |out| >= limit {
      return;
    }
    if n.isEnd {
      out := PushIds(n.skillIds, text, out, limit);
    }
    ghost var branches := Branches(n, text);
    FillFill(results, Here(n, text), Flatten(branches), limit);
    assert branches[0..] == branches;
    var k := 0;
    while k < |n.children|
      invariant 0 <= k <= |n.children|
      invariant Fill(out, Flatten(branches[k..]), limit) == Fill(results, AllPairs(n, text), limit)
    {
      if |out| >= limit {
        break;
      }
      var e := n.children[k];
      FlattenFrom(branches, k);
      assert branches[k] == AllPairs(e.child, text + [e.ch]);
      FillFill(out, AllPairs(e.child, text + [e.ch]), Flatten(branches[k + 1..]), limit);
      out := CollectSkills(e.child, text + [e.ch], out, limit);
      k := k + 1;
    }
    assert |out| >= limit || branches[k..] == [];
  }

  // ---------------------------------------------------------------------------
  // Searching

  /** The stored pairs whose word starts with `key`, in collection order. */
  function Matches(root: Node, key: string): seq<Match>
  {
    var found := Find(root, key);
    if found.None? then [] else AllPairs(found.value, key)
  }

  /** The `limit` argument, 10 when it is left out. */
  function Limit(limit: Option<int>): int
  {
    if limit.None? then 10 else limit.value
  }

  /** The search itself, below a given root. */
  method SearchNode(root: Node, key: string, limit: int) returns (r: seq<Match>)
    ensures r == Search(root, key, limit)
  {
    if key == [] {
      return [];
    }
    var found := Walk(root, key);
    if found.None? {
      return [];
    }
    r := CollectSkills(found.value, key, [], limit);
  }

  /** `searchPrefix` for the normalised prefix `key`. */
  function Search(root: Node, key: string, limit: int): seq<Match>
  {
    if key == [] then [] else Fill([], Matches(root, key), limit)
  }

  /**
   * At most `limit` results, none for an empty key or a path that is not in
   * the trie, and always the first matches in collection order.
   */
  lemma SearchBounded(root: Node, key: string, limit: int)
    ensures var r := Search(root, key, limit);
      && |r| <= Max(0, limit)
      && (key == [] || Find(root, key).None? ==> r == [])
      && r == Matches(root, key)[..|r|]
  {
  }

  /** Every result is a stored pair whose word starts with the key. */
  lemma SearchSound(root: Node, key: string, limit: int)
    requires WellFormed(root)
    ensures forall x :: x in Search(root, key, limit) ==>
      StartsWith(x.text, key) && x.skillId in IdsAt(root, x.text)
  {
    forall x | x in Search(root, key, limit)
      ensures StartsWith(x.text, key) && x.skillId in IdsAt(root, x.text)
    {
      SearchBounded(root, key, limit);
      MatchSound(root, key, x);
    }
  }

  lemma MatchSound(root: Node, key: string, x: Match)
    requires WellFormed(root) && x in Matches(root, key)
    ensures StartsWith(x.text, key) && x.skillId in IdsAt(root, x.text)
  {
    var found := Find(root, key);
    FindWellFormed(root, key);
    AllPairsSound(found.value, key);
    FindConcat(root, key, x.text[|key|..]);
    assert key + x.text[|key|..] == x.text;
  }

  lemma FillAll(more: seq<Match>, limit: int)
    requires |more| < limit
    ensures Fill([], more, limit) == more
  {
    assert ([] + more)[..|more|] == more;
  }

  /** Every stored pair whose word extends `key` is among the matches of `key`. */
  lemma MatchesComplete(root: Node, key: string, w: string, id: string)
    requires WellFormed(root) && StartsWith(w, key) && id in IdsAt(root, w)
    ensures Match(id, w) in Matches(root, key)
  {
    assert w == key + w[|key|..];
    FindConcat(root, key, w[|key|..]);
    FindWellFormed(root, key);
    AllPairsComplete(Find(root, key).value, key, w[|key|..], id);
  }

  /** When fewer than `limit` pairs match, every stored match is returned. */
  lemma SearchComplete(root: Node, key: string, limit: int, w: string, id: string)
    requires WellFormed(root) && |Matches(root, key)| < limit
    requires key != [] && StartsWith(w, key) && id in IdsAt(root, w)
    ensures Match(id, w) in Search(root, key, limit)
  {
    FillAll(Matches(root, key), limit);
    MatchesComplete(root, key, w, id);
  }

  // ---------------------------------------------------------------------------
  // A trie built by a sequence of inserts

  /** The arguments of one `insert(skillId, text)` call. */
  datatype SkillInput = SkillInput(skillId: string, text: Option<string>)

  function Built(calls: seq<SkillInput>): Node
  {
    if calls == [] then EmptyNode
    else
      var last := calls[|calls| - 1];
      InsertOp(Built(calls[..|calls| - 1]), last.skillId, last.text)
  }

  /** The call has a truthy id and the non-empty key `w`. */
  predicate Stores(c: SkillInput, w: string)
  {
    c.skillId != [] && Key(c.text) == w && w != []
  }

  /** Some call stored a truthy id under the key `w`. */
  predicate InsertedAt(calls: seq<SkillInput>, w: string)
  {
    exists j :: 0 <= j < |calls| && Stores(calls[j], w)
  }

  lemma {:induction false} BuiltWellFormed(calls: seq<SkillInput>)
    ensures WellFormed(Built(calls))
  {
    if calls != [] {
      var last := calls[|calls| - 1];
      BuiltWellFormed(calls[..|calls| - 1]);
      var k := Key(last.text);
      if k != [] && last.skillId != [] {
        InsertKeepsWellFormed(Built(calls[..|calls| - 1]), k, last.skillId);
      }
    }
  }

  lemma BuiltStep(calls: seq<SkillInput>, c: SkillInput)
    ensures Built(calls + [c]) == InsertOp(Built(calls), c.skillId, c.text)
  {
    assert (calls + [c])[..|calls|] == calls;
  }

  lemma InsertedAtStep(calls: seq<SkillInput>, c: SkillInput, w: string)
    ensures InsertedAt(calls + [c], w) <==> InsertedAt(calls, w) || Stores(c, w)
  {
    var all := calls + [c];
    if InsertedAt(calls, w) {
      var j :| 0 <= j < |calls| && Stores(calls[j], w);
      assert all[j] == calls[j];
    }
    if Stores(c, w) {
      assert all[|calls|] == c;
    }
    if InsertedAt(all, w) {
      var j :| 0 <= j < |all| && Stores(all[j], w);
      if j < |calls| {
        assert all[j] == calls[j];
      }
    }
  }

  /** The ids at `w` after one `insert` call. */
  lemma InsertOpIds(n: Node, skillId: string, text: Option<string>, w: string)
    ensures |IdsAt(InsertOp(n, skillId, text), w)| > 0 <==>
      |IdsAt(n, w)| > 0 || Stores(SkillInput(skillId, text), w)
  {
    var k := Key(text);
    if k != [] && skillId != [] {
      InsertIds(n, k, skillId, w);
    }
  }

  /** A word holds ids exactly when some call inserted under it. */
  lemma {:induction false} BuiltIds(calls: seq<SkillInput>, w: string)
    ensures |IdsAt(Built(calls), w)| > 0 <==> InsertedAt(calls, w)
  {
    if calls == [] {
      EmptyHoldsNothing(w);
    } else {
      var init := calls[..|calls| - 1];
      var last := calls[|calls| - 1];
      assert calls == init + [last];
      BuiltIds(init, w);
      BuiltStep(init, last);
      InsertOpIds(Built(init), last.skillId, last.text, w);
      InsertedAtStep(init, last, w);
    }
  }

  /** One `insert` call keeps the trie well formed and adds a pair only for a new id. */
  lemma InsertOpCount(n: Node, skillId: string, text: Option<string>)
    requires WellFormed(n)
    ensures WellFormed(InsertOp(n, skillId, text))
    ensures |AllPairs(InsertOp(n, skillId, text), [])| == |AllPairs(n, [])| +
      (if IsNewPair(n, skillId, text) then 1 else 0)
  {
    var k := Key(text);
    if k != [] && skillId != [] {
      InsertKeepsWellFormed(n, k, skillId);
      InsertCountsOnce(n, k, skillId, []);
    }
  }

  /** `contains` on a root value. */
  function ContainsKey(root: Node, text: Option<string>): bool
  {
    var k := Key(text);
    var found := Find(root, k);
    k != [] && found.Some? && found.value.isEnd
  }

  /**
   * After a sequence of inserts, `contains(t)` holds exactly when some insert
   * had a truthy id and the same key as `t`; in particular a proper prefix of
   * an inserted word that was never inserted itself is not contained.
   */
  lemma ContainsIffInserted(calls: seq<SkillInput>, text: Option<string>)
    ensures ContainsKey(Built(calls), text) <==> InsertedAt(calls, Key(text))
  {
    var k := Key(text);
    BuiltWellFormed(calls);
    BuiltIds(calls, k);
    if Find(Built(calls), k).Some? {
      FindWellFormed(Built(calls), k);
    }
  }

  /** An entry `bulkBuild` inserts: present, with a truthy id and text. */
  predicate IsTruthy(item: Option<SkillInput>)
  {
    item.Some? && item.value.skillId != [] && item.value.text.Some? && item.value.text.value != []
  }

  function Truthy(items: seq<Option<SkillInput>>): (r: seq<SkillInput>)
    ensures forall j :: 0 <= j < |r| ==> r[j].skillId != [] && r[j].text.Some? && r[j].text.value != []
    ensures |r| <= |items|
  {
    if items == [] then []
    else
      var last := items[|items| - 1];
      var init := Truthy(items[..|items| - 1]);
      if IsTruthy(last) then init + [last.value]
      else init
  }

  lemma TruthyStep(items: seq<Option<SkillInput>>, i: int)
    requires 0 <= i < |items|
    ensures Truthy(items[..i + 1]) == Truthy(items[..i]) +
      (if IsTruthy(items[i]) then [items[i].value] else [])
  {
    assert items[..i + 1][..i] == items[..i];
  }

  /** The argument of `bulkBuild` and `createSkillTrie`. */
  datatype SkillsArg = Absent | NotAnArray | Items(items: seq<Option<SkillInput>>)

  // ---------------------------------------------------------------------------
  // The trie object

  /** `insert(skillId, text)` stores a pair that was not there before. */
  predicate IsNewPair(n: Node, skillId: string, text: Option<string>)
  {
    Key(text) != [] && skillId != [] && skillId !in IdsAt(n, Key(text))
  }

  /** The insert below a root, counting a pair that was not stored before. */
  method InsertCounted(root: Node, total: int, skillId: string, text: Option<string>) returns (node: Node, count: int)
    ensures node == InsertOp(root, skillId, text)
    ensures count == total + (if IsNewPair(root, skillId, text) then 1 else 0)
  {
    node, count := root, total;
    var k := Key(text);
    if k != [] && skillId != [] {
      var found := Walk(node, k);
      if found.None? || skillId !in found.value.skillIds {
        count := count + 1;
      }
      node := InsertPath(node, k, skillId);
    }
  }

  /**
   * The root is the trie the recorded calls build, and `totalSkills` counts
   * its stored pairs.
   */
  ghost predicate Consistent(root: Node, total: int, calls: seq<SkillInput>)
  {
    && root == Built(calls)
    && WellFormed(root)
    && total == |AllPairs(root, [])|
  }

  lemma InsertKeepsConsistent(root: Node, total: int, calls: seq<SkillInput>, skillId: string, text: Option<string>)
    requires Consistent(root, total, calls)
    ensures Consistent(InsertOp(root, skillId, text), total + (if IsNewPair(root, skillId, text) then 1 else 0),
                       calls + [SkillInput(skillId, text)])
  {
    BuiltStep(calls, SkillInput(skillId, text));
    InsertOpCount(root, skillId, text);
  }

  class Trie {
    var root: Node
    var totalSkills: int
    /** The `insert` calls since the last reset. */
    ghost var calls: seq<SkillInput>

    ghost predicate Valid()
      reads this
    {
      Consistent(root, totalSkills, calls)
    }

    constructor ()
      ensures Valid() && calls == [] && totalSkills == 0
    {
      root := EmptyNode;
      totalSkills := 0;
      calls := [];
    }

    /** `insert(skillId, text)`. */
    method Insert(skillId: string, text: Option<string>)
      requires Valid()
      modifies this
      ensures Valid()
      ensures calls == old(calls) + [SkillInput(skillId, text)]
      ensures root == InsertOp(old(root), skillId, text)
      ensures totalSkills == old(totalSkills) + (if IsNewPair(old(root), skillId, text) then 1 else 0)
    {
      InsertKeepsConsistent(root, totalSkills, calls, skillId, text);
      var node, count := InsertCounted(root, totalSkills, skillId, text);
      root, totalSkills, calls := node, count, calls + [SkillInput(skillId, text)];
    }

    /** One entry of `bulkBuild`: inserted when truthy, skipped otherwise. */
    method InsertItem(item: Option<SkillInput>)
      requires Valid()
      modifies this
      ensures Valid()
      ensures calls == old(calls) + (if IsTruthy(item) then [item.value] else [])
    {
      if IsTruthy(item) {
        var v := item.value;
        Insert(v.skillId, v.text);
        assert SkillInput(v.skillId, v.text) == v;
      }
    }

    /**
     * `bulkBuild(skillsArray)`: `TypeError` (false) for anything but an array;
     * otherwise a fresh trie holding the truthy entries.
     */
    method BulkBuild(arg: SkillsArg) returns (ok: bool)
      requires Valid()
      modifies this
      ensures Valid()
      ensures ok <==> arg.Items?
      ensures !ok ==> root == old(root) && totalSkills == old(totalSkills) && calls == old(calls)
      ensures ok ==> calls == Truthy(arg.items)
    {
      if !arg.Items? {
        return false;
      }
      root := EmptyNode;
      totalSkills := 0;
      calls := [];
      var items := arg.items;
      var i := 0;
      while i < |items|
        invariant 0 <= i <= |items|
        invariant Valid() && calls == Truthy(items[..i])
      {
        TruthyStep(items, i);
        InsertItem(items[i]);
        i := i + 1;
      }
      assert items[..i] == items;
      ok := true;
    }

    /** `searchPrefix(prefix, limit = 10)`. */
    method SearchPrefix(prefix: Option<string>, limit: Option<int>) returns (r: seq<Match>)
      requires Valid()
      ensures r == Search(root, Key(prefix), Limit(limit))
    {
      r := SearchNode(root, Key(prefix), Limit(limit));
    }

    /** `contains(text)`: exactly the keys some insert stored an id under. */
    method Contains(text: Option<string>) returns (b: bool)
      requires Valid()
      ensures b == ContainsKey(root, text)
      ensures b <==> InsertedAt(calls, Key(text))
    {
      var k := Key(text);
      if k == [] {
        ContainsIffInserted(calls, text);
        return false;
      }
      var found := Walk(root, k);
      b := found.Some? && found.value.isEnd;
      ContainsIffInserted(calls, text);
    }

    /** `size()`: the number of stored `(id, word)` pairs. */
    method Size() returns (n: int)
      requires Valid()
      ensures n == |AllPairs(root, [])|
    {
      n := totalSkills;
    }

    /** `clear()`. */
    method Clear()
      requires Valid()
      modifies this
      ensures Valid() && root == EmptyNode && totalSkills == 0 && calls == []
    {
      root := EmptyNode;
      totalSkills := 0;
      calls := [];
    }
  }

  /**
   * `createSkillTrie(skillsArray)`: an empty trie for a missing argument, one
   * built from the array otherwise, and `TypeError` (`None`) for a non-array.
   */
  method CreateSkillTrie(arg: SkillsArg) returns (r: Option<Trie>)
    ensures r.None? <==> arg.NotAnArray?
    ensures r.Some? ==> fresh(r.value) && r.value.Valid()
    ensures r.Some? && arg.Absent? ==> r.value.totalSkills == 0
    ensures r.Some? && arg.Items? ==> r.value.calls == Truthy(arg.items)
  {
    var trie := new Trie();
    if arg.Absent? {
      return Some(trie);
    }
    var ok := trie.BulkBuild(arg);
    if !ok {
      return None;
    }
    r := Some(trie);
  }
}

=== FILE: socket_auth.dfy ===
/**
 * Socket.io handshake authentication: the cookie-header parser and the
 * choice of which token to verify.
 */
module SocketAuth {
  import opened Common

  /** One `;`-separated segment, trimmed and split on `=`. */
  function SegmentParts(segment: string): seq<string>
  {
    Split(Trim(segment), '=')
  }

  /** Every segment, trimmed and split on `=`. */
  function ParseSegments(segments: seq<string>): (p: seq<seq<string>>)
  {
    seq(|segments|, k requires 0 <= k < |segments| => SegmentParts(segments[k]))
  }

  /**
   * The cookie jar after the first `n` split segments: a segment with exactly
   * two parts sets `jar[name] = value`, overwriting an earlier entry; any other
   * segment is ignored.
   */
  function JarAfter(parsed: seq<seq<string>>, n: nat): map<string, string>
    requires n <= |parsed|
  {
    if n == 0 then map[] else JarStep(JarAfter(parsed, n - 1), parsed[n - 1])
  }

  /** `if (parts.length === 2) cookies[parts[0]] = parts[1]`. */
  function JarStep(jar: map<string, string>, parts: seq<string>): map<string, string>
  {
    if |parts| == 2 then jar[parts[0] := parts[1]] else jar
  }

  /** The dictionary `parseCookies` returns; `None` and `""` are the falsy headers. */
  function CookieJar(header: Option<string>): map<string, string>
  {
    if header.None? || header.value == [] then map[]
    else
      var parsed := ParseSegments(Split(header.value, ';'));
      JarAfter(parsed, |parsed|)
  }

  /** `parseCookies(cookieString)`: an empty or missing header gives `{}`. */
  method ParseCookies(header: Option<string>) returns (cookies: map<string, string>)
    ensures cookies == CookieJar(header)
  {
    if header.None? || header.value == [] {
      return map[];
    }
    var parsed := ParseSegments(Split(header.value, ';'));
    cookies := FoldJar(parsed);
  }

  /** The `forEach` loop over the split segments. */
  method FoldJar(parsed: seq<seq<string>>) returns (cookies: map<string, string>)
    ensures cookies == JarAfter(parsed, |parsed|)
  {
    cookies := map[];
    var i := 0;
    while i < |parsed|
      invariant 0 <= i <= |parsed|
      invariant cookies == JarAfter(parsed, i)
    {
      cookies := JarStep(cookies, parsed[i]);
      i := i + 1;
    }
  }

  /** Segment `k` is well formed (two parts) and names `name`. */
  predicate SetsName(parsed: seq<seq<string>>, k: int, name: string)
  {
    0 <= k < |parsed| && |parsed[k]| == 2 && parsed[k][0] == name
  }

  /** A name is in the jar iff some well-formed segment set it. */
  lemma {:induction false} JarDomain(parsed: seq<seq<string>>, n: nat, name: string)
    requires n <= |parsed|
    ensures name in JarAfter(parsed, n) <==> exists k :: 0 <= k < n && SetsName(parsed, k, name)
  {
    if n > 0 {
      JarDomain(parsed, n - 1, name);
      if SetsName(parsed, n - 1, name) {
        assert name in JarAfter(parsed, n);
      }
    }
  }

  /** A later segment with the same name overwrites an earlier one: the last one wins. */
  lemma {:induction false} JarLastWins(parsed: seq<seq<string>>, n: nat, name: string, k: nat)
    requires k < n <= |parsed|
    requires SetsName(parsed, k, name)
    requires forall j :: k < j < n ==> !SetsName(parsed, j, name)
    ensures name in JarAfter(parsed, n)
    ensures JarAfter(parsed, n)[name] == parsed[k][1]
  {
    if n > k + 1 {
      JarLastWins(parsed, n - 1, name, k);
      assert !SetsName(parsed, n - 1, name);
    }
  }

  /** A segment whose value contains `=` (three or more parts) is dropped. */
  lemma MalformedSegmentIgnored(parsed: seq<seq<string>>, n: nat)
    requires 0 < n <= |parsed|
    requires |parsed[n - 1]| != 2
    ensures JarAfter(parsed, n) == JarAfter(parsed, n - 1)
  {
  }

  /** An empty or missing header gives `{}`. */
  lemma EmptyHeader()
    ensures CookieJar(None) == map[] && CookieJar(Some("")) == map[]
  {
  }

  // ---------------------------------------------------------------------------
  // authenticateSocket

  datatype SocketAuthOutcome =
    | NoTokenProvided        // next(new Error('... No token provided'))
    | InvalidToken           // verification threw, or JWT_SECRET is unset
    | Authenticated(userId: string)

  /**
   * The token `authenticateSocket` verifies: a truthy `handshake.auth.token`
   * first, otherwise the `accessToken` cookie of a truthy cookie header.
   */
  function TokenSource(authToken: Option<string>, cookieHeader: Option<string>): (t: Option<string>)
    ensures authToken.Some? && authToken.value != [] ==> t == authToken
    ensures t.Some? ==> t.value != []
  {
    if authToken.Some? && authToken.value != [] then authToken
    else if cookieHeader.Some? && cookieHeader.value != [] then
      var jar := CookieJar(cookieHeader);
      if "accessToken" in jar && jar["accessToken"] != [] then Some(jar["accessToken"]) else None
    else None
  }

  /**
   * `authenticateSocket`, with `jwt.verify` as the function `verify` (`None`
   * when it throws) and `secretConfigured` for `process.env.JWT_SECRET`.
   */
  method AuthenticateSocket(authToken: Option<string>, cookieHeader: Option<string>,
                            secretConfigured: bool, verify: string -> Option<string>)
    returns (r: SocketAuthOutcome)
    ensures TokenSource(authToken, cookieHeader).None? <==> r == NoTokenProvided
    ensures r.Authenticated? ==>
      secretConfigured && verify(TokenSource(authToken, cookieHeader).value) == Some(r.userId)
    ensures (TokenSource(authToken, cookieHeader).Some? && secretConfigured
             && verify(TokenSource(authToken, cookieHeader).value).Some?) ==> r.Authenticated?
  {
    var token: Option<string> := None;
    if authToken.Some? && authToken.value != [] {
      token := authToken;
    }
    if token.None? && cookieHeader.Some? && cookieHeader.value != [] {
      var cookies := ParseCookies(cookieHeader);
      token := if "accessToken" in cookies && cookies["accessToken"] != [] then Some(cookies["accessToken"]) else None;
    }
    if token.None? {
      return NoTokenProvided;
    }
    if !secretConfigured {
      return InvalidToken;
    }
    var decoded := verify(token.value);
    if decoded.None? {
      return InvalidToken;
    }
    r := Authenticated(decoded.value);
  }

  /** The handshake token wins over the cookie. */
  lemma AuthTokenTakesPrecedence(token: string, cookieHeader: Option<string>)
    requires token != []
    ensures TokenSource(Some(token), cookieHeader) == Some(token)
  {
  }
}

=== FILE: task_queue.dfy ===
/**
 * The in-memory first-in-first-out job queue of `backend/utils/taskQueue.js`.
 * A job is any object; the queue stores a copy stamped with the time at which
 * it was enqueued.
 */
module TaskQueue {
  import opened Common

  /** What `enqueue` receives: an object, or anything else (`null`, a number, ...). */
  datatype Input<T> = NotAnObject | Object(data: T)

  /** `{ ...job, enqueuedAt: Date.now() }` */
  datatype Entry<T> = Entry(data: T, enqueuedAt: int)

  class JobQueue<T> {
    var queue: seq<Entry<T>>

    /** `new TaskQueue()`: the queue starts empty. */
    constructor ()
      ensures queue == []
    {
      queue := [];
    }

    /**
     * `enqueue(job)`: a `TypeError` (`ok == false`, nothing stored) unless the
     * job is an object; otherwise the stamped job joins the back of the queue.
     * `now` stands for `Date.now()`.
     */
    method Enqueue(job: Input<T>, now: int) returns (ok: bool)
      modifies this
      ensures ok <==> job.Object?
      ensures ok ==> queue == old(queue) + [Entry(job.data, now)]
      ensures !ok ==> queue == old(queue)
    {
      if job.NotAnObject? {
        return false;
      }
      queue := queue + [Entry(job.data, now)];
      return true;
    }

    /** `dequeue()`: `null` on an empty queue, otherwise the front job, removed. */
    method Dequeue() returns (r: Option<Entry<T>>)
      modifies this
      ensures old(queue) == [] ==> r == None && queue == []
      ensures old(queue) != [] ==> r == Some(old(queue)[0]) && queue == old(queue)[1..]
    {
      if |queue| == 0 {
        return None;
      }
      r := Some(queue[0]);
      queue := queue[1..];
    }

    /** `peek()`: the front job, left in place. */
    method Peek() returns (r: Option<Entry<T>>)
      ensures r.None? <==> queue == []
      ensures r.Some? ==> r.value == queue[0]
    {
      r := if |queue| > 0 then Some(queue[0]) else None;
    }

    method Size() returns (n: nat)
      ensures n == |queue|
    {
      n := |queue|;
    }

    method IsEmpty() returns (b: bool)
      ensures b <==> queue == []
    {
      b := |queue| == 0;
    }

    /** `clear()`: empties the queue and reports how many jobs were dropped. */
    method Clear() returns (count: nat)
      modifies this
      ensures count == |old(queue)|
      ensures queue == []
    {
      count := |queue|;
      queue := [];
    }

    /** `getAll()`: a copy of the queue, front first. */
    method GetAll() returns (r: seq<Entry<T>>)
      ensures r == queue
    {
      r := queue;
    }

    /** `filter(predicate)`: the matching jobs, in queue order. */
    method FilterJobs(p: Entry<T> -> bool) returns (r: seq<Entry<T>>)
      ensures r == Filter(queue, p)
      ensures |r| == CountWhere(queue, p)
      ensures forall x :: x in r <==> x in queue && p(x)
    {
      FilterCount(queue, p);
      r := Filter(queue, p);
    }

    /**
     * `remove(predicate)`: keeps the jobs the predicate rejects, in order, and
     * returns how many were removed, which is the number of matching jobs.
     */
    method Remove(p: Entry<T> -> bool) returns (removed: nat)
      modifies this
      ensures queue == Reject(old(queue), p)
      ensures removed == CountWhere(old(queue), p)
      ensures removed == |old(queue)| - |queue|
    {
      var before := |queue|;
      RejectCount(queue, p);
      queue := Reject(queue, p);
      removed := before - |queue|;
    }
  }

  /** `s.filter(x => !p(x))`: the elements `p` does not match, in order. */
  function Reject<T>(s: seq<T>, p: T -> bool): (r: seq<T>)
  {
    if |s| == 0 then [] else (if p(s[0]) then [] else [s[0]]) + Reject(s[1..], p)
  }

  /**
   * What `Reject` keeps is exactly the non-matching elements, and it drops as
   * many elements as `p` matches.
   */
  lemma {:induction false} RejectCount<T>(s: seq<T>, p: T -> bool)
    ensures |Reject(s, p)| + CountWhere(s, p) == |s|
    ensures forall x :: x in Reject(s, p) <==> x in s && !p(x)
  {
    if |s| > 0 {
      RejectCount(s[1..], p);
      assert s == [s[0]] + s[1..];
    }
  }

  // ---------------------------------------------------------------------------
  // First in, first out

  datatype Op<T> = Push(data: T, at: int) | Pop

  /**
   * Runs `enqueue`/`dequeue` calls in order on a queue holding `q`: the final
   * queue and the jobs the `dequeue` calls returned, in order (an empty queue
   * returns nothing).
   */
  function Run<T>(q: seq<Entry<T>>, ops: seq<Op<T>>): (r: (seq<Entry<T>>, seq<Entry<T>>))
    decreases |ops|
  {
    if |ops| == 0 then (q, [])
    else match ops[0]
      case Push(d, at) => Run(q + [Entry(d, at)], ops[1..])
      case Pop =>
        if |q| == 0 then Run(q, ops[1..])
        else var rest := Run(q[1..], ops[1..]); (rest.0, [q[0]] + rest.1)
  }

  /** The stamped jobs the `enqueue` calls of `ops` add, in order. */
  function Pushed<T>(ops: seq<Op<T>>): seq<Entry<T>>
  {
    if |ops| == 0 then []
    else (if ops[0].Push? then [Entry(ops[0].data, ops[0].at)] else []) + Pushed(ops[1..])
  }

  /**
   * Jobs leave in the order they arrived: what was dequeued followed by what
   * is left is exactly what was queued before followed by what was enqueued.
   */
  lemma {:induction false} RunIsFifo<T>(q: seq<Entry<T>>, ops: seq<Op<T>>)
    ensures Run(q, ops).1 + Run(q, ops).0 == q + Pushed(ops)
    decreases |ops|
  {
    if |ops| > 0 {
      match ops[0]
      case Push(d, at) =>
        RunIsFifo(q + [Entry(d, at)], ops[1..]);
        assert q + [Entry(d, at)] + Pushed(ops[1..]) == q + Pushed(ops);
      case Pop =>
        if |q| == 0 {
          RunIsFifo(q, ops[1..]);
        } else {
          RunIsFifo(q[1..], ops[1..]);
          var rest := Run(q[1..], ops[1..]);
          assert Run(q, ops) == (rest.0, [q[0]] + rest.1);
          assert ([q[0]] + rest.1) + rest.0 == [q[0]] + (rest.1 + rest.0);
          assert q + Pushed(ops) == [q[0]] + (q[1..] + Pushed(ops[1..]));
        }
    }
  }

  /** From an empty queue, the dequeued jobs are a prefix of the enqueued ones. */
  lemma DequeuedInArrivalOrder<T>(ops: seq<Op<T>>)
    ensures var outs := Run([], ops).1;
      |outs| <= |Pushed(ops)| && outs == Pushed(ops)[..|outs|]
  {
    RunIsFifo([], ops);
    assert [] + Pushed(ops) == Pushed(ops);
  }
}

=== FILE: token_service.dfy ===
/**
 * Refresh tokens: the lifetime parsed from `REFRESH_TOKEN_EXPIRES_IN`, and the
 * token collection with creation, rotation (revoke the old token, issue a new
 * one) and revocation. The clock and the random token text are parameters.
 */
module TokenService {
  import opened Common

  const DayMs: int := 24 * 60 * 60 * 1000
  const HourMs: int := 60 * 60 * 1000
  const MinuteMs: int := 60 * 1000

  /** Multiplies a parsed count by a unit; `None` (`NaN`) stays `None`. */
  function Scale(n: Option<int>, unit: int): (r: Option<int>)
    ensures r.Some? <==> n.Some?
    ensures r.Some? ==> r.value == n.value * unit
  {
    if n.None? then None else Some(n.value * unit)
  }

  /**
   * The refresh lifetime in milliseconds: `'<n>d'`, `'<n>h'` or `'<n>m'`, with
   * `<n>` read by `parseInt(…, 10)` (`None` when that gives `NaN`); any other
   * form is seven days, and so is an unset variable (`'7d'`).
   */
  function RefreshTtlMs(env: Option<string>): (r: Option<int>)
    ensures r.None? ==> env.Some? && |env.value| > 0 && LeadingCount(env.value).None?
  {
    if env.Some? && env.value != [] then TtlFromSetting(env.value)
    else
      SevenDays();
      TtlFromSetting("7d")
  }

  /** The default setting `'7d'` is seven days. */
  lemma SevenDays()
    ensures TtlFromSetting("7d") == Some(7 * DayMs)
  {
    assert DecValue("7") == 7 by {
      assert "7"[..0] == [];
    }
    TtlDays("7");
    assert "7" + "d" == "7d";
  }

  function TtlFromSetting(ttl: string): (r: Option<int>)
    ensures r.None? ==> |ttl| > 0 && LeadingCount(ttl).None?
  {
    if EndsWith(ttl, "d") then Scale(LeadingCount(ttl), DayMs)
    else if EndsWith(ttl, "h") then Scale(LeadingCount(ttl), HourMs)
    else if EndsWith(ttl, "m") then Scale(LeadingCount(ttl), MinuteMs)
    else Some(7 * DayMs)
  }

  /** `parseInt(ttl.slice(0, -1), 10)`. */
  function LeadingCount(ttl: string): Option<int>
    requires |ttl| > 0
  {
    ParseInt10(ttl[..|ttl| - 1])
  }

  lemma LeadingCountDigits(d: string, unit: char)
    requires |d| > 0 && AllDigits(d)
    ensures LeadingCount(d + [unit]) == Some(DecValue(d))
  {
    assert (d + [unit])[..|d|] == d + [];
    ParseIntDigits(d, []);
  }

  /** Each suffix scales the leading decimal number by its unit. */
  lemma RefreshTtlSuffixes(d: string)
    requires |d| > 0 && AllDigits(d)
    ensures RefreshTtlMs(Some(d + "d")) == Some(DecValue(d) * 86400000)
    ensures RefreshTtlMs(Some(d + "h")) == Some(DecValue(d) * 3600000)
    ensures RefreshTtlMs(Some(d + "m")) == Some(DecValue(d) * 60000)
  {
    TtlDays(d);
    TtlHours(d);
    TtlMinutes(d);
  }

  lemma TtlDays(d: string)
    requires |d| > 0 && AllDigits(d)
    ensures TtlFromSetting(d + "d") == Some(DecValue(d) * DayMs)
  {
    LeadingCountDigits(d, 'd');
    assert EndsWith(d + "d", "d");
  }

  lemma TtlHours(d: string)
    requires |d| > 0 && AllDigits(d)
    ensures TtlFromSetting(d + "h") == Some(DecValue(d) * HourMs)
  {
    LeadingCountDigits(d, 'h');
    assert !EndsWith(d + "h", "d") && EndsWith(d + "h", "h");
  }

  lemma TtlMinutes(d: string)
    requires |d| > 0 && AllDigits(d)
    ensures TtlFromSetting(d + "m") == Some(DecValue(d) * MinuteMs)
  {
    LeadingCountDigits(d, 'm');
    assert !EndsWith(d + "m", "d") && !EndsWith(d + "m", "h") && EndsWith(d + "m", "m");
  }

  /** A setting without a `d`, `h` or `m` suffix gives seven days. */
  lemma RefreshTtlNoSuffix(ttl: string)
    requires ttl != [] && ttl[|ttl| - 1] != 'd' && ttl[|ttl| - 1] != 'h' && ttl[|ttl| - 1] != 'm'
    ensures RefreshTtlMs(Some(ttl)) == Some(604800000)
  {
    assert !EndsWith(ttl, "d") && !EndsWith(ttl, "h") && !EndsWith(ttl, "m");
  }

  /** An unset or empty setting is `'7d'`: seven days. */
  lemma RefreshTtlUnset()
    ensures RefreshTtlMs(None) == Some(604800000) && RefreshTtlMs(Some("")) == Some(604800000)
  {
    SevenDays();
  }

  /** A stored refresh token. */
  datatype RefreshRecord = RefreshRecord(user: string, expiresAt: int, revoked: bool)

  /** `isExpired()`: the expiry instant itself already counts as expired. */
  predicate IsExpired(r: RefreshRecord, now: int)
  {
    now >= r.expiresAt
  }

  /** A token `rotateRefreshToken` accepts. */
  predicate Usable(tokens: map<string, RefreshRecord>, token: string, now: int)
  {
    token in tokens && !tokens[token].revoked && !IsExpired(tokens[token], now)
  }

  /**
   * `createRefreshToken(userId)` on the collection: the record is stored under
   * `newToken` (the two uuids) and expires `ttl` after `now`. Creation fails when
   * the lifetime is `NaN` (an invalid date) or the token text is already taken
   * (the unique index).
   */
  function CreateStep(tokens: map<string, RefreshRecord>, user: string, ttlEnv: Option<string>,
                      now: int, newToken: string): (res: (Option<string>, map<string, RefreshRecord>))
    ensures res.0.Some? <==> RefreshTtlMs(ttlEnv).Some? && newToken !in tokens
    ensures res.0.None? ==> res.1 == tokens
    ensures res.0.Some? ==>
      && res.0.value == newToken && res.1.Keys == tokens.Keys + {newToken}
      && res.1[newToken] == RefreshRecord(user, now + RefreshTtlMs(ttlEnv).value, false)
      && forall t :: t in tokens ==> res.1[t] == tokens[t]
  {
    var ttl := RefreshTtlMs(ttlEnv);
    if ttl.None? || newToken in tokens then (None, tokens)
    else (Some(newToken), tokens[newToken := RefreshRecord(user, now + ttl.value, false)])
  }

  datatype RotateOutcome =
    | TokenRequired           // throw new Error('oldToken required')
    | Invalid                 // null: missing, revoked or expired
    | Rotated(token: string)
    | CreateFailed            // the old token is already revoked when creation throws

  /** `rotateRefreshToken(oldToken)` on the collection. */
  function RotateStep(tokens: map<string, RefreshRecord>, oldToken: string, ttlEnv: Option<string>,
                      now: int, newToken: string): (res: (RotateOutcome, map<string, RefreshRecord>))
    ensures oldToken == [] <==> res.0 == TokenRequired
    ensures res.0 == Invalid <==> oldToken != [] && !Usable(tokens, oldToken, now)
    ensures res.0 == TokenRequired || res.0 == Invalid ==> res.1 == tokens
    ensures res.0.Rotated? || res.0 == CreateFailed ==>
      Usable(tokens, oldToken, now) && oldToken in res.1 && res.1[oldToken].revoked
  {
    if oldToken == [] then (TokenRequired, tokens)
    else if !Usable(tokens, oldToken, now) then (Invalid, tokens)
    else
      var revoked := tokens[oldToken := tokens[oldToken].(revoked := true)];
      var (created, after) := CreateStep(revoked, tokens[oldToken].user, ttlEnv, now, newToken);
      if created.None? then (CreateFailed, after) else (Rotated(created.value), after)
  }

  /** A rotated token belongs to the same user and cannot be rotated a second time. */
  lemma RotationIsSingleUse(tokens: map<string, RefreshRecord>, oldToken: string, ttlEnv: Option<string>,
                            now: int, later: int, newToken: string, newToken2: string)
    requires RotateStep(tokens, oldToken, ttlEnv, now, newToken).0.Rotated?
    ensures var (out, after) := RotateStep(tokens, oldToken, ttlEnv, now, newToken);
      out.token in after && after[out.token].user == tokens[oldToken].user
      && !after[out.token].revoked
      && RotateStep(after, oldToken, ttlEnv, later, newToken2).0 == Invalid
  {
  }

  /** `revokeRefreshToken(token)`: nothing for a falsy or unknown token, otherwise `revoked = true`. */
  function RevokeStep(tokens: map<string, RefreshRecord>, token: string): (r: map<string, RefreshRecord>)
    ensures r.Keys == tokens.Keys
    ensures token != [] && token in tokens ==> r[token].revoked && forall now :: !Usable(r, token, now)
    ensures forall t :: t in tokens && (t != token || token == []) ==> r[t] == tokens[t]
  {
    if token == [] || token !in tokens then tokens
    else tokens[token := tokens[token].(revoked := true)]
  }

  /** A revoked token is refused by rotation from then on. */
  lemma RevokedCannotRotate(tokens: map<string, RefreshRecord>, token: string, ttlEnv: Option<string>,
                            now: int, newToken: string)
    requires token != []
    ensures RotateStep(RevokeStep(tokens, token), token, ttlEnv, now, newToken).0 == Invalid
  {
  }

  /** The `RefreshToken` collection. */
  class TokenStore {
    var tokens: map<string, RefreshRecord>

    constructor ()
      ensures tokens == map[]
    {
      tokens := map[];
    }

    method CreateRefreshToken(user: string, ttlEnv: Option<string>, now: int, newToken: string)
      returns (r: Option<string>)
      modifies this
      ensures (r, tokens) == CreateStep(old(tokens), user, ttlEnv, now, newToken)
    {
      var ttl := RefreshTtlMs(ttlEnv);
      if ttl.None? || newToken in tokens {
        return None;
      }
      tokens := tokens[newToken := RefreshRecord(user, now + ttl.value, false)];
      r := Some(newToken);
    }

    method RotateRefreshToken(oldToken: string, ttlEnv: Option<string>, now: int, newToken: string)
      returns (r: RotateOutcome)
      modifies this
      ensures (r, tokens) == RotateStep(old(tokens), oldToken, ttlEnv, now, newToken)
    {
      if oldToken == [] {
        return TokenRequired;
      }
      if oldToken !in tokens || tokens[oldToken].revoked || IsExpired(tokens[oldToken], now) {
        return Invalid;
      }
      var user := tokens[oldToken].user;
      tokens := tokens[oldToken := tokens[oldToken].(revoked := true)];
      var created := CreateRefreshToken(user, ttlEnv, now, newToken);
      r := if created.None? then CreateFailed else Rotated(created.value);
    }

    method RevokeRefreshToken(token: string)
      modifies this
      ensures tokens == RevokeStep(old(tokens), token)
    {
      if token == [] || token !in tokens {
        return;
      }
      tokens := tokens[token := tokens[token].(revoked := true)];
    }
  }
}

=== FILE: user_skill.dfy ===
/**
 * A user's own skill lists: adding a taught or learnt skill (optionally
 * linked to a catalog skill), endorsing another user's taught skill with
 * badges at endorsement thresholds, and editing a listed skill's level and
 * description. The user document is a class whose list fields the handlers
 * reassign; catalog and user look-ups are nullable parameters.
 */
module UserSkill {
  import opened Common

  /** The schema's `level` enum for a listed skill. */
  const SkillLevels: seq<string> := ["beginner", "intermediate", "advanced", "expert"]

  /** Endorsement counts that earn a badge. */
  const Thresholds: seq<nat> := [3, 10, 25]

  datatype Endorsement = Endorsement(endorser: string, comment: string)

  datatype SkillEntry = SkillEntry(
    id: string, skillRef: Option<string>, name: string, level: string, description: string,
    endorsementsCount: int, endorsements: seq<Endorsement>)

  datatype Badge = Badge(key: string, title: string, awardedAt: int)

  datatype ListKind = Teaches | Learns

  /** `a.toLowerCase() === b.toLowerCase()`. */
  predicate SameName(a: string, b: string)
  {
    ToLower(a) == ToLower(b)
  }

  /** `list.some(t => t.name.toLowerCase() === name.toLowerCase())`. */
  predicate HasName(list: seq<SkillEntry>, name: string)
  {
    exists i :: 0 <= i < |list| && SameName(list[i].name, name)
  }

  /** No two listed skills share a name up to case. */
  predicate DistinctNames(list: seq<SkillEntry>)
  {
    forall i, j :: 0 <= i < j < |list| ==> !SameName(list[i].name, list[j].name)
  }

  // ---------------------------------------------------------------------------
  // addTeachSkill / addLearnSkill

  /**
   * The pushed entry: the schema trims the name, the level defaults to
   * `'beginner'` and the description to `''`.
   */
  function NewEntry(id: string, skillRef: Option<string>, displayName: string, level: string,
                    description: string): (e: SkillEntry)
    ensures e.id == id && e.skillRef == skillRef && e.name == Trim(displayName)
    ensures e.level == (if level == [] then "beginner" else level) && e.description == description
    ensures e.endorsementsCount == 0 && e.endorsements == []
  {
    SkillEntry(id, skillRef, Trim(displayName), if level == [] then "beginner" else level, description, 0, [])
  }

  /** What saving the entry admits: a non-blank name and a level from the enum. */
  predicate Storable(e: SkillEntry)
  {
    e.name != [] && e.level in SkillLevels
  }

  /**
   * Adding to one list, once the display name is known: a name equal to a
   * listed one up to case is refused (409) and a failed save (500) leaves
   * the list as it was.
   */
  function AddStep(list: seq<SkillEntry>, entryId: string, skillRef: Option<string>, displayName: string,
                   level: string, description: string): (r: (Reply, seq<SkillEntry>))
    ensures r.0 == Conflict <==> HasName(list, displayName)
    ensures r.0 == ServerError <==>
      !HasName(list, displayName) && !Storable(NewEntry(entryId, skillRef, displayName, level, description))
    ensures r.0 == Created || r.0 == Conflict || r.0 == ServerError
    ensures r.1 == (if r.0 == Created then list + [NewEntry(entryId, skillRef, displayName, level, description)]
                    else list)
  {
    if HasName(list, displayName) then (Conflict, list)
    else
      var entry := NewEntry(entryId, skillRef, displayName, level, description);
      if !Storable(entry) then (ServerError, list) else (Created, list + [entry])
  }

  /** A name already listed, in any case, can never be added a second time. */
  lemma AddedNameRefusedAgain(list: seq<SkillEntry>, entryId: string, skillRef: Option<string>, displayName: string,
                              level: string, description: string, id2: string, ref2: Option<string>,
                              level2: string, description2: string)
    requires AddStep(list, entryId, skillRef, displayName, level, description).0 == Created
    requires ToLower(Trim(displayName)) == ToLower(displayName)
    ensures AddStep(AddStep(list, entryId, skillRef, displayName, level, description).1, id2, ref2,
                    displayName, level2, description2).0 == Conflict
  {
    var after := AddStep(list, entryId, skillRef, displayName, level, description).1;
    assert SameName(after[|list|].name, displayName);
  }

  /**
   * The duplicate check compares the name as sent, but the schema stores it
   * trimmed, so a listed name sent again with a leading space (`" java"` next
   * to `"java"`) gets through and the list holds the name twice.
   */
  lemma PaddedNameSlipsPast(e: SkillEntry, id2: string)
    requires e.name != [] && Trim(e.name) == e.name
    ensures var r := AddStep([e], id2, None, " " + e.name, "", "");
      r.0 == Created && r.1 == [e, r.1[1]] && r.1[1].name == e.name
  {
    var padded := " " + e.name;
    var entry := NewEntry(id2, None, padded, "", "");
    var r := AddStep([e], id2, None, padded, "", "");
    assert entry.name == e.name by {
      PaddingTrimmedAway(e.name);
    }
    assert r.0 == Created by {
      assert !HasName([e], padded) by {
        PaddingChangesName(e.name);
      }
      assert Storable(entry) by {
        assert entry.level == SkillLevels[0];
      }
    }
    assert r.1 == [e, entry];
  }

  lemma PaddingChangesName(n: string)
    ensures !SameName(" " + n, n)
  {
    assert |ToLower(" " + n)| != |ToLower(n)|;
  }

  lemma PaddingTrimmedAway(n: string)
    requires Trim(n) == n
    ensures Trim(" " + n) == n
  {
    var padded := " " + n;
    assert padded[1..] == n;
    assert TrimStart(padded) == TrimStart(n);
  }

  /** The duplicate check done on the name as stored (trimmed). */
  function AddStepTrimmed(list: seq<SkillEntry>, entryId: string, skillRef: Option<string>, displayName: string,
                          level: string, description: string): (r: (Reply, seq<SkillEntry>))
    ensures r.0 == Conflict <==> HasName(list, Trim(displayName))
    ensures r.1 == (if r.0 == Created then list + [NewEntry(entryId, skillRef, displayName, level, description)]
                    else list)
  {
    if HasName(list, Trim(displayName)) then (Conflict, list)
    else
      var entry := NewEntry(entryId, skillRef, displayName, level, description);
      if !Storable(entry) then (ServerError, list) else (Created, list + [entry])
  }

  /** With the duplicate check on the stored name, a list never holds two names equal up to case. */
  lemma TrimmedAddKeepsNamesDistinct(list: seq<SkillEntry>, entryId: string, skillRef: Option<string>,
                                     displayName: string, level: string, description: string)
    requires DistinctNames(list)
    ensures DistinctNames(AddStepTrimmed(list, entryId, skillRef, displayName, level, description).1)
  {
    var r := AddStepTrimmed(list, entryId, skillRef, displayName, level, description);
    if r.0 == Created {
      var n := |list|;
      assert r.1[n].name == Trim(displayName);
      forall i, j | 0 <= i < j < |r.1|
        ensures !SameName(r.1[i].name, r.1[j].name)
      {
        if j == n {
          assert r.1[i] == list[i];
          assert !SameName(list[i].name, Trim(displayName));
        } else {
          assert r.1[i] == list[i] && r.1[j] == list[j];
        }
      }
    }
  }

  // ---------------------------------------------------------------------------
  // endorseTeachSkill

  /** `teaches.id(teachId)`: the first entry with that id. */
  function FindEntry(list: seq<SkillEntry>, id: string): (r: Option<nat>)
    ensures r.Some? ==> r.value < |list| && list[r.value].id == id
    ensures r.Some? ==> forall j :: 0 <= j < r.value ==> list[j].id != id
    ensures r.None? ==> forall j :: 0 <= j < |list| ==> list[j].id != id
  {
    if |list| == 0 then None
    else if list[0].id == id then Some(0)
    else
      var rest := FindEntry(list[1..], id);
      if rest.None? then None else Some(rest.value + 1)
  }

  predicate EndorsedBy(e: SkillEntry, user: string)
  {
    exists k :: 0 <= k < |e.endorsements| && e.endorsements[k].endorser == user
  }

  /** One more endorsement: the entry is appended and the count (`|| 0`) grows by one. */
  function Endorse(e: SkillEntry, endorser: string, comment: string): (r: SkillEntry)
    ensures r.endorsements == e.endorsements + [Endorsement(endorser, comment)]
    ensures r.endorsementsCount == e.endorsementsCount + 1
    ensures r == e.(endorsements := r.endorsements, endorsementsCount := r.endorsementsCount)
  {
    e.(endorsements := e.endorsements + [Endorsement(endorser, comment)], endorsementsCount := e.endorsementsCount + 1)
  }

  /** `` `endorsed_${teach._id}_${t}` ``. */
  function BadgeKey(teachId: string, t: nat): string
  {
    "endorsed_" + teachId + "_" + NatToString(t)
  }

  predicate HasBadge(badges: seq<Badge>, key: string)
  {
    exists i :: 0 <= i < |badges| && badges[i].key == key
  }

  predicate DistinctKeys(badges: seq<Badge>)
  {
    forall i, j :: 0 <= i < j < |badges| ==> badges[i].key != badges[j].key
  }

  /** `key` is the badge key of one of the first `i` thresholds that `count` reaches. */
  predicate IsReachedKey(key: string, teachId: string, count: int, i: nat)
    requires i <= |Thresholds|
  {
    exists j :: 0 <= j < i && Thresholds[j] <= count && key == BadgeKey(teachId, Thresholds[j])
  }

  predicate ReachedKeys(keys: seq<string>, teachId: string, count: int, i: nat)
    requires i <= |Thresholds|
  {
    forall k :: 0 <= k < |keys| ==> IsReachedKey(keys[k], teachId, count, i)
  }

  /** One threshold: a reached threshold whose badge is missing adds it and reports its key. */
  function BadgeStep(badges: seq<Badge>, awarded: seq<string>, t: nat, teachId: string, name: string,
                     count: int, now: int): (r: (seq<Badge>, seq<string>))
  {
    var key := BadgeKey(teachId, t);
    if count >= t && !HasBadge(badges, key) then
      (badges + [Badge(key, "Endorsed " + NatToString(t) + "x for " + name, now)], awarded + [key])
    else (badges, awarded)
  }

  /** The badges and awarded keys after the first `i` thresholds. */
  function AwardAfter(badges: seq<Badge>, teachId: string, name: string, count: int, now: int, i: nat)
    : (r: (seq<Badge>, seq<string>))
    requires i <= |Thresholds|
  {
    if i == 0 then (badges, [])
    else
      var prev := AwardAfter(badges, teachId, name, count, now, i - 1);
      BadgeStep(prev.0, prev.1, Thresholds[i - 1], teachId, name, count, now)
  }

  /**
   * Awarding only appends; every appended badge is reported, has the key of a
   * reached threshold, and was missing before, so keys stay distinct.
   */
  lemma {:induction false} AwardAfterShape(badges: seq<Badge>, teachId: string, name: string, count: int,
                                           now: int, i: nat)
    requires i <= |Thresholds|
    ensures var r := AwardAfter(badges, teachId, name, count, now, i);
      && |r.0| == |badges| + |r.1| && r.0[..|badges|] == badges
      && (forall k :: 0 <= k < |r.1| ==> r.0[|badges| + k].key == r.1[k])
      && ReachedKeys(r.1, teachId, count, i)
      && (DistinctKeys(badges) ==> DistinctKeys(r.0))
  {
    if i > 0 {
      AwardAfterShape(badges, teachId, name, count, now, i - 1);
      var prev := AwardAfter(badges, teachId, name, count, now, i - 1);
      var r := AwardAfter(badges, teachId, name, count, now, i);
      var t := Thresholds[i - 1];
      var key := BadgeKey(teachId, t);
      if count >= t && !HasBadge(prev.0, key) {
        assert r.0 == prev.0 + [Badge(key, "Endorsed " + NatToString(t) + "x for " + name, now)];
        assert r.1 == prev.1 + [key];
        assert r.0[..|badges|] == prev.0[..|badges|];
        forall k | 0 <= k < |r.1|
          ensures IsReachedKey(r.1[k], teachId, count, i)
        {
          if k < |prev.1| {
            assert r.1[k] == prev.1[k];
          } else {
            assert r.1[k] == BadgeKey(teachId, Thresholds[i - 1]);
          }
        }
        if DistinctKeys(badges) {
          forall a, b | 0 <= a < b < |r.0|
            ensures r.0[a].key != r.0[b].key
          {
            if b == |prev.0| {
              assert r.0[a] == prev.0[a];
            } else {
              assert r.0[a] == prev.0[a] && r.0[b] == prev.0[b];
            }
          }
        }
      }
    }
  }

  /** After awarding, every reached threshold's badge is held, and only reached ones are new. */
  lemma {:induction false} AwardAfterComplete(badges: seq<Badge>, teachId: string, name: string, count: int,
                                              now: int, i: nat)
    requires i <= |Thresholds|
    ensures var r := AwardAfter(badges, teachId, name, count, now, i);
      forall j :: 0 <= j < i && Thresholds[j] <= count ==> HasBadge(r.0, BadgeKey(teachId, Thresholds[j]))
  {
    if i > 0 {
      AwardAfterComplete(badges, teachId, name, count, now, i - 1);
      var prev := AwardAfter(badges, teachId, name, count, now, i - 1);
      var r := AwardAfter(badges, teachId, name, count, now, i);
      assert prev.0 <= r.0;
      forall j | 0 <= j < i && Thresholds[j] <= count
        ensures HasBadge(r.0, BadgeKey(teachId, Thresholds[j]))
      {
        if j < i - 1 {
          var w :| 0 <= w < |prev.0| && prev.0[w].key == BadgeKey(teachId, Thresholds[j]);
          assert r.0[w] == prev.0[w];
        } else if HasBadge(prev.0, BadgeKey(teachId, Thresholds[j])) {
          var w :| 0 <= w < |prev.0| && prev.0[w].key == BadgeKey(teachId, Thresholds[j]);
          assert r.0[w] == prev.0[w];
        } else {
          assert r.0[|prev.0|].key == BadgeKey(teachId, Thresholds[j]);
        }
      }
    }
  }

  datatype Endorsed = Endorsed(reply: Reply, teaches: seq<SkillEntry>, badges: seq<Badge>, count: int,
                               awarded: seq<string>)

  /**
   * `endorseTeachSkill` on the target's lists (`None` for a missing target):
   * `teachId` is required, nobody endorses themselves, the skill must exist and
   * each user endorses it once; then badges are awarded for the new count.
   */
  function EndorseStep(fromUserId: string, targetUserId: string, target: Option<(seq<SkillEntry>, seq<Badge>)>,
                       teachId: string, comment: string, now: int): (r: Endorsed)
    ensures r.reply == BadRequest <==> teachId == [] || fromUserId == targetUserId
    ensures r.reply == Ok <==>
      && teachId != [] && fromUserId != targetUserId && target.Some?
      && FindEntry(target.value.0, teachId).Some?
      && !EndorsedBy(target.value.0[FindEntry(target.value.0, teachId).value], fromUserId)
    ensures r.reply == Ok || r.reply == BadRequest || r.reply == NotFound || r.reply == Conflict
    ensures r.reply != Ok && target.Some? ==> r.teaches == target.value.0 && r.badges == target.value.1
    ensures r.reply == Ok ==>
      var i := FindEntry(target.value.0, teachId).value;
      var e := Endorse(target.value.0[i], fromUserId, comment);
      && r.teaches == target.value.0[i := e] && r.count == e.endorsementsCount
      && (r.badges, r.awarded) == AwardAfter(target.value.1, teachId, e.name, r.count, now, |Thresholds|)
  {
    var (teaches, badges) := if target.Some? then target.value else ([], []);
    if teachId == [] || fromUserId == targetUserId then Endorsed(BadRequest, teaches, badges, 0, [])
    else if target.None? then Endorsed(NotFound, teaches, badges, 0, [])
    else
      var found := FindEntry(teaches, teachId);
      if found.None? then Endorsed(NotFound, teaches, badges, 0, [])
      else if EndorsedBy(teaches[found.value], fromUserId) then Endorsed(Conflict, teaches, badges, 0, [])
      else
        var e := Endorse(teaches[found.value], fromUserId, comment);
        var (badges', awarded) := AwardAfter(badges, teachId, e.name, e.endorsementsCount, now, |Thresholds|);
        Endorsed(Ok, teaches[found.value := e], badges', e.endorsementsCount, awarded)
  }

  /** The same user cannot endorse the same skill twice. */
  lemma EndorsedOnce(fromUserId: string, targetUserId: string, teaches: seq<SkillEntry>, badges: seq<Badge>,
                     teachId: string, comment: string, comment2: string, now: int, later: int)
    requires EndorseStep(fromUserId, targetUserId, Some((teaches, badges)), teachId, comment, now).reply == Ok
    ensures var r := EndorseStep(fromUserId, targetUserId, Some((teaches, badges)), teachId, comment, now);
      EndorseStep(fromUserId, targetUserId, Some((r.teaches, r.badges)), teachId, comment2, later).reply == Conflict
  {
    var r := EndorseStep(fromUserId, targetUserId, Some((teaches, badges)), teachId, comment, now);
    var i := FindEntry(teaches, teachId).value;
    assert FindEntry(r.teaches, teachId) == Some(i) by {
      assert forall j :: 0 <= j < i ==> r.teaches[j] == teaches[j];
      assert r.teaches[i].id == teachId;
      var f := FindEntry(r.teaches, teachId);
      assert f.Some?;
      assert f.value <= i;
    }
    var e := r.teaches[i];
    assert e.endorsements[|e.endorsements| - 1].endorser == fromUserId;
  }

  /**
   * A successful endorsement leaves every reached threshold's badge held,
   * reports only reached thresholds, and never duplicates a badge key.
   */
  lemma EndorsementBadges(fromUserId: string, targetUserId: string, teaches: seq<SkillEntry>, badges: seq<Badge>,
                          teachId: string, comment: string, now: int)
    requires DistinctKeys(badges)
    requires EndorseStep(fromUserId, targetUserId, Some((teaches, badges)), teachId, comment, now).reply == Ok
    ensures var r := EndorseStep(fromUserId, targetUserId, Some((teaches, badges)), teachId, comment, now);
      && DistinctKeys(r.badges) && |badges| <= |r.badges| && r.badges[..|badges|] == badges
      && (forall j :: 0 <= j < |Thresholds| && Thresholds[j] <= r.count ==>
            HasBadge(r.badges, BadgeKey(teachId, Thresholds[j])))
      && ReachedKeys(r.awarded, teachId, r.count, |Thresholds|)
  {
    var r := EndorseStep(fromUserId, targetUserId, Some((teaches, badges)), teachId, comment, now);
    var i := FindEntry(teaches, teachId).value;
    var e := Endorse(teaches[i], fromUserId, comment);
    var aw := AwardAfter(badges, teachId, e.name, r.count, now, |Thresholds|);
    assert r.badges == aw.0 && r.awarded == aw.1;
    AwardAfterShape(badges, teachId, e.name, r.count, now, |Thresholds|);
    AwardAfterComplete(badges, teachId, e.name, r.count, now, |Thresholds|);
  }

  // ---------------------------------------------------------------------------
  // updateTeachSkill / updateLearnSkill

  /**
   * `updateTeachSkill` on the entry: a truthy level whose lower-case form is in
   * the enum is stored lower-cased (anything else is ignored), and a supplied
   * description replaces the old one.
   */
  function UpdateTeachEntry(e: SkillEntry, level: string, description: Option<string>): (r: SkillEntry)
    ensures r.level == (if level != [] && ToLower(level) in SkillLevels then ToLower(level) else e.level)
    ensures r.description == (if description.Some? then description.value else e.description)
    ensures r == e.(level := r.level, description := r.description)
    ensures e.level in SkillLevels ==> r.level in SkillLevels
  {
    var lv := if level != [] && ToLower(level) in SkillLevels then ToLower(level) else e.level;
    e.(level := lv, description := if description.Some? then description.value else e.description)
  }

  /**
   * `updateLearnSkill` on the entry: a truthy level is stored as sent, so one
   * outside the enum makes the save fail and nothing changes.
   */
  function UpdateLearnEntry(e: SkillEntry, level: string, description: Option<string>): (r: (Reply, SkillEntry))
    ensures r.0 == ServerError <==> level != [] && level !in SkillLevels
    ensures r.0 == Ok || r.0 == ServerError
    ensures r.0 == ServerError ==> r.1 == e
    ensures r.0 == Ok ==>
      r.1 == e.(level := if level != [] then level else e.level,
                description := if description.Some? then description.value else e.description)
  {
    if level != [] && level !in SkillLevels then (ServerError, e)
    else (Ok, e.(level := if level != [] then level else e.level,
                 description := if description.Some? then description.value else e.description))
  }

  /** A capitalised level is accepted (lower-cased) for a taught skill and rejected for a learnt one. */
  lemma LevelCaseHandledDifferently(e: SkillEntry, description: Option<string>)
    ensures UpdateTeachEntry(e, "Expert", description).level == "expert"
    ensures UpdateLearnEntry(e, "Expert", description).0 == ServerError
  {
    assert ToLower("Expert") == "expert" by {
      assert |ToLower("Expert")| == 6;
      assert LowerChar('E') == 'e';
    }
    assert "Expert" != SkillLevels[0] && "Expert" != SkillLevels[1];
    assert "Expert" != SkillLevels[2] && "Expert" != SkillLevels[3];
  }

  // ---------------------------------------------------------------------------
  // The documents and handlers

  /** A catalog skill; its `popularity` grows when users list it. */
  class CatalogSkill {
    const name: string
    var popularity: int

    constructor (name: string, popularity: int)
      ensures this.name == name && this.popularity == popularity
    {
      this.name := name;
      this.popularity := popularity;
    }
  }

  /** The skill lists and badges of a user document. */
  class Profile {
    var teaches: seq<SkillEntry>
    var learns: seq<SkillEntry>
    var badges: seq<Badge>

    function Skills(kind: ListKind): seq<SkillEntry>
      reads this
    {
      if kind == Teaches then teaches else learns
    }

    constructor (teaches: seq<SkillEntry>, learns: seq<SkillEntry>, badges: seq<Badge>)
      ensures this.teaches == teaches && this.learns == learns && this.badges == badges
    {
      this.teaches := teaches;
      this.learns := learns;
      this.badges := badges;
    }
  }

  /**
   * `addTeachSkill` (`kind == Teaches`) and `addLearnSkill` (`kind == Learns`).
   * `catalog` is the looked-up catalog skill when `skillId` is given; its
   * popularity is raised before the user is even looked up, so it rises by one
   * whatever the rest of the request does.
   */
  method AddSkill(user: Profile?, kind: ListKind, skillId: string, catalog: CatalogSkill?, name: string,
                  level: string, description: string, entryId: string)
    returns (reply: Reply)
    modifies user, catalog
    ensures skillId == [] && name == [] ==> reply == BadRequest
    ensures skillId != [] && catalog == null ==> reply == NotFound
    ensures catalog != null ==>
      catalog.popularity == old(catalog.popularity) + (if skillId != [] then 1 else 0)
    ensures (skillId != [] || name != []) && (skillId != [] ==> catalog != null) && user == null ==>
      reply == NotFound
    ensures user != null && (skillId != [] || name != []) && (skillId != [] ==> catalog != null) ==>
      var displayName := if skillId != [] then catalog.name else name;
      var skillRef := if skillId != [] then Some(skillId) else None;
      (reply, user.Skills(kind)) == AddStep(old(user.Skills(kind)), entryId, skillRef, displayName, level, description)
    ensures user != null ==>
      user.Skills(if kind == Teaches then Learns else Teaches) == old(user.Skills(if kind == Teaches then Learns else Teaches))
      && user.badges == old(user.badges)
    ensures user != null && !(reply == Created) ==> user.teaches == old(user.teaches) && user.learns == old(user.learns)
  {
    if skillId == [] && name == [] {
      return BadRequest;
    }
    var skillRef: Option<string> := None;
    var displayName := name;
    if skillId != [] {
      if catalog == null {
        return NotFound;
      }
      skillRef := Some(skillId);
      displayName := catalog.name;
      catalog.popularity := catalog.popularity + 1;
    }
    if user == null {
      return NotFound;
    }
    if HasName(user.Skills(kind), displayName) {
      return Conflict;
    }
    var entry := NewEntry(entryId, skillRef, displayName, level, description);
    if !Storable(entry) {
      return ServerError;
    }
    if kind == Teaches {
      user.teaches := user.teaches + [entry];
    } else {
      user.learns := user.learns + [entry];
    }
    reply := Created;
  }

  /** `endorseTeachSkill`, with the threshold loop awarding badges. */
  method EndorseTeachSkill(fromUserId: string, targetUserId: string, target: Profile?, teachId: string,
                           comment: string, now: int)
    returns (reply: Reply, count: int, awarded: seq<string>)
    modifies target
    ensures var r := EndorseStep(fromUserId, targetUserId,
                                 if target == null then None else Some((old(target.teaches), old(target.badges))),
                                 teachId, comment, now);
      && reply == r.reply
      && (reply == Ok ==> count == r.count && awarded == r.awarded)
      && (target != null ==> target.teaches == r.teaches && target.badges == r.badges)
    ensures target != null ==> target.learns == old(target.learns)
  {
    if teachId == [] || fromUserId == targetUserId {
      return BadRequest, 0, [];
    }
    if target == null {
      return NotFound, 0, [];
    }
    var found := FindEntry(target.teaches, teachId);
    if found.None? {
      return NotFound, 0, [];
    }
    var i := found.value;
    if EndorsedBy(target.teaches[i], fromUserId) {
      return Conflict, 0, [];
    }
    var e := Endorse(target.teaches[i], fromUserId, comment);
    target.teaches := target.teaches[i := e];
    count := e.endorsementsCount;
    awarded := AwardBadges(target, teachId, e.name, count, now);
    reply := Ok;
  }

  /** The loop over `[3, 10, 25]` pushing each reached, missing badge. */
  method AwardBadges(target: Profile, teachId: string, name: string, count: int, now: int)
    returns (awarded: seq<string>)
    modifies target
    ensures (target.badges, awarded) == AwardAfter(old(target.badges), teachId, name, count, now, |Thresholds|)
    ensures target.teaches == old(target.teaches) && target.learns == old(target.learns)
  {
    awarded := [];
    var k := 0;
    while k < |Thresholds|
      invariant 0 <= k <= |Thresholds|
      invariant (target.badges, awarded) == AwardAfter(old(target.badges), teachId, name, count, now, k)
      invariant target.teaches == old(target.teaches) && target.learns == old(target.learns)
    {
      var t := Thresholds[k];
      if count >= t {
        var key := BadgeKey(teachId, t);
        if !HasBadge(target.badges, key) {
          target.badges := target.badges + [Badge(key, "Endorsed " + NatToString(t) + "x for " + name, now)];
          awarded := awarded + [key];
        }
      }
      k := k + 1;
    }
  }

  method UpdateTeachSkill(user: Profile?, teachId: string, level: string, description: Option<string>)
    returns (reply: Reply)
    modifies user
    ensures user == null ==> reply == NotFound
    ensures user != null ==>
      var found := FindEntry(old(user.teaches), teachId);
      && (reply == Ok <==> found.Some?)
      && (reply == Ok || reply == NotFound)
      && user.teaches == (if found.Some?
                          then old(user.teaches)[found.value := UpdateTeachEntry(old(user.teaches)[found.value], level, description)]
                          else old(user.teaches))
      && user.learns == old(user.learns) && user.badges == old(user.badges)
  {
    if user == null {
      return NotFound;
    }
    var found := FindEntry(user.teaches, teachId);
    if found.None? {
      return NotFound;
    }
    var i := found.value;
    user.teaches := user.teaches[i := UpdateTeachEntry(user.teaches[i], level, description)];
    reply := Ok;
  }

  method UpdateLearnSkill(user: Profile?, learnId: string, level: string, description: Option<string>)
    returns (reply: Reply)
    modifies user
    ensures user == null ==> reply == NotFound
    ensures user != null ==>
      var found := FindEntry(old(user.learns), learnId);
      && (found.None? ==> reply == NotFound && user.learns == old(user.learns))
      && (found.Some? ==>
            var step := UpdateLearnEntry(old(user.learns)[found.value], level, description);
            reply == step.0 && user.learns == old(user.learns)[found.value := step.1])
      && user.teaches == old(user.teaches) && user.badges == old(user.badges)
  {
    if user == null {
      return NotFound;
    }
    var found := FindEntry(user.learns, learnId);
    if found.None? {
      return NotFound;
    }
    var i := found.value;
    var step := UpdateLearnEntry(user.learns[i], level, description);
    user.learns := user.learns[i := step.1];
    reply := step.0;
  }
}
